=== FILE: README.md ===
# twfy-votes decision rules in Dafny

This project models the pure decision rules of twfy-votes, the service behind
TheyWorkForYou's voting records. The rules are:

- **policy alignment scoring**: the simplified score and its absence caps, the slow
  reference scorer with its tolerance comparison, and the verbal score bands;
- **population scheduling**: the import register and its ordered groups, the
  `populate` command's shortcuts and argument checks, and the de-duplicating update queue;
- **decision classifiers**:
  - motion categorisation;
  - the phrase detector;
  - nearest-centroid clustering of divisions with its outlier cut;
  - the legacy Public Whip direction and vote-option mappings;
  - the significant-difference and policy issue-report rules;
- **text formats**:
  - signatory text with a round trip;
  - honorific stripping and bracketed ids;
  - decision, link and policy keys;
  - the bill-title fixer and the bill-name extraction;
  - the route placeholder rewrite and path converters;
  - `unnest` and the SQL statement builders;
  - `DuckUrl`;
  - statement slug de-duplication;
- **membership ranges**: Popolo ids, effective parties, member counts from join and
  leave events, and the two overlap fixes.

Every rule is a pure function over immutable datatypes. Python exceptions become the
`Failure` case of `Wrappers.Result`, named after the exception class. Scores and
centroid coordinates are `real`. Dates are `Dates.Date` or day numbers. Strings are
`seq<char>` with ASCII case mapping. Each file holds one module, named after the
source component it models.

## Model

| member | source | states |
|---|---|---|
| Scoring.Add | votes/policy_generation/scoring.py:20-24 | adding two weak/strong pairs adds each field separately |
| Scoring.Divide | votes/policy_generation/scoring.py:26-30 | dividing a pair divides each field; multiplying back gives the original pair; dividing by zero is a ZeroDivisionError |
| Scoring.AddDivideLaws | votes/policy_generation/scoring.py:20-30 | addition of pairs is commutative and associative, and division distributes over it |
| Scoring.Score | votes/policy_generation/scoring.py:154-178 | with no points available the score is -1; otherwise it is the raw share, except that more than one strong absence lifts a share at or below 0.05 to 0.06 and lowers one at or above 0.95 to 0.94, and strong absences making up at least a third of the strong votes lift a share at or below 0.15 to 0.16 and lower one at or above 0.85 to 0.84; a share strictly between 0.15 and 0.85 is never moved |
| Scoring.WeakVotesIgnored | votes/policy_generation/scoring.py:87-117 | weak votes and agreements have weight 0, so two tallies with the same strong counts have the same score |
| Scoring.AbsencesOnlyCap | votes/policy_generation/scoring.py:91-117 | strong absences add nothing to the points or the available total; only the caps see them |
| Scoring.RawFormula | votes/policy_generation/scoring.py:96-157 | before capping, the score is (strong different + half of strong abstentions + strong agreements different) over (strong same + different + abstentions + strong agreements) |
| Scoring.ScoreRange | votes/policy_generation/scoring.py:96-157 | for non-negative counts with something available, the uncapped score lies in [0, 1] |
| Scoring.AbstainAndAbsentExamples | votes/policy_generation/scoring.py:90-155 | only strong abstentions give 0.5; only strong absences give -1 |
| Scoring.QuarterExamples | votes/policy_generation/scoring.py:96-157 | fifteen aligned and five opposed strong votes score 0.25, also with agreements in the same proportion; the reverse scores 0.75 |
| Validator.TotalVotesSpec | votes/management/commands/vr_validator.py:76-88 | the total is the sum of the eight vote fields; agreement counts do not change it |
| Validator.TolErrors | votes/management/commands/vr_validator.py:50-74 | a field is reported exactly when its two values are not close under math.isclose with an absolute tolerance of 0.05 |
| Validator.EqualSpec | votes/management/commands/vr_validator.py:47-74 | two scores are equal exactly when every vote field is within tolerance |
| Validator.EqualReflexiveSymmetric | votes/management/commands/vr_validator.py:47-74 | the tolerant equality is reflexive and symmetric |
| Validator.EqualNotTransitive | votes/management/commands/vr_validator.py:50-57 | the tolerant equality is not transitive: 0 equals 0.05 and 0.05 equals 0.1, but 0 does not equal 0.1 |
| Validator.Reduce | votes/management/commands/vr_validator.py:90-107 | a zero total is a ZeroDivisionError; otherwise each vote field is divided by the total, the new total is 1, and agreements are kept |
| Validator.AddScores | votes/management/commands/vr_validator.py:109-121 | adding adds the eight vote fields one by one and keeps the left operand's agreement counts |
| Validator.Classify | votes/management/commands/vr_validator.py:314-322 | a vote is in the same bucket exactly when it is aye or tell-aye on an agree link, or no or tell-no on an against link; otherwise abstain, absent and different are told apart by position |
| Validator.Bump | votes/management/commands/vr_validator.py:323-384 | classifying a vote adds one to exactly one field and leaves the others unchanged |
| Validator.FieldForKeepsStrength | votes/management/commands/vr_validator.py:323-384 | the field bumped is a strong field exactly when the link is strong |
| Validator.TallyAgreements | votes/management/commands/vr_validator.py:232-250 | every agreement link that is in range, in the chamber and not neutral adds one to the field of its strength and alignment (same for AGREE, different otherwise); no vote field and no comparator changes, and with nothing counted the score is unchanged |
| Validator.TallyOne | votes/management/commands/vr_validator.py:232-250 | one link raises the field of its strength and alignment by one when it is counted, and changes nothing else |
| Validator.TallyAgreementsCounts | votes/management/commands/vr_validator.py:232-250 | each agreement link that is in range, in the chamber and not neutral adds exactly one agreement count |
| Validator.TallyRows | votes/management/commands/vr_validator.py:295-384 | the member loop succeeds exactly when every listed member has a vote; a missing vote is a ValueError |
| Validator.TallyRowsOthers | votes/management/commands/vr_validator.py:295-384 | on success the comparison side of the member loop is the tally of the rows of listed members other than the target |
| Validator.DivisionStepOthers | votes/management/commands/vr_validator.py:253-398 | one division adds to the comparison counts what the reference tally of the other members' votes adds |
| Validator.OtherVotesRespectsVotes | votes/management/commands/vr_validator.py:253-398 | tallying more divisions onto equal counts gives equal counts |
| Validator.DivisionsOtherIsOthers | votes/management/commands/vr_validator.py:253-398 | on success the comparison counts of the corrected loop are the reference tally of the other members' votes |
| Validator.DivisionStepAsWritten | votes/management/commands/vr_validator.py:253-398 | once the comparator and target scores are the same object they stay aliased for the rest of the loop |
| Validator.DivisionsAsWritten | votes/management/commands/vr_validator.py:253-398 | the loop as written raises exactly when some counted division has no votes, or a party member in its rows without a vote |
| Validator.DivisionStep | votes/management/commands/vr_validator.py:253-398 | one division raises exactly in those cases, and never changes the member's agreement counts |
| Validator.Divisions | votes/management/commands/vr_validator.py:253-398 | the corrected loop raises exactly when some counted division does, and the agreement counts pass through unchanged |
| Validator.ScoresSlowAsWritten | votes/management/commands/vr_validator.py:209-402 | as written the comparison raises exactly when some counted division raises |
| Validator.DivisionsMemberIsOwn | votes/management/commands/vr_validator.py:253-398 | in the corrected loop the target's vote counts are its own votes only |
| Validator.ScoresSlow | votes/management/commands/vr_validator.py:253-402 | raises exactly when some counted division raises; otherwise the target's agreement counts are the tally of the agreement links; when the comparators cast something the comparator distribution is the reference tally of the other members' votes, and otherwise it is the target's |
| Validator.Compared | votes/management/commands/vr_validator.py:396-402 | the comparison fails exactly when scoring failed; the target is the member's score, and the comparators' score is kept unless it is empty, when the member's stands in |
| Validator.ScoresSlowTargetIsOwn | votes/management/commands/vr_validator.py:209-402 | the target distribution counts the target's own votes only, whatever its colleagues voted |
| Validator.AliasLeaksIntoTarget | votes/management/commands/vr_validator.py:396-398 | as written, a division with no comparator vote followed by one with a comparator vote adds the comparator's share to the target |
| Validator.FailingFields | votes/management/commands/vr_validator.py:50-74 | exactly the listed fields whose two values are not within the tolerance |
| Validator.TolerantSymmetric | votes/management/commands/vr_validator.py:50-57 | the tolerance test does not depend on the order of its values, and every value passes against itself |
| Validator.ScaledTotal | votes/management/commands/vr_validator.py:90-107 | dividing every field by a number divides the total by it |
| Validator.TallyRowsMember | votes/management/commands/vr_validator.py:295-384 | the target's part of the member loop counts only the target's own row |
| Validator.OwnRowsRespectsVotes | votes/management/commands/vr_validator.py:295-384 | counting the target's rows from two scores with the same vote fields keeps them the same |
| Validator.OwnVotesRespectsVotes | votes/management/commands/vr_validator.py:253-398 | the same over every counted division |
| Register.AllOrdersSorted | src/votes/populate/register.py:23-38 | the import groups are listed in strictly ascending order of value, and every group is listed |
| Register.OrderFromName | src/votes/populate/register.py:92 | a group is found by its upper-cased name; an unknown name finds nothing |
| Register.OrderNamed | src/votes/populate/register.py:23-38 | the group whose member name is exactly the text, and none when no group has that name |
| Register.UnknownName | src/votes/populate/register.py:23-38 | a text that is none of the fifteen member names names no group |
| Register.RegisterName | src/votes/populate/register.py:61-66 | registering appends the name to its group's list, creating the list if needed, and changes no other group |
| Register.Decorate | src/votes/populate/register.py:68-72 | the decorator maps the name to the function and leaves the groups alone |
| Register.RegisterKeepsComplete | src/votes/populate/register.py:61-72 | registering and decorating keeps every grouped name mapped to a function |
| Register.RunImport | src/votes/populate/register.py:74-87 | an unknown name is a KeyError; a function taking update_since gets it, one taking only quiet gets quiet, and one taking neither is a TypeError |
| Register.GroupCallsInOrder | src/votes/populate/register.py:94-102 | when every function of a group takes an argument, the group's functions are called once each, in registration order |
| Register.GroupCallsSkipNeither | src/votes/populate/register.py:99-102 | a function taking neither argument is skipped by a group run |
| Register.RunOrder | src/votes/populate/register.py:94-102 | a group nobody registered is a KeyError before anything runs |
| Register.RunGroup | src/votes/populate/register.py:89-102 | an unknown group name raises before any function runs; a known one runs that group |
| Register.GroupsBetween | src/votes/populate/register.py:114-121 | the groups run for a range are exactly those with start <= value <= end, in ascending order |
| Register.FilterBetween | src/votes/populate/register.py:116-120 | filtering an ascending list by the two bounds keeps exactly the groups in range, still ascending |
| Register.RunGroupRange | src/votes/populate/register.py:104-121 | both names are resolved before anything runs; then each group in range runs in turn |
| Register.RunOrdersNeedsRegistered | src/votes/populate/register.py:116-121 | a range run without error touched only registered groups |
| Register.RunOrdersStopsAtMissing | src/votes/populate/register.py:116-121 | the first unregistered group in a range stops the run with a KeyError, after the groups before it have run |
| Register.RegisteredGroups | src/votes/populate/register.py:126-127 | the registered groups sorted by value: exactly the registered groups, strictly ascending |
| Register.FilterIn | src/votes/populate/register.py:126-127 | filtering an ascending list by registration keeps exactly the registered groups, still ascending |
| Register.RunAll | src/votes/populate/register.py:123-130 | on a register whose names all have functions, running everything never stops with an error |
| Register.RunOrdersOfRegistered | src/votes/populate/register.py:129-130 | running a list of registered groups never raises |
| Populate.Merge | votes/management/commands/populate.py:175-184 | each argument set on the command line wins; only unset (falsy) ones take the shortcut's value |
| Populate.Dispatch | votes/management/commands/populate.py:186-211 | group with a start or end group, a start group without an end group, and update-last with update-since are each rejected with a message; otherwise model beats group beats start group beats all, else a message |
| Populate.Handle | votes/management/commands/populate.py:162-211 | show-options only shows the tables; an unknown shortcut writes "Shortcut ... not found" and runs nothing; otherwise the merged arguments are dispatched |
| Populate.RunsOnlyWhenConsistent | votes/management/commands/populate.py:162-211 | something runs exactly when the tables are not requested, the shortcut is known or absent, the merged arguments do not conflict and something was named |
| Populate.UpdateLastBecomesSince | votes/management/commands/populate.py:196-197 | update-last N runs from today minus N days; without it the given update-since is used |
| Populate.ExplicitModelWins | votes/management/commands/populate.py:175-184 | a model named alongside an all-models shortcut runs only that model |
| Populate.ShortcutRejectsUpdateSince | votes/management/commands/populate.py:11-35 | every shortcut sets update-last, so any shortcut with an explicit update-since is rejected |
| Populate.ZeroUpdateLastOverridden | votes/management/commands/populate.py:184 | an explicit update-last of 0 is falsy, so the shortcut's own value replaces it |
| Populate.RefreshPoliciesRuns | votes/management/commands/populate.py:30-34 | refresh_policies runs the policies, prep_policycalc and policycalc groups from a week before today |
| Populate.PolicyGroupNames | src/votes/populate/register.py:36-38 | the names "policies" and "policycalc" resolve to their groups |
| Populate.PolicyRangeRuns | src/votes/populate/register.py:36-38 | running the groups from "policies" to "policycalc" runs exactly the policies, prep_policycalc and policycalc groups, in that order |
| Populate.PolicySeq | src/votes/populate/register.py:36-38 | the ascending list of groups numbered from policies to policycalc is those three groups |
| Populate.PolicyGroupsBetween | src/votes/populate/register.py:36-38 | the groups from policies to policycalc are policies, prep_policycalc and policycalc |
| Populate.RefreshMotionsRaises | votes/management/commands/populate.py:17-21 | refresh_motions_agreements names a start group the register does not define, so it raises a KeyError before anything runs |
| Populate.Execute | votes/management/commands/populate.py:162-211 | showing the tables or a message runs nothing; one model runs at most once and fails exactly when it does not run; an unknown group, start or end runs nothing and reports an error; everything on a complete register runs without error |
| UpdateQueue.FirstUnfinished | votes/models.py:192-197 | finds the first unfinished task with the given instructions, or reports that there is none |
| UpdateQueue.CreateTask | votes/models.py:188-203 | with the check on, an unfinished task with equal instructions is returned and nothing is added; otherwise a new task is appended |
| UpdateQueue.CreateTaskIdempotent | votes/models.py:188-203 | asking twice for the same instructions with the check on creates one task and returns it both times |
| UpdateQueue.SetStarted | votes/models.py:205-207 | starting a task stamps only that task's start time |
| UpdateQueue.SetCompleted | votes/models.py:209-211 | completing a task stamps only that task's completion time |
| UpdateQueue.PendingOf | votes/models.py:226 | the tasks neither started nor completed |
| UpdateQueue.TakeFrom | votes/models.py:226-236 | the run list holds only pending tasks, and no two with the same instructions |
| UpdateQueue.TakeFromKeeps | votes/models.py:226-236 | every pending instruction is taken once; started and completed tasks are never deleted; nothing new appears |
| UpdateQueue.TakeFromCovers | votes/models.py:226-236 | every pending task whose instructions were not already seen has its instructions taken |
| UpdateQueue.TakeFromKeepsStarted | votes/models.py:226-236 | started and completed tasks are never deleted |
| UpdateQueue.TakeFromTable | votes/models.py:226-236 | the table after the run holds only tasks it held before, and every task taken to run is still in it |
| UpdateQueue.TakeFromLeavesDistinct | votes/models.py:226-236 | after the run no two pending tasks share instructions |
| UpdateQueue.TakeFromDistinct | votes/models.py:226-236 | on a table without duplicates nothing is deleted and every pending task is taken |
| UpdateQueue.ToRunIdempotent | votes/models.py:220-236 | a second run deletes nothing more and takes what the first left pending |
| UpdateQueue.ToRun | votes/models.py:220-236 | the run list is, in table order, exactly the pending tasks whose instructions no earlier pending task holds; the table after is, in order, the started and completed tasks and those first pending ones; so the run list has distinct instructions and covers every pending instruction, and the table after has no two pending tasks with equal instructions |
| UpdateQueue.InstructionsOf | votes/models.py:229-233 | the instructions of the tasks, position by position |
| UpdateQueue.FirstsSeen | votes/models.py:229-233 | the instructions taken among the first k tasks are exactly those of the pending tasks among them |
| UpdateQueue.FirstPendingIff | votes/models.py:229-233 | a task is the first pending one of its instructions exactly when it is pending and its instructions were not taken before it |
| UpdateQueue.FirstsStep | votes/models.py:226-236 | one task advances the run list and the table exactly as the loop takes, deletes or keeps it |
| UpdateQueue.TakeFromFirsts | votes/models.py:226-236 | from any task on, the loop with the instructions taken so far completes the run list and table of the whole queue |
| UpdateQueue.ToRunOrder | votes/models.py:220-236 | the run list and table of the whole loop are the first pending tasks and the kept tasks, in table order |
| Models.VerboseScore | votes/models.py:1294-1314 | seven bands over [0, 1], each closed above; -1 is "No data available"; any other value is a ValueError |
| Models.ScoresHaveBands | votes/models.py:1294-1314 | every score the scorer produces has a band, and the caps keep capped scores out of the outer bands |
| Models.MotionResult | votes/models.py:963-972 | 1, 0 and -1 are Success, Tie and Failure; any other value is a ValueError |
| Models.MotionResultInjective | votes/models.py:963-972 | the result names determine the integer |
| Models.VotingCluster | votes/models.py:738-778 | an "_outlier" ending marks an outlier and is removed; a non-empty override group replaces the name; the description is the lookup or "Unknown", with " (Outlier)" added for outliers |
| Models.OutlierTagNamesCluster | votes/models.py:751-771 | a known cluster name with "_outlier" reports that cluster as an outlier |
| Models.VotingClusterFallbacks | votes/models.py:751-769 | no tag gives "Unknown"; an override group replaces the tag |
| Models.CountPresent | votes/models.py:568-573 | the count of phrases found is positive exactly when some phrase occurs |
| Models.IsNonactionVote | votes/models.py:540-581 | a motion is non-action exactly when its type is one of the non-action types, or a phrase of the non-action list occurs in its lower-cased text and none of the action phrases does |
| Models.MotionUsesPowers | votes/models.py:583-599 | adjournment, other and government-agenda motions do not use powers exactly when they are non-action; every other type uses powers |
| Models.DivisionUsesPowers | votes/models.py:790-794 | a division without a motion has insufficient information; otherwise it is its motion's analysis |
| Models.OtherTypesUsePowers | votes/models.py:589-599 | a motion outside the three analysed types uses powers whatever its text |
| Models.LastSegment | votes/models.py:527-528 | the last "/" segment is a suffix of the id and holds no "/" |
| Models.VersionAgnosticGid | votes/models.py:523-532 | a last segment of at most 10 characters is an IndexError; otherwise the character at index 10 is dropped unless it is "." |
| Models.VersionAgnosticShape | votes/models.py:523-532 | the reduced id is the other segments joined by "/" followed by the reduced last segment |
| Models.GidMatch | votes/models.py:534-538 | true only when some banned id reduces to the same id; false only when none does |
| Models.MatchFrom | votes/models.py:535-538 | the scan over the banned ids finds a match exactly when there is one |
| Models.VersionLetterIgnored | votes/models.py:522-538 | two ids differing only in the version letter after the date reduce to the same id |
| Models.DropVersionLetter | votes/models.py:529-530 | the version letter after a ten-character date is removed |
| Models.CutVersion | votes/models.py:529-530 | reducing the last segment in place drops the id's character ten places into that segment unless it is "." |
| Models.Latest | votes/models.py:432-435 | the latest of a list of dates is in the list and not before any of them; an empty list has none |
| Models.LastDecisionDate | votes/models.py:431-445 | none exactly when the chamber has neither divisions nor agreements |
| Models.LastDecisionIsLatest | votes/models.py:431-445 | the last decision date is a decision's date, and no decision is later |
| HelperModels.SignificantSymmetric | votes/views/helper_models.py:284-293 | the significant-difference rule (one side below 0.4, the other above 0.6) is symmetric, needs a gap of more than 0.2, and never holds between equal scores |
| HelperModels.DifferenceAntisymmetric | votes/views/helper_models.py:276-293 | swapping the two sides negates the score difference and keeps significance |
| HelperModels.Targets | votes/views/helper_models.py:88 | the target distributions of a group |
| HelperModels.Others | votes/views/helper_models.py:89 | the comparator distributions of a group |
| HelperModels.PairGroup | votes/views/helper_models.py:86-110 | more than one target or comparator is a ValueError; no target skips the key; a missing comparator is replaced by the target; a target with no data (-1) is dropped |
| HelperModels.WithKey | votes/views/helper_models.py:82-87 | the distributions sharing one key |
| HelperModels.PairAll | votes/views/helper_models.py:82-110 | the first group that raises stops the collection; every pair holds a target with data and a comparator with the same key |
| HelperModels.PairAllComplete | votes/views/helper_models.py:82-110 | every target with data is paired when the collection succeeds |
| HelperModels.PairAllFails | votes/views/helper_models.py:82-110 | the collection fails exactly when some group fails to pair |
| HelperModels.PairAllStep | votes/views/helper_models.py:82-110 | each pair, whether from the first group or a later one, holds a listed key's target and comparator |
| HelperModels.SignificantOf | votes/views/helper_models.py:118 | exactly the significant pairs |
| HelperModels.InGroup | votes/views/helper_models.py:131-134 | exactly the pairs whose policy is in the group |
| HelperModels.SlugGroups | votes/views/helper_models.py:130-144 | one display group per slug with at least one policy, each holding exactly that slug's pairs |
| HelperModels.DisplayGroups | votes/views/helper_models.py:112-146 | the "significant" group comes first with exactly the significant pairs, followed by every non-empty policy group |
| HelperModels.AddDivisionIssue | votes/views/helper_models.py:322-335 | a link whose notes contain "ignore:<issue>" adds nothing and returns False; otherwise the division is appended under that issue alone and True is returned |
| HelperModels.AddPolicyIssue | votes/views/helper_models.py:337-351 | an ignored issue adds nothing; otherwise it is added to the issues or the warnings, never twice |
| HelperModels.HasIssuesSpec | votes/views/helper_models.py:356-357 | a report has issues exactly when it has a policy issue or a division under some issue |
| HelperModels.LinkIssues | votes/views/helper_models.py:387-424 | a strong government-agenda division gets that issue, and a strong division whose motion does not use powers gets the without-power issue, unless the notes ignore them |
| HelperModels.Conclude | votes/views/helper_models.py:425-431 | no strong votes gives NO_STRONG_VOTES; all strong votes flagged gives NO_STRONG_VOTES_AFTER_POWER_CHANGE; exactly one strong vote gives the ONLY_ONE_STRONG_VOTE warning |
| HelperModels.ConcludeCounts | votes/views/helper_models.py:425-431 | with one strong vote and no earlier issues, NO_STRONG_VOTES_AFTER_POWER_CHANGE is raised exactly when that vote was flagged once |
| HelperModels.FlaggedCountBound | votes/views/helper_models.py:385-428 | at most every strong division is flagged, and all are exactly when the counts meet |
| HelperModels.TallyLinksCounts | votes/views/helper_models.py:384-424 | the corrected loop counts the strong divisions and the flagged ones, each once, and files only division issues |
| HelperModels.FromPolicyAsWritten | votes/views/helper_models.py:378-431 | the strong-vote count is right as written: "no strong votes" is raised exactly when there are none and the notes do not ignore it, the one-strong-vote warning exactly when there is one, and at most one issue is raised |
| HelperModels.FromPolicy | votes/views/helper_models.py:378-431 | "no strong votes" exactly when none is strong and not ignored; "no strong votes after power change" exactly when some are strong, every strong one is flagged and it is not ignored; the one-strong-vote warning exactly when one is strong and not ignored; at most one issue, and the report is well formed |
| HelperModels.GovAgendaWithoutPowerFlaggedTwice | votes/views/helper_models.py:399-417 | a strong government-agenda motion that does not use powers is counted twice as written and once when corrected |
| HelperModels.DoubleCountMissesIssue | votes/views/helper_models.py:425-428 | as written, a policy whose only strong division is such a motion misses NO_STRONG_VOTES_AFTER_POWER_CHANGE; the corrected report has it |
| HelperModels.SingleLink | votes/views/helper_models.py:387-424 | a policy with one link runs the loop body once |
| TwfyBridge.FromModern | votes/views/twfy_bridge.py:62-75 | agree is aye3 or aye, against is no3 or no, by strength; neutral is both |
| TwfyBridge.FromModernInjective | votes/views/twfy_bridge.py:62-75 | away from neutral the old vote type keeps both the direction and the strength |
| TwfyBridge.Describe | votes/views/twfy_bridge.py:146-177 | on a passed motion agree is the majority and against the minority; a failed motion swaps them; strength picks strong or weak; neutral is an abstention |
| TwfyBridge.MotionDescriptionAsWritten | votes/views/twfy_bridge.py:146-149 | any non-zero motion result, including -1 for a failure, is treated as passed |
| TwfyBridge.MotionDescription | votes/views/twfy_bridge.py:146-177 | only a successful motion (result 1) puts an agreeing link with the majority |
| TwfyBridge.FailedMotionDescribedAsPassed | votes/views/twfy_bridge.py:149 | as written a failed motion is described like a passed one; the corrected description puts agree in the minority |
| TwfyBridge.FailureSwapsSides | votes/views/twfy_bridge.py:149-174 | with the correction, success and failure swap majority and minority and keep the strength |
| TwfyBridge.FromVote | votes/views/twfy_bridge.py:96-115 | every position except collective maps to an option, abstain to "both", and the id is "uk.org.publicwhip/person/" and the person id; collective is a ValueError |
| TwfyBridge.FromVoteInjective | votes/views/twfy_bridge.py:96-115 | different positions give different options and different people different ids |
| TwfyBridge.BreakdownToVoteCount | votes/views/twfy_bridge.py:192-208 | exactly four counts with distinct options among no, aye, both and absent, adding up to the breakdown's four counts |
| TwfyBridge.VoteCountsReadBack | votes/views/twfy_bridge.py:192-208 | each count lands under its own option |
| TwfyBridge.PresentAbsent | votes/views/twfy_bridge.py:290-301 | the total less abstentions and absences is exactly the same and different votes of both strengths; absent is the weak and strong absences; both are truncated as Python's int() does |
| TwfyBridge.OrgType | votes/views/twfy_bridge.py:180-189 | Commons, Lords and the Scottish Parliament have an organisation, one each; other chambers are a ValueError |
| Forms.ShortStart | votes/forms.py:79 | the place where a trailing "(digits)" starts in the stripped name, which is unique when it exists |
| Forms.JsonStart | votes/forms.py:85 | the leftmost place where a trailing "({...})" starts, as the regex search finds it |
| Forms.FromText | votes/forms.py:66-97 | a trailing "(digits)" gives the id and is cut from the name; otherwise a trailing "({json})" is decoded; a text with neither form keeps its name with no id; "person_id" never stays in the extra information; failures are ValueErrors |
| Forms.ShortSignature | votes/forms.py:79-83 | the short form's id is the non-negative value of the digits, with no extra information, and the "(digits)" is removed from the name |
| Forms.JsonSignature | votes/forms.py:85-97 | a JSON form succeeds exactly when it decodes to an object whose "person_id" is usable; the id comes from "person_id" and the other keys go to the extra information; a non-object is a ValueError |
| Forms.PersonFromMeta | votes/forms.py:85-97 | an integer "person_id" gives that id, a missing or null one gives none, and any other value is a validation error |
| Forms.ParseBracketed | votes/forms.py:79-83 | "name (digits)" parses to the name and the value of the digits |
| Forms.IdRoundTrip | votes/forms.py:52-83 | a signature with a non-negative id and no extra information comes back from its text |
| Forms.PlainRoundTrip | votes/forms.py:52-97 | a bare name ending in neither form comes back unchanged |
| Forms.NegativeIdNotRead | votes/forms.py:61-83 | a negative id, such as the non-parliamentary person -1, is written but not read back: the text parses with no id |
| Forms.ExtrasHideId | votes/forms.py:58-62 | an id stored next to extra information is dropped by the text form |
| Forms.ParseJsonText | votes/forms.py:85-97 | a name followed by a bracketed one-line object without "person_id" parses to the name and that object |
| Forms.JsonRoundTrip | votes/forms.py:52-97 | a signature with extra information comes back from its text when its JSON encoding decodes back to it |
| Forms.CanonicalTextIsLine | votes/forms.py:52-64 | the text of a canonical signature is a single stripped, non-blank line |
| Forms.CanonicalRoundTrip | votes/forms.py:52-97 | every canonical signature comes back from its text |
| Forms.ToText | votes/forms.py:52-64 | the text starts with the name; it is the bare name exactly when there is no extra info and no id; otherwise " (" follows the name and the text ends with ")", and an id alone is written as its digits |
| Forms.NonBlankLines | votes/forms.py:119 | the stripped, non-blank lines, none of them empty |
| Forms.NonBlankLinesSpec | votes/forms.py:119 | every non-blank line is kept, stripped, and every kept line is some line stripped |
| Forms.ParseAll | votes/forms.py:120 | the list fails exactly when some line fails; otherwise entry i is line i parsed |
| Forms.ListFromText | votes/forms.py:114-121 | fails exactly when some stripped non-blank line fails; otherwise one signature per non-blank line, each parsed from that line stripped |
| Forms.ListRoundTrip | votes/forms.py:107-121 | a non-empty list of canonical signatures comes back from its text |
| Forms.Assign | votes/forms.py:129-141 | a missing id is looked up by name, and when allowed an id still missing becomes -1; present ids are kept |
| Forms.Messages | votes/forms.py:161-177 | one message per problem line, so no messages exactly when no line is a problem |
| Forms.ValidateSignatories | votes/forms.py:143-181 | an empty list is refused; otherwise the list is accepted exactly when every line has a person and no id other than -1 repeats an earlier one; refusals are ValidationErrors |
| Forms.AcceptedHasNoDuplicates | votes/forms.py:161-181 | an accepted list names every person once, except the non-parliamentary person |
| Forms.AllowedNeverUnfound | votes/forms.py:140-141 | with signatures without ids allowed, every line ends with an id |
| Forms.CheckRequiredFields | votes/forms.py:269-281 | an update is rejected exactly when it is not a deletion and has no link; an accepted update is unchanged |
| Forms.DetailAloneRejected | votes/forms.py:269-281 | a deletion is always accepted, and an update with only a detail never is |
| NameReconciliation.ExtractPersonId | votes/name_reconciliation.py:22-40 | an id is returned exactly when the stripped name ends with "(digits)", and it is the value of those digits |
| NameReconciliation.ExtractBracketed | votes/name_reconciliation.py:36-40 | a name written with a non-negative id gives that id back |
| NameReconciliation.ExtractAgreesWithSignature | votes/name_reconciliation.py:36-40 | the signature parser reads the same id from a name as this extraction does |
| NameReconciliation.RemoveWordSpec | votes/name_reconciliation.py:95 | removing a whole word case-insensitively shortens the text exactly when the word occurs, and leaves it alone otherwise |
| NameReconciliation.RemoveAbsentWords | votes/name_reconciliation.py:93-99 | removing honorifics that do not occur changes nothing |
| NameReconciliation.Collapse | votes/name_reconciliation.py:102 | each run of whitespace becomes a single space, and a single-spaced text is unchanged |
| NameReconciliation.Tidied | votes/name_reconciliation.py:102 | the result is stripped and single-spaced, and a text already in that form is unchanged |
| NameReconciliation.TidyOfCollapse | votes/name_reconciliation.py:102 | collapsing spaces and stripping gives tidy text, and tidy text is left as it is |
| NameReconciliation.StripHonorifics | votes/name_reconciliation.py:43-104 | the result is stripped and single-spaced, and never longer than the name |
| NameReconciliation.StripsSurroundingHonorifics | votes/name_reconciliation.py:43-104 | a tidy name with one leading honorific and one trailing honorific, either of them optional, comes back as the bare name |
| NameReconciliation.PlainNameUnchanged | votes/name_reconciliation.py:43-104 | a tidy name in which no honorific stands as a word is returned unchanged |
| NameReconciliation.StripHonorificsSettles | votes/name_reconciliation.py:43-104 | a tidy name with at most one leading and one trailing honorific settles after one pass: stripping again changes nothing |
| NameReconciliation.PersonIdFromName | votes/name_reconciliation.py:107-140 | a bracketed id wins without any lookup; otherwise the name is looked up, and only if that fails the name without honorifics |
| NameReconciliation.BracketedIdWins | votes/name_reconciliation.py:121-124 | whatever the lookup says, "name (id)" resolves to the id |
| NameReconciliation.KnownNameNotStripped | votes/name_reconciliation.py:129-135 | a name the lookup knows is never stripped: two lookups that agree on it give the same answer |
| Detector.LowerCriteria | twfy_votes/helpers/detector.py:22-30 | the phrases of a detector are lower-cased when it is built, in place, and every other criterion is kept |
| Detector.Make | twfy_votes/helpers/detector.py:22-30 | the operator and the number of criteria are kept; every phrase is kept lower-cased, and every other criterion is kept as it is |
| Detector.MakeIdempotent | twfy_votes/helpers/detector.py:22-30 | building a detector from an already built one's criteria changes nothing |
| Detector.RemoveChar | twfy_votes/helpers/detector.py:41 | removing a character leaves none of it, never lengthens the text, and changes nothing when it is absent |
| Detector.ScoreCriterion | twfy_votes/helpers/detector.py:32-55 | a phrase matches in the processed text, or, if it has a space, with spaces removed from both; a pattern is searched in the processed text; a plain check sees the text as given |
| Detector.ComplexScore | twfy_votes/helpers/detector.py:100-101 | a complex phrase holds exactly when its positive detector matches and its negative one does not |
| Detector.ScoreFrom | twfy_votes/helpers/detector.py:57-68 | from criterion k on, an "or" detector holds exactly when some criterion holds and an "and" detector exactly when all of them do |
| Detector.Score | twfy_votes/helpers/detector.py:57-68 | the text is lower-cased once, and the detector is the disjunction ("or") or the conjunction ("and") of its criteria on it |
| Detector.Call | twfy_votes/helpers/detector.py:70-72 | calling a detector scores the text with each non-breaking space made a plain space; a text without one is scored as it is |
| Detector.ScoreSpec | twfy_votes/helpers/detector.py:57-68 | a detector is the disjunction ("or") or conjunction ("and") of its criteria; with no criteria "or" is false and "and" is true |
| Detector.PhraseIgnoresCase | twfy_votes/helpers/detector.py:14-30 | a phrase is found whatever the case of the text and of the phrase as written |
| Detector.SpacedPhraseMatchesJoined | twfy_votes/helpers/detector.py:40-43 | a phrase with a space also matches a text that runs its words together |
| Detector.ComplexCriterion | twfy_votes/helpers/detector.py:49-51 | a complex phrase used as a criterion is scored on the processed text |
| Motions.FirstRule | src/votes/populate/motions.py:36-100 | the first branch whose test matches, with no earlier branch matching; none exactly when no branch matches |
| Motions.Categorise | src/votes/populate/motions.py:34-102 | the type of the first matching branch, tested on the lower-cased text, or OTHER when none matches |
| Motions.CapitalNeverInLower | src/votes/populate/motions.py:35 | a phrase with a capital letter never occurs in lower-cased text |
| Motions.RuleTypes | src/votes/populate/motions.py:36-100 | there are 22 branches; only the financial one gives FINANCIAL, and none gives OTHER |
| Motions.EarlyTypes | src/votes/populate/motions.py:36-89 | none of the nineteen branches before the financial one gives FINANCIAL or OTHER |
| Motions.FirstRuleDiffer | src/votes/populate/motions.py:36-100 | two branch lists that differ in one branch, which the first list's version fails, pick the same branch unless the second picks that one |
| Motions.CategoriseDiffer | src/votes/populate/motions.py:34-102 | two categorisers differing in one branch that the first fails disagree only when the second gives that branch's type |
| Motions.WrittenFinancialFails | src/votes/populate/motions.py:90-95 | the financial test as written never matches the lower-cased motion |
| Motions.CatagoriseAsWritten | src/votes/populate/motions.py:34-102 | the text is lower-cased but the financial phrase holds a capital "M", so no motion is ever found financial |
| Motions.CategoriseMotion | src/votes/populate/motions.py:34-102 | a supply motion that no earlier branch claims is financial, and the corrected phrase changes no other answer |
| Motions.ApprovalComesFirst | src/votes/populate/motions.py:36-37 | a motion approving an instrument laid before the House is an approval, whatever else it says |
| Motions.Gids | src/votes/populate/motions.py:125 | the gids of the rows, in order |
| Motions.RecordsSince | src/votes/populate/motions.py:130-132 | exactly the records of rows dated on or after the update date, each typed by the given categoriser |
| Motions.ImportWith | src/votes/populate/motions.py:105-139 | the import with any categoriser: duplicate gids are a ValueError; otherwise the records from the update date on, and the matching delete scope |
| Motions.ImportMotions | src/votes/populate/motions.py:105-139 | duplicate gids are a ValueError before anything is written; an update deletes from its date and creates only rows dated on or after it; a full import deletes everything; the created motions are typed by the categoriser as written, so none is financial |
| Motions.ImportedTypes | src/votes/populate/motions.py:109-123 | every created motion carries the type the categoriser as written gives its text, never FINANCIAL, and a full import creates every row |
| Motions.FullImport | src/votes/populate/motions.py:133-134 | without an update date every row is created |
| Motions.ImportMotionsCorrected | src/votes/populate/motions.py:105-139 | the import with the corrected categoriser: the same failure and delete scope, with each record typed by the corrected categoriser |
| Motions.CorrectedImportOnlyAddsFinancial | src/votes/populate/motions.py:90-139 | the as-written and corrected imports fail together, delete the same motions and create the same records in the same order; a type differs only where the corrected import says FINANCIAL |
| Motions.SupplyMotionImport | src/votes/populate/motions.py:90-139 | a supply motion that no earlier branch claims is imported with a non-financial type as written, and as FINANCIAL when corrected |
| PolicyModels.SplitAtLastDash | twfy_votes/policy/models.py:33-34 | two dash-joined texts whose last parts have no dash are equal only part by part, which is what makes the dash-joined keys readable back |
| PolicyModels.DivisionKey | twfy_votes/policy/models.py:31-34 | read from the front, the key is "pw-", the ISO date and a dash; read from the back, it ends with a dash and the chamber slug |
| PolicyModels.AgreementKey | twfy_votes/policy/models.py:43-46 | the key is "a-", the chamber slug (which has no dash), a dash, the ISO date, a dash and the reference, in that order and nothing else |
| PolicyModels.SplitAtFirstDash | twfy_votes/policy/models.py:45-46 | the same for texts whose first parts have no dash |
| PolicyModels.ChamberValueInjective | twfy_votes/policy/models.py:33-34 | distinct chambers have distinct slugs |
| PolicyModels.NoDashInNames | twfy_votes/policy/models.py:73-74 | no chamber slug, alignment, strength or strength-meaning value contains a dash |
| PolicyModels.IsoInjective | twfy_votes/policy/models.py:33-34 | distinct dates have distinct ISO forms |
| PolicyModels.DivisionKeyInjective | twfy_votes/policy/models.py:31-34 | two divisions with the same `pw-` key are the same division |
| PolicyModels.AgreementKeyParts | twfy_votes/policy/models.py:43-46 | after the `a-` prefix an agreement key is its chamber, then the date and reference |
| PolicyModels.DatedRefParts | twfy_votes/policy/models.py:46 | the ISO date is the first ten characters of the dated reference and the reference follows the dash after it |
| PolicyModels.AgreementKeyInjective | twfy_votes/policy/models.py:43-46 | two agreements with the same key are the same agreement |
| PolicyModels.DecisionKeyInjective | twfy_votes/policy/models.py:31-46 | no division shares a key with an agreement, and each kind's key identifies it |
| PolicyModels.LinkKey | twfy_votes/policy/models.py:70-74 | the decision's key, then the alignment and the strength, each after a dash and free of dashes; the notes take no part |
| PolicyModels.LinkKeyInjective | twfy_votes/policy/models.py:70-74 | two links have the same key exactly when they link the same decision with the same alignment and strength |
| PolicyModels.LinkKeys | twfy_votes/policy/models.py:102-103 | one key per link, in order |
| PolicyModels.SortedLinkKeys | twfy_votes/policy/models.py:102-105 | the keys of all division and agreement links, sorted, with each key kept as often as it occurs |
| PolicyModels.CompositeHash | twfy_votes/policy/models.py:110-111 | the first eight characters (or fewer) of the digest of the composite key |
| PolicyModels.LinkKeysConcat | twfy_votes/policy/models.py:102-104 | the keys of two lists of links are the keys of each list, concatenated |
| PolicyModels.LinkKeysPermute | twfy_votes/policy/models.py:102-105 | reordering the links reorders their keys |
| PolicyModels.CompositeKeyIgnoresOrder | twfy_votes/policy/models.py:101-111 | the composite key and hash do not depend on the order of the links, nor on which list a link sits in |
| PolicyModels.JoinContainsPiece | twfy_votes/policy/models.py:107 | every joined piece appears in the joined text |
| PolicyModels.CompositeKey | twfy_votes/policy/models.py:101-111 | the key starts with the id, chamber and strength meaning, each ended by a dash, and holds the key of every link, so a change to any link's decision, alignment or strength is seen |
| PolicyTools.Ceiling | twfy_votes/policy/tools.py:76-78 | a bound above every existing id, so the search for a free id stops |
| PolicyTools.NewPolicyId | twfy_votes/policy/tools.py:65-78 | the least id at or after the chamber's starting value that no existing policy uses; a KeyError for a chamber without a starting value |
| PolicyTools.LeastUnusedUnique | twfy_votes/policy/tools.py:76-78 | only one id is the least unused one, so the new id is determined by the existing ones |
| PolicyTools.CreateNewPolicy | twfy_votes/policy/tools.py:56-97 | the new policy gets that id, no links, is not highlightable, has the simplified strength meaning and the given chamber, name and groups, and is stored at `{id}.yml` |
| PolicyTools.ParseDecisionUrl | twfy_votes/policy/tools.py:106-132 | fewer than four path segments is an IndexError; a kind other than division or agreement is a ValueError; a parsed decision carries the chamber, date and number or reference of the last three segments |
| PolicyTools.NoSlashInSegments | twfy_votes/policy/tools.py:106 | the segments that name a decision contain no slash when its reference has none |
| PolicyTools.ParseSegments | twfy_votes/policy/tools.py:106-132 | an address ending in a decision's four segments parses back to that decision |
| PolicyTools.ParseParts | twfy_votes/policy/tools.py:108-132 | fewer than four pieces is an IndexError; a parsed decision's chamber, date and number or reference are read from the last three pieces, and its kind from the fourth from last |
| PolicyTools.PartsOfSegments | twfy_votes/policy/tools.py:108-129 | pieces ending in a decision's four segments parse back to that decision |
| PolicyTools.SplitJoinSlash | twfy_votes/policy/tools.py:106 | slash-free segments joined by slashes split back into the same segments |
| PolicyTools.UrlRoundTrip | twfy_votes/policy/tools.py:106-132 | writing a decision's address under any slash-free prefix and parsing it gives the decision back |
| PolicyTools.Decisions | twfy_votes/policy/tools.py:149-150 | the decisions of the links, in order |
| PolicyTools.Keys | twfy_votes/policy/tools.py:151-157 | one duplicate-check key per decision, in order |
| PolicyTools.FirstRepeat | twfy_votes/policy/tools.py:148-161 | no repeat is found exactly when the keys are distinct; a found position repeats an earlier key |
| PolicyTools.AddLinkWith | twfy_votes/policy/tools.py:134-161 | a missing policy file is a ValueError; otherwise the link is appended to the list of its kind, and the result succeeds exactly when that list's keys are distinct, leaving the other list alone |
| PolicyTools.AgreementKeysCollide | twfy_votes/policy/tools.py:152-157 | as written, two agreements of one chamber on one day get the same duplicate-check key |
| PolicyTools.SecondAgreementRefused | twfy_votes/policy/tools.py:146-161 | as written, adding any second agreement of the same chamber and day is refused as a duplicate |
| PolicyTools.DupKeyParts | twfy_votes/policy/tools.py:152-157 | the corrected key is the chamber, the date and the number or reference, dash-joined |
| PolicyTools.DupKeyInjective | twfy_votes/policy/tools.py:152-157 | with the reference read under its own field name, two decisions of one kind with the same key are the same decision |
| PolicyTools.RepeatRepeatsKey | twfy_votes/policy/tools.py:148-161 | adding a decision already in the list repeats a key |
| PolicyTools.FreshKeepsKeysDistinct | twfy_votes/policy/tools.py:148-161 | adding a new decision to a list of distinct decisions keeps the keys distinct |
| PolicyTools.DistinctKeys | twfy_votes/policy/tools.py:152-157 | with the corrected key, distinct decisions of one kind have distinct keys |
| PolicyTools.AddRefusesOnlyRepeats | twfy_votes/policy/tools.py:134-161 | with the corrected key, adding a decision succeeds exactly when it is not already in the policy's list of that kind |
| PolicyTools.DupKeyAsWritten | twfy_votes/policy/tools.py:152-157 | a division's duplicate key is the intended one; an agreement's is the intended key of the same agreement with reference "None", so the reference takes no part |
| PolicyTools.DupKey | twfy_votes/policy/tools.py:152-157 | the chamber (with no dash) comes first, then a dash and the ISO date; the number or reference ends the key after a dash |
| PolicyTools.AddVoteAsWritten | twfy_votes/policy/tools.py:100-161 | an address that does not parse raises the parser's error; one that does is appended with empty notes under the as-written duplicate key, and a success means the policy exists and the link was appended |
| PolicyTools.AddVoteFromUrl | twfy_votes/policy/tools.py:100-161 | the same with the intended duplicate key: a parse error is passed on, and a success appends exactly the parsed link to the policy |
| PolicyTools.AddVoteOfDecisionUrl | twfy_votes/policy/tools.py:100-161 | the address built from any decision, after any slash-free prefix, adds exactly that decision to an existing policy that does not hold it yet |
| LegislationTags.KeepWordSpace | votes/populate/legislation_tags.py:24 | the result is no longer than the input and holds only word characters and whitespace |
| LegislationTags.KeepWordSpaceKeepsAll | votes/populate/legislation_tags.py:24 | text made only of word characters and whitespace passes through unchanged |
| LegislationTags.Underscores | votes/populate/legislation_tags.py:25 | no whitespace is left, and text of word characters and whitespace becomes word characters only |
| LegislationTags.UnderscoresNoSpace | votes/populate/legislation_tags.py:25 | text without whitespace passes through unchanged |
| LegislationTags.FullSlugify | votes/populate/legislation_tags.py:19-27 | whatever the input, the result holds lower-case word characters only; underscores already in the text are kept, so underscores need not be single |
| LegislationTags.SlugOfWordSpace | votes/populate/legislation_tags.py:25-26 | word characters and whitespace, with whitespace runs made underscores and letters lowered, are lower-case word characters only |
| LegislationTags.SlugFixed | votes/populate/legislation_tags.py:19-27 | a slug is its own slug |
| LegislationTags.FullSlugifyIdempotent | votes/populate/legislation_tags.py:19-27 | slugifying twice is slugifying once |
| LegislationTags.UnderscoresPrefix | votes/populate/legislation_tags.py:25 | a leading run without whitespace is kept as it is |
| LegislationTags.JoinedSlugChars | votes/populate/legislation_tags.py:24-26 | two slug words joined by a space are word and space characters only, and joined by an underscore have no upper case |
| LegislationTags.UnderscoresSpaced | votes/populate/legislation_tags.py:25 | one space between two whitespace-free words becomes one underscore |
| LegislationTags.LowerNoUpper | votes/populate/legislation_tags.py:26 | lowering text without upper case changes nothing |
| LegislationTags.SpaceBecomesUnderscore | votes/populate/legislation_tags.py:19-27 | two slug words separated by a space slugify to the words joined by an underscore |
| LegislationTags.FirstYear | votes/populate/legislation_tags.py:45 | the first position from which a whole four-digit word matches, and none when there is no such word |
| LegislationTags.YearToEnd | votes/populate/legislation_tags.py:47-56 | the title ends with the year in brackets |
| LegislationTags.MoveYear | votes/populate/legislation_tags.py:45-56 | a title with no four-digit year is left alone; otherwise the first year found is four digits and the title ends with it in brackets |
| LegislationTags.StrippedNoTrailingSpace | votes/populate/legislation_tags.py:51-54 | a stripped title never ends with a space, so the extra trailing-space check never fires |
| LegislationTags.FixBillsTitle | votes/populate/legislation_tags.py:36-59 | a title without " Act" is only stripped; otherwise " Act" becomes " Bill" and the first four-digit year, if there is one, ends the title in brackets |
| LegislationTags.NoActOnlyStripped | votes/populate/legislation_tags.py:40-59 | a title without " Act" is only stripped |
| LegislationTags.ActOnlyAfterName | votes/populate/legislation_tags.py:41-43 | in "{name} Act {year}" the text " Act" occurs only where the name ends |
| LegislationTags.FirstYearAt | votes/populate/legislation_tags.py:45 | the search finds the first place a year matches |
| LegislationTags.DigitsOnlyInYear | votes/populate/legislation_tags.py:45 | no digit comes before the year in "{name} Bill {year}" |
| LegislationTags.YearAfterBill | votes/populate/legislation_tags.py:45-47 | in "{name} Bill {year}" the year found is the trailing one |
| LegislationTags.RemoveYear | votes/populate/legislation_tags.py:49 | removing the year leaves "{name} Bill " |
| LegislationTags.StripBillSpace | votes/populate/legislation_tags.py:51 | stripping "{name} Bill " drops only its trailing space |
| LegislationTags.RenamedTitle | votes/populate/legislation_tags.py:40-43 | "{name} Act {year}" is already stripped, mentions " Act" and is renamed to "{name} Bill {year}" |
| LegislationTags.BillYearToEnd | votes/populate/legislation_tags.py:47-56 | "{name} Bill {year}" becomes "{name} Bill ({year})" |
| LegislationTags.ActYearBecomesBill | votes/populate/legislation_tags.py:36-57 | the docstring's promise: the title of an Act with its year becomes "{name} Bill ({year})" |
| LegislationTags.RemovePhrasesAbsent | votes/populate/legislation_tags.py:94-103 | a title holding none of the noise phrases comes through unchanged |
| LegislationTags.LastFound | votes/populate/legislation_tags.py:129-132 | the last separator occurring in the window, so a later one overrides an earlier one, and none when none occurs |
| LegislationTags.FirstFound | votes/populate/legislation_tags.py:136-140 | the first separator occurring before the position, and none when none occurs |
| LegislationTags.StripEach | votes/populate/legislation_tags.py:143 | each part stripped, in order |
| LegislationTags.BillPart | votes/populate/legislation_tags.py:145-147 | the first part that mentions "bill" in any case, and none when no part does |
| LegislationTags.ApproveGivesRest | votes/populate/legislation_tags.py:105-106 | an "Approve:" title with no noise phrase gives what follows the prefix |
| LegislationTags.LeaveForBillMentionsBill | votes/populate/legislation_tags.py:108-112 | the "Leave for Bill:" branch always names a bill |
| LegislationTags.LowerBill | votes/populate/legislation_tags.py:146 | lower-casing "Bill" gives "bill" |
| LegislationTags.ShortenUnchanged | votes/populate/legislation_tags.py:114-121 | the committee-stage rewrites leave text without "Bill " alone |
| LegislationTags.PieceMentionsBill | votes/populate/legislation_tags.py:143-147 | a part that mentions a bill comes from a title that does |
| LegislationTags.DividedPartMentionsBill | votes/populate/legislation_tags.py:142-147 | a part chosen at a divider mentions a bill, and so does the title |
| LegislationTags.CorrectedCutMentionsBill | votes/populate/legislation_tags.py:149-154 | with the corrected cut, a title that says "Bill" keeps "bill" in its result |
| LegislationTags.NameMentionsBill | votes/populate/legislation_tags.py:114-155 | once past the prefix branches, the corrected extraction gives nothing or a name mentioning a bill |
| LegislationTags.NoBillGivesEmpty | votes/populate/legislation_tags.py:114-155 | a title that never mentions a bill in any case gives nothing |
| LegislationTags.ExtractMentionsBill | votes/populate/legislation_tags.py:88-155 | except for "Approve:" titles, the corrected extraction gives nothing or a name mentioning a bill |
| LegislationTags.Extract | votes/populate/legislation_tags.py:88-155 | a "Leave for Bill:" title always gives a name mentioning "Bill", and any other title that is not an approval and never mentions a bill gives nothing |
| LegislationTags.ExtractLegislation | votes/populate/legislation_tags.py:88-155 | apart from "Approve:" titles, the result is empty or a name that mentions a bill |
| LegislationTags.ExtractLegislationAsWritten | votes/populate/legislation_tags.py:88-155 | once " bill" occurs in the shortened title, the cut as written gives the same name as the corrected one |
| LegislationTags.CutsAgreeWhenFound | votes/populate/legislation_tags.py:149-154 | when " bill" is present the as-written and corrected cuts agree |
| LegislationTags.AsWrittenCutKeepsFour | votes/populate/legislation_tags.py:151-153 | when " bill" is absent the cut as written keeps only the first four characters, where the corrected one keeps the whole title |
| LegislationTags.NameWhenNoDivider | votes/populate/legislation_tags.py:142-154 | with no stage rewrite and no divider, a title saying "Bill" goes to the final cut |
| LegislationTags.CutsOfUnspacedName | votes/populate/legislation_tags.py:149-154 | without " bill", a name with no whitespace at its ends is cut to four characters as written and kept whole when corrected |
| LegislationTags.XBillNames | votes/populate/legislation_tags.py:114-155 | "xBill" reaches the final cut and gives "xBil" as written and "xBill" corrected |
| LegislationTags.AsWrittenCutsShortName | votes/populate/legislation_tags.py:88-155 | the whole extraction turns "xBill" into "xBil" as written, and keeps "xBill" when corrected |
| LegislationTags.CheckSetOverlap | votes/populate/legislation_tags.py:158-166 | true exactly when every word of ours is among theirs and theirs has "[hl]" only if ours does |
| Clusters.SqDist | votes/populate/cluster_analysis.py:107 | the squared distance is never negative and is zero from a point to itself |
| Clusters.Nearest | votes/populate/cluster_analysis.py:106-110 | a centroid no other centroid is closer than (the first such one) |
| Clusters.ColumnIndex | votes/populate/cluster_analysis.py:103 | where a column of that name sits, and none exactly when the frame has no such column |
| Clusters.CountPresent | votes/populate/cluster_analysis.py:101 | the number of the frame's columns that are required ones; zero exactly when none is |
| Clusters.SelectRow | votes/populate/cluster_analysis.py:103 | a row's values for the required columns, in the centroid table's column order |
| Clusters.AssignAll | votes/populate/cluster_analysis.py:104-113 | each row gets its nearest centroid's name and the squared distance to it |
| Clusters.ClusterMaxIsMax | votes/populate/cluster_analysis.py:132-134 | the cluster's maximum is never negative, bounds every distance in the cluster and, when positive, is one of them |
| Clusters.CommonsClusters | votes/populate/cluster_analysis.py:100-150 | fewer than four required columns present is a ValueError; a success has one label per row, needs every required column present, a centroid and a row |
| Clusters.Assignments | votes/populate/cluster_analysis.py:103-124 | one assignment per row |
| Clusters.LabelsFromNearest | votes/populate/cluster_analysis.py:104-148 | each row is labelled with a centroid no other centroid is closer than, with `_outlier` added exactly when it lies beyond 0.70 of the farthest row of its cluster |
| Clusters.OutlierMatchesRescaled | votes/populate/cluster_analysis.py:132-146 | the test on squared distances agrees with the rescaled test `d / max > 0.70`, and a cluster whose rows all sit on its centroid marks none |
| Clusters.RescaledInUnit | votes/populate/cluster_analysis.py:126-135 | every rescaled distance lies between 0 and 1 |
| Clusters.FarthestIsOutlier | votes/populate/cluster_analysis.py:132-148 | the farthest row of a spread-out cluster is always an outlier, and a row on its centroid never is |
| People.ParseInt | votes/populate/people.py:29 | succeeds exactly on a non-empty run of decimal digits, giving its value; anything else is a ValueError |
| People.IntId | votes/populate/people.py:26-29 | the result is absent exactly when there is no id; an id always gets a parse (a number or a ValueError) |
| People.IntIdOfPath | votes/populate/people.py:26-29 | an id of slash-free segments ending in a number gives that number back |
| People.EffectiveParty | votes/populate/people.py:46-49 | never the Labour Co-operative slug, and empty when there is no party |
| People.EffectivePartyStable | votes/populate/people.py:46-49 | the effective party is its own effective party, and every slug but the co-operative one is kept |
| People.ResolveDate | votes/populate/people.py:32-43 | a missing date is the far future and an approximate date its latest day |
| People.ResolveIgnoresDefault | votes/populate/people.py:32-43 | the default argument never changes the result |
| People.AsWrittenMovesFuture | votes/populate/people.py:52-59 | the as-written and the corrected day-before differ on the far-future sentinel: as written it is moved off the sentinel |
| People.MinusOneDateAsWritten | votes/populate/people.py:52-59 | as written, every date, the far-future sentinel included, moves one day back |
| People.MinusOneDate | votes/populate/people.py:52-59 | the corrected date never moves forward, stays put exactly for the far-future sentinel, and otherwise is the day before |
| People.PostOrgOrSelfOrg | votes/populate/people.py:62-71 | the post's organisation when there is a post, otherwise the membership's own; a ValueError exactly when the chosen one is missing |
| People.MembershipRows | votes/populate/people.py:79-89 | one row per membership, with the start and end resolved |
| People.SumUpToConcat | votes/populate/people.py:99-114 | the running count of two event lists is the sum of their counts |
| People.StartEventsSum | votes/populate/people.py:99-107 | the join events up to a day add up to the memberships begun by then |
| People.EndEventsSum | votes/populate/people.py:99-107 | the leave events up to a day subtract the memberships ended by then |
| People.ChamberEventsCount | votes/populate/people.py:99-114 | the running count on a day is the memberships begun by then less those ended by then |
| People.InsertKeepsSums | votes/populate/people.py:105 | inserting an event in date order does not change any running count |
| People.SortKeepsSums | votes/populate/people.py:105 | sorting the events by date does not change any running count |
| People.SumUpToAllBefore | votes/populate/people.py:114 | a count on a day after every event is the total |
| People.SumUpToAllAfter | votes/populate/people.py:114 | a count on a day before every event is zero |
| People.TotalSnoc | votes/populate/people.py:114 | the cumulative sum grows by each event's value |
| People.PrefixIsSumUpTo | votes/populate/people.py:114-116 | in date order, the cumulative sum at the last event of a day is the running count of that day |
| People.DatesOf | votes/populate/people.py:111-116 | the days of the events, in order |
| People.StartsOf | votes/populate/people.py:121-122 | the first days of the ranges, in order |
| People.BuildRanges | votes/populate/people.py:117-123 | each range keeps its start and count and ends the day before the next range starts, the last the day before the far future |
| People.ScanRecord | votes/populate/people.py:114-116 | at the last event of a day the scan records that day with its running count, keeping the days increasing and each one the day of some event |
| People.ScanSkip | votes/populate/people.py:114-116 | an event followed by another on the same day records nothing, and the scan's state still holds one event later |
| People.ScanUpToScanned | votes/populate/people.py:109-116 | scanning any prefix of date-ordered events keeps the recorded days increasing, each with the cumulative sum up to it, and every passed day recorded |
| People.RangesOfScan | votes/populate/people.py:117-123 | the ranges of a finished scan start on exactly the event days, in increasing order, each counting the events up to its start |
| People.RangeCounts | votes/populate/people.py:109-123 | one range per distinct event day, increasing, each counting the events up to its first day, ending the day before the next range |
| People.ChamberOrderComplete | votes/populate/people.py:127-128 | the order chambers are visited in holds exactly the chamber slugs |
| People.PresentChambers | votes/populate/people.py:127-128 | the known chambers that occur in the frame |
| People.ChamberBlock | votes/populate/people.py:108-131 | the ranges begin exactly on the chamber's event days, in increasing order; each range ends the day before the next begins and the last the day before the far future; every range counts the memberships begun and not yet ended on its first day |
| People.SortedDays | votes/populate/people.py:105-121 | sorting the events keeps their dates, so days that are exactly the sorted dates are exactly the events' dates |
| People.ChamberBlocks | votes/populate/people.py:125-131 | one such block per chamber, in order, each covering every event day of its chamber |
| People.MembershipOnDate | votes/populate/people.py:74-135 | no rows is a KeyError (the frame has no `chamber` column to melt); otherwise a ValueError exactly when no row is in a known chamber; on success block b is the b-th known chamber present, in chamber order, counting its members and covering its event days |
| People.LastRangeEnd | votes/populate/people.py:119 | the last range ends the day before the far future as written, and at the far future when corrected |
| People.AdjustOverlapping | votes/populate/people.py:179-200 | the memberships come back all of them, in start order |
| People.AdjustOverlappingSpec | votes/populate/people.py:186-195 | no membership then ends on the day the next one of its organisation starts; only such ends moved, by one day, and the sorted list is a permutation of the input |
| People.AdjustVeryGroup | votes/populate/people.py:159-171 | each membership either is unchanged or is the same membership ending the day before the next one in the group starts; organisation and start never change and no end moves later |
| People.AdjustVeryGroupSpec | votes/populate/people.py:159-171 | in start order, a membership that reaches the next one's start, starts before it, and would not end before it began now ends the day before the next starts; every other membership is unchanged; so each then ends before the next starts unless it already did or both start on one day, and a well-formed range stays well formed |
| People.OfOrg | votes/populate/people.py:155-156 | exactly the memberships of that organisation |
| People.Orgs | votes/populate/people.py:153-155 | each organisation of the person once |
| People.AdjustVeryOverlapping | votes/populate/people.py:138-176 | one group per organisation, in sorted organisation order; group k holds as many memberships as organisation k has, with the same multiset of start dates, sorted by start, each one of that organisation's memberships with at most its end moved earlier |
| People.OrgGroup | votes/populate/people.py:155-171 | one organisation's group: its memberships sorted by start and fixed, as many as it has, with the same start dates, each an original membership with at most its end moved earlier |
| Statements.Suffixed | votes/populate/statements.py:40 | the slug, a dash, then at least one more character |
| Statements.SuffixedInjective | votes/populate/statements.py:39-41 | different counters give different slugs, and none is the original slug |
| Statements.Check | votes/populate/statements.py:33-43 | an unused slug comes back unchanged; otherwise the first `slug-n` from 2 up that is unused on that day; the result is unused before the call and recorded after it |
| Statements.SetSizeBound | votes/populate/statements.py:39-42 | a subset is no larger than its superset, which bounds the counter's search |
| Statements.CheckAll | votes/populate/statements.py:72-83 | over a run every returned slug is new for its day and no two are the same slug on the same day |
| Statements.Distinct | votes/populate/statements.py:106 | each key once |
| Statements.DuplicateKeys | votes/populate/statements.py:105-107 | exactly the keys counted more than once |
| Statements.Filter | votes/populate/statements.py:105-107 | the keys of the list counted more than once |
| Statements.RepeatedCountsTwice | votes/populate/statements.py:104-107 | a key at two positions is counted at least twice |
| Statements.CheckKeys | votes/populate/statements.py:102-111 | a passing check hands the keys on unchanged |
| Statements.CheckKeysSpec | votes/populate/statements.py:102-109 | the check raises exactly when some key repeats, and the reported keys are exactly those found at two positions |
| Statements.KeyAtTwoPositions | votes/populate/statements.py:105-107 | a key counted twice sits at two positions |
| CommonsVotes.IntToString | votes/populate/commons_votes.py:83 | the rendering starts with a minus sign exactly for negative numbers |
| CommonsVotes.IntToStringInjective | votes/populate/commons_votes.py:83 | different numbers render differently |
| CommonsVotes.PwDivisionId | votes/populate/commons_votes.py:80-83 | "pw-", the ISO date, a dash, the number and "-commons", each at its place |
| CommonsVotes.FiveParts | votes/populate/commons_votes.py:83 | where each part of the id sits |
| CommonsVotes.PwDivisionIdSpec | votes/populate/commons_votes.py:80-83 | the date parses back from the id, and two ids are equal exactly when date and number are |
| CommonsVotes.Common | votes/populate/commons_votes.py:106 | the members on both lists |
| CommonsVotes.Without | votes/populate/commons_votes.py:107-109 | the members of the first list not on the second |
| CommonsVotes.WithoutNothing | votes/populate/commons_votes.py:107-109 | with no member on both sides the lists are unchanged |
| CommonsVotes.Mappings | votes/populate/commons_votes.py:119-126 | six lists with the positions aye, no, absent, aye teller, no teller and abstain, in that order |
| CommonsVotes.MappingsSpec | votes/populate/commons_votes.py:103-126 | a member on both sides only abstains; the aye and no lists keep the others; missing teller lists are empty and present ones are kept |
| CommonsVotes.Emit | votes/populate/commons_votes.py:86-101 | one vote per id, in order, with the member's Popolo ids; a ValueError exactly when some id is unknown |
| CommonsVotes.VotesAtConcat | votes/populate/commons_votes.py:128-137 | votes of two runs add up position by position |
| CommonsVotes.VotesAtOneList | votes/populate/commons_votes.py:128-137 | a list emitted at one position counts only there |
| CommonsVotes.Pairs | votes/populate/commons_votes.py:128-129 | each id of a list with the list's position, in order |
| CommonsVotes.Flat | votes/populate/commons_votes.py:128-129 | the (member, position) pairs of all the lists, as many as the lists have ids |
| CommonsVotes.FlatMember | votes/populate/commons_votes.py:128-129 | a pair is visited exactly when its member is on some list of its position |
| CommonsVotes.EmitAllJoin | votes/populate/commons_votes.py:128-139 | the first list's votes followed by the others' are the votes of all the lists, pair by pair and position by position |
| CommonsVotes.EmitAll | votes/populate/commons_votes.py:128-139 | succeeds exactly when every id is known; then vote i is the i-th (member, position) pair of the lists, list after list, with that member's Popolo ids and the division's id, so each position is counted as many times as its lists have ids |
| CommonsVotes.ToMiniVotes | votes/populate/commons_votes.py:85-139 | succeeds exactly when every member id is known; then vote i is the i-th (member, position) pair of the six mappings in order, with that member's Popolo ids and the division's id; each position holds as many votes as its list, and none is collective |
| CommonsVotes.MemberPositions | votes/populate/commons_votes.py:103-137 | a member on both sides is emitted only as an abstention, any other aye or no member on their own side, and every member with no vote recorded as absent |
| CommonsVotes.IdsAtDistinct | votes/populate/commons_votes.py:119-126 | with the six positions all different, each position's count is its own list's length |
| CommonsVotes.IdsAtMissing | votes/populate/commons_votes.py:119-126 | a position no list has gets no votes |
| Consts.ChamberFromValue | votes/consts.py:52-58 | the chamber with that slug, and none exactly when no chamber has it |
| PolicyTools.ChamberRoundTrip | votes/consts.py:52-58 | a chamber's slug reads back to that chamber |
| Consts.FromParlparse | votes/consts.py:60-77 | a known parlparse id becomes its chamber's slug; an unknown one passes through when asked to and is a ValueError otherwise |
| Consts.ParlparseNeverOther | votes/consts.py:60-77 | no parlparse id maps to the catch-all chamber, and each known chamber has one id |
| Consts.VoteCodesInvert | votes/populate/export.py:51-69 | the integer-to-text macro and its text-to-integer partner (`src/votes/populate/votes.py` 42-58) agree with the vote-position codes, are defined on exactly the codes 1 to 7, and invert each other |
| Consts.UrlSlug | votes/consts.py:180-181 | the URL slug has the value's length, every underscore made a hyphen and every other character unchanged, so it holds no underscore |
| Consts.DisplayName | votes/consts.py:183-184 | the display name has the value's length; an underscore becomes a space, a letter after a non-letter is upper-cased and every other letter lower-cased |
| Consts.DisplayText | votes/consts.py:183-184 | the same title-casing, character by character, for any text |
| Consts.DisplayTextSpec | votes/consts.py:183-184 | character by character: an underscore becomes a space, a letter after a non-letter or at the start is upper-cased, any other character is lower-cased |
| Consts.Code | votes/consts.py:131-138 | each vote position has a code from 1 to 7, and the code and the position's text map to each other both ways |
| Consts.Simple | votes/consts.py:192-197 | true exactly for uses-powers, false exactly for does-not-use-powers, and none exactly for insufficient information |
| Consts.SimpleStr | votes/consts.py:192-206 | "Yes" exactly for uses-powers, "No" exactly for does-not-use-powers, "Unknown" exactly when the answer is none |
| Consts.SimpleInjective | votes/consts.py:192-206 | each powers analysis has its own simple answer and its own text |
| DuckUrls.Make | twfy_votes/helpers/duck/url.py:11-19 | accepted exactly when the address starts with `https://`, keeping it, with a given non-empty format kept; otherwise a ValueError |
| DuckUrls.Div | twfy_votes/helpers/duck/url.py:25-31 | joining never fails and gives the base with one slash before the new piece |
| DuckUrls.ToStringOfMake | twfy_votes/helpers/duck/url.py:21-22 | the string form of a built value is the address it was built from |
| DuckUrls.FormatIsExtension | twfy_votes/helpers/duck/url.py:16-19 | without a format, the format is the text after the last dot: a dot-free suffix of the address |
| DuckUrls.DivAssociates | twfy_votes/helpers/duck/url.py:25-31 | joining `a` then `b` is joining `a/b`, as with paths |
| DuckFuncs.Levels | twfy_votes/helpers/duck/funcs.py:42 | every key names at least one level |
| DuckFuncs.Insert | twfy_votes/helpers/duck/funcs.py:41-46 | after a successful walk the value sits at the key's levels |
| DuckFuncs.InsertKeepsOthers | twfy_votes/helpers/duck/funcs.py:41-46 | setting one path leaves every unrelated path as it was |
| DuckFuncs.InsertPassesNoLeaf | twfy_votes/helpers/duck/funcs.py:44-45 | a successful walk met no value on its way down |
| DuckFuncs.LevelsInjective | twfy_votes/helpers/duck/funcs.py:42 | different keys name different level paths |
| DuckFuncs.UnnestKeepsLeaves | twfy_votes/helpers/duck/funcs.py:37-48 | with distinct keys, every value lands at its key's levels unless a later key goes beneath it |
| DuckFuncs.UnnestSpec | twfy_votes/helpers/duck/funcs.py:37-48 | when no key's levels begin another's, every value is found again at its key's levels |
| DuckFuncs.Unnest | twfy_votes/helpers/duck/funcs.py:37-48 | no items give the empty tree; on success the last item's value is found at the path its key splits into |
| DuckFuncs.PlainKeyLevels | twfy_votes/helpers/duck/funcs.py:42-43 | a key without underscores is one level, and adding `__` and more goes below it |
| DuckFuncs.ValueThenDeeperFails | twfy_votes/helpers/duck/funcs.py:40-46 | a flat key followed by a key beneath it is a TypeError |
| DuckFuncs.QueryToMacro | twfy_votes/helpers/duck/funcs.py:81-91 | a `CREATE OR REPLACE MACRO` statement for the name, ending with the body, prefixed by `table ` for a table macro; the arguments are joined with ", " |
| DuckFuncs.MacroTableFlag | twfy_votes/helpers/duck/funcs.py:84-85 | the table flag does exactly one thing, prefix the body with `table `, and always changes the statement |
| DuckFuncs.MacroNamesEachArg | twfy_votes/helpers/duck/funcs.py:81-91 | every argument appears inside the brackets after the macro's name, before the body |
| DuckFuncs.NameEndsAtAs | twfy_votes/helpers/duck/funcs.py:94-99 | a name without spaces ends at the first ` AS ` |
| DuckFuncs.KindReadBack | twfy_votes/helpers/duck/funcs.py:94-99 | the keyword after the fixed prefix says whether a view or a table is made |
| DuckFuncs.CreateRoundTrip | twfy_votes/helpers/duck/funcs.py:94-99 | a view or table statement reads back to its kind, name and query |
| DuckFuncs.KindRoundTrip | twfy_votes/helpers/duck/funcs.py:94-99 | the keyword written for a kind reads back as that kind, and the text after it is read as the named query |
| DuckFuncs.NamedRoundTrip | twfy_votes/helpers/duck/funcs.py:94-99 | a space-free name and its query, written around ` AS `, read back unchanged |
| DuckFuncs.ViewIsNotTable | twfy_votes/helpers/duck/funcs.py:94-99 | a view and a table over the same query are never the same statement |
| DuckFuncs.QueryToView | twfy_votes/helpers/duck/funcs.py:94-95 | the statement starts "CREATE OR REPLACE VIEW "; with a name without spaces it reads back as a view of that name and query |
| DuckFuncs.QueryToTable | twfy_votes/helpers/duck/funcs.py:98-99 | the statement starts "CREATE OR REPLACE TABLE "; with a name without spaces it reads back as a table of that name and query |
| DuckFuncs.RFindChar | twfy_votes/helpers/duck/funcs.py:67 | the last position of the character, or -1 when it is absent |
| DuckFuncs.CsvName | twfy_votes/helpers/duck/funcs.py:67 | a name ending in `.csv` after something has its last dot there |
| DuckFuncs.NameOfPath | twfy_votes/helpers/duck/funcs.py:67 | the final component is the slash-free end of the path |
| DuckFuncs.CsvSuffixOnly | twfy_votes/helpers/duck/funcs.py:67 | a `.csv` suffix is the end of the path, after something other than a slash |
| DuckFuncs.CsvSuffixIf | twfy_votes/helpers/duck/funcs.py:67 | a path ending in `.csv` after something other than a slash has that suffix |
| DuckFuncs.CsvSuffix | twfy_votes/helpers/duck/funcs.py:67 | a path has the `.csv` suffix exactly when it ends in `.csv` after something other than a slash |
| DuckFuncs.SourceToQuery | twfy_votes/helpers/duck/funcs.py:62-78 | a DataFrame is exactly the ValueError case; a query reads through `read_csv` exactly for a `.csv` path, and always names the source in quotes |
| DuckFuncs.Direct | twfy_votes/helpers/duck/funcs.py:64 | a direct select names the source in quotes and is not a `read_csv` call |
| DuckFuncs.Quoted | twfy_votes/helpers/duck/funcs.py:69 | the text appears quoted right after the prefix |
| Routes.DateToPython | twfy_votes/helpers/routes.py:12-13 | a parsed date is a real calendar date; text in date shape that is not one is a ValueError |
| Routes.DateToUrl | twfy_votes/helpers/routes.py:15-16 | the ISO text of a date has the shape the converter's pattern matches |
| Routes.DateConverterRoundTrip | twfy_votes/helpers/routes.py:9-16 | a date goes to its text and back unchanged, and text that parses goes back to the same text |
| Routes.SlugRun | twfy_votes/helpers/routes.py:24 | the longest leading run of lower-case letters, digits and dots |
| Routes.MatchesNotJson | twfy_votes/helpers/routes.py:19-24 | a path segment matches exactly when it is non-empty, only lower-case letters, digits and dots, and does not end in `.json` |
| Routes.NotJsonRoundTrip | twfy_votes/helpers/routes.py:19-30 | values the converter takes pass through both ways unchanged and never end in `.json` |
| Routes.JsonExamples | twfy_votes/helpers/routes.py:24 | `votes.json` is refused while `votes.jsonl` and `json` are accepted |
| Routes.WordRun | twfy_votes/helpers/routes.py:59-62 | the longest leading run of word characters |
| Routes.WordRunOf | twfy_votes/helpers/routes.py:59-62 | a word followed by a non-word character is exactly the leading run |
| Routes.TypedSubTyped | twfy_votes/helpers/routes.py:59 | a typed placeholder `{name:type}` becomes `<type:name>` |
| Routes.VarNotTyped | twfy_votes/helpers/routes.py:59 | a plain placeholder is not matched as a typed one |
| Routes.VarBraceCopied | twfy_votes/helpers/routes.py:59 | the typed pass copies the brace of a plain placeholder |
| Routes.WordNoBrace | twfy_votes/helpers/routes.py:59 | a placeholder's name holds no brace |
| Routes.TypedSubVar | twfy_votes/helpers/routes.py:59 | the typed pass leaves a plain placeholder as it is |
| Routes.TypedSubPiece | twfy_votes/helpers/routes.py:59 | the typed pass rewrites one leading piece and carries on after it |
| Routes.TypedSubCopies | twfy_votes/helpers/routes.py:59 | where no typed placeholder starts, the typed pass copies a character |
| Routes.PlainSubCopies | twfy_votes/helpers/routes.py:62 | where no brace starts, the plain pass copies a character |
| Routes.BraceFreeTyped | twfy_votes/helpers/routes.py:59 | text without braces passes through the typed pass unchanged |
| Routes.BraceFreePlain | twfy_votes/helpers/routes.py:62 | text without braces passes through the plain pass unchanged |
| Routes.PlainSubPiece | twfy_votes/helpers/routes.py:62 | the plain pass turns the typed pass's output for a piece into Django's form |
| Routes.TypedSubPieces | twfy_votes/helpers/routes.py:59 | on a whole route the typed pass rewrites piece by piece |
| Routes.PlainSubPieces | twfy_votes/helpers/routes.py:62 | on a whole route the plain pass finishes piece by piece |
| Routes.ConvertPieces | twfy_votes/helpers/routes.py:58-62 | a route of literal characters and placeholders becomes exactly Django's `<type:name>` and `<name>` form |
| Routes.Convert | twfy_votes/helpers/routes.py:58-62 | a route without braces is handed on as written |
| Routes.NewApp | twfy_votes/helpers/routes.py:41-46 | a new app has no patterns and keeps its name and namespace |
| Routes.Route | twfy_votes/helpers/routes.py:48-71 | exactly one pattern is appended, with the rewritten route, the view, the kwargs or `{}`, and the given name or else the view's name |

## Left out

- Forms.NonBlankLinesSpec: states which lines are kept, not that they stay in the order of the input; the order follows from the list comprehension but is not proved.
- File, YAML, parquet and JSON file I/O, writes through the Django ORM, and console output (`rich` tables, `debug_print`, `show_options`, `print_help_table`): each operation is modelled as the value it computes or the sequence of writes it makes.
- The DuckDB and SQL pipeline (policy calculation, breakdowns, rebellions, export and the duck helper core): these are query strings, not statable code. Only the string builders in `twfy_votes/helpers/duck/funcs.py` are modelled.
- Network downloads and API fetches (motion downloads, bills, Commons votes API): the fetched rows are parameters.
- `run_queue`'s exception, mail and concurrency handling: the queue is modelled as pure state.
- Regex criteria in the phrase detector, `md5` in `composite_hash`, Popolo person and membership lookups, `json.loads`/`json.dumps`, date and integer parsing, "today" and clock readings: all become function or value parameters, because they are library or outside-world calls.
- `html.unescape` in `extract_legislation` (votes/populate/legislation_tags.py:92): titles are taken as already unescaped.
- Unicode: `lower()`, `upper()`, `title()` and the regex classes `\w`, `\d` and `\s` are modelled on ASCII only. Python's `\d` in `ISODateConverter` also accepts other Unicode digits.
- Float rounding: scores, centroids and distances are exact `real`s. As a result, the "total should be 1" tolerance check after `reduce` in the validator can never fail in the model.
- Statements.DuplicateKeys: states which keys are reported, not their order. The source lists them in `Counter` order (first occurrences); the model keeps last occurrences. Only the error message's wording depends on it.
- Collections.SortBy: states that the result is ordered and a permutation, not that equal keys keep their input order as Python's stable sort does.
- Forms.JsonSignature: pydantic's lax mode also turns a float with no fractional part, a numeric string and a bool in "person_id" into an int; the model (with Forms.PersonFromMeta) treats every value that is not an integer or null as a validation error.
- People.ParseInt: Python's `int()` also accepts surrounding whitespace, a leading sign and underscores between digits; the model accepts only a non-empty run of ASCII digits. Person ids in the Popolo data are plain digit runs.
- Clusters.Nearest: ties between equally distant centroids go to the first centroid in table order. The source sorts distances with a sort that pandas does not promise to keep stable, so its tie-break is unspecified.
- Clusters.SqDist: distances are compared squared, which orders them exactly as the Euclidean distance does. The rescaled outlier test `d / max > 0.70` is stated as `sq > 0.49 * maxSq`. A cluster whose largest distance is 0 (NaN in the source) is never an outlier.
- DuckFuncs.Insert: `unnest`'s conversion of the nested `defaultdict` back to plain dicts is the identity on the tree. A key path that tries to go below an existing leaf (a Python `TypeError`) is modelled as a failure.
- The populate command's `refresh_motions_agreements` shortcut names a `DOWNLOAD_MOTIONS` group that the register's `ImportOrder` does not define. Looking it up is a `KeyError` in the model (Populate.RefreshMotionsRaises). This is a mismatch between two files, not a defect in either rule.
- `get_bills_df`, `get_division_df` and the places that call `full_slugify` on data frames: these are data-frame plumbing around the modelled string rules.
- Views, templates, Open Graph images, the admin, auth, the API schemas and the Django form wiring: presentation only. The form rules themselves are modelled.
- The typed Django model metaclass and pydantic reflection: framework machinery with no decision rule.
- The hash-diff filter in the policy calculation: it depends on parquet I/O.

## Findings

| source | as written | input that shows it | evidently intended | confidence | as-written member | corrected member |
|---|---|---|---|---|---|---|
| src/votes/populate/motions.py:90-96 | the financial-motion test looks for "his Majesty" with a capital M in text that was lower-cased first, so it never matches | any supply motion, e.g. "That a sum be granted to His Majesty to be issued by the Treasury out of the Consolidated Fund" | the test compares with the lower-case phrase, so financial motions get `FINANCIAL` | high (not executed) | Motions.CatagoriseAsWritten | Motions.CategoriseMotion |
| votes/views/twfy_bridge.py:149 | `if motion_result_int:` treats the failed result -1 as true, so it takes the passed branch | a failed motion (-1) with an Agree link | only the result 1 counts as passed; a failed motion swaps majority and minority | high (not executed) | TwfyBridge.FailedMotionDescribedAsPassed | TwfyBridge.FailureSwapsSides |
| twfy_votes/policy/tools.py:152-157 | the duplicate key reads `division_ref`, but agreements store `decision_ref`, so every agreement on the same chamber and date gets the same key | two agreements with different refs on one chamber and date | the key includes the agreement's own ref, so only a true repeat is refused | high (not executed) | PolicyTools.SecondAgreementRefused | PolicyTools.AddRefusesOnlyRepeats |
| votes/views/helper_models.py:399-428 | a strong government-agenda division that does not use powers is counted twice in `strong_without_power`, so strong count minus that counter can drop below zero and "no strong votes after the power change" is missed | a policy whose only strong link is a government-agenda motion that does not use powers (1 - 2 is not 0) | each strong division is counted at most once | medium (not executed) | HelperModels.DoubleCountMissesIssue | HelperModels.FromPolicy |
| votes/populate/people.py:52-59 | `minus_one_date` compares a date with the string "9999-12-31"; a date never equals a string, so the far-future end date is moved back one day too | the date 9999-12-31 | the far-future marker is kept unchanged | medium (not executed) | People.AsWrittenMovesFuture | People.MinusOneDate |
| votes/populate/legislation_tags.py:149-154 | the cut position is `find(" bill") + 5`; when " bill" is absent that is 4, which is still positive, so the text is cut to 4 characters | the title "xBill" | the cut applies only when " bill" occurs | high (not executed) | LegislationTags.AsWrittenCutsShortName | LegislationTags.CutsOfUnspacedName |
| votes/management/commands/vr_validator.py:396-398 | when the comparison total is 0, `other_score = member_score` aliases the two objects, so later additions to the comparison also land in the target's score | a target with one strong same vote and an empty comparison group | the comparison gets a copy, and the target's score comes from its own votes only | high (not executed) | Validator.AliasLeaksIntoTarget | Validator.ScoresSlowTargetIsOwn |

=== FILE: clusters.dfy ===
/** Nearest-centroid clustering of divisions (`votes/populate/cluster_analysis.py`,
    `get_commons_clusters`).  Each division is described by the share of government
    and opposition members voting aye and no; it is given the name of the closest
    centroid, and marked as an outlier when it is far out within its cluster.

    Distances are compared as squares: the square root is monotone on non-negative
    numbers, so the nearest centroid and the outlier test come out the same. */
module Clusters {
  import opened Wrappers

  /** A row of the centroid table: its name and one coordinate per column. */
  datatype Centroid = Centroid(name: string, coords: seq<real>)

  /** A data frame: column names and, for each row, one value per column. */
  datatype Frame = Frame(columns: seq<string>, rows: seq<seq<real>>)

  predicate WellFormed(f: Frame) {
    forall j :: 0 <= j < |f.rows| ==> |f.rows[j]| == |f.columns|
  }

  /** A centroid table whose rows all have one coordinate per required column. */
  predicate CentroidsFit(cs: seq<Centroid>, n: nat) {
    forall k :: 0 <= k < |cs| ==> |cs[k].coords| == n
  }

  /** The closest centroid found for a row, and the squared distance to it. */
  datatype Assignment = Assignment(name: string, sq: real)

  const OutlierSuffix := "_outlier"

  /** The squared Euclidean distance. */
  function SqDist(a: seq<real>, b: seq<real>): (r: real)
    requires |a| == |b|
    ensures r >= 0.0
    ensures a == b ==> r == 0.0
    decreases |a|
  {
    if |a| == 0 then 0.0
    else (a[0] - b[0]) * (a[0] - b[0]) + SqDist(a[1..], b[1..])
  }

  /** The index of the centroid closest to `p`; among equally close centroids the
      first in table order. */
  function Nearest(cs: seq<Centroid>, p: seq<real>): (r: nat)
    requires |cs| > 0 && CentroidsFit(cs, |p|)
    ensures r < |cs|
    ensures forall k :: 0 <= k < |cs| ==> SqDist(cs[r].coords, p) <= SqDist(cs[k].coords, p)
    ensures forall k :: 0 <= k < r ==> SqDist(cs[r].coords, p) < SqDist(cs[k].coords, p)
    decreases |cs|
  {
    if |cs| == 1 then 0
    else
      var rest := Nearest(cs[1..], p);
      assert forall k :: 1 <= k < |cs| ==> cs[k] == cs[1..][k - 1];
      if SqDist(cs[0].coords, p) <= SqDist(cs[rest + 1].coords, p) then 0 else rest + 1
  }

  /** The index of the first column named `c`. */
  function ColumnIndex(cols: seq<string>, c: string): (r: Option<nat>)
    ensures r.Some? ==> r.value < |cols| && cols[r.value] == c
    ensures r.None? <==> c !in cols
    decreases |cols|
  {
    if |cols| == 0 then None
    else if cols[0] == c then Some(0)
    else match ColumnIndex(cols[1..], c)
      case None => None
      case Some(i) => Some(i + 1)
  }

  /** `len([x for x in df.columns if x in required_columns])` */
  function CountPresent(cols: seq<string>, required: seq<string>): (r: nat)
    ensures r <= |cols|
    ensures r == 0 <==> forall i :: 0 <= i < |cols| ==> cols[i] !in required
    decreases |cols|
  {
    if |cols| == 0 then 0
    else
      assert forall i :: 1 <= i < |cols| ==> cols[i] == cols[1..][i - 1];
      (if cols[0] in required then 1 else 0) + CountPresent(cols[1..], required)
  }

  /** `df[required_columns]` for one row: the row's values in required order. */
  function SelectRow(cols: seq<string>, row: seq<real>, required: seq<string>): (r: seq<real>)
    requires |row| == |cols|
    requires forall i :: 0 <= i < |required| ==> required[i] in cols
    ensures |r| == |required|
    ensures forall i :: 0 <= i < |required| ==> r[i] == row[ColumnIndex(cols, required[i]).value]
  {
    seq(|required|, i requires 0 <= i < |required| => row[ColumnIndex(cols, required[i]).value])
  }

  /** The closest centroid of every row. */
  function AssignAll(cs: seq<Centroid>, points: seq<seq<real>>, n: nat): (r: seq<Assignment>)
    requires |cs| > 0 && CentroidsFit(cs, n)
    requires forall j :: 0 <= j < |points| ==> |points[j]| == n
    ensures |r| == |points|
    ensures forall j :: 0 <= j < |points| ==>
      r[j] == Assignment(cs[Nearest(cs, points[j])].name, SqDist(cs[Nearest(cs, points[j])].coords, points[j]))
  {
    seq(|points|, j requires 0 <= j < |points| =>
      var k := Nearest(cs, points[j]);
      Assignment(cs[k].name, SqDist(cs[k].coords, points[j])))
  }

  /** The largest squared distance among the rows given `name`, or 0 if none is. */
  function ClusterMax(xs: seq<Assignment>, name: string): (r: real)
    decreases |xs|
  {
    if |xs| == 0 then 0.0
    else
      var m := ClusterMax(xs[1..], name);
      if xs[0].name == name && xs[0].sq > m then xs[0].sq else m
  }

  /** The maximum bounds every distance in the cluster and is one of them. */
  lemma {:induction false} ClusterMaxIsMax(xs: seq<Assignment>, name: string)
    requires forall j :: 0 <= j < |xs| ==> xs[j].sq >= 0.0
    ensures ClusterMax(xs, name) >= 0.0
    ensures forall j :: 0 <= j < |xs| && xs[j].name == name ==> xs[j].sq <= ClusterMax(xs, name)
    ensures ClusterMax(xs, name) > 0.0 ==>
      exists j :: 0 <= j < |xs| && xs[j].name == name && xs[j].sq == ClusterMax(xs, name)
    decreases |xs|
  {
    if |xs| > 0 {
      var tail := xs[1..];
      ClusterMaxIsMax(tail, name);
      assert forall j :: 1 <= j < |xs| ==> xs[j] == tail[j - 1];
      var m := ClusterMax(tail, name);
      if !(xs[0].name == name && xs[0].sq > m) && m > 0.0 {
        var j :| 0 <= j < |tail| && tail[j].name == name && tail[j].sq == m;
        assert xs[j + 1] == tail[j];
      }
    }
  }

  /** The outlier test: the rescaled distance `d / max` is above 0.70, written on
      squares as `d² > 0.49 · max²`. */
  predicate IsOutlier(sq: real, maxSq: real) {
    sq > 0.49 * maxSq
  }

  /** The final name of each row. */
  function Label(xs: seq<Assignment>, j: nat): string
    requires j < |xs|
  {
    if IsOutlier(xs[j].sq, ClusterMax(xs, xs[j].name)) then xs[j].name + OutlierSuffix
    else xs[j].name
  }

  /** `get_commons_clusters`.  Errors, in the order the source meets them:
      fewer than four required columns present (ValueError); another required
      column missing (KeyError from `df[required_columns]`); no centroid to be
      nearest (IndexError from `index[0]`); no row at all (ValueError from
      `pd.concat` of an empty list). */
  function CommonsClusters(f: Frame, cs: seq<Centroid>, required: seq<string>): (r: Result<seq<string>, Error>)
    requires WellFormed(f) && CentroidsFit(cs, |required|)
    ensures CountPresent(f.columns, required) < 4 ==> r == Failure(ValueError("Dataframe missing all required columns"))
    ensures r.Success? ==> |r.value| == |f.rows| > 0 && |cs| > 0
    ensures r.Success? ==> forall i :: 0 <= i < |required| ==> required[i] in f.columns
  {
    if CountPresent(f.columns, required) < 4 then
      Failure(ValueError("Dataframe missing all required columns"))
    else if exists i :: 0 <= i < |required| && required[i] !in f.columns then
      Failure(KeyError("required column missing"))
    else if |f.rows| > 0 && |cs| == 0 then
      Failure(IndexError("index 0 is out of bounds"))
    else if |f.rows| == 0 then
      Failure(ValueError("No objects to concatenate"))
    else
      var points := seq(|f.rows|, j requires 0 <= j < |f.rows| => SelectRow(f.columns, f.rows[j], required));
      var xs := AssignAll(cs, points, |required|);
      Success(seq(|xs|, j requires 0 <= j < |xs| => Label(xs, j)))
  }

  /** The assignments `CommonsClusters` computes on its way to the labels. */
  function Assignments(f: Frame, cs: seq<Centroid>, required: seq<string>): (r: seq<Assignment>)
    requires WellFormed(f) && CentroidsFit(cs, |required|) && |cs| > 0
    requires forall i :: 0 <= i < |required| ==> required[i] in f.columns
    ensures |r| == |f.rows|
  {
    var points := seq(|f.rows|, j requires 0 <= j < |f.rows| => SelectRow(f.columns, f.rows[j], required));
    AssignAll(cs, points, |required|)
  }

  /** Each row is labelled after a centroid no other centroid is closer than, with
      `_outlier` added exactly when its squared distance is above 0.49 of the
      largest in its cluster. */
  lemma LabelsFromNearest(f: Frame, cs: seq<Centroid>, required: seq<string>, j: nat)
    requires WellFormed(f) && CentroidsFit(cs, |required|)
    requires CommonsClusters(f, cs, required).Success? && j < |f.rows|
    ensures
      var xs := Assignments(f, cs, required);
      var p := SelectRow(f.columns, f.rows[j], required);
      exists k :: 0 <= k < |cs| && xs[j].name == cs[k].name && xs[j].sq == SqDist(cs[k].coords, p)
        && (forall k' :: 0 <= k' < |cs| ==> SqDist(cs[k].coords, p) <= SqDist(cs[k'].coords, p))
    ensures
      var xs := Assignments(f, cs, required);
      CommonsClusters(f, cs, required).value[j]
        == if IsOutlier(xs[j].sq, ClusterMax(xs, xs[j].name)) then xs[j].name + OutlierSuffix else xs[j].name
  {
    var xs := Assignments(f, cs, required);
    var p := SelectRow(f.columns, f.rows[j], required);
    var k := Nearest(cs, p);
    assert xs[j].name == cs[k].name && xs[j].sq == SqDist(cs[k].coords, p);
  }

  /** With `d` and `m` the distances themselves, the squared test agrees with
      the source's `d / m > 0.70` (a zero maximum makes the quotient NaN, which
      compares false). */
  lemma OutlierMatchesRescaled(d: real, m: real)
    requires 0.0 <= d <= m
    ensures IsOutlier(d * d, m * m) <==> (m > 0.0 && d / m > 0.7)
  {
    if m > 0.0 {
      if d > 0.7 * m {
        assert d * d > (0.7 * m) * (0.7 * m) by {
          assert d * d > d * (0.7 * m);
          assert d * (0.7 * m) >= (0.7 * m) * (0.7 * m);
        }
        assert d / m > 0.7 by { assert d / m * m == d; }
      } else {
        assert d * d <= (0.7 * m) * (0.7 * m) by {
          assert d * d <= d * (0.7 * m);
          assert d * (0.7 * m) <= (0.7 * m) * (0.7 * m);
        }
        assert d / m <= 0.7 by { assert d / m * m == d; }
      }
    }
  }

  /** The rescaled distance lies in [0, 1]: no row of a cluster is farther out
      than the cluster's farthest row. */
  lemma RescaledInUnit(xs: seq<Assignment>, j: nat)
    requires forall i :: 0 <= i < |xs| ==> xs[i].sq >= 0.0
    requires j < |xs|
    ensures 0.0 <= xs[j].sq <= ClusterMax(xs, xs[j].name)
  {
    ClusterMaxIsMax(xs, xs[j].name);
  }

  /** The farthest row of a cluster whose rows are not all on its centroid is
      always marked an outlier, and a row on its centroid never is. */
  lemma FarthestIsOutlier(xs: seq<Assignment>, j: nat)
    requires forall i :: 0 <= i < |xs| ==> xs[i].sq >= 0.0
    requires j < |xs|
    ensures xs[j].sq == ClusterMax(xs, xs[j].name) && xs[j].sq > 0.0 ==> Label(xs, j) == xs[j].name + OutlierSuffix
    ensures xs[j].sq == 0.0 ==> Label(xs, j) == xs[j].name
  {
    ClusterMaxIsMax(xs, xs[j].name);
  }
}

=== FILE: collections.dfy ===
/** Sequence facts shared by the importers: Python's `len(set(xs)) != len(xs)`
    duplicate test and the elements of a list as a set. */
module Collections {

  predicate NoDuplicates<T(==)>(s: seq<T>) {
    forall i, j :: 0 <= i < j < |s| ==> s[i] != s[j]
  }

  /** `set(xs)` */
  function Elements<T(!new)>(s: seq<T>): (r: set<T>)
    ensures forall x :: x in r <==> x in s
  {
    set x | x in s
  }

  /** The set of a list is as large as the list exactly when no element repeats. */
  lemma {:induction false} DistinctCard<T(!new)>(s: seq<T>)
    ensures |Elements(s)| <= |s|
    ensures |Elements(s)| == |s| <==> NoDuplicates(s)
    decreases |s|
  {
    if |s| > 0 {
      var tail := s[1..];
      DistinctCard(tail);
      if s[0] in tail {
        assert Elements(s) == Elements(tail);
        var k :| 0 <= k < |tail| && tail[k] == s[0];
        assert s[0] == s[k + 1];
      } else {
        assert Elements(s) == {s[0]} + Elements(tail);
        assert NoDuplicates(s) <==> NoDuplicates(tail) by {
          if NoDuplicates(tail) {
            forall i, j | 0 <= i < j < |s| ensures s[i] != s[j] {
              if i > 0 { assert s[i] == tail[i - 1] && s[j] == tail[j - 1]; }
              else { assert s[j] == tail[j - 1]; }
            }
          }
          if NoDuplicates(s) {
            forall i, j | 0 <= i < j < |tail| ensures tail[i] != tail[j] {
              assert tail[i] == s[i + 1] && tail[j] == s[j + 1];
            }
          }
        }
      }
    }
  }

  /** `[f(x) for x in xs]` */
  function MapSeq<T, U>(xs: seq<T>, f: T -> U): (r: seq<U>)
    ensures |r| == |xs| && forall i :: 0 <= i < |xs| ==> r[i] == f(xs[i])
  {
    seq(|xs|, i requires 0 <= i < |xs| => f(xs[i]))
  }

  lemma MapConcat<T, U>(a: seq<T>, b: seq<T>, f: T -> U)
    ensures MapSeq(a + b, f) == MapSeq(a, f) + MapSeq(b, f)
  {
  }

  lemma SplitAt<T>(s: seq<T>, k: nat)
    requires k < |s|
    ensures s == s[..k] + [s[k]] + s[k + 1..]
  {
  }

  /** Removing the element at `k` removes one copy of it from the multiset. */
  lemma MultisetWithout<T>(s: seq<T>, k: nat)
    requires k < |s|
    ensures multiset(s[..k] + s[k + 1..]) == multiset(s) - multiset{s[k]}
  {
    SplitAt(s, k);
  }

  /** Mapping one element in the middle of a list adds its image to the images of the rest. */
  lemma MapAround<T, U>(before: seq<T>, x: T, after: seq<T>, f: T -> U)
    ensures multiset(MapSeq(before + [x] + after, f)) == multiset(MapSeq(before + after, f)) + multiset{f(x)}
  {
    var a, b := MapSeq(before, f), MapSeq(after, f);
    assert MapSeq(before + [x] + after, f) == a + [f(x)] + b by {
      MapConcat(before + [x], after, f);
      MapConcat(before, [x], f);
    }
    assert MapSeq(before + after, f) == a + b by {
      MapConcat(before, after, f);
    }
  }

  lemma MapHead<T, U>(xs: seq<T>, f: T -> U)
    requires |xs| > 0
    ensures MapSeq(xs, f) == [f(xs[0])] + MapSeq(xs[1..], f)
  {
    var r := MapSeq(xs, f);
    assert r[1..] == MapSeq(xs[1..], f);
    assert r == [r[0]] + r[1..];
  }

  lemma MapPermuteStep<T, U>(xs: seq<T>, before: seq<T>, after: seq<T>, f: T -> U)
    requires |xs| > 0
    requires multiset(MapSeq(xs[1..], f)) == multiset(MapSeq(before + after, f))
    ensures multiset(MapSeq(xs, f)) == multiset(MapSeq(before + [xs[0]] + after, f))
  {
    MapHead(xs, f);
    MapAround(before, xs[0], after, f);
  }

  /** Lists holding the same elements have images holding the same elements. */
  lemma {:induction false} MapPermute<T, U>(xs: seq<T>, ys: seq<T>, f: T -> U)
    requires multiset(xs) == multiset(ys)
    ensures multiset(MapSeq(xs, f)) == multiset(MapSeq(ys, f))
    decreases |xs|
  {
    assert |xs| == |ys| by {
      assert |xs| == |multiset(xs)| && |ys| == |multiset(ys)|;
    }
    if |xs| > 0 {
      assert xs[0] in ys by {
        assert xs[0] in multiset(xs);
      }
      var k :| 0 <= k < |ys| && ys[k] == xs[0];
      var before, after := ys[..k], ys[k + 1..];
      assert multiset(before + after) == multiset(xs[1..]) by {
        MultisetWithout(ys, k);
        MultisetWithout(xs, 0);
      }
      MapPermute(xs[1..], before + after, f);
      MapPermuteStep(xs, before, after, f);
      SplitAt(ys, k);
    }
  }

  /** `[f(x) for x in xs if keep(x)]` */
  function FilterMap<T, U(==,!new)>(xs: seq<T>, keep: T -> bool, f: T -> U): (r: seq<U>)
    ensures |r| <= |xs|
    ensures forall y :: y in r <==> exists i :: 0 <= i < |xs| && y == f(xs[i]) && keep(xs[i])
    decreases |xs|
  {
    if |xs| == 0 then []
    else
      var rest := FilterMap(xs[1..], keep, f);
      assert forall i :: 1 <= i < |xs| ==> xs[i] == xs[1..][i - 1];
      if keep(xs[0]) then [f(xs[0])] + rest else rest
  }

  /** When every element is kept, every element has its image. */
  lemma {:induction false} FilterMapKeepsAll<T, U(!new)>(xs: seq<T>, keep: T -> bool, f: T -> U)
    requires forall i :: 0 <= i < |xs| ==> keep(xs[i])
    ensures |FilterMap(xs, keep, f)| == |xs|
    decreases |xs|
  {
    if |xs| > 0 {
      FilterMapKeepsAll(xs[1..], keep, f);
    }
  }

  /** Filtering the same list under two maps keeps the same elements: entry `i` of
      both results is the image of one kept element. */
  lemma {:induction false} FilterMapAligned<T, U(!new)>(xs: seq<T>, keep: T -> bool, f: T -> U, g: T -> U)
    ensures |FilterMap(xs, keep, f)| == |FilterMap(xs, keep, g)|
    ensures forall i :: 0 <= i < |FilterMap(xs, keep, f)| ==>
      exists j :: 0 <= j < |xs| && keep(xs[j])
        && FilterMap(xs, keep, f)[i] == f(xs[j]) && FilterMap(xs, keep, g)[i] == g(xs[j])
    decreases |xs|
  {
    if |xs| > 0 {
      FilterMapAligned(xs[1..], keep, f, g);
      var rf, rg := FilterMap(xs[1..], keep, f), FilterMap(xs[1..], keep, g);
      forall i | 0 <= i < |rf|
        ensures exists j :: 1 <= j < |xs| && keep(xs[j]) && rf[i] == f(xs[j]) && rg[i] == g(xs[j])
      {
        var j :| 0 <= j < |xs[1..]| && keep(xs[1..][j]) && rf[i] == f(xs[1..][j]) && rg[i] == g(xs[1..][j]);
        assert xs[1..][j] == xs[j + 1];
      }
      if keep(xs[0]) {
        forall i | 0 <= i < |rf| + 1
          ensures exists j ::
            0 <= j < |xs| && keep(xs[j]) && ([f(xs[0])] + rf)[i] == f(xs[j]) && ([g(xs[0])] + rg)[i] == g(xs[j])
        {
          if i == 0 {
            assert keep(xs[0]) && ([f(xs[0])] + rf)[0] == f(xs[0]) && ([g(xs[0])] + rg)[0] == g(xs[0]);
          } else {
            assert ([f(xs[0])] + rf)[i] == rf[i - 1] && ([g(xs[0])] + rg)[i] == rg[i - 1];
          }
        }
      }
    }
  }

  /** Python's order on strings: lexicographic by character code. */
  predicate StrLessEq(a: string, b: string)
    decreases |a|
  {
    |a| == 0 || (|b| > 0 && (a[0] < b[0] || (a[0] == b[0] && StrLessEq(a[1..], b[1..]))))
  }

  lemma {:induction false} StrLessEqTotal(a: string, b: string)
    ensures StrLessEq(a, b) || StrLessEq(b, a)
    decreases |a|
  {
    if |a| > 0 && |b| > 0 && a[0] == b[0] {
      StrLessEqTotal(a[1..], b[1..]);
    }
  }

  lemma {:induction false} StrLessEqAntisymmetric(a: string, b: string)
    requires StrLessEq(a, b) && StrLessEq(b, a)
    ensures a == b
    decreases |a|
  {
    if |a| > 0 {
      StrLessEqAntisymmetric(a[1..], b[1..]);
      assert a == [a[0]] + a[1..] && b == [b[0]] + b[1..];
    }
  }

  lemma {:induction false} StrLessEqTransitive(a: string, b: string, c: string)
    requires StrLessEq(a, b) && StrLessEq(b, c)
    ensures StrLessEq(a, c)
    decreases |a|
  {
    if |a| > 0 && a[0] == b[0] && b[0] == c[0] {
      StrLessEqTransitive(a[1..], b[1..], c[1..]);
    }
  }

  predicate SortedStrings(s: seq<string>) {
    forall i, j :: 0 <= i < j < |s| ==> StrLessEq(s[i], s[j])
  }

  /** `x` put into a sorted list after the elements that do not come after it. */
  function Insert(x: string, s: seq<string>): (r: seq<string>)
    requires SortedStrings(s)
    ensures SortedStrings(r)
    ensures multiset(r) == multiset(s) + multiset{x}
    decreases |s|
  {
    if |s| == 0 then [x]
    else if StrLessEq(x, s[0]) then
      var r := [x] + s;
      assert SortedStrings(r) by {
        forall i, j | 0 <= i < j < |r| ensures StrLessEq(r[i], r[j]) {
          if i == 0 && j > 1 { StrLessEqTransitive(x, s[0], s[j - 1]); }
        }
      }
      r
    else
      var t := Insert(x, s[1..]);
      assert s == [s[0]] + s[1..];
      assert SortedStrings([s[0]] + t) by {
        StrLessEqTotal(x, s[0]);
        forall j | 0 <= j < |t| ensures StrLessEq(s[0], t[j]) {
          assert t[j] in multiset(t);
          if t[j] != x {
            assert t[j] in multiset(s[1..]);
            var k :| 0 <= k < |s[1..]| && s[1..][k] == t[j];
            assert s[k + 1] == t[j];
          }
        }
      }
      [s[0]] + t
  }

  /** `sorted(xs)` on strings. */
  function SortStrings(s: seq<string>): (r: seq<string>)
    ensures SortedStrings(r)
    ensures multiset(r) == multiset(s)
    decreases |s|
  {
    if |s| == 0 then []
    else
      assert s == [s[0]] + s[1..];
      Insert(s[0], SortStrings(s[1..]))
  }

  /** Two sorted arrangements of the same non-empty collection start alike. */
  lemma SortedSameHead(a: seq<string>, b: seq<string>)
    requires SortedStrings(a) && SortedStrings(b)
    requires multiset(a) == multiset(b) && |a| > 0 && |b| > 0
    ensures a[0] == b[0]
  {
    assert a[0] in multiset(b) && b[0] in multiset(a);
    var i :| 0 <= i < |b| && b[i] == a[0];
    var j :| 0 <= j < |a| && a[j] == b[0];
    if a[0] != b[0] {
      assert StrLessEq(b[0], b[i]) && StrLessEq(a[0], a[j]);
      StrLessEqAntisymmetric(a[0], b[0]);
    }
  }

  lemma TailMultiset(a: seq<string>)
    requires |a| > 0
    ensures multiset(a[1..]) == multiset(a) - multiset{a[0]}
  {
    assert a == [a[0]] + a[1..];
  }

  /** There is only one sorted arrangement of a collection of strings. */
  lemma {:induction false} SortedUnique(a: seq<string>, b: seq<string>)
    requires SortedStrings(a) && SortedStrings(b)
    requires multiset(a) == multiset(b)
    ensures a == b
    decreases |a|
  {
    assert |a| == |multiset(a)| == |multiset(b)| == |b|;
    if |a| > 0 {
      SortedSameHead(a, b);
      TailMultiset(a);
      TailMultiset(b);
      SortedUnique(a[1..], b[1..]);
      assert a == [a[0]] + a[1..] && b == [b[0]] + b[1..];
    }
  }

  /** Ordered by an integer key. */
  predicate SortedBy<T>(s: seq<T>, key: T -> int) {
    forall i, j :: 0 <= i < j < |s| ==> key(s[i]) <= key(s[j])
  }

  /** `x` put into a list sorted by `key`, before the first element whose key is
      not smaller. */
  function InsertBy<T>(x: T, s: seq<T>, key: T -> int): (r: seq<T>)
    requires SortedBy(s, key)
    ensures SortedBy(r, key)
    ensures multiset(r) == multiset(s) + multiset{x}
    ensures r[0] == x || (|s| > 0 && r[0] == s[0])
    decreases |s|
  {
    if |s| == 0 || key(x) <= key(s[0]) then [x] + s
    else
      var t := InsertBy(x, s[1..], key);
      assert s == [s[0]] + s[1..];
      assert SortedBy([s[0]] + t, key) by {
        assert key(s[0]) <= key(t[0]);
        forall i, j | 0 <= i < j < |t| + 1 ensures key(([s[0]] + t)[i]) <= key(([s[0]] + t)[j]) {
          if i == 0 { assert key(t[0]) <= key(t[j - 1]) || j == 1; }
        }
      }
      [s[0]] + t
  }

  /** `sorted(xs, key=key)` by insertion: the result is ordered by key and holds
      the same elements. */
  function SortBy<T>(s: seq<T>, key: T -> int): (r: seq<T>)
    ensures SortedBy(r, key)
    ensures multiset(r) == multiset(s)
    ensures |r| == |s|
    decreases |s|
  {
    if |s| == 0 then []
    else
      assert s == [s[0]] + s[1..];
      var r := InsertBy(s[0], SortBy(s[1..], key), key);
      assert |r| == |multiset(r)| == |multiset(s)| == |s|;
      r
  }
}

=== FILE: commons_votes.dfy ===
/** Same-day Commons divisions from the Commons votes API
    (`votes/populate/commons_votes.py`): the public-whip style division id and the
    split of a division's member lists into one vote per member per list. */
module CommonsVotes {
  import opened Wrappers
  import opened Text
  import Dates
  import opened Consts

  /** `str(n)` for any integer. */
  function IntToString(n: int): (r: string)
    ensures n < 0 <==> |r| > 0 && r[0] == '-'
  {
    if n < 0 then "-" + NatToString(-n) else NatToString(n)
  }

  /** Different integers have different renderings. */
  lemma IntToStringInjective(a: int, b: int)
    requires IntToString(a) == IntToString(b)
    ensures a == b
  {
    if a < 0 {
      assert IntToString(a)[1..] == NatToString(-a);
      assert IntToString(b)[1..] == NatToString(-b);
      NatToStringInjective(-a, -b);
    } else {
      NatToStringInjective(a, b);
    }
  }

  const CommonsSuffix := "-commons"

  /** `Division.pw_division_id`: "pw-", the ISO date, "-", the division number,
      "-commons". */
  function PwDivisionId(date: Dates.Date, number: int): (r: string)
    requires Dates.Valid(date)
    ensures |r| == 14 + |IntToString(number)| + |CommonsSuffix|
    ensures r[..3] == "pw-" && r[3..13] == Dates.IsoFormat(date) && r[13] == '-'
    ensures r[14..|r| - |CommonsSuffix|] == IntToString(number)
    ensures r[|r| - |CommonsSuffix|..] == CommonsSuffix
  {
    var r := "pw-" + Dates.IsoFormat(date) + "-" + IntToString(number) + CommonsSuffix;
    FiveParts("pw-", Dates.IsoFormat(date), "-", IntToString(number), CommonsSuffix);
    r
  }

  /** Where each part of a five-part concatenation sits. */
  lemma FiveParts(a: string, b: string, c: string, d: string, e: string)
    ensures var r := a + b + c + d + e;
      var i, j, k, l := |a|, |a| + |b|, |a| + |b| + |c|, |a| + |b| + |c| + |d|;
      r[..i] == a && r[i..j] == b && r[j..k] == c && r[k..l] == d && r[l..] == e
  {
  }

  /** The id names its date and number: the date parses back from it, and two
      divisions share an id only when they share date and number. */
  lemma PwDivisionIdSpec(d1: Dates.Date, n1: int, d2: Dates.Date, n2: int)
    requires Dates.Valid(d1) && Dates.Valid(d2)
    ensures Dates.IsoShaped(PwDivisionId(d1, n1)[3..13]) && Dates.FromIso(PwDivisionId(d1, n1)[3..13]) == Some(d1)
    ensures PwDivisionId(d1, n1) == PwDivisionId(d2, n2) <==> d1 == d2 && n1 == n2
  {
    Dates.IsoRoundTrip(d1);
    Dates.IsoRoundTrip(d2);
    var a, b := PwDivisionId(d1, n1), PwDivisionId(d2, n2);
    if a == b {
      assert a[3..13] == b[3..13];
      assert |IntToString(n1)| == |a| - 14 - |CommonsSuffix| == |IntToString(n2)|;
      IntToStringInjective(n1, n2);
    }
  }

  /** The ids of a member, as the Popolo lookup returns them. */
  datatype PopoloIds = PopoloIds(personId: int, membershipId: int)

  datatype MiniVote = MiniVote(divisionId: string, membershipId: int, personId: int, vote: VotePosition)

  /** A division from the API; member lists hold MNIS ids, and the teller lists may
      be `None`. */
  datatype Division = Division(
    date: Dates.Date, number: int,
    ayes: seq<int>, noes: seq<int>, noVoteRecorded: seq<int>,
    ayeTellers: Option<seq<int>>, noTellers: Option<seq<int>>)

  /** The members of `xs` that are also in `ys`, in order. */
  function Common(xs: seq<int>, ys: seq<int>): (r: seq<int>)
    ensures forall x :: x in r <==> x in xs && x in ys
    decreases |xs|
  {
    if |xs| == 0 then []
    else
      assert forall x :: x in xs <==> x == xs[0] || x in xs[1..];
      (if xs[0] in ys then [xs[0]] else []) + Common(xs[1..], ys)
  }

  /** The members of `xs` not in `ys`, in order. */
  function Without(xs: seq<int>, ys: seq<int>): (r: seq<int>)
    ensures forall x :: x in r <==> x in xs && x !in ys
    ensures |r| <= |xs|
    decreases |xs|
  {
    if |xs| == 0 then []
    else
      assert forall x :: x in xs <==> x == xs[0] || x in xs[1..];
      (if xs[0] !in ys then [xs[0]] else []) + Without(xs[1..], ys)
  }

  /** Without anything to remove, a list is unchanged. */
  lemma {:induction false} WithoutNothing(xs: seq<int>)
    ensures Without(xs, []) == xs
    decreases |xs|
  {
    if |xs| > 0 {
      WithoutNothing(xs[1..]);
      assert xs == [xs[0]] + xs[1..];
    }
  }

  /** A teller list, empty when missing or empty. */
  function Tellers(t: Option<seq<int>>): seq<int> {
    if t.Some? && |t.value| > 0 then t.value else []
  }

  /** The lists of `to_mini_votes` with their positions, in order: ayes and noes
      without the members in both, the members with no vote recorded, the two
      teller lists, and the members in both as abstentions. */
  function Mappings(d: Division): (r: seq<(seq<int>, VotePosition)>)
    ensures |r| == 6
    ensures r[0].1 == Aye && r[1].1 == No && r[2].1 == Absent && r[3].1 == TellAye && r[4].1 == TellNo && r[5].1 == Abstain
  {
    var both := Common(d.ayes, d.noes);
    var yes := if |both| > 0 then Without(d.ayes, both) else d.ayes;
    var no := if |both| > 0 then Without(d.noes, both) else d.noes;
    [(yes, Aye), (no, No), (d.noVoteRecorded, Absent),
     (Tellers(d.ayeTellers), TellAye), (Tellers(d.noTellers), TellNo), (both, Abstain)]
  }

  /** A member on both sides votes on neither and abstains instead; everyone else
      keeps their side; a missing teller list is empty. */
  lemma MappingsSpec(d: Division)
    ensures forall x :: x in Mappings(d)[5].0 <==> x in d.ayes && x in d.noes
    ensures forall x :: x in Mappings(d)[0].0 <==> x in d.ayes && x !in d.noes
    ensures forall x :: x in Mappings(d)[1].0 <==> x in d.noes && x !in d.ayes
    ensures d.ayeTellers.None? ==> Mappings(d)[3].0 == []
    ensures d.noTellers.None? ==> Mappings(d)[4].0 == []
    ensures d.ayeTellers.Some? ==> Mappings(d)[3].0 == d.ayeTellers.value
    ensures d.noTellers.Some? ==> Mappings(d)[4].0 == d.noTellers.value
  {
  }

  /** The votes of one list: one per id, in order, each with the member's Popolo
      ids; a member the lookup does not know raises ValueError. */
  function Emit(ids: seq<int>, pos: VotePosition, divisionId: string, popolo: map<int, PopoloIds>): (r: Result<seq<MiniVote>, Error>)
    ensures r.Success? <==> forall i :: 0 <= i < |ids| ==> ids[i] in popolo
    ensures r.Success? ==> |r.value| == |ids| && forall i :: 0 <= i < |ids| ==>
      r.value[i] == MiniVote(divisionId, popolo[ids[i]].membershipId, popolo[ids[i]].personId, pos)
    decreases |ids|
  {
    if |ids| == 0 then Success([])
    else if ids[0] !in popolo then Failure(ValueError("Person not in chamber on division date"))
    else
      var rest := Emit(ids[1..], pos, divisionId, popolo);
      assert forall i :: 1 <= i < |ids| ==> ids[i] == ids[1..][i - 1];
      if rest.Failure? then rest
      else
        var ps := popolo[ids[0]];
        Success([MiniVote(divisionId, ps.membershipId, ps.personId, pos)] + rest.value)
  }

  /** Whether every id of every list is known to the lookup. */
  predicate AllKnown(ms: seq<(seq<int>, VotePosition)>, popolo: map<int, PopoloIds>) {
    forall k, i :: 0 <= k < |ms| && 0 <= i < |ms[k].0| ==> ms[k].0[i] in popolo
  }

  /** Every list is known exactly when the first one and all the others are. */
  lemma AllKnownCons(ms: seq<(seq<int>, VotePosition)>, popolo: map<int, PopoloIds>)
    requires |ms| > 0
    ensures AllKnown(ms, popolo) <==>
      (forall i :: 0 <= i < |ms[0].0| ==> ms[0].0[i] in popolo) && AllKnown(ms[1..], popolo)
  {
    assert forall k :: 1 <= k < |ms| ==> ms[k] == ms[1..][k - 1];
  }

  /** The total length of the lists. */
  function TotalIds(ms: seq<(seq<int>, VotePosition)>): nat
    decreases |ms|
  {
    if |ms| == 0 then 0 else |ms[0].0| + TotalIds(ms[1..])
  }

  /** The number of ids in the lists of position `p`. */
  function IdsAt(ms: seq<(seq<int>, VotePosition)>, p: VotePosition): nat
    decreases |ms|
  {
    if |ms| == 0 then 0 else (if ms[0].1 == p then |ms[0].0| else 0) + IdsAt(ms[1..], p)
  }

  /** The number of votes with position `p`. */
  function VotesAt(vs: seq<MiniVote>, p: VotePosition): nat
    decreases |vs|
  {
    if |vs| == 0 then 0 else (if vs[0].vote == p then 1 else 0) + VotesAt(vs[1..], p)
  }

  lemma {:induction false} VotesAtConcat(a: seq<MiniVote>, b: seq<MiniVote>, p: VotePosition)
    ensures VotesAt(a + b, p) == VotesAt(a, p) + VotesAt(b, p)
    decreases |a|
  {
    if |a| == 0 {
      assert a + b == b;
    } else {
      VotesAtConcat(a[1..], b, p);
      assert (a + b)[0] == a[0];
      assert (a + b)[1..] == a[1..] + b;
    }
  }

  lemma {:induction false} VotesAtOneList(vs: seq<MiniVote>, q: VotePosition, p: VotePosition)
    requires forall i :: 0 <= i < |vs| ==> vs[i].vote == q
    ensures VotesAt(vs, p) == if p == q then |vs| else 0
    decreases |vs|
  {
    if |vs| > 0 {
      VotesAtOneList(vs[1..], q, p);
    }
  }

  /** Each id of a list paired with the list's position. */
  function Pairs(ids: seq<int>, pos: VotePosition): (r: seq<(int, VotePosition)>)
    ensures |r| == |ids| && forall i :: 0 <= i < |ids| ==> r[i] == (ids[i], pos)
  {
    seq(|ids|, i requires 0 <= i < |ids| => (ids[i], pos))
  }

  /** The (id, position) pairs of all the lists, list after list, each list in its
      own order: the order the nested loop of `to_mini_votes` visits them in. */
  function Flat(ms: seq<(seq<int>, VotePosition)>): (r: seq<(int, VotePosition)>)
    ensures |r| == TotalIds(ms)
    decreases |ms|
  {
    if |ms| == 0 then [] else Pairs(ms[0].0, ms[0].1) + Flat(ms[1..])
  }

  /** A pair is visited exactly when its id is on some list of its position. */
  lemma {:induction false} FlatMember(ms: seq<(seq<int>, VotePosition)>, x: int, p: VotePosition)
    ensures (x, p) in Flat(ms) <==> exists k :: 0 <= k < |ms| && ms[k].1 == p && x in ms[k].0
    decreases |ms|
  {
    if |ms| > 0 {
      FlatMember(ms[1..], x, p);
      var h := Pairs(ms[0].0, ms[0].1);
      assert (x, p) in h <==> ms[0].1 == p && x in ms[0].0 by {
        if (x, p) in h {
          var i :| 0 <= i < |h| && h[i] == (x, p);
          assert ms[0].0[i] == x;
        }
        if ms[0].1 == p && x in ms[0].0 {
          var i :| 0 <= i < |ms[0].0| && ms[0].0[i] == x;
          assert h[i] == (x, p);
        }
      }
      assert (x, p) in Flat(ms) <==> (x, p) in h || (x, p) in Flat(ms[1..]);
      if (exists k :: 1 <= k < |ms| && ms[k].1 == p && x in ms[k].0) {
        var k :| 1 <= k < |ms| && ms[k].1 == p && x in ms[k].0;
        assert ms[1..][k - 1] == ms[k];
      }
      if (exists k :: 0 <= k < |ms[1..]| && ms[1..][k].1 == p && x in ms[1..][k].0) {
        var k :| 0 <= k < |ms[1..]| && ms[1..][k].1 == p && x in ms[1..][k].0;
        assert ms[1..][k] == ms[k + 1];
      }
    }
  }

  /** `vs` holds one vote per visited pair, in order, with that member's Popolo ids. */
  predicate VotesOf(vs: seq<MiniVote>, pairs: seq<(int, VotePosition)>, divisionId: string, popolo: map<int, PopoloIds>) {
    |vs| == |pairs| && forall i :: 0 <= i < |vs| ==>
      (pairs[i].0 in popolo
       && vs[i] == MiniVote(divisionId, popolo[pairs[i].0].membershipId, popolo[pairs[i].0].personId, pairs[i].1))
  }

  lemma VotesOfConcat(a: seq<MiniVote>, b: seq<MiniVote>, pa: seq<(int, VotePosition)>, pb: seq<(int, VotePosition)>,
                      divisionId: string, popolo: map<int, PopoloIds>)
    requires VotesOf(a, pa, divisionId, popolo) && VotesOf(b, pb, divisionId, popolo)
    ensures VotesOf(a + b, pa + pb, divisionId, popolo)
  {
    forall i | 0 <= i < |a + b|
      ensures (pa + pb)[i].0 in popolo && (a + b)[i] == MiniVote(divisionId, popolo[(pa + pb)[i].0].membershipId,
                                                                  popolo[(pa + pb)[i].0].personId, (pa + pb)[i].1)
    {
      if i < |a| {
        assert (a + b)[i] == a[i] && (pa + pb)[i] == pa[i];
      } else {
        assert (a + b)[i] == b[i - |a|] && (pa + pb)[i] == pb[i - |a|];
      }
    }
  }

  /** The votes of all the lists, in list order. */
  function EmitAll(ms: seq<(seq<int>, VotePosition)>, divisionId: string, popolo: map<int, PopoloIds>): (r: Result<seq<MiniVote>, Error>)
    ensures r.Success? <==> AllKnown(ms, popolo)
    ensures r.Success? ==> |r.value| == TotalIds(ms)
    ensures r.Success? ==> forall p :: VotesAt(r.value, p) == IdsAt(ms, p)
    ensures r.Success? ==> forall i :: 0 <= i < |r.value| ==> r.value[i].divisionId == divisionId
    // vote i is the i-th visited pair's, with that member's Popolo ids
    ensures r.Success? ==> VotesOf(r.value, Flat(ms), divisionId, popolo)
    decreases |ms|
  {
    if |ms| == 0 then Success([])
    else
      AllKnownCons(ms, popolo);
      var head := Emit(ms[0].0, ms[0].1, divisionId, popolo);
      if head.Failure? then head
      else
        var rest := EmitAll(ms[1..], divisionId, popolo);
        if rest.Failure? then rest
        else
          EmitAllJoin(ms, divisionId, popolo, head.value, rest.value);
          Success(head.value + rest.value)
  }

  /** The first list's votes followed by the rest's are the votes of all the lists. */
  lemma EmitAllJoin(ms: seq<(seq<int>, VotePosition)>, divisionId: string, popolo: map<int, PopoloIds>,
                    head: seq<MiniVote>, rest: seq<MiniVote>)
    requires |ms| > 0
    requires Emit(ms[0].0, ms[0].1, divisionId, popolo) == Success(head)
    requires forall p :: VotesAt(rest, p) == IdsAt(ms[1..], p)
    requires VotesOf(rest, Flat(ms[1..]), divisionId, popolo)
    ensures forall p :: VotesAt(head + rest, p) == IdsAt(ms, p)
    ensures VotesOf(head + rest, Flat(ms), divisionId, popolo)
    ensures forall i :: 0 <= i < |head + rest| ==> (head + rest)[i].divisionId == divisionId
  {
    forall p ensures VotesAt(head + rest, p) == IdsAt(ms, p) {
      VotesAtConcat(head, rest, p);
      VotesAtOneList(head, ms[0].1, p);
    }
    assert VotesOf(head, Pairs(ms[0].0, ms[0].1), divisionId, popolo);
    VotesOfConcat(head, rest, Pairs(ms[0].0, ms[0].1), Flat(ms[1..]), divisionId, popolo);
  }

  /** `Division.to_mini_votes`: one vote per id per list. When every member is
      known, each position gets as many votes as its list has ids, all under the
      division's id; otherwise the conversion raises. */
  function ToMiniVotes(d: Division, popolo: map<int, PopoloIds>): (r: Result<seq<MiniVote>, Error>)
    requires Dates.Valid(d.date)
    ensures r.Success? <==> AllKnown(Mappings(d), popolo)
    ensures r.Success? ==>
      var vs := r.value;
      var ms := Mappings(d);
      VotesAt(vs, Aye) == |ms[0].0| && VotesAt(vs, No) == |ms[1].0| && VotesAt(vs, Absent) == |ms[2].0|
      && VotesAt(vs, TellAye) == |ms[3].0| && VotesAt(vs, TellNo) == |ms[4].0| && VotesAt(vs, Abstain) == |ms[5].0|
      && VotesAt(vs, Collective) == 0
      && forall i :: 0 <= i < |vs| ==> vs[i].divisionId == PwDivisionId(d.date, d.number)
    // vote i is the i-th (member, position) pair of the mappings, with the member's Popolo ids
    ensures r.Success? ==>
      var fl := Flat(Mappings(d));
      |r.value| == |fl| && forall i :: 0 <= i < |r.value| ==>
        (fl[i].0 in popolo
         && r.value[i] == MiniVote(PwDivisionId(d.date, d.number), popolo[fl[i].0].membershipId, popolo[fl[i].0].personId, fl[i].1))
  {
    var ms := Mappings(d);
    MappingCounts(ms);
    EmitAll(ms, PwDivisionId(d.date, d.number), popolo)
  }

  /** The six mappings count each of their positions once, and never a collective vote. */
  lemma MappingCounts(ms: seq<(seq<int>, VotePosition)>)
    requires |ms| == 6
    requires forall a, b :: 0 <= a < b < |ms| ==> ms[a].1 != ms[b].1
    requires forall k :: 0 <= k < |ms| ==> ms[k].1 != Collective
    ensures forall k :: 0 <= k < 6 ==> IdsAt(ms, ms[k].1) == |ms[k].0|
    ensures IdsAt(ms, Collective) == 0
  {
    forall k | 0 <= k < 6 ensures IdsAt(ms, ms[k].1) == |ms[k].0| {
      IdsAtDistinct(ms, k);
    }
    IdsAtMissing(ms, Collective);
  }

  /** With positions all different, the ids at a list's position are that list's. */
  lemma {:induction false} IdsAtDistinct(ms: seq<(seq<int>, VotePosition)>, k: int)
    requires 0 <= k < |ms|
    requires forall a, b :: 0 <= a < b < |ms| ==> ms[a].1 != ms[b].1
    ensures IdsAt(ms, ms[k].1) == |ms[k].0|
    decreases |ms|
  {
    if k == 0 {
      IdsAtMissing(ms[1..], ms[0].1);
    } else {
      IdsAtDistinct(ms[1..], k - 1);
    }
  }

  /** A position no list has gets no ids. */
  lemma {:induction false} IdsAtMissing(ms: seq<(seq<int>, VotePosition)>, p: VotePosition)
    requires forall a :: 0 <= a < |ms| ==> ms[a].1 != p
    ensures IdsAt(ms, p) == 0
    decreases |ms|
  {
    if |ms| > 0 {
      IdsAtMissing(ms[1..], p);
    }
  }

  /** Which position a member's vote is emitted under: a member on both sides only
      as an abstention, any other aye or no member on their own side, and every
      member with no vote recorded as absent. */
  lemma MemberPositions(d: Division, x: int)
    ensures (x, Abstain) in Flat(Mappings(d)) <==> x in d.ayes && x in d.noes
    ensures (x, Aye) in Flat(Mappings(d)) <==> x in d.ayes && x !in d.noes
    ensures (x, No) in Flat(Mappings(d)) <==> x in d.noes && x !in d.ayes
    ensures (x, Absent) in Flat(Mappings(d)) <==> x in d.noVoteRecorded
  {
    var ms := Mappings(d);
    MappingsSpec(d);
    FlatMember(ms, x, Abstain);
    FlatMember(ms, x, Aye);
    FlatMember(ms, x, No);
    FlatMember(ms, x, Absent);
  }
}

=== FILE: consts.dfy ===
/** The enumerations shared by the whole system (`votes/consts.py`): chambers,
    vote positions and their integer codes, policy directions and strengths,
    motion types, the powers analysis and the policy issue types. */
module Consts {
  import opened Wrappers
  import opened Text

  datatype PolicyStrength = Weak | Strong

  function StrengthValue(s: PolicyStrength): string {
    match s
    case Weak => "weak"
    case Strong => "strong"
  }

  /** How a motion relates to a policy: if an AGREE motion passes, that is good for the policy. */
  datatype PolicyDirection = Agree | Against | Neutral

  function DirectionValue(d: PolicyDirection): string {
    match d
    case Agree => "agree"
    case Against => "against"
    case Neutral => "neutral"
  }

  datatype ChamberSlug = Commons | Lords | Scotland | Wales | NI | OtherChamber

  function ChamberValue(c: ChamberSlug): string {
    match c
    case Commons => "commons"
    case Lords => "lords"
    case Scotland => "scotland"
    case Wales => "senedd"
    case NI => "ni"
    case OtherChamber => "other"
  }

  /** `ChamberSlug(value)`: the chamber whose slug is `s`, if any. */
  function ChamberFromValue(s: string): (r: Option<ChamberSlug>)
    ensures r.Some? ==> ChamberValue(r.value) == s
    ensures r.None? ==> forall c :: ChamberValue(c) != s
  {
    if s == "commons" then Some(Commons)
    else if s == "lords" then Some(Lords)
    else if s == "scotland" then Some(Scotland)
    else if s == "senedd" then Some(Wales)
    else if s == "ni" then Some(NI)
    else if s == "other" then Some(OtherChamber)
    else None
  }

  /** The parlparse organisation ids of the five chambers that have one. */
  function ParlparseChamber(p: string): Option<ChamberSlug> {
    if p == "house-of-commons" then Some(Commons)
    else if p == "house-of-lords" then Some(Lords)
    else if p == "scottish-parliament" then Some(Scotland)
    else if p == "welsh-parliament" then Some(Wales)
    else if p == "northern-ireland-assembly" then Some(NI)
    else None
  }

  /** `ChamberSlug.from_parlparse`: a known parlparse id becomes its chamber slug;
      an unknown one is returned unchanged with `passthrough`, and raises without it. */
  function FromParlparse(p: string, passthrough: bool): (r: Result<string, Error>)
    ensures ParlparseChamber(p).Some? ==> r == Success(ChamberValue(ParlparseChamber(p).value))
    ensures ParlparseChamber(p).None? && passthrough ==> r == Success(p)
    ensures r.Failure? <==> ParlparseChamber(p).None? && !passthrough
  {
    match ParlparseChamber(p)
    case Some(c) => Success(ChamberValue(c))
    case None => if passthrough then Success(p) else Failure(ValueError("Unknown parlparse chamber " + p))
  }

  /** No parlparse id maps to the catch-all "other" chamber, and distinct known ids
      map to distinct chambers. */
  lemma ParlparseNeverOther(p: string, q: string)
    ensures ParlparseChamber(p) != Some(OtherChamber)
    ensures ParlparseChamber(p).Some? && ParlparseChamber(p) == ParlparseChamber(q) ==> p == q
  {
  }

  datatype VotePosition = Aye | No | Abstain | Absent | TellNo | TellAye | Collective

  /** The `VotePosition` integer codes: 1 to 7, one per position, each the code
      the integer-to-text macro reads back as the position's `StrVotePosition`. */
  function Code(v: VotePosition): (r: int)
    ensures 1 <= r <= 7
    ensures IntToStrVotePosition(r) == Some(PositionValue(v))
    ensures StrToIntVotePosition(PositionValue(v)) == Some(r)
  {
    match v
    case Aye => 1
    case No => 2
    case Abstain => 3
    case Absent => 4
    case TellNo => 5
    case TellAye => 6
    case Collective => 7
  }

  /** The `StrVotePosition` values. */
  function PositionValue(v: VotePosition): string {
    match v
    case Aye => "aye"
    case No => "no"
    case Abstain => "abstain"
    case Absent => "absent"
    case TellNo => "tellno"
    case TellAye => "tellaye"
    case Collective => "collective"
  }

  /** The `str_to_int_vote_position` SQL macro; NULL is `None`. */
  function StrToIntVotePosition(s: string): Option<int> {
    if s == "aye" then Some(1)
    else if s == "no" then Some(2)
    else if s == "abstain" then Some(3)
    else if s == "absent" then Some(4)
    else if s == "tellno" then Some(5)
    else if s == "tellaye" then Some(6)
    else if s == "collective" then Some(7)
    else None
  }

  /** The `int_to_str_vote_position` SQL macro; NULL is `None`. */
  function IntToStrVotePosition(n: int): Option<string> {
    if n == 1 then Some("aye")
    else if n == 2 then Some("no")
    else if n == 3 then Some("abstain")
    else if n == 4 then Some("absent")
    else if n == 5 then Some("tellno")
    else if n == 6 then Some("tellaye")
    else if n == 7 then Some("collective")
    else None
  }

  /** The two SQL macros agree with the enumerations and invert each other: every
      position's code maps to its string and back, exactly the codes 1..7 have a
      string, and whatever string a code maps to maps back to that code. */
  lemma VoteCodesInvert(v: VotePosition, n: int, s: string)
    ensures IntToStrVotePosition(Code(v)) == Some(PositionValue(v))
    ensures StrToIntVotePosition(PositionValue(v)) == Some(Code(v))
    ensures IntToStrVotePosition(n).Some? <==> 1 <= n <= 7
    ensures IntToStrVotePosition(n) == Some(s) <==> StrToIntVotePosition(s) == Some(n)
  {
  }

  datatype MotionType =
    | Amendment | TenMinuteRule | LordsAmendment | FirstStage | SecondStage
    | SecondStageCommittee | CommiteeClause | AddClauseToBill | ThirdStage | Closure
    | Programme | ApproveStatutoryInstrument | RevokeStatutoryInstrument | Adjournment
    | TimetableChange | HumbleAddress | GovernmentAgenda | Financial | Confidence
    | StandingOrderChange | PrivateSitting | EuDocumentScrutiny | OtherMotion
    | ProposedClause | BillIntroduction | UnknownMotion | ReasonedAmendment | ReasonsCommittee

  function MotionValue(m: MotionType): string {
    match m
    case Amendment => "amendment"
    case TenMinuteRule => "ten_minute_rule"
    case LordsAmendment => "lords_amendment"
    case FirstStage => "first_stage"
    case SecondStage => "second_stage"
    case SecondStageCommittee => "second_stage_committee"
    case CommiteeClause => "committee_clause"
    case AddClauseToBill => "add_clause_to_bill"
    case ThirdStage => "third_stage"
    case Closure => "closure"
    case Programme => "programme"
    case ApproveStatutoryInstrument => "approve_statutory_instrument"
    case RevokeStatutoryInstrument => "revoke_statutory_instrument"
    case Adjournment => "adjournment"
    case TimetableChange => "timetable_change"
    case HumbleAddress => "humble_address"
    case GovernmentAgenda => "government_agenda"
    case Financial => "financial"
    case Confidence => "confidence"
    case StandingOrderChange => "standing_order_change"
    case PrivateSitting => "private_sitting"
    case EuDocumentScrutiny => "eu_document_scrutiny"
    case OtherMotion => "other"
    case ProposedClause => "proposed_clause"
    case BillIntroduction => "bill_introduction"
    case UnknownMotion => "unknown"
    case ReasonedAmendment => "reasoned_amendment"
    case ReasonsCommittee => "reasons_committee"
  }

  /** `MotionType.url_slug`: the value with every underscore turned into a hyphen
      and nothing else changed. */
  function UrlSlug(m: MotionType): (r: string)
    ensures |r| == |MotionValue(m)|
    ensures forall i :: 0 <= i < |MotionValue(m)| ==>
      r[i] == (if MotionValue(m)[i] == '_' then '-' else MotionValue(m)[i])
    ensures forall i :: 0 <= i < |r| ==> r[i] != '_'
  {
    ReplaceCharPointwise(MotionValue(m), '_', '-');
    ReplaceAll(MotionValue(m), "_", "-")
  }

  /** `MotionType.display_name`: underscores become spaces, the first letter of
      each word is upper-cased and the letters after it lower-cased. */
  function DisplayName(m: MotionType): (r: string)
    ensures |r| == |MotionValue(m)|
    ensures forall i :: 0 <= i < |MotionValue(m)| ==>
      r[i]
        == (if MotionValue(m)[i] == '_' then ' '
            else if i == 0 || !IsLetter(MotionValue(m)[i - 1]) then UpperChar(MotionValue(m)[i])
            else LowerChar(MotionValue(m)[i]))
  {
    DisplayText(MotionValue(m))
  }

  /** `Title(v.replace("_", " "))` for any value. */
  function DisplayText(v: string): (r: string)
    ensures |r| == |v|
    ensures forall i :: 0 <= i < |v| ==>
      r[i]
        == (if v[i] == '_' then ' '
            else if i == 0 || !IsLetter(v[i - 1]) then UpperChar(v[i])
            else LowerChar(v[i]))
  {
    DisplayTextSpec(v);
    Title(ReplaceAll(v, "_", " "))
  }

  /** Underscores to spaces, then title case, character by character. */
  lemma DisplayTextSpec(v: string)
    ensures |Title(ReplaceAll(v, "_", " "))| == |v|
    ensures forall i :: 0 <= i < |v| ==>
      Title(ReplaceAll(v, "_", " "))[i]
        == (if v[i] == '_' then ' '
            else if i == 0 || !IsLetter(v[i - 1]) then UpperChar(v[i])
            else LowerChar(v[i]))
  {
    ReplaceCharPointwise(v, '_', ' ');
    var spaced := ReplaceAll(v, "_", " ");
    TitleAfterPointwise(spaced, false);
  }

  datatype PowersAnalysis = UsesPowers | DoesNotUsePowers | InsufficentInfo

  /** `PowersAnalysis.simple`: True, False or None. */
  function Simple(p: PowersAnalysis): (r: Option<bool>)
    ensures r == Some(true) <==> p == UsesPowers
    ensures r == Some(false) <==> p == DoesNotUsePowers
    ensures r.None? <==> p == InsufficentInfo
  {
    match p
    case UsesPowers => Some(true)
    case DoesNotUsePowers => Some(false)
    case InsufficentInfo => None
  }

  /** `PowersAnalysis.simple_str` */
  function SimpleStr(p: PowersAnalysis): (r: string)
    ensures r == "Yes" <==> Simple(p) == Some(true)
    ensures r == "No" <==> Simple(p) == Some(false)
    ensures r == "Unknown" <==> Simple(p).None?
  {
    match Simple(p)
    case Some(true) => "Yes"
    case Some(false) => "No"
    case None => "Unknown"
  }

  /** `simple` loses no information: each analysis has its own answer. */
  lemma SimpleInjective(p: PowersAnalysis, q: PowersAnalysis)
    ensures Simple(p) == Simple(q) ==> p == q
    ensures SimpleStr(p) == SimpleStr(q) ==> p == q
  {
  }

  datatype IssueType =
    | StrongWithoutPower | NoStrongVotes | NoStrongVotesAfterPowerChange
    | StrongVoteGovAgenda | OnlyOneStrongVote

  function IssueValue(i: IssueType): string {
    match i
    case StrongWithoutPower => "strong_without_power"
    case NoStrongVotes => "no_strong_votes"
    case NoStrongVotesAfterPowerChange => "no_strong_votes_after_power_change"
    case StrongVoteGovAgenda => "strong_vote_gov_agenda"
    case OnlyOneStrongVote => "only_one_strong_vote"
  }
}

=== FILE: dates.dfy ===
/** Calendar dates as Python's `datetime.date`: validity, ordering and the
    ISO-8601 text form `YYYY-MM-DD` produced by `isoformat()`. */
module Dates {
  import opened Wrappers
  import opened Text

  datatype Date = Date(year: int, month: int, day: int)

  predicate IsLeap(y: int) { (y % 4 == 0 && y % 100 != 0) || y % 400 == 0 }

  function DaysInMonth(y: int, m: int): int {
    if m == 2 then (if IsLeap(y) then 29 else 28)
    else if m == 4 || m == 6 || m == 9 || m == 11 then 30
    else 31
  }

  /** The dates `datetime.date` can represent. */
  predicate Valid(d: Date) {
    1 <= d.year <= 9999 && 1 <= d.month <= 12 && 1 <= d.day <= DaysInMonth(d.year, d.month)
  }

  /** Chronological order. */
  predicate LessEq(a: Date, b: Date) {
    a.year < b.year
    || (a.year == b.year && (a.month < b.month || (a.month == b.month && a.day <= b.day)))
  }

  lemma LessEqTotal(a: Date, b: Date)
    ensures LessEq(a, b) || LessEq(b, a)
    ensures LessEq(a, b) && LessEq(b, a) ==> a == b
  {
  }

  lemma LessEqTrans(a: Date, b: Date, c: Date)
    requires LessEq(a, b) && LessEq(b, c)
    ensures LessEq(a, c)
  {
  }

  /** The later of two dates. */
  function Max(a: Date, b: Date): (r: Date)
    ensures r == a || r == b
    ensures LessEq(a, r) && LessEq(b, r)
  {
    if LessEq(a, b) then b else a
  }

  /** `n` written with exactly `width` decimal digits, zero padded. */
  function Padded(n: nat, width: nat): (r: string)
    ensures |r| == width && AllDigits(r)
    decreases width
  {
    if width == 0 then "" else Padded(n / 10, width - 1) + [DigitChar(n % 10)]
  }

  function Pow10(k: nat): nat
    ensures Pow10(k) >= 1
  {
    if k == 0 then 1 else 10 * Pow10(k - 1)
  }

  /** Reading back a zero-padded rendering gives the number when it fits the width. */
  lemma {:induction false} PaddedValue(n: nat, width: nat)
    requires n < Pow10(width)
    ensures DigitsValue(Padded(n, width)) == n
    decreases width
  {
    if width > 0 {
      var r := Padded(n, width);
      assert r[..|r| - 1] == Padded(n / 10, width - 1);
      PaddedValue(n / 10, width - 1);
    }
  }

  /** Padding the value of a digit string to its own length gives the string back. */
  lemma {:induction false} ValuePadded(s: string)
    requires AllDigits(s)
    ensures DigitsValue(s) < Pow10(|s|)
    ensures Padded(DigitsValue(s), |s|) == s
    decreases |s|
  {
    if |s| > 0 {
      var init := s[..|s| - 1];
      ValuePadded(init);
      var v := DigitsValue(s);
      var c := s[|s| - 1] as int - '0' as int;
      assert v == DigitsValue(init) * 10 + c;
      assert v / 10 == DigitsValue(init) && v % 10 == c;
      assert s == init + [s[|s| - 1]];
    }
  }

  /** `date.isoformat()` */
  function IsoFormat(d: Date): (r: string)
    requires Valid(d)
    ensures |r| == 10 && r[4] == '-' && r[7] == '-'
  {
    Padded(d.year, 4) + "-" + Padded(d.month, 2) + "-" + Padded(d.day, 2)
  }

  /** The shape `\d{4}-\d{2}-\d{2}`, matched against the whole text. */
  predicate IsoShaped(s: string) {
    |s| == 10 && s[4] == '-' && s[7] == '-'
    && AllDigits(s[..4]) && AllDigits(s[5..7]) && AllDigits(s[8..])
  }

  /** `date.fromisoformat` on text of the ISO shape: the date it names, or a
      ValueError when the fields are out of range (month 13, 30 February, year 0). */
  function FromIso(s: string): (r: Option<Date>)
    requires IsoShaped(s)
    ensures r.Some? ==> Valid(r.value)
    ensures r.None? <==> !Valid(Date(DigitsValue(s[..4]), DigitsValue(s[5..7]), DigitsValue(s[8..])))
  {
    var d := Date(DigitsValue(s[..4]), DigitsValue(s[5..7]), DigitsValue(s[8..]));
    if Valid(d) then Some(d) else None
  }

  /** The ISO rendering of a valid date has the ISO shape and parses back to it. */
  lemma IsoRoundTrip(d: Date)
    requires Valid(d)
    ensures IsoShaped(IsoFormat(d))
    ensures FromIso(IsoFormat(d)) == Some(d)
  {
    var s := IsoFormat(d);
    assert s[..4] == Padded(d.year, 4);
    assert s[5..7] == Padded(d.month, 2);
    assert s[8..] == Padded(d.day, 2);
    PaddedValue(d.year, 4);
    PaddedValue(d.month, 2);
    PaddedValue(d.day, 2);
  }

  /** The ISO rendering is made of digits and the two dashes only. */
  lemma IsoChars(d: Date)
    requires Valid(d)
    ensures forall i :: 0 <= i < 10 ==> IsoFormat(d)[i] == '-' || IsDigit(IsoFormat(d)[i])
  {
    IsoRoundTrip(d);
    var s := IsoFormat(d);
    assert forall i :: 0 <= i < 4 ==> s[i] == s[..4][i];
    assert forall i :: 5 <= i < 7 ==> s[i] == s[5..7][i - 5];
    assert forall i :: 8 <= i < 10 ==> s[i] == s[8..][i - 8];
  }

  /** Text accepted by the parser is exactly the ISO rendering of what it parses to. */
  lemma IsoCanonical(s: string)
    requires IsoShaped(s) && FromIso(s).Some?
    ensures IsoFormat(FromIso(s).value) == s
  {
    ValuePadded(s[..4]);
    ValuePadded(s[5..7]);
    ValuePadded(s[8..]);
    assert s == s[..4] + "-" + s[5..7] + "-" + s[8..];
  }
}

=== FILE: detector.dfy ===
/** The phrase detector (`twfy_votes/helpers/detector.py`): a list of criteria
    combined with "or" or "and" and tested against a lower-cased, stripped text.
    A compiled regular expression is modelled by its search function. */
module Detector {
  import opened Text

  datatype Operator = Or | And

  /** A criterion: a phrase, a regular expression, a complex phrase, a nested
      detector, or any other check on the text. */
  datatype Criterion =
    | Phrase(phrase: string)
    | Pattern(search: string -> bool)
    | Complex(positive: PhraseDetector, negative: PhraseDetector)
    | Nested(detector: PhraseDetector)
    | Check(check: string -> bool)

  datatype PhraseDetector = PhraseDetector(criteria: seq<Criterion>, operator: Operator)

  /** The `ensure_lower` validator: phrases are lower-cased, other criteria kept. */
  function LowerCriteria(cs: seq<Criterion>): (r: seq<Criterion>)
    ensures |r| == |cs|
    ensures forall i :: 0 <= i < |cs| ==>
      r[i] == (if cs[i].Phrase? then Phrase(Lower(cs[i].phrase)) else cs[i])
  {
    seq(|cs|, i requires 0 <= i < |cs| => if cs[i].Phrase? then Phrase(Lower(cs[i].phrase)) else cs[i])
  }

  /** A detector as built: its phrases lower-cased. */
  function Make(criteria: seq<Criterion>, operator: Operator): (r: PhraseDetector)
    ensures r.operator == operator && |r.criteria| == |criteria|
    // every phrase is kept, lower-cased; every other criterion is kept as is
    ensures forall i :: 0 <= i < |criteria| ==>
      r.criteria[i].Phrase? == criteria[i].Phrase? &&
      (criteria[i].Phrase? ==> r.criteria[i].phrase == Lower(criteria[i].phrase)) &&
      (!criteria[i].Phrase? ==> r.criteria[i] == criteria[i])
  {
    PhraseDetector(LowerCriteria(criteria), operator)
  }

  /** Building a detector again from built criteria changes nothing. */
  lemma MakeIdempotent(criteria: seq<Criterion>, operator: Operator)
    ensures Make(Make(criteria, operator).criteria, operator) == Make(criteria, operator)
  {
    var r := Make(criteria, operator);
    forall i | 0 <= i < |criteria| && criteria[i].Phrase?
      ensures LowerCriteria(r.criteria)[i] == r.criteria[i]
    {
      LowerIdempotent(criteria[i].phrase);
    }
  }

  /** `process_text` */
  function ProcessText(text: string): string {
    Strip(Lower(text))
  }

  /** `s.replace(c, "")` for a single character. */
  function RemoveChar(s: string, c: char): (r: string)
    ensures c !in r
    ensures |r| <= |s|
    ensures c !in s ==> r == s
    decreases |s|
  {
    if |s| == 0 then ""
    else if s[0] == c then RemoveChar(s[1..], c)
    else [s[0]] + RemoveChar(s[1..], c)
  }

  /** `score_criterion` with the text as given, its processed form and that form
      with the spaces removed: a phrase with a space also matches with its spaces
      removed; a regular expression is searched and a complex phrase scored in the
      processed text; a nested detector and any other check see the text as given. */
  function ScoreCriterion(c: Criterion, text: string, lowerText: string, lowerNoSpace: string): (r: bool)
    ensures c.Phrase? ==>
      (r <==> (' ' in c.phrase && Contains(lowerNoSpace, RemoveChar(c.phrase, ' '))) || Contains(lowerText, c.phrase))
    ensures c.Pattern? ==> (r <==> c.search(lowerText))
    ensures c.Check? ==> (r <==> c.check(text))
    decreases c, 1, 0
  {
    match c
    case Phrase(p) =>
      (' ' in p && Contains(lowerNoSpace, RemoveChar(p, ' '))) || Contains(lowerText, p)
    case Pattern(search) => search(lowerText)
    case Complex(pos, neg) => ComplexScore(pos, neg, lowerText)
    case Nested(d) => Call(d, text)
    case Check(f) => f(text)
  }

  /** The loop of `score` from criterion `k` on: "or" stops at the first match,
      "and" at the first miss. */
  function ScoreFrom(d: PhraseDetector, k: nat, text: string, lowerText: string, lowerNoSpace: string): (r: bool)
    requires k <= |d.criteria|
    // "or" holds iff some criterion from `k` on does, "and" iff all of them do
    ensures d.operator == Or ==>
      (r <==> exists i :: k <= i < |d.criteria| && ScoreCriterion(d.criteria[i], text, lowerText, lowerNoSpace))
    ensures d.operator == And ==>
      (r <==> forall i :: k <= i < |d.criteria| ==> ScoreCriterion(d.criteria[i], text, lowerText, lowerNoSpace))
    decreases d, 0, |d.criteria| - k
  {
    if k == |d.criteria| then d.operator == And
    else
      var value := ScoreCriterion(d.criteria[k], text, lowerText, lowerNoSpace);
      if d.operator == Or && value then true
      else if d.operator == And && !value then false
      else
        var rest := ScoreFrom(d, k + 1, text, lowerText, lowerNoSpace);
        assert d.operator == Or ==>
          ((exists i :: k <= i < |d.criteria| && ScoreCriterion(d.criteria[i], text, lowerText, lowerNoSpace))
           ==> (exists i :: k + 1 <= i < |d.criteria| && ScoreCriterion(d.criteria[i], text, lowerText, lowerNoSpace)));
        assert d.operator == And ==>
          ((forall i :: k + 1 <= i < |d.criteria| ==> ScoreCriterion(d.criteria[i], text, lowerText, lowerNoSpace))
           ==> (forall i :: k <= i < |d.criteria| ==> ScoreCriterion(d.criteria[i], text, lowerText, lowerNoSpace)));
        rest
  }

  /** `PhraseDetector.score` */
  function Score(d: PhraseDetector, text: string): (r: bool)
    // a detector is the disjunction or the conjunction of its criteria
    ensures var t := ProcessText(text);
      d.operator == Or ==> (r <==> exists i ::
        0 <= i < |d.criteria| && ScoreCriterion(d.criteria[i], text, t, RemoveChar(t, ' ')))
    ensures var t := ProcessText(text);
      d.operator == And ==> (r <==> forall i ::
        0 <= i < |d.criteria| ==> ScoreCriterion(d.criteria[i], text, t, RemoveChar(t, ' ')))
    decreases d, 1, 0
  {
    var lowerText := ProcessText(text);
    ScoreFrom(d, 0, text, lowerText, RemoveChar(lowerText, ' '))
  }

  /** `PhraseDetector.__call__`: non-breaking spaces are read as spaces. */
  function Call(d: PhraseDetector, text: string): (r: bool)
    ensures r == Score(d, NbspAsSpace(text))
    ensures '\U{00A0}' !in text ==> r == Score(d, text)
    decreases d, 2, 0
  {
    ReplaceCharPointwise(text, '\U{00A0}', ' ');
    assert ReplaceAll(text, "\U{00A0}", " ") == NbspAsSpace(text);
    Score(d, ReplaceAll(text, "\U{00A0}", " "))
  }

  /** The text with every non-breaking space made an ordinary one, character by
      character. */
  function NbspAsSpace(text: string): (r: string)
    ensures '\U{00A0}' !in text ==> r == text
  {
    seq(|text|, i requires 0 <= i < |text| => if text[i] == '\U{00A0}' then ' ' else text[i])
  }

  /** `ComplexPhrase.score` */
  function ComplexScore(positive: PhraseDetector, negative: PhraseDetector, text: string): (r: bool)
    ensures r <==> Score(positive, text) && !Score(negative, text)
    decreases Complex(positive, negative), 0, 0
  {
    Score(positive, text) && !Score(negative, text)
  }

  /** Whether criterion `i` of the detector holds for the text. */
  predicate Holds(d: PhraseDetector, i: int, text: string)
    requires 0 <= i < |d.criteria|
  {
    var lowerText := ProcessText(text);
    ScoreCriterion(d.criteria[i], text, lowerText, RemoveChar(lowerText, ' '))
  }

  /** So a detector is the disjunction or the conjunction of its criteria, and with
      no criteria "or" gives False and "and" gives True. */
  lemma ScoreSpec(d: PhraseDetector, text: string)
    ensures d.operator == Or ==> (Score(d, text) <==> exists i :: 0 <= i < |d.criteria| && Holds(d, i, text))
    ensures d.operator == And ==> (Score(d, text) <==> forall i :: 0 <= i < |d.criteria| ==> Holds(d, i, text))
    ensures |d.criteria| == 0 ==> Score(d, text) == (d.operator == And)
  {
    var lowerText := ProcessText(text);
    assert forall i :: 0 <= i < |d.criteria| ==>
      Holds(d, i, text) == ScoreCriterion(d.criteria[i], text, lowerText, RemoveChar(lowerText, ' '));
  }

  /** A phrase is found whatever the case of the text and of the phrase as written. */
  lemma PhraseIgnoresCase(phrase: string, text: string, operator: Operator)
    requires Contains(ProcessText(text), Lower(phrase))
    ensures Holds(Make([Phrase(phrase)], operator), 0, text)
  {
  }

  /** A phrase with a space also matches a text that runs its words together. */
  lemma SpacedPhraseMatchesJoined(phrase: string, text: string, operator: Operator)
    requires ' ' in phrase && phrase == Lower(phrase)
    requires Contains(RemoveChar(ProcessText(text), ' '), RemoveChar(phrase, ' '))
    ensures Holds(Make([Phrase(phrase)], operator), 0, text)
  {
    assert LowerCriteria([Phrase(phrase)])[0] == Phrase(phrase);
  }

  /** A complex phrase used as a criterion holds iff its positive detector matches
      the processed text and its negative one does not. */
  lemma ComplexCriterion(pos: PhraseDetector, neg: PhraseDetector, text: string, lowerText: string, lowerNoSpace: string)
    ensures ScoreCriterion(Complex(pos, neg), text, lowerText, lowerNoSpace)
      <==> Score(pos, lowerText) && !Score(neg, lowerText)
  {
  }
}

=== FILE: duck_funcs.dfy ===
/** The pure helpers of `twfy_votes/helpers/duck/funcs.py`: `unnest`, which turns
    flat `a__b__c` keys into nested dictionaries, and the builders of the SQL
    statements that wrap a query as a macro, view or table, or read a file. */
module DuckFuncs {
  import opened Wrappers
  import opened Text
  import DuckUrls

  /** A nested dictionary: a leaf value or a map of named children. */
  datatype Tree<V> = Leaf(value: V) | Node(children: map<string, Tree<V>>)

  type Dict<V> = map<string, Tree<V>>

  const Separator := "__"

  /** The levels a key names (`k.split("__")`). */
  function Levels(key: string): (p: seq<string>)
    ensures |p| >= 1
  {
    Split(key, Separator)
  }

  /** The leaf at `path`, if the dictionary has one there. */
  function Lookup<V>(d: Dict<V>, path: seq<string>): Option<V>
    requires |path| >= 1
    decreases |path|
  {
    if path[0] !in d then None
    else match d[path[0]]
      case Leaf(v) => if |path| == 1 then Some(v) else None
      case Node(c) => if |path| == 1 then None else Lookup(c, path[1..])
  }

  /** One pass of the inner loop: walk down `path`, creating missing levels as the
      `defaultdict` does, and set the final level to `v` (replacing whatever was
      there).  Walking into a leaf is Python's TypeError (a value is not
      subscriptable). */
  function Insert<V>(d: Dict<V>, path: seq<string>, v: V): (r: Result<Dict<V>, Error>)
    requires |path| >= 1
    ensures r.Success? ==> Lookup(r.value, path) == Some(v)
    decreases |path|
  {
    if |path| == 1 then Success(d[path[0] := Leaf(v)])
    else
      var child := if path[0] in d then d[path[0]] else Node(map[]);
      match child
      case Leaf(_) => Failure(TypeError("'" + path[0] + "' holds a value, not a dictionary"))
      case Node(c) =>
        match Insert(c, path[1..], v)
        case Failure(e) => Failure(e)
        case Success(c2) => Success(d[path[0] := Node(c2)])
  }

  /** `unnest(di)` over the dictionary's items in insertion order. */
  function Unnest<V>(items: seq<(string, V)>): (r: Result<Dict<V>, Error>)
    ensures |items| == 0 ==> r == Success(map[])
    ensures |items| > 0 && r.Success? ==>
      Lookup(r.value, Levels(items[|items| - 1].0)) == Some(items[|items| - 1].1)
    decreases |items|
  {
    if |items| == 0 then Success(map[])
    else
      var last := items[|items| - 1];
      match Unnest(items[..|items| - 1])
      case Failure(e) => Failure(e)
      case Success(d) => Insert(d, Levels(last.0), last.1)
  }

  /** `p` is a proper prefix of `q`. */
  predicate ProperPrefix(p: seq<string>, q: seq<string>) {
    |p| < |q| && q[..|p|] == p
  }

  /** Paths that are equal or one a prefix of the other. */
  predicate Related(p: seq<string>, q: seq<string>) {
    p == q || ProperPrefix(p, q) || ProperPrefix(q, p)
  }

  /** Setting one path leaves every unrelated path as it was. */
  lemma {:induction false} InsertKeepsOthers<V>(d: Dict<V>, path: seq<string>, v: V, q: seq<string>)
    requires |path| >= 1 && |q| >= 1 && !Related(path, q)
    requires Insert(d, path, v).Success?
    ensures Lookup(Insert(d, path, v).value, q) == Lookup(d, q)
    decreases |path|
  {
    if |path| > 1 && path[0] == q[0] {
      var child := if path[0] in d then d[path[0]] else Node(map[]);
      var c := child.children;
      assert path == [path[0]] + path[1..] && q == [q[0]] + q[1..];
      InsertKeepsOthers(c, path[1..], v, q[1..]);
    }
  }

  /** A successful insert met no leaf on the way down: no proper prefix of the path
      held a value beforehand. */
  lemma {:induction false} InsertPassesNoLeaf<V>(d: Dict<V>, path: seq<string>, v: V, q: seq<string>)
    requires |path| >= 1 && |q| >= 1 && ProperPrefix(q, path)
    requires Insert(d, path, v).Success?
    ensures Lookup(d, q) == None
    decreases |path|
  {
    if |q| > 1 {
      assert q[0] == path[0];
      if path[0] in d && d[path[0]].Node? {
        assert ProperPrefix(q[1..], path[1..]);
        InsertPassesNoLeaf(d[path[0]].children, path[1..], v, q[1..]);
      }
    }
  }

  /** Different keys name different level paths. */
  lemma LevelsInjective(a: string, b: string)
    ensures Levels(a) == Levels(b) ==> a == b
  {
    JoinSplit(a, Separator);
    JoinSplit(b, Separator);
  }

  /** `unnest` keeps every value at the levels its key names, unless a later key
      names a proper prefix of those levels (then the later value replaced the
      whole sub-dictionary).  Keys of a dictionary are distinct. */
  lemma {:induction false} UnnestKeepsLeaves<V>(items: seq<(string, V)>, i: nat)
    requires forall a, b :: 0 <= a < b < |items| ==> items[a].0 != items[b].0
    requires Unnest(items).Success?
    requires i < |items|
    requires forall j :: i < j < |items| ==> !ProperPrefix(Levels(items[j].0), Levels(items[i].0))
    ensures Lookup(Unnest(items).value, Levels(items[i].0)) == Some(items[i].1)
    decreases |items|
  {
    var n := |items| - 1;
    var init := items[..n];
    var d := Unnest(init).value;
    var p := Levels(items[n].0);
    if i < n {
      var q := Levels(items[i].0);
      UnnestKeepsLeaves(init, i);
      LevelsInjective(items[n].0, items[i].0);
      if ProperPrefix(q, p) {
        InsertPassesNoLeaf(d, p, items[n].1, q);
      }
      InsertKeepsOthers(d, p, items[n].1, q);
    }
  }

  /** With no key a prefix of another's levels, every value lands at its levels. */
  lemma UnnestSpec<V>(items: seq<(string, V)>)
    requires forall a, b :: 0 <= a < b < |items| ==> items[a].0 != items[b].0
    requires forall a, b :: 0 <= a < |items| && 0 <= b < |items| ==> !ProperPrefix(Levels(items[a].0), Levels(items[b].0))
    requires Unnest(items).Success?
    ensures forall i :: 0 <= i < |items| ==> Lookup(Unnest(items).value, Levels(items[i].0)) == Some(items[i].1)
  {
    forall i | 0 <= i < |items|
      ensures Lookup(Unnest(items).value, Levels(items[i].0)) == Some(items[i].1)
    {
      UnnestKeepsLeaves(items, i);
    }
  }

  /** A key with no `_` is a single level, and following it by `__` and more
      makes it the first of several levels. */
  lemma PlainKeyLevels(k: string, rest: string)
    requires '_' !in k
    ensures Levels(k) == [k]
    ensures |Levels(k + Separator + rest)| >= 2 && Levels(k + Separator + rest)[0] == k
  {
    var s := k + Separator + rest;
    forall j | 0 <= j && j + 2 <= |k| ensures !OccursAt(k, Separator, j) {
      assert k[j..j + 2][0] == k[j];
    }
    forall j | 0 <= j < |k| ensures !OccursAt(s, Separator, j) {
      assert s[j] == k[j];
    }
    assert OccursAt(s, Separator, |k|);
    assert s[..|k|] == k;
  }

  /** A flat key followed later by a key that goes below it is a TypeError. */
  lemma ValueThenDeeperFails<V>(k: string, rest: string, v: V, w: V)
    requires '_' !in k
    ensures Unnest([(k, v), (k + Separator + rest, w)]).Failure?
  {
    var items := [(k, v), (k + Separator + rest, w)];
    assert items[..1] == [(k, v)];
    assert [(k, v)][..0] == [];
    PlainKeyLevels(k, rest);
    assert Unnest(items[..1]) == Success(map[k := Leaf(v)]);
    var d := Unnest(items[..1]).value;
    var p := Levels(k + Separator + rest);
    assert Lookup(d, [k]) == Some(v);
    assert ProperPrefix([k], p);
    if Insert(d, p, w).Success? {
      InsertPassesNoLeaf(d, p, w, [k]);
    }
  }

  /** `query_to_macro`: a `CREATE OR REPLACE MACRO` statement over the given
      arguments; a table macro has its body prefixed by `table `. */
  function QueryToMacro(name: string, args: seq<string>, macro: string, table: bool): (r: string)
    ensures StartsWith(r, "\n    CREATE OR REPLACE MACRO " + name + "(")
    ensures EndsWith(r, ") AS\n    " + (if table then "table " + macro else macro) + "\n    ")
    // between the parentheses: the arguments joined by ", "
    ensures var lo := |"\n    CREATE OR REPLACE MACRO " + name + "("|;
      var hi := |r| - |") AS\n    " + (if table then "table " + macro else macro) + "\n    "|;
      lo <= hi && r[lo..hi] == Join(args, ", ")
  {
    var body := if table then "table " + macro else macro;
    var head := "\n    CREATE OR REPLACE MACRO " + name + "(";
    var tail := ") AS\n    " + body + "\n    ";
    var r := head + Join(args, ", ") + tail;
    assert r[..|head|] == head;
    assert r[|r| - |tail|..] == tail;
    assert r[|head|..|r| - |tail|] == Join(args, ", ");
    r
  }

  /** The table flag does exactly one thing: it prefixes the body with `table `. */
  lemma MacroTableFlag(name: string, args: seq<string>, macro: string)
    ensures QueryToMacro(name, args, macro, true) == QueryToMacro(name, args, "table " + macro, false)
    ensures QueryToMacro(name, args, macro, true) != QueryToMacro(name, args, macro, false)
  {
    assert |QueryToMacro(name, args, macro, true)| == |QueryToMacro(name, args, macro, false)| + 6;
  }

  /** Every argument is written out between the macro's parentheses. */
  lemma MacroNamesEachArg(name: string, args: seq<string>, macro: string, table: bool, k: int)
    returns (j: int)
    requires 0 <= k < |args|
    ensures var r := QueryToMacro(name, args, macro, table);
      var lo := |"\n    CREATE OR REPLACE MACRO " + name + "("|;
      var hi := |r| - |") AS\n    " + (if table then "table " + macro else macro) + "\n    "|;
      lo <= j && j + |args[k]| <= hi && SliceAt(r, j, args[k])
  {
    var r := QueryToMacro(name, args, macro, table);
    var lo := |"\n    CREATE OR REPLACE MACRO " + name + "("|;
    var hi := |r| - |") AS\n    " + (if table then "table " + macro else macro) + "\n    "|;
    var inner := Join(args, ", ");
    var i := JoinPieceAt(args, ", ", k);
    assert r[lo..hi] == inner;
    j := lo + i;
    assert r[j..j + |args[k]|] == inner[i..i + |args[k]|];
  }

  datatype Kind = View | Table

  function KindWord(k: Kind): string {
    match k
    case View => "VIEW"
    case Table => "TABLE"
  }

  const CreatePrefix := "CREATE OR REPLACE "

  /** `CREATE OR REPLACE VIEW|TABLE name AS query` */
  function Create(kind: Kind, query: string, name: string): string {
    CreatePrefix + KindWord(kind) + " " + name + " AS " + query
  }

  /** `query_to_view` */
  function QueryToView(query: string, name: string): (r: string)
    ensures StartsWith(r, CreatePrefix + "VIEW ")
    ensures ' ' !in name ==> ParseCreate(r) == Some((View, name, query))
  {
    if ' ' !in name then CreateRoundTrip(View, query, name); Create(View, query, name)
    else Create(View, query, name)
  }

  /** `query_to_table` */
  function QueryToTable(query: string, name: string): (r: string)
    ensures StartsWith(r, CreatePrefix + "TABLE ")
    ensures ' ' !in name ==> ParseCreate(r) == Some((Table, name, query))
  {
    if ' ' !in name then CreateRoundTrip(Table, query, name); Create(Table, query, name)
    else Create(Table, query, name)
  }

  /** Reads a create statement back into what it creates, its name and its query:
      the name runs up to the first ` AS `. */
  function ParseCreate(s: string): Option<(Kind, string, string)> {
    if !StartsWith(s, CreatePrefix) then None
    else ParseKind(s[|CreatePrefix|..])
  }

  /** The statement after its fixed prefix: the keyword, then the named query. */
  function ParseKind(rest: string): Option<(Kind, string, string)> {
    var kind := if StartsWith(rest, "VIEW ") then Some(View)
                else if StartsWith(rest, "TABLE ") then Some(Table) else None;
    if kind.None? then None
    else ParseNamed(kind.value, rest[|KindWord(kind.value)| + 1..])
  }

  /** `name AS query`, split at the first ` AS `. */
  function ParseNamed(kind: Kind, after: string): Option<(Kind, string, string)> {
    var i := Find(after, " AS ");
    if i == -1 then None else Some((kind, after[..i], after[i + 4..]))
  }

  /** The name, when it has no space, ends at the first ` AS `. */
  lemma NameEndsAtAs(name: string, query: string)
    requires ' ' !in name
    ensures Find(name + " AS " + query, " AS ") == |name|
  {
    var after := name + " AS " + query;
    forall j | 0 <= j < |name| ensures !OccursAt(after, " AS ", j) {
      if j + 4 <= |after| {
        assert after[j..j + 4][0] == after[j] == name[j];
      }
    }
    assert after[|name|..|name| + 4] == " AS ";
    assert OccursAt(after, " AS ", |name|);
  }

  /** The keyword after the fixed prefix says what is created. */
  lemma KindReadBack(kind: Kind, after: string)
    ensures var rest := KindWord(kind) + " " + after;
            (StartsWith(rest, "VIEW ") <==> kind == View)
            && rest[|KindWord(kind)| + 1..] == after
  {
    var rest := KindWord(kind) + " " + after;
    assert rest[..|KindWord(kind)| + 1] == KindWord(kind) + " ";
    if kind == Table {
      assert rest[0] == 'T';
    }
  }

  /** A created view or table statement names what it creates and carries the
      query verbatim: for a name without spaces (any SQL identifier) the statement
      reads back to its three parts. */
  lemma CreateRoundTrip(kind: Kind, query: string, name: string)
    requires ' ' !in name
    ensures ParseCreate(Create(kind, query, name)) == Some((kind, name, query))
  {
    var after := name + " AS " + query;
    var rest := KindWord(kind) + " " + after;
    assert Create(kind, query, name) == CreatePrefix + rest;
    PrefixThen(CreatePrefix, rest);
    KindRoundTrip(kind, after);
    NamedRoundTrip(kind, name, query);
  }

  lemma PrefixThen(p: string, rest: string)
    ensures StartsWith(p + rest, p) && (p + rest)[|p|..] == rest
  {
    assert (p + rest)[..|p|] == p;
  }

  /** The keyword is read back, and the rest is the named query. */
  lemma KindRoundTrip(kind: Kind, after: string)
    ensures ParseKind(KindWord(kind) + " " + after) == ParseNamed(kind, after)
  {
    var rest := KindWord(kind) + " " + after;
    KindReadBack(kind, after);
    if kind == Table {
      assert rest[..6] == "TABLE ";
    }
  }

  /** A name without spaces and its query are read back. */
  lemma NamedRoundTrip(kind: Kind, name: string, query: string)
    requires ' ' !in name
    ensures ParseNamed(kind, name + " AS " + query) == Some((kind, name, query))
  {
    var after := name + " AS " + query;
    NameEndsAtAs(name, query);
    assert after[..|name|] == name && after[|name| + 4..] == query;
  }

  /** A view and a table over the same query are never the same statement. */
  lemma ViewIsNotTable(query: string, name: string)
    requires ' ' !in name
    ensures QueryToView(query, name) != QueryToTable(query, name)
  {
    CreateRoundTrip(View, query, name);
    CreateRoundTrip(Table, query, name);
  }

  /** What `source_to_query` can be given. */
  datatype Source =
    | UrlSource(url: DuckUrls.DuckUrl)
    | PathSource(path: string)
    | DataFrameSource
    | TextSource(text: string)

  /** The last index of `c` in `s` (`s.rfind(c)`), or -1. */
  function RFindChar(s: string, c: char): (r: int)
    ensures -1 <= r < |s|
    ensures r >= 0 ==> s[r] == c
    ensures forall j :: r < j < |s| ==> s[j] != c
    decreases |s|
  {
    if |s| == 0 then -1
    else if s[|s| - 1] == c then |s| - 1
    else RFindChar(s[..|s| - 1], c)
  }

  /** `PurePath.name`: the text after the last `/` (paths are taken as already
      normalised, without a trailing `/`). */
  function PathName(path: string): string {
    Last(Split(path, "/"))
  }

  /** `PurePath.suffix`: the final component's last `.`-extension, empty for a
      name that starts with its only dot or ends with a dot. */
  function PathSuffix(path: string): string {
    var name := PathName(path);
    var i := RFindChar(name, '.');
    if 0 < i < |name| - 1 then name[i..] else ""
  }

  /** A name ending in `.csv` with something before it has that suffix. */
  lemma CsvName(name: string)
    requires EndsWith(name, ".csv") && |name| > 4
    ensures RFindChar(name, '.') == |name| - 4
  {
    var n := |name|;
    assert name[n - 4..] == ".csv";
    assert name[n - 4] == '.' && name[n - 3] == 'c' && name[n - 2] == 's' && name[n - 1] == 'v';
  }

  /** The final component is a suffix of the path without `/`, and is all of it
      when the path has no `/`. */
  lemma NameOfPath(path: string)
    ensures EndsWith(path, PathName(path)) && '/' !in PathName(path)
    ensures '/' in path ==> EndsWith(path, "/" + PathName(path))
    ensures '/' !in path ==> PathName(path) == path
  {
    LastPieceSuffix(path, '/');
    if '/' in path {
      LastPieceAfterSep(path, '/');
    } else {
      SplitAbsent(path, '/');
    }
  }

  /** A suffix `.csv` of the final component is the end of the path. */
  lemma CsvSuffixOnly(path: string)
    requires PathSuffix(path) == ".csv"
    ensures EndsWith(path, ".csv") && |path| > 4 && path[|path| - 5] != '/'
  {
    var name := PathName(path);
    NameOfPath(path);
    var n := |name|;
    var m := |path|;
    var i := RFindChar(name, '.');
    assert name[i..] == ".csv" && n == i + 4;
    assert path[m - n..] == name;
    assert path[m - 4..] == name[n - 4..];
    assert path[m - 5] == name[n - 5];
  }

  /** A path ending in `.csv` after something other than `/` has suffix `.csv`. */
  lemma CsvSuffixIf(path: string)
    requires EndsWith(path, ".csv") && |path| > 4 && path[|path| - 5] != '/'
    ensures PathSuffix(path) == ".csv"
  {
    var name := PathName(path);
    NameOfPath(path);
    var n := |name|;
    var m := |path|;
    assert path[m - 4..] == ".csv";
    assert n >= 5 by {
      if '/' in path {
        assert path[m - n - 1..] == "/" + name;
        assert path[m - n - 1] == '/';
        assert forall j :: m - 4 <= j < m ==> path[j] == ".csv"[j - (m - 4)];
      }
    }
    assert name == path[m - n..];
    assert name[n - 4..] == path[m - 4..];
    CsvName(name);
  }

  /** A path has the `.csv` suffix exactly when it ends in `.csv` with something
      other than a `/` right before. */
  lemma CsvSuffix(path: string)
    ensures PathSuffix(path) == ".csv" <==> EndsWith(path, ".csv") && |path| > 4 && path[|path| - 5] != '/'
  {
    if PathSuffix(path) == ".csv" {
      CsvSuffixOnly(path);
    }
    if EndsWith(path, ".csv") && |path| > 4 && path[|path| - 5] != '/' {
      CsvSuffixIf(path);
    }
  }

  function SourceText(src: Source): string
    requires !src.DataFrameSource?
  {
    match src
    case UrlSource(u) => DuckUrls.ToString(u)
    case PathSource(p) => p
    case TextSource(t) => t
  }

  const SelectFrom := "SELECT * FROM "
  const ReadCsv := "SELECT * FROM read_csv("

  /** `source_to_query`: a `.csv` path is read with `read_csv` and a header row;
      anything else but a DataFrame is selected from directly by name; a DataFrame
      is a ValueError. */
  function SourceToQuery(src: Source): (r: Result<string, Error>)
    ensures r.Failure? <==> src.DataFrameSource?
    ensures r.Failure? ==> r.error.ValueError?
    ensures r.Success? ==>
      (StartsWith(r.value, ReadCsv) <==> src.PathSource? && PathSuffix(src.path) == ".csv")
    ensures r.Success? ==> Contains(r.value, "'" + SourceText(src) + "'")
  {
    match src
    case DataFrameSource =>
      Failure(ValueError("Can't convert a dataframe into a query in an abstract way, use 'register' instead"))
    case PathSource(p) =>
      if PathSuffix(p) == ".csv" then Success(Quoted(ReadCsv, p, ", HEADER=True, AUTO_DETECT=True)"))
      else Success(Direct(p))
    case UrlSource(u) => Success(Direct(DuckUrls.ToString(u)))
    case TextSource(t) => Success(Direct(t))
  }

  /** `SELECT * FROM 'text'`, which is not a `read_csv` call. */
  function Direct(text: string): (r: string)
    ensures !StartsWith(r, ReadCsv)
    ensures Contains(r, "'" + text + "'")
  {
    var r := Quoted(SelectFrom, text, "");
    assert |SelectFrom| == 14 && ReadCsv[14] == 'r';
    r
  }

  /** `pre'text'post` */
  function Quoted(pre: string, text: string, post: string): (r: string)
    ensures StartsWith(r, pre) && |r| > |pre| && r[|pre|] == '\''
    ensures Contains(r, "'" + text + "'")
  {
    var q := "'" + text + "'";
    var r := pre + q + post;
    assert r[..|pre|] == pre;
    assert r[|pre|..|pre| + |q|] == q;
    ContainsWitness(r, q, |pre|);
    r
  }
}

=== FILE: duck_url.dfy ===
/** `DuckUrl` (`twfy_votes/helpers/duck/url.py`): a marker for a remote file the
    analytical engine reads.  Only `https://` addresses are accepted; the file
    format is given or taken from the extension, and `/` joins path pieces the way
    `pathlib` does. */
module DuckUrls {
  import opened Wrappers
  import opened Text

  datatype DuckUrl = DuckUrl(url: string, format: string)

  const Scheme := "https://"

  /** The text after the last `.` of `url` (`url.split(".")[-1]`). */
  function Extension(url: string): string {
    Last(Split(url, "."))
  }

  /** `DuckUrl(url, file_format)`: a ValueError unless the URL is https; an empty
      or missing format is read from the URL (Python treats `""` as false). */
  function Make(url: string, fileFormat: Option<string>): (r: Result<DuckUrl, Error>)
    ensures r.Success? <==> StartsWith(url, Scheme)
    ensures r.Success? ==> r.value.url == url
    ensures r.Success? && fileFormat.Some? && fileFormat.value != "" ==> r.value.format == fileFormat.value
    ensures r.Failure? ==> r.error.ValueError?
  {
    if !StartsWith(url, Scheme) then Failure(ValueError("URL must start with https://"))
    else if fileFormat.Some? && fileFormat.value != "" then Success(DuckUrl(url, fileFormat.value))
    else Success(DuckUrl(url, Extension(url)))
  }

  /** `str(duck_url)` */
  function ToString(u: DuckUrl): string {
    u.url
  }

  /** Every value the constructor builds. */
  predicate Built(u: DuckUrl) {
    StartsWith(u.url, Scheme)
  }

  /** `duck_url / other`: one trailing slash of the base is dropped, then the base
      and `other` are joined by `/`; the result goes through the constructor again
      (so its format is re-read from the new URL).  That can never fail: the joined
      text always starts with the base's own `https://`. */
  function Div(u: DuckUrl, other: string): (r: Result<DuckUrl, Error>)
    requires Built(u)
    ensures r.Success? && Built(r.value)
    ensures r.value.url == (if EndsWith(u.url, "/") then u.url else u.url + "/") + other
  {
    var base := if EndsWith(u.url, "/") then u.url[..|u.url| - 1] else u.url;
    assert EndsWith(u.url, "/") ==> u.url == base + "/";
    assert (base + "/" + other)[..|Scheme|] == u.url[..|Scheme|];
    Make(base + "/" + other, None)
  }

  /** The string form is the URL the value was built from. */
  lemma ToStringOfMake(url: string, fileFormat: Option<string>)
    requires StartsWith(url, Scheme)
    ensures Make(url, fileFormat).Success?
    ensures ToString(Make(url, fileFormat).value) == url
  {
  }

  /** Without an explicit format, the format is the URL's final extension: a
      suffix of the URL with no `.` in it, preceded by a `.` whenever the URL has
      one at all. */
  lemma FormatIsExtension(url: string)
    requires StartsWith(url, Scheme)
    ensures Make(url, None).Success?
    ensures var f := Make(url, None).value.format;
            EndsWith(url, f) && '.' !in f
            && ('.' in url ==> EndsWith(url, "." + f))
  {
    LastPieceSuffix(url, '.');
    if '.' in url {
      LastPieceAfterSep(url, '.');
    }
  }

  /** Joining twice is joining once with the two pieces separated by `/`, as long
      as the first piece is non-empty and has no trailing slash. */
  lemma DivAssociates(u: DuckUrl, a: string, b: string)
    requires Built(u)
    requires |a| > 0 && a[|a| - 1] != '/'
    ensures Div(Div(u, a).value, b) == Div(u, a + "/" + b)
  {
    var v := Div(u, a).value;
    var head := if EndsWith(u.url, "/") then u.url else u.url + "/";
    assert !EndsWith(v.url, "/") by {
      assert v.url[|v.url| - 1] == a[|a| - 1];
    }
    assert head + a + "/" + b == head + (a + "/" + b);
  }
}

=== FILE: forms.dfy ===
/** Signatory text and form validation (`votes/forms.py`): a signatory is written
    as a name with an optional trailing "(id)" or "({json})"; a list is one
    signatory per line.  JSON decoding and encoding and the name-to-person lookup
    are parameters. */
module Forms {
  import opened Wrappers
  import opened Text

  /** A JSON value as the signature metadata uses it. */
  datatype JsonValue = JInt(n: int) | JNull | JOther(text: string)

  /** What `json.loads` makes of a text: an error, some non-object value, or an object. */
  datatype JsonDecoded = NotJson | NotObject | Object(entries: map<string, JsonValue>)

  datatype MiniSignature = MiniSignature(name: string, personId: Option<int>, extraInfo: map<string, JsonValue>)

  const NonParlPerson := -1

  // ---- The two trailing forms ----

  /** The regex `\((\d+)\)$` matches `s` with its "(" at `p`. */
  predicate ShortAt(s: string, p: int) {
    0 <= p && p + 3 <= |s| && s[p] == '(' && s[|s| - 1] == ')' && AllDigits(s[p + 1..|s| - 1])
  }

  /** The regex `\((\{.*\})\)$` matches `s` with its "(" at `p` (`.` does not match a newline). */
  predicate JsonAt(s: string, p: int) {
    0 <= p && p + 3 < |s| && s[p] == '(' && s[p + 1] == '{' && s[|s| - 2] == '}' && s[|s| - 1] == ')'
    && forall i :: p <= i < |s| ==> s[i] != '\n'
  }

  /** The start of the run of digits that ends just before `e`. */
  function DigitRunStart(s: string, e: nat): (q: nat)
    requires e <= |s|
    ensures q <= e && AllDigits(s[q..e])
    ensures q == 0 || !IsDigit(s[q - 1])
    decreases e
  {
    if e > 0 && IsDigit(s[e - 1]) then
      var q := DigitRunStart(s, e - 1);
      assert s[q..e] == s[q..e - 1] + [s[e - 1]];
      q
    else e
  }

  /** A run of digits ending at `e` reaches back at least as far as any all-digit
      stretch ending there. */
  lemma {:induction false} DigitRunMaximal(s: string, e: nat, j: nat)
    requires j <= e <= |s| && AllDigits(s[j..e])
    ensures DigitRunStart(s, e) <= j
    decreases e
  {
    if j < e {
      assert IsDigit(s[j..e][e - 1 - j]);
      assert s[j..e - 1] == s[j..e][..e - 1 - j];
      DigitRunMaximal(s, e - 1, j);
    }
  }

  /** Where a trailing "(digits)" starts; there is at most one place. */
  function ShortStart(s: string): (r: Option<nat>)
    ensures r.Some? ==> ShortAt(s, r.value)
    ensures forall p :: ShortAt(s, p) ==> r == Some(p)
  {
    if |s| < 3 || s[|s| - 1] != ')' then None
    else
      var q := DigitRunStart(s, |s| - 1);
      assert forall i :: q <= i < |s| - 1 ==> IsDigit(s[i]) by {
        forall i | q <= i < |s| - 1 ensures IsDigit(s[i]) {
          assert s[i] == s[q..|s| - 1][i - q];
        }
      }
      assert forall p :: ShortAt(s, p) ==> p + 1 == q by {
        forall p | ShortAt(s, p) ensures p + 1 == q {
          DigitRunMaximal(s, |s| - 1, p + 1);
        }
      }
      if q < |s| - 1 && q >= 1 && s[q - 1] == '(' then Some(q - 1)
      else None
  }

  /** The leftmost place from `k` on where the trailing "({...})" form starts. */
  function JsonFrom(s: string, k: nat): (r: Option<nat>)
    ensures r.Some? ==> k <= r.value && JsonAt(s, r.value) && forall j :: k <= j < r.value ==> !JsonAt(s, j)
    ensures r.None? ==> forall j :: k <= j ==> !JsonAt(s, j)
    decreases |s| - k
  {
    if k + 3 >= |s| then None
    else if JsonAt(s, k) then Some(k)
    else JsonFrom(s, k + 1)
  }

  function JsonStart(s: string): (r: Option<nat>)
    ensures r.Some? ==> JsonAt(s, r.value) && forall j :: 0 <= j < r.value ==> !JsonAt(s, j)
    ensures r.None? ==> forall j :: !JsonAt(s, j)
  {
    JsonFrom(s, 0)
  }

  /** `re.sub(pattern, "", t)` for the short form: `$` also matches before a final
      newline, which the substitution keeps. */
  function SubShort(t: string): string {
    match ShortStart(t)
    case Some(p) => t[..p]
    case None =>
      if |t| > 0 && t[|t| - 1] == '\n' then
        match ShortStart(t[..|t| - 1])
        case Some(p) => t[..p] + "\n"
        case None => t
      else t
  }

  /** `re.sub(pattern, "", t)` for the JSON form. */
  function SubJson(t: string): string {
    match JsonStart(t)
    case Some(p) => t[..p]
    case None =>
      if |t| > 0 && t[|t| - 1] == '\n' then
        match JsonStart(t[..|t| - 1])
        case Some(p) => t[..p] + "\n"
        case None => t
      else t
  }

  /** The person id an object's "person_id" entry gives; a value that is neither an
      integer nor null fails validation. */
  function PersonFromMeta(m: map<string, JsonValue>): (r: Result<Option<int>, Error>)
    ensures r.Failure? <==> "person_id" in m && m["person_id"].JOther?
    ensures r.Success? ==> (r.value.Some? <==> "person_id" in m && m["person_id"].JInt?)
    ensures r.Success? && r.value.Some? ==> r.value.value == m["person_id"].n
  {
    if "person_id" !in m then Success(None)
    else match m["person_id"]
      case JInt(n) => Success(Some(n))
      case JNull => Success(None)
      case JOther(_) => Failure(ValueError("person_id is not an integer"))
  }

  /** `MiniSignature.from_text`.  The patterns are searched in the stripped name but
      removed from the name as given, and a name without either form is kept as
      given. */
  function FromText(name: string, decode: string -> JsonDecoded): (r: Result<MiniSignature, Error>)
    ensures ShortStart(Strip(name)).Some? ==>
      r.Success? && r.value.personId.Some? && r.value.personId.value >= 0 && r.value.extraInfo == map[]
    ensures ShortStart(Strip(name)).None? && JsonStart(Strip(name)).None? ==>
      r == Success(MiniSignature(name, None, map[]))
    ensures r.Success? ==> "person_id" !in r.value.extraInfo
    ensures r.Failure? ==> r.error.ValueError?
  {
    FromStripped(name, Strip(name), decode)
  }

  /** `from_text` once the stripped name `s` has been computed. */
  function FromStripped(name: string, s: string, decode: string -> JsonDecoded): (r: Result<MiniSignature, Error>)
    ensures r.Success? ==> "person_id" !in r.value.extraInfo
    ensures r.Failure? ==> r.error.ValueError?
  {
    match ShortStart(s)
    case Some(p) => Success(ShortSignature(name, s, p))
    case None =>
      match JsonStart(s)
      case None => Success(MiniSignature(name, None, map[]))
      case Some(p) => JsonSignature(name, s[p + 1..|s| - 1], decode)
  }

  /** The short form: the digits are the id and the "(digits)" is cut off the name. */
  function ShortSignature(name: string, s: string, p: nat): (r: MiniSignature)
    requires ShortAt(s, p)
    ensures r.personId.Some? && r.personId.value >= 0 && r.extraInfo == map[]
    ensures r.name == Strip(SubShort(name))
  {
    MiniSignature(Strip(SubShort(name)), Some(ShortId(s, p)), map[])
  }

  /** The number written in the trailing "(digits)" that starts at `p`. */
  function ShortId(s: string, p: nat): nat
    requires ShortAt(s, p)
  {
    DigitsValue(s[p + 1..|s| - 1])
  }

  /** The JSON form: an object gives the id from its "person_id" entry and keeps the
      rest as extra information; anything else raises. */
  function JsonSignature(name: string, meta: string, decode: string -> JsonDecoded): (r: Result<MiniSignature, Error>)
    ensures r.Success? <==> decode(meta).Object? && PersonFromMeta(decode(meta).entries).Success?
    ensures r.Success? ==>
      r.value.extraInfo == decode(meta).entries - {"person_id"} && r.value.personId == PersonFromMeta(decode(meta).entries).value
    ensures r.Failure? ==> r.error.ValueError?
  {
    match decode(meta)
    case NotJson => Failure(ValueError("Invalid JSON"))
    case NotObject => Failure(ValueError("Invalid JSON metadata format"))
    case Object(m) =>
      var person :- PersonFromMeta(m);
      Success(MiniSignature(Strip(SubJson(name)), person, m - {"person_id"}))
  }

  /** `MiniSignature.to_text`: extra information wins over the id, which wins over the
      bare name. */
  function ToText(sig: MiniSignature, encode: map<string, JsonValue> -> string): (r: string)
    ensures StartsWith(r, sig.name)
    ensures r == sig.name <==> |sig.extraInfo| == 0 && sig.personId.None?
    ensures r != sig.name ==> |r| >= |sig.name| + 3 && r[|sig.name|..|sig.name| + 2] == " (" && r[|r| - 1] == ')'
    ensures |sig.extraInfo| == 0 && sig.personId.Some? ==>
      r == sig.name + " (" + IntToString(sig.personId.value) + ")"
  {
    if |sig.extraInfo| > 0 then sig.name + " (" + encode(sig.extraInfo) + ")"
    else if sig.personId.Some? then sig.name + " (" + IntToString(sig.personId.value) + ")"
    else sig.name
  }

  // ---- Round trips ----

  predicate Stripped(s: string) { |s| == 0 || (!IsSpace(s[0]) && !IsSpace(s[|s| - 1])) }

  lemma StripTrailingSpace(name: string)
    requires Stripped(name)
    ensures Strip(name + " ") == name
  {
    if |name| > 0 {
      assert LStrip(name + " ") == name + " ";
      assert (name + " ")[..|name|] == name;
    }
  }

  /** A signature the text format carries unchanged: no extra information, a name
      with no surrounding whitespace and no newline, and either a non-negative id or
      a name that does not itself end in one of the two forms. */
  predicate Canonical(sig: MiniSignature) {
    sig.extraInfo == map[] && |sig.name| > 0 && Stripped(sig.name) && '\n' !in sig.name
    && (sig.personId.Some? ==> sig.personId.value >= 0)
    && (sig.personId.None? ==> ShortStart(sig.name).None? && JsonStart(sig.name).None?)
  }

  /** Stripping a text whose first non-space is at `k` and whose last character is
      not a space drops exactly the first `k` characters. */
  lemma StripAround(t: string, k: nat)
    requires k < |t| && AllSpace(t[..k]) && !IsSpace(t[k]) && !IsSpace(t[|t| - 1])
    ensures Strip(t) == t[k..]
  {
    var l := LStrip(t);
    var m := |t| - |l|;
    assert forall i :: 0 <= i < k ==> IsSpace(t[i]) by {
      forall i | 0 <= i < k ensures IsSpace(t[i]) { assert t[i] == t[..k][i]; }
    }
    assert forall i :: 0 <= i < m ==> IsSpace(t[i]) by {
      forall i | 0 <= i < m ensures IsSpace(t[i]) { assert t[i] == t[..m][i]; }
    }
    assert |l| > 0 ==> l[0] == t[m];
    assert m == k;
    var r := RStrip(l);
    assert l[|l| - 1] == t[|t| - 1];
    assert |r| == |l|;
  }

  /** A name followed by a bracketed suffix: the text of a signature with an id or
      with extra information. */
  function Bracketed(name: string, inner: string): string { name + " (" + inner + ")" }

  lemma StripBracketed(name: string, inner: string)
    requires Stripped(name)
    ensures Strip(Bracketed(name, inner)) == Bracketed(name, inner)[if |name| > 0 then 0 else 1..]
  {
    var t := Bracketed(name, inner);
    if |name| > 0 {
      assert t[0] == name[0];
      StripAround(t, 0);
    } else {
      assert t[1] == '(';
      StripAround(t, 1);
    }
  }

  lemma ShortOfBracketed(name: string, digits: string, k: nat)
    requires |digits| > 0 && AllDigits(digits) && k <= |name| + 1
    ensures var s := Bracketed(name, digits)[k..];
      ShortStart(s) == Some(|name| + 1 - k) && s[|name| + 2 - k..|s| - 1] == digits
  {
    var t := Bracketed(name, digits);
    BracketedParts(name, digits);
    var s := t[k..];
    var q := |name| + 1 - k;
    assert s[q] == t[|name| + 1] == '(';
    assert s[|s| - 1] == t[|t| - 1] == ')';
    assert s[q + 1..|s| - 1] == t[|name| + 2..|t| - 1] == digits;
    assert ShortAt(s, q);
  }

  /** Where the pieces of "name (inner)" sit. */
  lemma BracketedParts(name: string, inner: string)
    ensures var t := Bracketed(name, inner);
      |t| == |name| + |inner| + 3 && t[..|name|] == name && t[|name|] == ' ' && t[|name| + 1] == '('
      && t[|name| + 2..|t| - 1] == inner && t[|t| - 1] == ')'
  {
  }

  lemma SubShortBracketed(name: string, digits: string)
    requires Stripped(name) && |digits| > 0 && AllDigits(digits)
    ensures Strip(SubShort(Bracketed(name, digits))) == name
  {
    ShortOfBracketed(name, digits, 0);
    assert Bracketed(name, digits)[0..] == Bracketed(name, digits);
    assert Bracketed(name, digits)[..|name| + 1] == name + " ";
    StripTrailingSpace(name);
  }

  lemma BracketedOneLine(name: string, digits: string)
    requires '\n' !in name && AllDigits(digits)
    ensures '\n' !in Bracketed(name, digits)
  {
    var t := Bracketed(name, digits);
    forall i | 0 <= i < |t| ensures t[i] != '\n' {
      if i < |name| {
        assert t[i] == name[i];
      } else if |name| + 2 <= i < |t| - 1 {
        assert t[i] == digits[i - |name| - 2];
      }
    }
  }

  /** "Name (digits)" parses to the name and the value of the digits. */
  lemma ParseBracketed(name: string, digits: string, decode: string -> JsonDecoded)
    requires Stripped(name) && |digits| > 0 && AllDigits(digits)
    ensures FromText(Bracketed(name, digits), decode) == Success(MiniSignature(name, Some(DigitsValue(digits)), map[]))
  {
    var k := if |name| > 0 then 0 else 1;
    StripBracketed(name, digits);
    ShortOfBracketed(name, digits, k);
    SubShortBracketed(name, digits);
  }

  /** "Name (id)" parses back to the name and the id. */
  lemma IdRoundTrip(name: string, n: nat, decode: string -> JsonDecoded, encode: map<string, JsonValue> -> string)
    requires Stripped(name)
    ensures FromText(ToText(MiniSignature(name, Some(n), map[]), encode), decode)
      == Success(MiniSignature(name, Some(n), map[]))
  {
    assert ToText(MiniSignature(name, Some(n), map[]), encode) == Bracketed(name, NatToString(n));
    ParseBracketed(name, NatToString(n), decode);
    NatToStringValue(n);
  }

  /** A bare name that ends in neither form comes back as it was. */
  lemma PlainRoundTrip(name: string, decode: string -> JsonDecoded, encode: map<string, JsonValue> -> string)
    requires ShortStart(Strip(name)).None? && JsonStart(Strip(name)).None?
    ensures FromText(ToText(MiniSignature(name, None, map[]), encode), decode)
      == Success(MiniSignature(name, None, map[]))
  {
  }

  /** A text ending in ")" whose last "-" comes after its last "(" cannot end in
      "(digits)". */
  lemma NoShortAfterDash(t: string, q: int)
    requires 0 <= q < |t| - 1 && t[q] == '-'
    requires forall i :: q < i < |t| - 1 ==> t[i] != '('
    ensures forall p :: !ShortAt(t, p)
  {
    forall p ensures !ShortAt(t, p) {
      if 0 <= p < q && p + 3 <= |t| {
        assert t[q] == t[p + 1..|t| - 1][q - p - 1];
      }
    }
  }

  /** A stripped name followed by "(-digits)" is stripped and ends in neither form. */
  lemma DashedNeitherForm(name: string, d: string)
    requires Stripped(name) && |name| > 0 && |d| > 0 && AllDigits(d)
    ensures var t := name + " (-" + d + ")";
            Strip(t) == t && ShortStart(t).None? && JsonStart(t).None?
  {
    var t := name + " (-" + d + ")";
    var q := |name| + 2;
    assert t[0] == name[0] && t[|t| - 1] == ')' && t[q] == '-';
    StripNoSpace(t);
    assert forall i :: q < i < |t| - 1 ==> t[i] == d[i - q - 1];
    NoShortAfterDash(t, q);
    assert t[|t| - 2] == d[|d| - 1];
  }

  /** A negative id, such as the non-parliamentary person -1, is not read back: the
      text comes back as the name and the id is lost. */
  lemma NegativeIdNotRead(name: string, n: int, decode: string -> JsonDecoded, encode: map<string, JsonValue> -> string)
    requires Stripped(name) && |name| > 0 && n < 0
    ensures FromText(ToText(MiniSignature(name, Some(n), map[]), encode), decode)
      == Success(MiniSignature(name + " (-" + NatToString(-n) + ")", None, map[]))
  {
    var d := NatToString(-n);
    assert ToText(MiniSignature(name, Some(n), map[]), encode) == name + " (-" + d + ")";
    DashedNeitherForm(name, d);
  }

  /** An id written next to extra information is dropped by `to_text`. */
  lemma ExtrasHideId(name: string, n: int, m: map<string, JsonValue>, encode: map<string, JsonValue> -> string)
    requires |m| > 0
    ensures ToText(MiniSignature(name, Some(n), m), encode) == ToText(MiniSignature(name, None, m), encode)
  {
  }

  /** A text whose last-but-one character is "}" does not end in "(digits)". */
  lemma BraceNotShort(s: string)
    requires |s| >= 2 && s[|s| - 2] == '}'
    ensures ShortStart(s).None?
  {
  }

  /** After a name without "(", a bracketed one-line object is the leftmost JSON form. */
  lemma JsonOfBracketed(name: string, e: string, k: nat)
    requires '(' !in name && k <= |name| + 1
    requires |e| >= 2 && e[0] == '{' && e[|e| - 1] == '}' && '\n' !in e && '\n' !in name
    ensures var s := Bracketed(name, e)[k..];
      JsonStart(s) == Some(|name| + 1 - k) && s[|name| + 2 - k..|s| - 1] == e && s[|s| - 2] == '}'
  {
    var t := Bracketed(name, e);
    var s := t[k..];
    var q := |name| + 1 - k;
    assert s[q + 1..|s| - 1] == e;
    forall i | q <= i < |s| ensures s[i] != '\n' {
      if q + 1 <= i < |s| - 1 { assert s[i] == e[i - q - 1]; }
    }
    assert JsonAt(s, q);
    forall j | 0 <= j < q ensures !JsonAt(s, j) {
      if j + k < |name| { assert s[j] == name[j + k]; }
    }
  }

  /** A name without "(" followed by a bracketed one-line object that decodes to
      extra information without "person_id" parses to the name and that information. */
  lemma ParseJsonText(name: string, e: string, m: map<string, JsonValue>, decode: string -> JsonDecoded)
    requires Stripped(name) && '(' !in name && '\n' !in name
    requires "person_id" !in m
    requires |e| >= 2 && e[0] == '{' && e[|e| - 1] == '}' && '\n' !in e
    requires decode(e) == Object(m)
    ensures FromText(Bracketed(name, e), decode) == Success(MiniSignature(name, None, m))
  {
    JsonTextMeta(name, e, decode);
    SubJsonBracketed(name, e);
    JsonSignatureOf(Bracketed(name, e), e, m, decode);
  }

  lemma JsonSignatureOf(t: string, e: string, m: map<string, JsonValue>, decode: string -> JsonDecoded)
    requires "person_id" !in m && decode(e) == Object(m)
    ensures JsonSignature(t, e, decode) == Success(MiniSignature(Strip(SubJson(t)), None, m))
  {
    assert m - {"person_id"} == m;
  }

  /** The metadata `FromText` reads from a bracketed one-line object is the object. */
  lemma JsonTextMeta(name: string, e: string, decode: string -> JsonDecoded)
    requires Stripped(name) && '(' !in name && '\n' !in name
    requires |e| >= 2 && e[0] == '{' && e[|e| - 1] == '}' && '\n' !in e
    ensures FromText(Bracketed(name, e), decode) == JsonSignature(Bracketed(name, e), e, decode)
  {
    var s := Strip(Bracketed(name, e));
    JsonTextStarts(name, e);
    FromTextJson(Bracketed(name, e), s, JsonStart(s).value, decode);
  }

  lemma JsonTextStarts(name: string, e: string)
    requires Stripped(name) && '(' !in name && '\n' !in name
    requires |e| >= 2 && e[0] == '{' && e[|e| - 1] == '}' && '\n' !in e
    ensures var s := Strip(Bracketed(name, e));
      ShortStart(s).None? && JsonStart(s).Some? && s[JsonStart(s).value + 1..|s| - 1] == e
  {
    var k := if |name| > 0 then 0 else 1;
    StripBracketed(name, e);
    JsonBracketedFrom(name, e, k);
  }

  /** `JsonTextStarts` for the text from any start up to the bracket. */
  lemma JsonBracketedFrom(name: string, e: string, k: nat)
    requires '(' !in name && k <= |name| + 1
    requires |e| >= 2 && e[0] == '{' && e[|e| - 1] == '}' && '\n' !in e && '\n' !in name
    ensures var s := Bracketed(name, e)[k..];
      ShortStart(s).None? && JsonStart(s).Some? && s[JsonStart(s).value + 1..|s| - 1] == e
  {
    JsonOfBracketed(name, e, k);
    BraceNotShort(Bracketed(name, e)[k..]);
  }

  /** A name without "(" and extra information without "person_id", encoded as an
      object on one line that decodes back, survives the JSON form. */
  lemma JsonRoundTrip(name: string, m: map<string, JsonValue>, decode: string -> JsonDecoded, encode: map<string, JsonValue> -> string)
    requires Stripped(name) && '(' !in name && '\n' !in name
    requires |m| > 0 && "person_id" !in m
    requires |encode(m)| >= 2 && encode(m)[0] == '{' && encode(m)[|encode(m)| - 1] == '}'
    requires '\n' !in encode(m)
    requires decode(encode(m)) == Object(m)
    ensures FromText(ToText(MiniSignature(name, None, m), encode), decode) == Success(MiniSignature(name, None, m))
  {
    assert ToText(MiniSignature(name, None, m), encode) == Bracketed(name, encode(m));
    ParseJsonText(name, encode(m), m, decode);
  }

  lemma FromTextShort(name: string, decode: string -> JsonDecoded)
    requires ShortStart(Strip(name)).Some?
    ensures FromText(name, decode) == Success(ShortSignature(name, Strip(name), ShortStart(Strip(name)).value))
  {
  }

  lemma {:induction false} FromTextJson(name: string, s: string, q: nat, decode: string -> JsonDecoded)
    requires s == Strip(name) && ShortStart(s).None? && JsonStart(s) == Some(q)
    ensures FromText(name, decode) == JsonSignature(name, s[q + 1..|s| - 1], decode)
  {
  }

  lemma SubJsonBracketed(name: string, e: string)
    requires Stripped(name) && '(' !in name && '\n' !in name
    requires |e| >= 2 && e[0] == '{' && e[|e| - 1] == '}' && '\n' !in e
    ensures Strip(SubJson(Bracketed(name, e))) == name
  {
    SubJsonOfBracketed(name, e);
    StripTrailingSpace(name);
  }

  lemma SubJsonOfBracketed(name: string, e: string)
    requires '(' !in name && '\n' !in name
    requires |e| >= 2 && e[0] == '{' && e[|e| - 1] == '}' && '\n' !in e
    ensures SubJson(Bracketed(name, e)) == name + " "
  {
    var t := Bracketed(name, e);
    assert JsonStart(t) == Some(|name| + 1) by {
      JsonOfBracketed(name, e, 0);
      assert t[0..] == t;
    }
    assert t[..|name| + 1] == name + " ";
  }

  /** The text of a canonical signature is a single stripped, non-blank line. */
  lemma CanonicalTextIsLine(sig: MiniSignature, encode: map<string, JsonValue> -> string)
    requires Canonical(sig)
    ensures |ToText(sig, encode)| > 0 && Stripped(ToText(sig, encode)) && '\n' !in ToText(sig, encode)
  {
    if sig.personId.Some? {
      var d := NatToString(sig.personId.value);
      assert ToText(sig, encode) == Bracketed(sig.name, d);
      BracketedOneLine(sig.name, d);
    }
  }

  /** Every canonical signature comes back from its text. */
  lemma CanonicalRoundTrip(sig: MiniSignature, decode: string -> JsonDecoded, encode: map<string, JsonValue> -> string)
    requires Canonical(sig)
    ensures FromText(ToText(sig, encode), decode) == Success(sig)
  {
    if sig.personId.Some? {
      IdRoundTrip(sig.name, sig.personId.value, decode, encode);
    } else {
      PlainRoundTrip(sig.name, decode, encode);
    }
  }

  // ---- Lists of signatories ----

  /** Each line passed through `f`, keeping the non-empty results in order. */
  function KeepNonEmpty(lines: seq<string>, f: string -> string): (r: seq<string>)
    ensures |r| <= |lines|
    ensures forall k :: 0 <= k < |r| ==> |r[k]| > 0
    decreases |lines|
  {
    if |lines| == 0 then []
    else
      var rest := KeepNonEmpty(lines[1..], f);
      if |f(lines[0])| > 0 then [f(lines[0])] + rest else rest
  }

  /** The stripped, non-blank lines, in order. */
  function NonBlankLines(lines: seq<string>): (r: seq<string>)
    ensures |r| <= |lines|
    ensures forall k :: 0 <= k < |r| ==> |r[k]| > 0
  {
    KeepNonEmpty(lines, Strip)
  }

  /** Every non-blank line is kept, stripped. */
  lemma {:induction false} NonBlankKeepsEach(lines: seq<string>)
    ensures forall i :: 0 <= i < |lines| && |Strip(lines[i])| > 0 ==> Strip(lines[i]) in NonBlankLines(lines)
    decreases |lines|
  {
    if |lines| > 0 {
      var rest := lines[1..];
      NonBlankKeepsEach(rest);
      var r := NonBlankLines(lines);
      var r1 := NonBlankLines(rest);
      assert forall x :: x in r1 ==> x in r;
      forall i | 0 <= i < |lines| && |Strip(lines[i])| > 0 ensures Strip(lines[i]) in r {
        if i > 0 { assert lines[i] == rest[i - 1]; }
      }
    }
  }

  /** Every kept result comes from some line. */
  lemma {:induction false} KeptFromLines(lines: seq<string>, f: string -> string)
    ensures forall k :: 0 <= k < |KeepNonEmpty(lines, f)| ==>
      exists i :: 0 <= i < |lines| && KeepNonEmpty(lines, f)[k] == f(lines[i])
    decreases |lines|
  {
    if |lines| > 0 {
      var rest := lines[1..];
      KeptFromLines(rest, f);
      var r := KeepNonEmpty(lines, f);
      var r1 := KeepNonEmpty(rest, f);
      var kept := |f(lines[0])| > 0;
      assert r == (if kept then [f(lines[0])] + r1 else r1);
      forall k | 0 <= k < |r| ensures exists i :: 0 <= i < |lines| && r[k] == f(lines[i]) {
        if kept && k == 0 {
          assert 0 <= 0 < |lines| && r[k] == f(lines[0]);
        } else {
          var k1 := if kept then k - 1 else k;
          assert r[k] == r1[k1];
          var i1 :| 0 <= i1 < |rest| && r1[k1] == f(rest[i1]);
          assert 0 <= i1 + 1 < |lines| && r[k] == f(lines[i1 + 1]);
        }
      }
    } else {
      assert KeepNonEmpty(lines, f) == [];
    }
  }

  /** Every non-blank line is kept, stripped, and nothing else is. */
  lemma {:induction false} NonBlankLinesSpec(lines: seq<string>)
    ensures forall i :: 0 <= i < |lines| && |Strip(lines[i])| > 0 ==> Strip(lines[i]) in NonBlankLines(lines)
    ensures forall k :: 0 <= k < |NonBlankLines(lines)| ==>
      exists i :: 0 <= i < |lines| && NonBlankLines(lines)[k] == Strip(lines[i])
  {
    NonBlankKeepsEach(lines);
    var r := NonBlankLines(lines);
    forall k | 0 <= k < |r| ensures exists i :: 0 <= i < |lines| && r[k] == Strip(lines[i]) {
      KeptFromLines(lines, Strip);
    }
  }

  /** Each line parsed in turn; the first failure stops the list. */
  function ParseEach(lines: seq<string>, parse: string -> Result<MiniSignature, Error>): (r: Result<seq<MiniSignature>, Error>)
    ensures r.Failure? <==> exists i :: 0 <= i < |lines| && parse(lines[i]).Failure?
    ensures r.Success? ==>
      |r.value| == |lines| && forall i :: 0 <= i < |lines| ==> Success(r.value[i]) == parse(lines[i])
    decreases |lines|
  {
    if |lines| == 0 then Success([])
    else
      var head :- parse(lines[0]);
      var rest :- ParseEach(lines[1..], parse);
      assert forall i :: 1 <= i < |lines| ==> lines[i] == lines[1..][i - 1];
      Success([head] + rest)
  }

  function ParseAll(lines: seq<string>, decode: string -> JsonDecoded): (r: Result<seq<MiniSignature>, Error>)
    ensures r.Failure? <==> exists i :: 0 <= i < |lines| && FromText(lines[i], decode).Failure?
    ensures r.Success? ==>
      |r.value| == |lines| && forall i :: 0 <= i < |lines| ==> Success(r.value[i]) == FromText(lines[i], decode)
  {
    ParseEach(lines, l => FromText(l, decode))
  }

  /** `MiniSignatureList.from_text`: one signatory per non-blank line, in order. */
  function ListFromText(text: string, decode: string -> JsonDecoded): (r: Result<seq<MiniSignature>, Error>)
    ensures var lines := NonBlankLines(Split(text, "\n"));
      r.Failure? <==> exists i :: 0 <= i < |lines| && FromText(lines[i], decode).Failure?
    ensures r.Success? ==> |r.value| == |NonBlankLines(Split(text, "\n"))|
    ensures r.Success? ==> forall k :: 0 <= k < |r.value| ==>
      exists i :: 0 <= i < |Split(text, "\n")| && |Strip(Split(text, "\n")[i])| > 0
        && Success(r.value[k]) == FromText(Strip(Split(text, "\n")[i]), decode)
  {
    NonBlankLinesSpec(Split(text, "\n"));
    ParseAll(NonBlankLines(Split(text, "\n")), decode)
  }

  function Texts(sigs: seq<MiniSignature>, encode: map<string, JsonValue> -> string): (r: seq<string>)
    ensures |r| == |sigs| && forall i :: 0 <= i < |sigs| ==> r[i] == ToText(sigs[i], encode)
  {
    seq(|sigs|, i requires 0 <= i < |sigs| => ToText(sigs[i], encode))
  }

  /** `MiniSignatureList.to_text` */
  function ListToText(sigs: seq<MiniSignature>, encode: map<string, JsonValue> -> string): string {
    Join(Texts(sigs, encode), "\n")
  }

  /** Lines that `f` leaves as they are, none of them empty, are all kept. */
  lemma {:induction false} KeepUnchanged(lines: seq<string>, f: string -> string)
    requires forall i :: 0 <= i < |lines| ==> |lines[i]| > 0 && f(lines[i]) == lines[i]
    ensures KeepNonEmpty(lines, f) == lines
    decreases |lines|
  {
    if |lines| > 0 {
      var rest := lines[1..];
      assert forall i :: 0 <= i < |rest| ==> rest[i] == lines[i + 1];
      KeepUnchanged(rest, f);
      assert lines == [lines[0]] + rest;
    }
  }

  lemma NonBlankKeepsStripped(lines: seq<string>)
    requires forall i :: 0 <= i < |lines| ==> |lines[i]| > 0 && Stripped(lines[i])
    ensures NonBlankLines(lines) == lines
  {
    forall i | 0 <= i < |lines| ensures Strip(lines[i]) == lines[i] {
      StripNoSpace(lines[i]);
    }
    KeepUnchanged(lines, Strip);
  }

  /** Lines that each parse to their signature parse to the list. */
  lemma ParseAllPointwise(ts: seq<string>, sigs: seq<MiniSignature>, decode: string -> JsonDecoded)
    requires |ts| == |sigs| && forall i :: 0 <= i < |ts| ==> FromText(ts[i], decode) == Success(sigs[i])
    ensures ParseAll(ts, decode) == Success(sigs)
  {
    var r := ParseAll(ts, decode);
    assert r.Success?;
    assert forall i :: 0 <= i < |ts| ==> r.value[i] == sigs[i];
    assert r.value == sigs;
    assert r == Success(r.value);
  }

  /** The texts of canonical signatures are stripped single lines that parse back. */
  lemma CanonicalTexts(sigs: seq<MiniSignature>, decode: string -> JsonDecoded, encode: map<string, JsonValue> -> string)
    requires forall i :: 0 <= i < |sigs| ==> Canonical(sigs[i])
    ensures forall i :: 0 <= i < |sigs| ==> FromText(Texts(sigs, encode)[i], decode) == Success(sigs[i])
    ensures forall i :: 0 <= i < |sigs| ==>
      |Texts(sigs, encode)[i]| > 0 && Stripped(Texts(sigs, encode)[i]) && '\n' !in Texts(sigs, encode)[i]
  {
    var ts := Texts(sigs, encode);
    forall i | 0 <= i < |sigs|
      ensures FromText(ts[i], decode) == Success(sigs[i])
      ensures |ts[i]| > 0 && Stripped(ts[i]) && '\n' !in ts[i]
    {
      CanonicalRoundTrip(sigs[i], decode, encode);
      CanonicalTextIsLine(sigs[i], encode);
    }
  }

  /** A non-empty list of canonical signatories comes back from its text. */
  lemma ListRoundTrip(sigs: seq<MiniSignature>, decode: string -> JsonDecoded, encode: map<string, JsonValue> -> string)
    requires |sigs| > 0 && forall i :: 0 <= i < |sigs| ==> Canonical(sigs[i])
    ensures ListFromText(ListToText(sigs, encode), decode) == Success(sigs)
  {
    var ts := Texts(sigs, encode);
    CanonicalTexts(sigs, decode, encode);
    SplitJoin(ts, '\n');
    NonBlankKeepsStripped(ts);
    ParseAllPointwise(ts, sigs, decode);
  }

  // ---- Validation ----

  /** `assign_person_ids_from_chamber`: a missing id is looked up by name, and with
      signatures without ids allowed, one still missing becomes the non-parliamentary
      person. */
  function Assign(sigs: seq<MiniSignature>, lookup: string -> Option<int>, allowWithout: bool): (r: seq<MiniSignature>)
    ensures |r| == |sigs|
    ensures forall i :: 0 <= i < |sigs| ==>
      r[i].name == sigs[i].name && r[i].extraInfo == sigs[i].extraInfo && r[i].personId == (if sigs[i].personId.Some? then sigs[i].personId
                           else if lookup(sigs[i].name).Some? then lookup(sigs[i].name)
                           else if allowWithout then Some(NonParlPerson) else None)
  {
    seq(|sigs|, i requires 0 <= i < |sigs| =>
      var id := if sigs[i].personId.Some? then sigs[i].personId else lookup(sigs[i].name);
      sigs[i].(personId := if id.None? && allowWithout then Some(NonParlPerson) else id))
  }

  /** Line `i` (from 0) is a problem: no person, or a person already seen on an
      earlier line who is not the non-parliamentary person. */
  predicate Problem(sigs: seq<MiniSignature>, i: int) {
    0 <= i < |sigs|
    && (sigs[i].personId.None?
        || (sigs[i].personId != Some(NonParlPerson) && exists j :: 0 <= j < i && sigs[j].personId == sigs[i].personId))
  }

  /** The number of problem lines from `k` on. */
  function ProblemCount(sigs: seq<MiniSignature>, k: nat): nat
    requires k <= |sigs|
    decreases |sigs| - k
  {
    if k == |sigs| then 0 else (if Problem(sigs, k) then 1 else 0) + ProblemCount(sigs, k + 1)
  }

  /** The loop collecting one message per problem line, numbered from 1. */
  function Messages(sigs: seq<MiniSignature>, k: nat): (r: seq<string>)
    requires k <= |sigs|
    ensures |r| == ProblemCount(sigs, k)
    ensures |r| == 0 <==> forall i :: k <= i < |sigs| ==> !Problem(sigs, i)
    decreases |sigs| - k
  {
    if k == |sigs| then []
    else
      var rest := Messages(sigs, k + 1);
      var line := IntToString(k + 1);
      if Problem(sigs, k) then
        var msg :=
          if sigs[k].personId.None? then "Line " + line + ": Could not find person '" + sigs[k].name + "'"
          else "Line " + line + ": Duplicate signatory '" + sigs[k].name + "' found";
        [msg] + rest
      else
        rest
  }

  /** `validate_signatories_text`: an empty list is refused; otherwise ids are
      assigned and the list is accepted exactly when no line is a problem. */
  function ValidateSignatories(sigs: seq<MiniSignature>, lookup: string -> Option<int>, allowWithout: bool): (r: Result<seq<MiniSignature>, Error>)
    ensures |sigs| == 0 ==> r.Failure?
    ensures |sigs| > 0 ==> (r.Success? <==> forall i :: 0 <= i < |sigs| ==> !Problem(Assign(sigs, lookup, allowWithout), i))
    ensures r.Success? ==> r.value == Assign(sigs, lookup, allowWithout)
    ensures r.Failure? ==> r.error.ValidationError?
  {
    if |sigs| == 0 then Failure(ValidationError(["At least one signatory is required."]))
    else
      var filled := Assign(sigs, lookup, allowWithout);
      var msgs := Messages(filled, 0);
      if |msgs| > 0 then Failure(ValidationError(msgs)) else Success(filled)
  }

  /** An accepted list names every person at most once, the non-parliamentary person
      aside, and every line has a person. */
  lemma AcceptedHasNoDuplicates(sigs: seq<MiniSignature>, lookup: string -> Option<int>, allowWithout: bool)
    requires ValidateSignatories(sigs, lookup, allowWithout).Success?
    ensures var v := ValidateSignatories(sigs, lookup, allowWithout).value;
      |v| > 0
      && (forall i :: 0 <= i < |v| ==> v[i].personId.Some?)
      && forall i, j :: 0 <= i < j < |v| && v[i].personId == v[j].personId ==> v[i].personId == Some(NonParlPerson)
  {
    var v := ValidateSignatories(sigs, lookup, allowWithout).value;
    forall i, j | 0 <= i < j < |v| && v[i].personId == v[j].personId
      ensures v[i].personId == Some(NonParlPerson)
    {
      assert !Problem(v, j);
    }
    forall i | 0 <= i < |v| ensures v[i].personId.Some? {
      assert !Problem(v, i);
    }
  }

  /** With signatures without ids allowed, nobody is left unfound. */
  lemma AllowedNeverUnfound(sigs: seq<MiniSignature>, lookup: string -> Option<int>)
    ensures forall i :: 0 <= i < |sigs| ==> Assign(sigs, lookup, true)[i].personId.Some?
  {
  }

  // ---- Vote annotation updates ----

  datatype VoteAnnotationUpdate = VoteAnnotationUpdate(personId: int, link: string, detail: string, delete: bool)

  /** `VoteAnnotationUpdate.check_required_fields`: an update that is not a deletion
      needs a link; a detail alone is not enough. */
  function CheckRequiredFields(u: VoteAnnotationUpdate): (r: Result<VoteAnnotationUpdate, Error>)
    ensures r.Success? ==> r.value == u
    ensures r.Failure? <==> !u.delete && u.link == ""
  {
    if u.delete then Success(u)
    else if u.link == "" then Failure(ValueError("Either 'link' must be provided unless 'delete' is true"))
    else Success(u)
  }

  /** A deletion is always accepted, and an update with only a detail never is. */
  lemma DetailAloneRejected(p: int, detail: string, link: string)
    ensures CheckRequiredFields(VoteAnnotationUpdate(p, link, detail, true)).Success?
    ensures CheckRequiredFields(VoteAnnotationUpdate(p, "", detail, false)).Failure?
  {
  }
}

=== FILE: helper_models.dfy ===
/** View-side helpers (`votes/views/helper_models.py`): pairing a person's policy
    distribution with its comparison, the significant-difference rule, and the
    issue report a policy gets from its division links. */
module HelperModels {
  import opened Wrappers
  import opened Text
  import opened Consts
  import opened Models
  import opened Collections

  // ---- Paired policies ----

  /** The grouping key of a distribution: policy, person, period, chamber and party. */
  datatype DistKey = DistKey(policy: int, person: int, period: int, chamber: int, party: Option<int>)

  /** A `VoteDistribution` as the pairing sees it. */
  datatype Distribution = Distribution(key: DistKey, isTarget: bool, score: real)

  datatype Paired = Paired(policy: int, own: Distribution, other: Distribution)

  /** `PairedPolicy.comparison_score_difference` */
  function Difference(p: Paired): real {
    p.own.score - p.other.score
  }

  /** `PairedPolicy.significant_difference`: one side below 0.4 and the other above 0.6. */
  predicate SignificantScores(own: real, other: real) {
    (own < 0.4 && other > 0.6) || (own > 0.6 && other < 0.4)
  }

  predicate Significant(p: Paired) { SignificantScores(p.own.score, p.other.score) }

  /** The rule does not depend on which side is the person; a significant pair is
      more than 0.2 apart, and a pair compared with itself never is. */
  lemma SignificantSymmetric(own: real, other: real)
    ensures SignificantScores(own, other) <==> SignificantScores(other, own)
    ensures SignificantScores(own, other) ==> own - other > 0.2 || other - own > 0.2
    ensures !SignificantScores(own, own)
  {
  }

  /** Swapping the two sides negates the difference. */
  lemma DifferenceAntisymmetric(p: Paired)
    ensures Difference(Paired(p.policy, p.other, p.own)) == -Difference(p)
    ensures Significant(Paired(p.policy, p.other, p.own)) == Significant(p)
  {
  }

  function Targets(g: seq<Distribution>): (r: seq<Distribution>)
    ensures forall d :: d in r <==> d in g && d.isTarget
    ensures |r| <= |g|
    decreases |g|
  {
    if |g| == 0 then []
    else (if g[0].isTarget then [g[0]] else []) + Targets(g[1..])
  }

  function Others(g: seq<Distribution>): (r: seq<Distribution>)
    ensures forall d :: d in r <==> d in g && !d.isTarget
    ensures |r| <= |g|
    decreases |g|
  {
    if |g| == 0 then []
    else (if !g[0].isTarget then [g[0]] else []) + Others(g[1..])
  }

  /** One key's group of the pairing loop in `PolicyCollection.from_distributions`:
      more than one target or comparator raises; no target skips the key; a missing
      comparator is replaced by the target itself; a target without data (-1) is
      dropped. */
  function PairGroup(g: seq<Distribution>): (r: Result<Option<Paired>, Error>)
    ensures r.Failure? <==> |Targets(g)| > 1 || |Others(g)| > 1
    ensures r.Success? && r.value.Some? <==>
      |Targets(g)| == 1 && |Others(g)| <= 1 && Targets(g)[0].score != -1.0
    ensures r.Success? && r.value.Some? ==>
      r.value.value.own in g && r.value.value.own.isTarget && r.value.value.other in g
      && r.value.value.policy == r.value.value.own.key.policy
      && (r.value.value.other == r.value.value.own <==> |Others(g)| == 0)
      && (r.value.value.other == r.value.value.own || !r.value.value.other.isTarget)
      && r.value.value.own.score != -1.0
  {
    var ours := Targets(g);
    var theirs := Others(g);
    if |ours| > 1 || |theirs| > 1 then Failure(ValueError("Too many distributions for the same policy"))
    else if |ours| == 0 then Success(None)
    else
      var own := ours[0];
      var other := if |theirs| == 0 then own else theirs[0];
      assert own in g && other in g;
      if own.score == -1.0 then Success(None)
      else Success(Some(Paired(own.key.policy, own, other)))
  }

  /** The distributions sharing one key, in input order. */
  function WithKey(ds: seq<Distribution>, k: DistKey): (r: seq<Distribution>)
    ensures forall d :: d in r <==> d in ds && d.key == k
    decreases |ds|
  {
    if |ds| == 0 then []
    else (if ds[0].key == k then [ds[0]] else []) + WithKey(ds[1..], k)
  }

  /** The pairing loop over the groups of `keys` (the sorted distinct keys): the first
      group that raises stops the whole collection. */
  function PairAll(ds: seq<Distribution>, keys: seq<DistKey>): (r: Result<seq<Paired>, Error>)
    ensures r.Failure? <==> exists i :: 0 <= i < |keys| && PairGroup(WithKey(ds, keys[i])).Failure?
    ensures r.Success? ==> forall p :: p in r.value ==> PairedFrom(ds, keys, p)
    decreases |keys|
  {
    if |keys| == 0 then Success([])
    else
      var first := PairGroup(WithKey(ds, keys[0]));
      var later := PairAll(ds, keys[1..]);
      PairAllFails(ds, keys, first, later);
      var head :- first;
      var rest :- later;
      PairAllStep(ds, keys, head, rest);
      Success((if head.Some? then [head.value] else []) + rest)
  }

  /** A pair made for key `k` from the distributions of `ds`. */
  predicate PairedFrom(ds: seq<Distribution>, keys: seq<DistKey>, p: Paired) {
    p.own in ds && p.own.isTarget && p.own.score != -1.0 && p.other in ds
    && p.other.key == p.own.key && (p.other == p.own || !p.other.isTarget) && p.own.key in keys
  }

  /** The collection fails exactly when the first group or a later one does. */
  lemma PairAllFails(ds: seq<Distribution>, keys: seq<DistKey>,
                     first: Result<Option<Paired>, Error>, later: Result<seq<Paired>, Error>)
    requires |keys| > 0 && first == PairGroup(WithKey(ds, keys[0]))
    requires later.Failure? <==> exists i :: 0 <= i < |keys[1..]| && PairGroup(WithKey(ds, keys[1..][i])).Failure?
    ensures first.Failure? || later.Failure? <==>
      exists i :: 0 <= i < |keys| && PairGroup(WithKey(ds, keys[i])).Failure?
  {
    ExistsAtHead(keys, k => PairGroup(WithKey(ds, k)).Failure?);
  }

  /** Some element has `P` exactly when the first does or some later one does. */
  lemma ExistsAtHead<K>(keys: seq<K>, P: K -> bool)
    requires |keys| > 0
    ensures (exists i :: 0 <= i < |keys| && P(keys[i])) <==>
      P(keys[0]) || exists i :: 0 <= i < |keys[1..]| && P(keys[1..][i])
  {
    if exists i :: 0 <= i < |keys[1..]| && P(keys[1..][i]) {
      var i :| 0 <= i < |keys[1..]| && P(keys[1..][i]);
      assert keys[1..][i] == keys[i + 1];
    }
    if exists i :: 0 <= i < |keys| && P(keys[i]) {
      var i :| 0 <= i < |keys| && P(keys[i]);
      if i > 0 {
        assert keys[i] == keys[1..][i - 1];
      }
    }
  }

  /** The group's pair and the later pairs are all made from `ds` for listed keys. */
  lemma PairAllStep(ds: seq<Distribution>, keys: seq<DistKey>, head: Option<Paired>, rest: seq<Paired>)
    requires |keys| > 0 && PairGroup(WithKey(ds, keys[0])) == Success(head)
    requires forall p :: p in rest ==> PairedFrom(ds, keys[1..], p)
    ensures forall p :: p in (if head.Some? then [head.value] else []) + rest ==> PairedFrom(ds, keys, p)
  {
    forall p | p in rest ensures PairedFrom(ds, keys, p) {
      assert p.own.key in keys[1..];
    }
  }

  /** Every target with data whose key is listed is paired, once the collection
      succeeds. */
  lemma {:induction false} PairAllComplete(ds: seq<Distribution>, keys: seq<DistKey>, d: Distribution)
    requires PairAll(ds, keys).Success?
    requires d in ds && d.isTarget && d.score != -1.0 && d.key in keys
    ensures exists p :: p in PairAll(ds, keys).value && p.own == d
    decreases |keys|
  {
    var g := WithKey(ds, keys[0]);
    var head := PairGroup(g);
    assert head.Success?;
    if d.key == keys[0] {
      assert d in Targets(g);
      assert |Targets(g)| == 1;
      assert Targets(g)[0] == d;
      assert head.value.Some? && head.value.value.own == d;
      assert head.value.value in PairAll(ds, keys).value;
    } else {
      PairAllComplete(ds, keys[1..], d);
      var rest := PairAll(ds, keys[1..]).value;
      var p :| p in rest && p.own == d;
      assert p in PairAll(ds, keys).value;
    }
  }

  /** A display group: a slug and the paired policies in it. */
  datatype DisplayGroup = DisplayGroup(slug: string, items: seq<Paired>)

  function SignificantOf(ps: seq<Paired>): (r: seq<Paired>)
    ensures forall p :: p in r <==> p in ps && Significant(p)
    decreases |ps|
  {
    if |ps| == 0 then []
    else (if Significant(ps[0]) then [ps[0]] else []) + SignificantOf(ps[1..])
  }

  function InGroup(ps: seq<Paired>, slug: string, groupsOf: int -> set<string>): (r: seq<Paired>)
    ensures forall p :: p in r <==> p in ps && slug in groupsOf(p.policy)
    decreases |ps|
  {
    if |ps| == 0 then []
    else (if slug in groupsOf(ps[0].policy) then [ps[0]] else []) + InGroup(ps[1..], slug, groupsOf)
  }

  function SlugGroups(ps: seq<Paired>, slugs: seq<string>, groupsOf: int -> set<string>): (r: seq<DisplayGroup>)
    ensures forall g :: g in r ==>
      g.slug in slugs && |g.items| > 0 && forall p :: p in g.items <==> p in ps && g.slug in groupsOf(p.policy)
    ensures forall s :: s in slugs && (exists p :: p in ps && s in groupsOf(p.policy)) ==>
      exists g :: g in r && g.slug == s
    decreases |slugs|
  {
    if |slugs| == 0 then []
    else
      var items := InGroup(ps, slugs[0], groupsOf);
      var rest := SlugGroups(ps, slugs[1..], groupsOf);
      assert forall s :: s in slugs && s != slugs[0] ==> s in slugs[1..];
      if |items| > 0 then
        var r := [DisplayGroup(slugs[0], items)] + rest;
        assert r[0] in r && forall g :: g in rest ==> g in r;
        r
      else
        assert items == [];
        rest
  }

  /** The display groups of `from_distributions`: "significant" first, whatever it
      holds, then one group per policy-group slug (in the enum's order) that has at
      least one paired policy. */
  function DisplayGroups(ps: seq<Paired>, slugs: seq<string>, groupsOf: int -> set<string>): (r: seq<DisplayGroup>)
    ensures |r| >= 1 && r[0].slug == "significant"
    ensures forall p :: p in r[0].items <==> p in ps && Significant(p)
    ensures forall i :: 1 <= i < |r| ==> r[i].slug in slugs && |r[i].items| > 0
    ensures forall s :: s in slugs && (exists p :: p in ps && s in groupsOf(p.policy)) ==>
      exists i :: 1 <= i < |r| && r[i].slug == s
  {
    var rest := SlugGroups(ps, slugs, groupsOf);
    var r := [DisplayGroup("significant", SignificantOf(ps))] + rest;
    assert forall i :: 1 <= i < |r| ==> r[i] == rest[i - 1];
    assert forall g :: g in rest ==> exists i :: 1 <= i < |r| && r[i] == g by {
      forall g | g in rest ensures exists i :: 1 <= i < |r| && r[i] == g {
        var j :| 0 <= j < |rest| && rest[j] == g;
        assert r[j + 1] == g;
      }
    }
    r
  }

  // ---- Policy report ----

  /** A division link of a policy as the report reads it. */
  datatype PolicyLink = PolicyLink(decision: int, notes: string, strong: bool, divisionName: string, motion: Option<Motion>)

  /** Issues against divisions, keyed by issue type, and policy-level issues and warnings. */
  datatype Report = Report(divisionIssues: map<IssueType, seq<int>>, issues: seq<IssueType>, warnings: seq<IssueType>)

  const EmptyReport := Report(map[], [], [])

  /** The marker in a note that suppresses an issue. */
  function IgnoreTag(i: IssueType): string { "ignore:" + IssueValue(i) }

  predicate Ignores(notes: string, i: IssueType) { Contains(notes, IgnoreTag(i)) }

  function IssuesFor(r: Report, i: IssueType): seq<int> {
    if i in r.divisionIssues then r.divisionIssues[i] else []
  }

  /** An issue key is present only with at least one division under it. */
  predicate WellFormed(r: Report) {
    forall i :: i in r.divisionIssues ==> |r.divisionIssues[i]| > 0
  }

  /** `PolicyReport.add_from_division_issue`: unless the link's notes ignore the issue,
      the division is appended under it; the flag says whether it was. */
  function AddDivisionIssue(r: Report, l: PolicyLink, i: IssueType): (res: (Report, bool))
    ensures res.1 <==> !Ignores(l.notes, i)
    ensures IssuesFor(res.0, i) == IssuesFor(r, i) + (if res.1 then [l.decision] else [])
    ensures forall j :: j != i ==> IssuesFor(res.0, j) == IssuesFor(r, j)
    ensures res.0.issues == r.issues && res.0.warnings == r.warnings
    ensures WellFormed(r) ==> WellFormed(res.0)
  {
    if Ignores(l.notes, i) then (r, false)
    else (r.(divisionIssues := r.divisionIssues[i := IssuesFor(r, i) + [l.decision]]), true)
  }

  /** `PolicyReport.add_policy_issue`: unless the policy's notes ignore the issue, it is
      added to the warnings or the issues, never twice. */
  function AddPolicyIssue(r: Report, notes: string, i: IssueType, warning: bool): (res: (Report, bool))
    ensures res.1 <==> !Ignores(notes, i)
    ensures res.0.divisionIssues == r.divisionIssues
    ensures warning ==>
      res.0.issues == r.issues && forall j :: j in res.0.warnings <==> j in r.warnings || (res.1 && j == i)
    ensures !warning ==>
      res.0.warnings == r.warnings && forall j :: j in res.0.issues <==> j in r.issues || (res.1 && j == i)
    ensures NoDuplicates(r.issues) ==> NoDuplicates(res.0.issues)
    ensures NoDuplicates(r.warnings) ==> NoDuplicates(res.0.warnings)
  {
    if Ignores(notes, i) then (r, false)
    else if warning then
      (if i in r.warnings then (r, true) else (r.(warnings := r.warnings + [i]), true))
    else
      (if i in r.issues then (r, true) else (r.(issues := r.issues + [i]), true))
  }

  /** `has_issues` */
  predicate HasIssues(r: Report) { |r.issues| > 0 || |r.divisionIssues| > 0 }

  /** On a well-formed report, having issues means some policy issue or some division
      filed under an issue. */
  lemma HasIssuesSpec(r: Report)
    requires WellFormed(r)
    ensures HasIssues(r) <==> |r.issues| > 0 || exists i :: |IssuesFor(r, i)| > 0
  {
    if |r.divisionIssues| > 0 {
      var i :| i in r.divisionIssues;
      assert |IssuesFor(r, i)| > 0;
    }
  }

  /** The division's name mentions the Queen's Speech, or its motion is government agenda. */
  predicate GovAgenda(l: PolicyLink) {
    Contains(Lower(l.divisionName), "queen's speech")
    || (l.motion.Some? && l.motion.value.motionType == GovernmentAgenda)
  }

  /** A division with a motion that is not found to use parliamentary powers. */
  predicate WithoutPower(l: PolicyLink) {
    l.motion.Some? && DivisionUsesPowers(l.motion) != UsesPowers
  }

  predicate Opposition(l: PolicyLink) { Contains(Lower(l.divisionName), "opposition") }

  /** The running state of the loop in `from_policy`. */
  datatype Tally = Tally(report: Report, strong: nat, flagged: nat)

  /** The issues a strong division can get, in the loop's order; returns whether the
      government-agenda issue and the without-power issue were each added. */
  function LinkIssues(r: Report, l: PolicyLink): (res: (Report, bool, bool))
    ensures res.1 <==> l.strong && GovAgenda(l) && !Ignores(l.notes, StrongVoteGovAgenda)
    ensures res.2 <==> l.strong && WithoutPower(l) && !Ignores(l.notes, StrongWithoutPower)
    ensures res.0.issues == r.issues && res.0.warnings == r.warnings
    ensures WellFormed(r) ==> WellFormed(res.0)
  {
    var (r1, a1) := if l.strong && GovAgenda(l) then AddDivisionIssue(r, l, StrongVoteGovAgenda) else (r, false);
    var (r2, a2) := if l.strong && WithoutPower(l) then AddDivisionIssue(r1, l, StrongWithoutPower) else (r1, false);
    var r3 := if Opposition(l) && l.strong then AddDivisionIssue(r2, l, StrongWithoutPower).0 else r2;
    (r3, a1, a2)
  }

  /** One loop step as written: each of the two issues added counts towards
      `strong_without_power`, so one division can count twice. */
  function StepAsWritten(t: Tally, l: PolicyLink): Tally {
    var (r, a1, a2) := LinkIssues(t.report, l);
    Tally(r, t.strong + (if l.strong then 1 else 0), t.flagged + (if a1 then 1 else 0) + (if a2 then 1 else 0))
  }

  /** One loop step counting each flagged division once. */
  function Step(t: Tally, l: PolicyLink): Tally {
    var (r, a1, a2) := LinkIssues(t.report, l);
    Tally(r, t.strong + (if l.strong then 1 else 0), t.flagged + (if a1 || a2 then 1 else 0))
  }

  function TallyLinksAsWritten(t: Tally, links: seq<PolicyLink>): Tally
    decreases |links|
  {
    if |links| == 0 then t else TallyLinksAsWritten(StepAsWritten(t, links[0]), links[1..])
  }

  function TallyLinks(t: Tally, links: seq<PolicyLink>): Tally
    decreases |links|
  {
    if |links| == 0 then t else TallyLinks(Step(t, links[0]), links[1..])
  }

  /** The policy-level issues after the loop: no strong votes, or none left once the
      flagged ones are taken away, and a warning for exactly one strong vote. */
  function Conclude(t: Tally, notes: string): (r: Report)
    ensures NoStrongVotes in r.issues <==>
      NoStrongVotes in t.report.issues || (t.strong == 0 && !Ignores(notes, NoStrongVotes))
    ensures NoStrongVotesAfterPowerChange in r.issues <==>
      NoStrongVotesAfterPowerChange in t.report.issues
      || (t.strong > 0 && t.strong == t.flagged && !Ignores(notes, NoStrongVotesAfterPowerChange))
    ensures OnlyOneStrongVote in r.warnings <==>
      OnlyOneStrongVote in t.report.warnings || (t.strong == 1 && !Ignores(notes, OnlyOneStrongVote))
    ensures |r.issues| <= |t.report.issues| + 1
    ensures r.divisionIssues == t.report.divisionIssues
  {
    var r1 :=
      if t.strong == 0 then AddPolicyIssue(t.report, notes, NoStrongVotes, false).0
      else if t.strong - t.flagged == 0 then AddPolicyIssue(t.report, notes, NoStrongVotesAfterPowerChange, false).0
      else t.report;
    if t.strong == 1 then AddPolicyIssue(r1, notes, OnlyOneStrongVote, true).0 else r1
  }

  /** `PolicyReport.from_policy` as written. */
  function FromPolicyAsWritten(notes: string, links: seq<PolicyLink>): (r: Report)
    // the strong-vote count is right: "no strong votes" and the one-vote warning
    // come out as in the corrected report
    ensures NoStrongVotes in r.issues <==> StrongCount(links) == 0 && !Ignores(notes, NoStrongVotes)
    ensures OnlyOneStrongVote in r.warnings <==> StrongCount(links) == 1 && !Ignores(notes, OnlyOneStrongVote)
    ensures |r.issues| <= 1
  {
    TallyLinksAsWrittenCounts(Tally(EmptyReport, 0, 0), links);
    Conclude(TallyLinksAsWritten(Tally(EmptyReport, 0, 0), links), notes)
  }

  /** `PolicyReport.from_policy` with each flagged division counted once: "no strong
      votes" exactly when there are none, "none after the power change" exactly when
      every strong division was flagged, the one-vote warning exactly for a single
      strong vote, each unless the policy's notes ignore it. */
  function FromPolicy(notes: string, links: seq<PolicyLink>): (r: Report)
    ensures NoStrongVotes in r.issues <==> StrongCount(links) == 0 && !Ignores(notes, NoStrongVotes)
    ensures NoStrongVotesAfterPowerChange in r.issues <==>
      StrongCount(links) > 0 && (forall l :: l in links && l.strong ==> Flagged(l))
      && !Ignores(notes, NoStrongVotesAfterPowerChange)
    ensures OnlyOneStrongVote in r.warnings <==> StrongCount(links) == 1 && !Ignores(notes, OnlyOneStrongVote)
    ensures |r.issues| <= 1
    ensures WellFormed(r)
  {
    TallyLinksCounts(Tally(EmptyReport, 0, 0), links);
    FlaggedCountBound(links);
    Conclude(TallyLinks(Tally(EmptyReport, 0, 0), links), notes)
  }

  /** The loop as written counts the strong divisions and files only division issues. */
  lemma {:induction false} TallyLinksAsWrittenCounts(t: Tally, links: seq<PolicyLink>)
    ensures TallyLinksAsWritten(t, links).strong == t.strong + StrongCount(links)
    ensures TallyLinksAsWritten(t, links).report.issues == t.report.issues
    ensures TallyLinksAsWritten(t, links).report.warnings == t.report.warnings
    decreases |links|
  {
    if |links| > 0 {
      TallyLinksAsWrittenCounts(StepAsWritten(t, links[0]), links[1..]);
    }
  }

  /** A strong division that got at least one of the two issues. */
  predicate Flagged(l: PolicyLink) {
    l.strong
    && ((GovAgenda(l) && !Ignores(l.notes, StrongVoteGovAgenda))
        || (WithoutPower(l) && !Ignores(l.notes, StrongWithoutPower)))
  }

  function StrongCount(links: seq<PolicyLink>): nat
    decreases |links|
  {
    if |links| == 0 then 0 else (if links[0].strong then 1 else 0) + StrongCount(links[1..])
  }

  function FlaggedCount(links: seq<PolicyLink>): nat
    decreases |links|
  {
    if |links| == 0 then 0 else (if Flagged(links[0]) then 1 else 0) + FlaggedCount(links[1..])
  }

  /** At most every strong division is flagged, and all are exactly when the counts meet. */
  lemma {:induction false} FlaggedCountBound(links: seq<PolicyLink>)
    ensures FlaggedCount(links) <= StrongCount(links)
    ensures FlaggedCount(links) == StrongCount(links) <==> forall l :: l in links && l.strong ==> Flagged(l)
    decreases |links|
  {
    if |links| > 0 {
      FlaggedCountBound(links[1..]);
      assert links == [links[0]] + links[1..];
    }
  }

  /** The loop counts the strong and the flagged divisions and files only division
      issues, keeping the report well formed. */
  lemma {:induction false} TallyLinksCounts(t: Tally, links: seq<PolicyLink>)
    ensures TallyLinks(t, links).strong == t.strong + StrongCount(links)
    ensures TallyLinks(t, links).flagged == t.flagged + FlaggedCount(links)
    ensures TallyLinks(t, links).report.issues == t.report.issues
    ensures TallyLinks(t, links).report.warnings == t.report.warnings
    ensures WellFormed(t.report) ==> WellFormed(TallyLinks(t, links).report)
    decreases |links|
  {
    if |links| > 0 {
      TallyLinksCounts(Step(t, links[0]), links[1..]);
    }
  }

  /** A strong government-agenda motion that does not use powers gets both issues. */
  lemma GovAgendaWithoutPowerFlaggedTwice(l: PolicyLink)
    requires l.strong && l.motion.Some? && l.motion.value.motionType == GovernmentAgenda
    requires IsNonactionVote(l.motion.value.text)
    requires !Ignores(l.notes, StrongVoteGovAgenda) && !Ignores(l.notes, StrongWithoutPower)
    ensures StepAsWritten(Tally(EmptyReport, 0, 0), l).flagged == 2
    ensures Step(Tally(EmptyReport, 0, 0), l).flagged == 1
  {
  }

  /** The discrepancy: a policy whose only strong division is such a motion has no
      strong vote left, yet as written 1 - 2 is not 0 and the issue is missed; counting
      the division once reports it. */
  lemma DoubleCountMissesIssue(notes: string, l: PolicyLink)
    requires l.strong && l.motion.Some? && l.motion.value.motionType == GovernmentAgenda
    requires IsNonactionVote(l.motion.value.text)
    requires !Ignores(l.notes, StrongVoteGovAgenda) && !Ignores(l.notes, StrongWithoutPower)
    requires !Ignores(notes, NoStrongVotesAfterPowerChange)
    ensures NoStrongVotesAfterPowerChange !in FromPolicyAsWritten(notes, [l]).issues
    ensures NoStrongVotesAfterPowerChange in FromPolicy(notes, [l]).issues
  {
    var t0 := Tally(EmptyReport, 0, 0);
    GovAgendaWithoutPowerFlaggedTwice(l);
    SingleLink(t0, l);
    var asWritten := StepAsWritten(t0, l);
    var fixed := Step(t0, l);
    assert asWritten.report.issues == [] && fixed.report.issues == [] by {
      assert LinkIssues(t0.report, l).0.issues == [];
    }
    ConcludeCounts(asWritten, notes);
    ConcludeCounts(fixed, notes);
  }

  /** One strong division: the issue is raised exactly when it is flagged once. */
  lemma ConcludeCounts(t: Tally, notes: string)
    requires t.strong == 1 && t.report.issues == []
    requires !Ignores(notes, NoStrongVotesAfterPowerChange)
    ensures NoStrongVotesAfterPowerChange in Conclude(t, notes).issues <==> t.flagged == 1
  {
  }

  /** A policy with one link runs the loop body once. */
  lemma SingleLink(t: Tally, l: PolicyLink)
    ensures TallyLinksAsWritten(t, [l]) == StepAsWritten(t, l)
    ensures TallyLinks(t, [l]) == Step(t, l)
  {
    assert [l][1..] == [];
  }
}

=== FILE: legislation_tags.dfy ===
/** Legislation tagging helpers (`votes/populate/legislation_tags.py`): the tag slug,
    the bill-title fixer that turns an Act's title back into its Bill's, the
    extraction of a bill's name from a decision title, and the title-word overlap
    test.  Regular-expression classes are read as ASCII. */
module LegislationTags {
  import opened Wrappers
  import opened Text

  // ---- full_slugify ----

  predicate WordOrSpace(c: char) { IsWordChar(c) || IsSpace(c) }

  /** What a slug is made of: lower-case word characters only. */
  predicate Slug(s: string) {
    forall i :: 0 <= i < |s| ==> IsWordChar(s[i]) && !IsUpper(s[i])
  }

  /** `re.sub(r"[^\w\s]", "", s)`: drop every character that is neither a word
      character nor whitespace. */
  function KeepWordSpace(s: string): (r: string)
    ensures |r| <= |s|
    ensures forall i :: 0 <= i < |r| ==> WordOrSpace(r[i])
    decreases |s|
  {
    if |s| == 0 then ""
    else (if WordOrSpace(s[0]) then [s[0]] else "") + KeepWordSpace(s[1..])
  }

  lemma {:induction false} KeepWordSpaceKeepsAll(s: string)
    requires forall i :: 0 <= i < |s| ==> WordOrSpace(s[i])
    ensures KeepWordSpace(s) == s
    decreases |s|
  {
    if |s| > 0 {
      assert forall i :: 1 <= i < |s| ==> s[i] == s[1..][i - 1];
      KeepWordSpaceKeepsAll(s[1..]);
      assert s == [s[0]] + s[1..];
    }
  }

  /** `re.sub(r"\s+", "_", s)`: each run of whitespace becomes one underscore,
      written where the run ends. */
  function Underscores(s: string): (r: string)
    ensures forall i :: 0 <= i < |r| ==> !IsSpace(r[i])
    ensures (forall i :: 0 <= i < |s| ==> WordOrSpace(s[i])) ==> forall i :: 0 <= i < |r| ==> IsWordChar(r[i])
    decreases |s|
  {
    if |s| == 0 then ""
    else
      assert forall i :: 1 <= i < |s| ==> s[i] == s[1..][i - 1];
      if !IsSpace(s[0]) then [s[0]] + Underscores(s[1..])
      else if |s| > 1 && IsSpace(s[1]) then Underscores(s[1..])
      else "_" + Underscores(s[1..])
  }

  lemma {:induction false} UnderscoresNoSpace(s: string)
    requires forall i :: 0 <= i < |s| ==> !IsSpace(s[i])
    ensures Underscores(s) == s
    decreases |s|
  {
    if |s| > 0 {
      assert forall i :: 1 <= i < |s| ==> s[i] == s[1..][i - 1];
      UnderscoresNoSpace(s[1..]);
      assert s == [s[0]] + s[1..];
    }
  }

  /** `full_slugify`: strip, drop punctuation, strip again, whitespace runs to
      underscores, lower case. */
  function FullSlugify(s: string): (r: string)
    // whatever the input, the result is a slug
    ensures Slug(r)
  {
    var k := KeepWordSpace(Strip(s));
    StripPreserves(k, WordOrSpace);
    SlugOfWordSpace(Strip(k));
    Lower(Underscores(Strip(k)))
  }

  /** Word characters and whitespace, with the whitespace turned into underscores
      and the letters lowered, give a slug. */
  lemma SlugOfWordSpace(t: string)
    requires forall i :: 0 <= i < |t| ==> WordOrSpace(t[i])
    ensures Slug(Lower(Underscores(t)))
  {
    var u := Underscores(t);
    forall i | 0 <= i < |Lower(u)| ensures IsWordChar(Lower(u)[i]) && !IsUpper(Lower(u)[i]) {
      assert Lower(u)[i] == LowerChar(u[i]);
    }
  }

  /** A slug is its own slug, so slugifying twice changes nothing. */
  lemma SlugFixed(s: string)
    requires Slug(s)
    ensures FullSlugify(s) == s
  {
    assert forall i :: 0 <= i < |s| ==> WordOrSpace(s[i]) && !IsSpace(s[i]);
    StripNoSpace(s);
    KeepWordSpaceKeepsAll(s);
    UnderscoresNoSpace(s);
    assert Lower(s) == s;
  }

  lemma FullSlugifyIdempotent(s: string)
    ensures FullSlugify(FullSlugify(s)) == FullSlugify(s)
  {
    SlugFixed(FullSlugify(s));
  }

  /** A run of characters with no whitespace passes through `Underscores` as is. */
  lemma {:induction false} UnderscoresPrefix(a: string, b: string)
    requires forall i :: 0 <= i < |a| ==> !IsSpace(a[i])
    ensures Underscores(a + b) == a + Underscores(b)
    decreases |a|
  {
    if |a| > 0 {
      var s := a + b;
      assert Underscores(s) == [a[0]] + Underscores(a[1..] + b) by {
        assert s[0] == a[0] && !IsSpace(s[0]);
        assert s[1..] == a[1..] + b;
      }
      UnderscoresPrefix(a[1..], b);
      Assoc([a[0]], a[1..], Underscores(b));
      assert a == [a[0]] + a[1..];
    } else {
      assert a + b == b;
    }
  }

  /** Character facts about two slug words joined by a space or an underscore. */
  lemma JoinedSlugChars(a: string, b: string)
    requires Slug(a) && Slug(b)
    ensures forall i :: 0 <= i < |a + " " + b| ==> WordOrSpace((a + " " + b)[i])
    ensures forall i :: 0 <= i < |a| ==> !IsSpace(a[i])
    ensures forall i :: 0 <= i < |b| ==> !IsSpace(b[i])
    ensures forall i :: 0 <= i < |a + "_" + b| ==> !IsUpper((a + "_" + b)[i])
  {
    var s := a + " " + b;
    assert forall i :: 0 <= i < |a| ==> s[i] == a[i];
    assert forall i :: 0 <= i < |b| ==> s[|a| + 1 + i] == b[i];
    var u := a + "_" + b;
    assert forall i :: 0 <= i < |a| ==> u[i] == a[i];
    assert forall i :: 0 <= i < |b| ==> u[|a| + 1 + i] == b[i];
  }

  /** A space between two words with no whitespace becomes one underscore. */
  lemma UnderscoresSpaced(a: string, b: string)
    requires forall i :: 0 <= i < |a| ==> !IsSpace(a[i])
    requires forall i :: 0 <= i < |b| ==> !IsSpace(b[i])
    ensures Underscores(a + " " + b) == a + "_" + b
  {
    var t := " " + b;
    assert Underscores(a + t) == a + Underscores(t) by {
      UnderscoresPrefix(a, t);
    }
    UnderscoresSpaceThen(b);
    Assoc(a, " ", b);
    Assoc(a, "_", b);
  }

  lemma Assoc(a: string, b: string, c: string)
    ensures a + (b + c) == a + b + c
  {
  }

  /** A single space before a word becomes an underscore. */
  lemma UnderscoresSpaceThen(b: string)
    requires forall i :: 0 <= i < |b| ==> !IsSpace(b[i])
    ensures Underscores(" " + b) == "_" + b
  {
    var t := " " + b;
    assert t[1..] == b && IsSpace(t[0]);
    assert |t| == 1 || !IsSpace(t[1]);
    UnderscoresNoSpace(b);
  }

  lemma LowerNoUpper(s: string)
    requires forall i :: 0 <= i < |s| ==> !IsUpper(s[i])
    ensures Lower(s) == s
  {
  }

  /** Two slug words separated by a space become the words joined by an underscore. */
  lemma SpaceBecomesUnderscore(a: string, b: string)
    requires Slug(a) && Slug(b) && |a| > 0 && |b| > 0
    ensures FullSlugify(a + " " + b) == a + "_" + b
  {
    var s := a + " " + b;
    JoinedSlugChars(a, b);
    assert s[0] == a[0] && s[|s| - 1] == b[|b| - 1];
    StripNoSpace(s);
    KeepWordSpaceKeepsAll(s);
    UnderscoresSpaced(a, b);
    LowerNoUpper(a + "_" + b);
  }

  // ---- fix_bills_title ----

  /** `\b\d{4}\b` matches at `i`: four digits with no word character either side. */
  predicate YearAt(s: string, i: int) {
    0 <= i && i + 4 <= |s| && AllDigits(s[i..i + 4])
    && (i == 0 || !IsWordChar(s[i - 1]))
    && (i + 4 == |s| || !IsWordChar(s[i + 4]))
  }

  /** `re.search(r"\b\d{4}\b", s)` from position `k`: the first place a year matches. */
  function FirstYear(s: string, k: nat): (r: Option<nat>)
    ensures r.Some? ==> k <= r.value && YearAt(s, r.value)
    ensures r.Some? ==> forall i :: k <= i < r.value ==> !YearAt(s, i)
    ensures r.None? ==> forall i :: k <= i ==> !YearAt(s, i)
    decreases |s| - k
  {
    if k + 4 > |s| then None
    else if YearAt(s, k) then Some(k)
    else FirstYear(s, k + 1)
  }

  /** `fix_bills_title`: a title mentioning " Act" gets " Bill" instead, and its
      first four-digit year, if any, is taken out and put back in brackets at the end. */
  function FixBillsTitle(title: string): (r: string)
    // a title without " Act" is only stripped
    ensures !Contains(Strip(title), " Act") ==> r == Strip(title)
    // otherwise " Act" becomes " Bill", and the first year, if any, ends the title in brackets
    ensures Contains(Strip(title), " Act") ==>
      var b := ReplaceAll(Strip(title), " Act", " Bill");
      (FirstYear(b, 0).None? ==> r == b) &&
      (FirstYear(b, 0).Some? ==> var i := FirstYear(b, 0).value;
        FourDigits(b[i..i + 4]) && EndsWith(r, " (" + b[i..i + 4] + ")"))
  {
    var t := Strip(title);
    if !Contains(t, " Act") then t
    else
      MoveYear(ReplaceAll(t, " Act", " Bill"))
  }

  /** The first four-digit year of `b`, if any, taken out and put back in
      brackets at the end. */
  function MoveYear(b: string): (r: string)
    ensures FirstYear(b, 0).None? ==> r == b
    ensures FirstYear(b, 0).Some? ==> var i := FirstYear(b, 0).value;
      FourDigits(b[i..i + 4]) && EndsWith(r, " (" + b[i..i + 4] + ")")
  {
    match FirstYear(b, 0)
    case None => b
    case Some(i) => YearToEnd(b, b[i..i + 4])
  }

  /** Every copy of `year` taken out and the rest stripped, then the year
      appended in brackets.  The source also drops a trailing space after the
      strip; `StrippedNoTrailingSpace` shows there never is one, so that step is
      the identity here. */
  function YearToEnd(b: string, year: string): (r: string)
    requires |year| > 0
    ensures EndsWith(r, " (" + year + ")")
  {
    var u := Strip(ReplaceAll(b, year, ""));
    var tail := " (" + year + ")";
    assert (u + tail)[|u + tail| - |tail|..] == tail;
    u + tail
  }

  /** A stripped string never ends with a space. */
  lemma StrippedNoTrailingSpace(s: string)
    ensures !EndsWith(Strip(s), " ")
  {
    var u := Strip(s);
    if |u| > 0 {
      assert u[|u| - 1..][0] == u[|u| - 1];
    }
  }

  /** A title without " Act" is only stripped. */
  lemma NoActOnlyStripped(title: string)
    requires !Contains(Strip(title), " Act")
    ensures FixBillsTitle(title) == Strip(title)
    ensures Strip(FixBillsTitle(title)) == FixBillsTitle(title)
  {
    StripIsInfix(title);
  }

  /** The title of an Act with its year, as the sources write it. */
  predicate ActName(name: string) {
    |name| > 0 && !IsSpace(name[0]) && !IsSpace(name[|name| - 1])
    && !Contains(name, " Act")
    && forall i :: 0 <= i < |name| ==> !IsDigit(name[i])
  }

  predicate FourDigits(year: string) { |year| == 4 && AllDigits(year) }

  /** " Act" occurs in "{name} Act {year}" only where the name ends. */
  lemma ActOnlyAfterName(name: string, year: string)
    requires ActName(name) && FourDigits(year)
    ensures forall i :: 0 <= i < |name| ==> !OccursAt(name + " Act" + (" " + year), " Act", i)
    ensures !Contains(" " + year, " Act")
  {
    var s := name + " Act" + (" " + year);
    forall i | 0 <= i < |name| ensures !OccursAt(s, " Act", i) {
      if i + 4 <= |name| {
        assert !OccursAt(name, " Act", i);
        assert s[i..i + 4] == name[i..i + 4];
      } else {
        assert s[i..i + 4][|name| - i] == s[|name|] == ' ';
      }
    }
    var t := " " + year;
    forall i ensures !OccursAt(t, " Act", i) {
      if 0 <= i && i + 4 <= |t| {
        assert t[i..i + 4][1] == t[i + 1] == year[i];
      }
    }
  }

  /** The search finds `j` when the year matches there and nowhere between `k`
      and `j`. */
  lemma {:induction false} FirstYearAt(s: string, k: nat, j: nat)
    requires k <= j && YearAt(s, j)
    requires forall i :: k <= i < j ==> !YearAt(s, i)
    ensures FirstYear(s, k) == Some(j)
    decreases j - k
  {
    if k < j {
      FirstYearAt(s, k + 1, j);
    }
  }

  /** No digit comes before the year in "{name} Bill {year}". */
  lemma DigitsOnlyInYear(name: string, year: string)
    requires ActName(name) && FourDigits(year)
    ensures forall i :: 0 <= i < |name| + 6 ==> !IsDigit((name + " Bill " + year)[i])
    ensures (name + " Bill " + year)[|name| + 6..] == year
  {
    var b := name + " Bill " + year;
    assert forall i :: 0 <= i < |name| ==> b[i] == name[i];
    assert b[|name|..|name| + 6] == " Bill ";
  }

  /** In "{name} Bill {year}" the year is the first four-digit word. */
  lemma YearAfterBill(name: string, year: string)
    requires ActName(name) && FourDigits(year)
    ensures FirstYear(name + " Bill " + year, 0) == Some(|name| + 6)
    ensures (name + " Bill " + year)[|name| + 6..|name| + 10] == year
  {
    var b := name + " Bill " + year;
    DigitsOnlyInYear(name, year);
    assert b[|name| + 6..|name| + 10] == year;
    assert b[|name| + 5] == ' ';
    assert YearAt(b, |name| + 6);
    forall i | 0 <= i < |name| + 6 ensures !YearAt(b, i) {
      if i + 4 <= |b| {
        assert b[i..i + 4][0] == b[i];
      }
    }
    FirstYearAt(b, 0, |name| + 6);
  }

  /** Removing the year from "{name} Bill {year}" leaves "{name} Bill ". */
  lemma RemoveYear(name: string, year: string)
    requires ActName(name) && FourDigits(year)
    ensures ReplaceAll(name + " Bill " + year, year, "") == name + " Bill "
  {
    var a := name + " Bill ";
    DigitsOnlyInYear(name, year);
    assert a + year == name + " Bill " + year;
    forall i | 0 <= i < |a| ensures !OccursAt(a + year, year, i) {
      if i + 4 <= |a + year| {
        assert (a + year)[i..i + 4][0] == (a + year)[i];
      }
    }
    ReplaceSuffix(a, year, "");
  }

  /** "{name} Act {year}" is already stripped, mentions " Act" and is renamed to
      "{name} Bill {year}". */
  lemma RenamedTitle(name: string, year: string)
    requires ActName(name) && FourDigits(year)
    ensures Strip(name + " Act " + year) == name + " Act " + year
    ensures Contains(name + " Act " + year, " Act")
    ensures ReplaceAll(name + " Act " + year, " Act", " Bill") == name + " Bill " + year
  {
    var t := name + " Act " + year;
    assert t == name + " Act" + (" " + year);
    assert Strip(t) == t by {
      assert t[0] == name[0] && t[|t| - 1] == year[3];
      StripNoSpace(t);
    }
    assert Contains(t, " Act") by {
      assert t[|name|..|name| + 4] == " Act";
      ContainsWitness(t, " Act", |name|);
    }
    assert ReplaceAll(t, " Act", " Bill") == name + " Bill" + (" " + year) by {
      ActOnlyAfterName(name, year);
      ReplaceAfter(name, " Act", " " + year, " Bill");
      ReplaceAbsent(" " + year, " Act", " Bill");
    }
    assert name + " Bill" + (" " + year) == name + " Bill " + year;
  }

  /** Moving the year of "{name} Bill {year}" to the end gives "{name} Bill ({year})". */
  lemma BillYearToEnd(name: string, year: string)
    requires ActName(name) && FourDigits(year)
    ensures YearToEnd(name + " Bill " + year, year) == name + " Bill (" + year + ")"
  {
    RemoveYear(name, year);
    StripBillSpace(name);
    assert name + " Bill" + " (" + year + ")" == name + " Bill (" + year + ")";
  }

  /** Stripping "{name} Bill " drops just the trailing space. */
  lemma StripBillSpace(name: string)
    requires ActName(name)
    ensures Strip(name + " Bill ") == name + " Bill"
  {
    var a := name + " Bill ";
    assert a[|a| - 1] == ' ' && a[0] == name[0];
    assert LStrip(a) == a;
    assert a[..|a| - 1] == name + " Bill";
    assert RStrip(a) == RStrip(name + " Bill");
    StripNoSpace(name + " Bill");
  }

  /** The promise of the docstring: "{name} Act {year}" becomes "{name} Bill ({year})". */
  lemma ActYearBecomesBill(name: string, year: string)
    requires ActName(name) && FourDigits(year)
    ensures FixBillsTitle(name + " Act " + year) == name + " Bill (" + year + ")"
  {
    var t := name + " Act " + year;
    var b := name + " Bill " + year;
    assert FixBillsTitle(t) == MoveYear(b) by {
      RenamedTitle(name, year);
    }
    assert MoveYear(b) == YearToEnd(b, year) by {
      YearAfterBill(name, year);
    }
    BillYearToEnd(name, year);
  }

  // ---- extract_legislation ----

  /** Phrases taken out of a decision title before anything else. */
  const Noise: seq<string> :=
    ["(Ways and Means)", "(Programme)", "(Carry-over)", "Reasons Committee", "Reasoned amendment on "]

  /** The characters that may separate a bill's name from the rest of a title: a
      spaced hyphen, a colon, and a spaced em dash as it reads after its UTF-8 bytes
      were decoded as Windows-1252. */
  const Dividers: seq<string> := [" - ", ":", " \U{00E2}\U{20AC}\U{201D} "]

  predicate NonEmptyAll(ps: seq<string>) { forall i :: 0 <= i < |ps| ==> |ps[i]| > 0 }

  /** The `to_remove` loop: each phrase present is replaced by nothing. */
  function RemovePhrases(s: string, phrases: seq<string>): string
    requires NonEmptyAll(phrases)
    decreases |phrases|
  {
    if |phrases| == 0 then s
    else
      var p := phrases[0];
      RemovePhrases(if Contains(s, p) then ReplaceAll(s, p, "") else s, phrases[1..])
  }

  /** A title holding none of the phrases comes through unchanged. */
  lemma {:induction false} RemovePhrasesAbsent(s: string, phrases: seq<string>)
    requires NonEmptyAll(phrases)
    requires forall i :: 0 <= i < |phrases| ==> !Contains(s, phrases[i])
    ensures RemovePhrases(s, phrases) == s
    decreases |phrases|
  {
    if |phrases| > 0 {
      RemovePhrasesAbsent(s, phrases[1..]);
    }
  }

  /** The "Leave for Bill:" branch: the prefix is removed, and " Bill" is added when
      the rest does not say "Bill". */
  function LeaveForBill(s: string): string {
    var t := ReplaceAll(s, "Leave for Bill:", "");
    if !Contains(t, "Bill") then Strip(t) + " Bill" else t
  }

  /** The three committee-stage rewrites, in source order.  The first tests for
      "Bill Report Stage" but replaces "Bill Committee Stage", as the source does. */
  function ShortenStages(s: string): string {
    var s1 := if Contains(s, "Bill Report Stage") then ReplaceAll(s, "Bill Committee Stage", "Bill") else s;
    var s2 := if Contains(s1, "Bill Committee Stage") then ReplaceAll(s1, "Bill Committee Stage", "Bill") else s1;
    if Contains(s2, "Bill Committee") then ReplaceAll(s2, "Bill Committee", "Bill") else s2
  }

  /** The index of the last separator in `cs` that occurs in `w`: the loop that
      keeps overwriting `divider`. */
  function LastFound(w: string, cs: seq<string>): (r: Option<nat>)
    ensures r.Some? ==> r.value < |cs| && Contains(w, cs[r.value])
    ensures r.Some? ==> forall i :: r.value < i < |cs| ==> !Contains(w, cs[i])
    ensures r.None? ==> forall i :: 0 <= i < |cs| ==> !Contains(w, cs[i])
    decreases |cs|
  {
    if |cs| == 0 then None
    else if Contains(w, cs[|cs| - 1]) then Some(|cs| - 1)
    else LastFound(w, cs[..|cs| - 1])
  }

  /** The index of the first separator in `cs` that occurs in `w`: the loop that
      stops at the first hit. */
  function FirstFound(w: string, cs: seq<string>, k: nat): (r: Option<nat>)
    requires k <= |cs|
    ensures r.Some? ==> k <= r.value < |cs| && Contains(w, cs[r.value])
    ensures r.Some? ==> forall i :: k <= i < r.value ==> !Contains(w, cs[i])
    ensures r.None? ==> forall i :: k <= i < |cs| ==> !Contains(w, cs[i])
    decreases |cs| - k
  {
    if k == |cs| then None
    else if Contains(w, cs[k]) then Some(k)
    else FirstFound(w, cs, k + 1)
  }

  /** The divider: the last one found in the ten characters after " bill", or else
      the first one found before it.  `pos` is -1 when there is no " bill", and the
      slices then follow Python's rules for that index. */
  function ChooseDivider(s: string, pos: int): Option<nat> {
    match LastFound(Slice(s, pos + 5, pos + 15), Dividers)
    case Some(i) => Some(i)
    case None => FirstFound(Slice(s, 0, pos), Dividers, 0)
  }

  /** `[x.strip() for x in parts]` */
  function StripEach(parts: seq<string>): (r: seq<string>)
    ensures |r| == |parts|
    ensures forall i :: 0 <= i < |r| ==> r[i] == Strip(parts[i])
  {
    seq(|parts|, i requires 0 <= i < |parts| => Strip(parts[i]))
  }

  /** The first part that mentions "bill" in any case. */
  function BillPart(parts: seq<string>, k: nat): (r: Option<nat>)
    requires k <= |parts|
    ensures r.Some? ==> k <= r.value < |parts| && Contains(Lower(parts[r.value]), "bill")
    ensures r.Some? ==> forall i :: k <= i < r.value ==> !Contains(Lower(parts[i]), "bill")
    ensures r.None? ==> forall i :: k <= i < |parts| ==> !Contains(Lower(parts[i]), "bill")
    decreases |parts| - k
  {
    if k == |parts| then None
    else if Contains(Lower(parts[k]), "bill") then Some(k)
    else BillPart(parts, k + 1)
  }

  /** The part named by the divider, if any part mentions a bill. */
  function DividedPart(s: string, pos: int): Option<string> {
    match ChooseDivider(s, pos)
    case None => None
    case Some(d) =>
      var parts := StripEach(Split(s, Dividers[d]));
      match BillPart(parts, 0)
      case None => None
      case Some(k) => Some(Strip(parts[k]))
  }

  /** How the final "cut off after Bill" step reads the position. */
  datatype Cut = AsWritten | Corrected

  /** The final step.  The source adds 5 to the result of `find` and cuts when the
      sum is positive; the sum is at least 4 even when " bill" is absent, so the
      cut then keeps only four characters.  The corrected reading cuts only when
      " bill" was found. */
  function CutAfterBill(s: string, cut: Cut): string {
    var pos := Find(Lower(s), " bill") + 5;
    match cut
    case AsWritten => if pos > 0 then Strip(Slice(s, 0, pos)) else Strip(s)
    case Corrected => if pos > 4 then Strip(s[..pos]) else Strip(s)
  }

  /** The steps after the two prefix checks. */
  function NameFromTitle(s: string, cut: Cut): string {
    var t := ShortenStages(s);
    match DividedPart(t, Find(Lower(t), " bill"))
    case Some(part) => part
    case None => if Contains(t, "Bill") then CutAfterBill(t, cut) else ""
  }

  function Extract(s: string, cut: Cut): (r: string)
    // a "Leave for Bill:" title always names a bill
    ensures var t := RemovePhrases(s, Noise);
      !StartsWith(t, "Approve:") && StartsWith(t, "Leave for Bill:") ==> Contains(r, "Bill")
    // any other title that never mentions a bill gives nothing
    ensures var t := RemovePhrases(s, Noise);
      !StartsWith(t, "Approve:") && !StartsWith(t, "Leave for Bill:") && !Contains(Lower(t), "bill") ==> r == ""
  {
    var t := RemovePhrases(s, Noise);
    LeaveForBillMentionsBill(t);
    NoBillGivesEmpty(t, cut);
    if StartsWith(t, "Approve:") then t[8..]
    else if StartsWith(t, "Leave for Bill:") then LeaveForBill(t)
    else NameFromTitle(t, cut)
  }

  /** `extract_legislation` as the source writes it, on text whose HTML entities
      are already decoded. */
  function ExtractLegislationAsWritten(s: string): (r: string)
    // once " bill" is found in the shortened title, the cut as written is the
    // corrected one
    ensures Contains(Lower(ShortenStages(RemovePhrases(s, Noise))), " bill") ==> r == ExtractLegislation(s)
  {
    ExtractsAgreeWhenFound(s);
    Extract(s, AsWritten)
  }

  lemma ExtractsAgreeWhenFound(s: string)
    ensures Contains(Lower(ShortenStages(RemovePhrases(s, Noise))), " bill") ==>
      Extract(s, AsWritten) == Extract(s, Corrected)
  {
    var t := RemovePhrases(s, Noise);
    if Contains(Lower(ShortenStages(t)), " bill") {
      NamesAgreeWhenFound(t);
    }
  }

  lemma NamesAgreeWhenFound(t: string)
    requires Contains(Lower(ShortenStages(t)), " bill")
    ensures NameFromTitle(t, AsWritten) == NameFromTitle(t, Corrected)
  {
    CutsAgreeWhenFound(ShortenStages(t));
  }

  /** `extract_legislation` with the final cut applied only when " bill" is found. */
  function ExtractLegislation(s: string): (r: string)
    // except for "Approve:" titles, nothing or a name that mentions a bill
    ensures !StartsWith(RemovePhrases(s, Noise), "Approve:") ==> r == "" || Contains(Lower(r), "bill")
  {
    ExtractMentionsBill(s);
    Extract(s, Corrected)
  }

  /** A title that starts "Approve:" and holds no noise phrase gives what follows
      the prefix. */
  lemma ApproveGivesRest(s: string, cut: Cut)
    requires StartsWith(s, "Approve:")
    requires forall i :: 0 <= i < |Noise| ==> !Contains(s, Noise[i])
    ensures Extract(s, cut) == s[8..]
  {
    RemovePhrasesAbsent(s, Noise);
  }

  /** The "Leave for Bill:" branch always names a bill. */
  lemma LeaveForBillMentionsBill(s: string)
    ensures Contains(LeaveForBill(s), "Bill")
  {
    var t := ReplaceAll(s, "Leave for Bill:", "");
    if !Contains(t, "Bill") {
      ContainsAtEnd(Strip(t), " Bill", "Bill");
    }
  }

  lemma LowerBill()
    ensures Lower("Bill") == "bill" && Lower("Bill ") == "bill "
  {
  }

  /** The stage rewrites only act on text that has "Bill " in it. */
  lemma ShortenUnchanged(t: string)
    requires !Contains(t, "Bill ")
    ensures ShortenStages(t) == t
  {
    assert "Bill Report Stage" == "Bill " + "Report Stage";
    assert "Bill Committee Stage" == "Bill " + "Committee Stage";
    assert "Bill Committee" == "Bill " + "Committee";
    ContainsLonger(t, "Bill ", "Report Stage");
    ContainsLonger(t, "Bill ", "Committee Stage");
    ContainsLonger(t, "Bill ", "Committee");
  }

  /** A stripped piece of a split that mentions a bill keeps it when stripped
      again, and the whole text mentions it too. */
  lemma PieceMentionsBill(t: string, sep: string, k: int)
    requires |sep| > 0 && 0 <= k < |Split(t, sep)|
    ensures Contains(Lower(Strip(Split(t, sep)[k])), "bill") ==>
      Contains(Lower(Strip(Strip(Split(t, sep)[k]))), "bill") && Contains(Lower(t), "bill")
  {
    var piece := Split(t, sep)[k];
    if Contains(Lower(Strip(piece)), "bill") {
      StripKeepsLowerWord(Strip(piece), "bill");
      StripContainsLower(piece, "bill");
      SplitPieceContainsLower(t, sep, k, "bill");
    }
  }

  /** A part chosen at a divider mentions a bill, and so does the whole title. */
  lemma DividedPartMentionsBill(t: string, pos: int)
    ensures DividedPart(t, pos).Some? ==>
      Contains(Lower(DividedPart(t, pos).value), "bill") && Contains(Lower(t), "bill")
  {
    match ChooseDivider(t, pos)
    case None =>
    case Some(d) =>
      var pieces := Split(t, Dividers[d]);
      var parts := StripEach(pieces);
      match BillPart(parts, 0)
      case None =>
      case Some(k) =>
        assert DividedPart(t, pos) == Some(Strip(parts[k]));
        PieceMentionsBill(t, Dividers[d], k);
  }

  /** The corrected cut keeps the word "bill" of a title that says "Bill". */
  lemma CorrectedCutMentionsBill(u: string)
    ensures Contains(u, "Bill") ==> Contains(Lower(CutAfterBill(u, Corrected)), "bill")
  {
    var f := Find(Lower(u), " bill");
    if f != -1 {
      assert Lower(u)[f + 1..f + 5] == "bill" by {
        assert Lower(u)[f..f + 5] == " bill";
      }
      LowerWordInPrefix(u, f + 1, "bill");
    } else {
      LowerBill();
      ContainsLowered(u, "Bill");
      StripKeepsLowerWord(u, "bill");
    }
  }

  /** Once the prefix branches are past, the corrected extraction gives either
      nothing or a name with "bill" in it. */
  lemma NameMentionsBill(t: string)
    ensures NameFromTitle(t, Corrected) == "" || Contains(Lower(NameFromTitle(t, Corrected)), "bill")
  {
    var u := ShortenStages(t);
    DividedPartMentionsBill(u, Find(Lower(u), " bill"));
    CorrectedCutMentionsBill(u);
  }

  /** A title that never mentions a bill, in any case, gives nothing. */
  lemma NoBillGivesEmpty(t: string, cut: Cut)
    ensures !Contains(Lower(t), "bill") ==> NameFromTitle(t, cut) == ""
  {
    if Contains(Lower(t), "bill") {
      return;
    }
    assert !Contains(t, "Bill ") by {
      LowerBill();
      ContainsLowered(t, "Bill ");
      ContainsLonger(Lower(t), "bill", " ");
      assert "bill" + " " == "bill ";
    }
    assert !Contains(t, "Bill") by {
      LowerBill();
      ContainsLowered(t, "Bill");
    }
    ShortenUnchanged(t);
    DividedPartMentionsBill(t, Find(Lower(t), " bill"));
  }

  /** The corrected `extract_legislation` never returns a name without "bill"
      unless the title was an "Approve:" one or there was nothing to find. */
  lemma ExtractMentionsBill(s: string)
    ensures !StartsWith(RemovePhrases(s, Noise), "Approve:") ==>
      Extract(s, Corrected) == "" || Contains(Lower(Extract(s, Corrected)), "bill")
  {
    var t := RemovePhrases(s, Noise);
    assert Contains(Lower(LeaveForBill(t)), "bill") by {
      LeaveForBillMentionsBill(t);
      LowerBill();
      ContainsLowered(LeaveForBill(t), "Bill");
    }
    NameMentionsBill(t);
  }

  /** When " bill" is present the two readings of the cut agree. */
  lemma CutsAgreeWhenFound(u: string)
    requires Contains(Lower(u), " bill")
    ensures CutAfterBill(u, AsWritten) == CutAfterBill(u, Corrected)
  {
  }

  /** When " bill" is absent the cut as written keeps the first four characters. */
  lemma AsWrittenCutKeepsFour(u: string)
    requires !Contains(Lower(u), " bill")
    ensures CutAfterBill(u, AsWritten) == Strip(u[..if |u| < 4 then |u| else 4])
    ensures CutAfterBill(u, Corrected) == Strip(u)
  {
  }

  lemma XBillNoNoise()
    ensures RemovePhrases("xBill", Noise) == "xBill"
  {
    forall i | 0 <= i < |Noise| ensures !Contains("xBill", Noise[i]) {
      TooLongAbsent("xBill", Noise[i]);
    }
    RemovePhrasesAbsent("xBill", Noise);
  }

  lemma XBillNoStage()
    ensures ShortenStages("xBill") == "xBill"
  {
    SameLengthAbsent("xBill", "Bill ");
    ShortenUnchanged("xBill");
  }

  lemma XBillNoSpacedBill()
    ensures Find(Lower("xBill"), " bill") == -1
  {
    assert Lower("xBill") == "xbill";
    SameLengthAbsent("xbill", " bill");
  }

  lemma XBillNoDivider()
    ensures ChooseDivider("xBill", -1) == None
  {
    assert Slice("xBill", 4, 14) == "l";
    TooLongAbsent("l", Dividers[0]);
    FirstCharAbsent("l", Dividers[1]);
    TooLongAbsent("l", Dividers[2]);
    assert LastFound("l", Dividers) == None;
    assert Slice("xBill", 0, -1) == "xBil";
    FirstCharAbsent("xBil", Dividers[0]);
    FirstCharAbsent("xBil", Dividers[1]);
    TooLongAbsent("xBil", Dividers[2]);
    assert FirstFound("xBil", Dividers, 0) == None;
  }

  /** With no stage to shorten and no divider to split at, a title that says
      "Bill" goes straight to the cut. */
  lemma NameWhenNoDivider(t: string, cut: Cut)
    requires ShortenStages(t) == t && DividedPart(t, Find(Lower(t), " bill")) == None
    requires Contains(t, "Bill")
    ensures NameFromTitle(t, cut) == CutAfterBill(t, cut)
  {
  }

  lemma XBillGoesToCut(x: string, cut: Cut)
    requires x == "xBill"
    ensures NameFromTitle(x, cut) == CutAfterBill(x, cut)
  {
    XBillNoStage();
    XBillNoSpacedBill();
    XBillNoDivider();
    assert x[1..5] == "Bill";
    ContainsWitness(x, "Bill", 1);
    NameWhenNoDivider(x, cut);
  }

  /** Without " bill", a name with no whitespace at its ends is cut to its first
      four characters as written, and kept whole by the corrected cut. */
  lemma CutsOfUnspacedName(x: string)
    requires !Contains(Lower(x), " bill")
    requires |x| >= 4 && !IsSpace(x[0]) && !IsSpace(x[3]) && !IsSpace(x[|x| - 1])
    ensures CutAfterBill(x, AsWritten) == x[..4] && CutAfterBill(x, Corrected) == x
  {
    AsWrittenCutKeepsFour(x);
    StripNoSpace(x[..4]);
    StripNoSpace(x);
  }

  lemma XBillNames(x: string)
    requires x == "xBill"
    ensures NameFromTitle(x, AsWritten) == "xBil"
    ensures NameFromTitle(x, Corrected) == x
  {
    XBillCuts(x);
    XBillGoesToCut(x, AsWritten);
    XBillGoesToCut(x, Corrected);
  }

  lemma XBillCuts(x: string)
    requires x == "xBill"
    ensures CutAfterBill(x, AsWritten) == "xBil" && CutAfterBill(x, Corrected) == x
  {
    XBillNoSpacedBill();
    XBillCutAsWritten(x);
    XBillCutCorrected(x);
  }

  lemma XBillCutAsWritten(x: string)
    requires x == "xBill" && Find(Lower(x), " bill") == -1
    ensures CutAfterBill(x, AsWritten) == "xBil"
  {
    assert Slice(x, 0, 4) == "xBil";
    StripNoSpace("xBil");
  }

  lemma XBillCutCorrected(x: string)
    requires x == "xBill" && Find(Lower(x), " bill") == -1
    ensures CutAfterBill(x, Corrected) == x
  {
    StripNoSpace(x);
  }

  /** "xBill" has "Bill" but not " bill": once the divider search finds nothing, the
      last step as written keeps "xBil", where the corrected cut keeps the whole
      name. */
  lemma AsWrittenCutsShortName()
    ensures ExtractLegislationAsWritten("xBill") == "xBil"
    ensures ExtractLegislation("xBill") == "xBill"
  {
    XBillNoNoise();
    XBillNames("xBill");
  }

  // ---- check_set_overlap ----

  /** `check_set_overlap`: every word of ours is among theirs, and theirs has no
      "[hl]" (a Lords bill marker) that ours lacks. */
  function CheckSetOverlap(ours: set<string>, theirs: set<string>): (r: bool)
    ensures r <==> (forall w :: w in ours ==> w in theirs) && ("[hl]" in theirs ==> "[hl]" in ours)
  {
    var isSubset := ours <= theirs;
    var remainder := theirs - ours;
    if "[hl]" in remainder then false else isSubset
  }
}

=== FILE: models.dfy ===
/** Decision rules on the database models (`votes/models.py`): the verbal bands of
    a policy score, the result of a division, the parliamentary-dynamics cluster
    description, the non-action motion test and the powers analysis built on it,
    the version-agnostic Hansard id match, and a chamber's last decision date.
    Rows the methods query for are passed in as values. */
module Models {
  import opened Wrappers
  import opened Text
  import opened Dates
  import opened Consts
  import Scoring

  // ---- VoteDistribution.verbose_score ----

  /** `VoteDistribution.verbose_score`: seven bands over [0, 1], each closed above;
      -1 means no data and any other value raises. */
  function VerboseScore(s: real): (r: Result<string, Error>)
    ensures r.Failure? <==> !(0.0 <= s <= 1.0 || s == -1.0)
    ensures 0.0 <= s <= 0.05 ==> r == Success("Consistently voted for")
    ensures 0.05 < s <= 0.15 ==> r == Success("Almost always voted for")
    ensures 0.15 < s <= 0.4 ==> r == Success("Generally voted for")
    ensures 0.4 < s <= 0.6 ==> r == Success("Voted a mixture of for and against")
    ensures 0.6 < s <= 0.85 ==> r == Success("Generally voted against")
    ensures 0.85 < s <= 0.95 ==> r == Success("Almost always voted against")
    ensures 0.95 < s <= 1.0 ==> r == Success("Consistently voted against")
    ensures s == -1.0 ==> r == Success("No data available")
  {
    if 0.0 <= s <= 0.05 then Success("Consistently voted for")
    else if 0.05 < s <= 0.15 then Success("Almost always voted for")
    else if 0.15 < s <= 0.4 then Success("Generally voted for")
    else if 0.4 < s <= 0.6 then Success("Voted a mixture of for and against")
    else if 0.6 < s <= 0.85 then Success("Generally voted against")
    else if 0.85 < s <= 0.95 then Success("Almost always voted against")
    else if 0.95 < s <= 1.0 then Success("Consistently voted against")
    else if s == -1.0 then Success("No data available")
    else Failure(ValueError("Score must be between 0 and 1"))
  }

  /** Every score the scorer produces from counts has a band, and the absence caps
      keep a score out of the outer bands: more than one strong absence rules out
      "Consistently", and absences of a third or more rule out "Almost always" too. */
  lemma ScoresHaveBands(t: Scoring.Tallies)
    requires Scoring.NonNegativeTallies(t)
    ensures VerboseScore(Scoring.Score(t)).Success?
    ensures Scoring.Available(t) != 0.0 && Scoring.FirstCap(t) ==>
      VerboseScore(Scoring.Score(t)).value != "Consistently voted for"
      && VerboseScore(Scoring.Score(t)).value != "Consistently voted against"
    ensures Scoring.Available(t) != 0.0 && Scoring.SecondCap(t) ==>
      VerboseScore(Scoring.Score(t)).value in
        {"Generally voted for", "Voted a mixture of for and against", "Generally voted against"}
  {
    Scoring.ScoreRange(t);
  }

  // ---- DivisionBreakdown.motion_result ----

  /** `DivisionBreakdown.motion_result` */
  function MotionResult(n: int): (r: Result<string, Error>)
    ensures r.Success? <==> -1 <= n <= 1
    ensures n == 1 ==> r == Success("Success")
    ensures n == 0 ==> r == Success("Tie")
    ensures n == -1 ==> r == Success("Failure")
  {
    if n == 1 then Success("Success")
    else if n == 0 then Success("Tie")
    else if n == -1 then Success("Failure")
    else Failure(ValueError("Invalid motion result " + IntToString(n)))
  }

  /** The three results are distinct, so the result determines the integer. */
  lemma MotionResultInjective(a: int, b: int)
    requires MotionResult(a).Success? && MotionResult(a) == MotionResult(b)
    ensures a == b
  {
  }

  // ---- Division.voting_cluster ----

  /** The description of each parliamentary-dynamics cluster. */
  function ClusterDescription(name: string): Option<string> {
    if name == "opp_strong_aye_gov_strong_no" then Some("Strong conflict: Opposition proposes")
    else if name == "gov_aye_opp_lean_no" then Some("Divided opposition: Government Aye, Opposition divided")
    else if name == "opp_aye_weak_gov_no" then Some("Medium conflict: Opposition Aye, Government No")
    else if name == "gov_aye_opp_weak_no" then Some("Nominal opposition: Government Aye Opposition Weak No")
    else if name == "gov_no_opp_lean_no" then Some("Multi-party against: Government No, Opposition divided")
    else if name == "low_participation" then Some("Low participation vote")
    else if name == "gov_strong_aye_opp_strong_no" then Some("Strong conflict: Gov proposes")
    else if name == "cross_party_aye" then Some("Cross party aye")
    else if name == "free_vote" then Some("Free vote")
    else None
  }

  /** The two override fields; an empty string is unset. */
  datatype AnalysisOverride = AnalysisOverride(parlDynamicsGroup: string, manualParlDynamicsDesc: string)

  datatype ClusterInfo = ClusterInfo(tag: string, desc: string, bespoke: string, isOutlier: bool)

  const OutlierSuffix := "_outlier"
  const OutlierNote := " (Outlier)"

  /** `Division.voting_cluster`, given the analysis data of the first cluster tag and
      the division's analysis override. */
  function VotingCluster(tag: Option<string>, ov: Option<AnalysisOverride>): (r: ClusterInfo)
    ensures r.isOutlier <==> tag.Some? && EndsWith(tag.value, OutlierSuffix)
    ensures ov.Some? && ov.value.parlDynamicsGroup != "" ==> r.tag == ov.value.parlDynamicsGroup
    ensures !(ov.Some? && ov.value.parlDynamicsGroup != "") && !r.isOutlier ==>
      r.tag == (if tag.Some? then tag.value else "Unknown")
    ensures r.bespoke == (if ov.Some? then ov.value.manualParlDynamicsDesc else "")
    ensures var base := ClusterDescription(r.tag).GetOr("Unknown");
            r.desc == (if r.isOutlier then base + OutlierNote else base)
  {
    var name0 := if tag.Some? then tag.value else "Unknown";
    var isOutlier := EndsWith(name0, OutlierSuffix);
    var name1 := if isOutlier then ReplaceAll(name0, OutlierSuffix, "") else name0;
    var name2 := if ov.Some? && ov.value.parlDynamicsGroup != "" then ov.value.parlDynamicsGroup else name1;
    var bespoke := if ov.Some? then ov.value.manualParlDynamicsDesc else "";
    var desc := ClusterDescription(name2).GetOr("Unknown");
    ClusterInfo(name2, if isOutlier then desc + OutlierNote else desc, bespoke, isOutlier)
  }

  /** Without an override, a tag made of a known cluster name and "_outlier" reports
      that cluster, flagged as an outlier (the names do not run into the suffix). */
  lemma OutlierTagNamesCluster(name: string)
    requires ClusterDescription(name).Some?
    requires forall i :: 0 <= i < |name| ==> !OccursAt(name + OutlierSuffix, OutlierSuffix, i)
    ensures VotingCluster(Some(name + OutlierSuffix), None)
            == ClusterInfo(name, ClusterDescription(name).value + OutlierNote, "", true)
  {
    var t := name + OutlierSuffix;
    assert EndsWith(t, OutlierSuffix) by {
      assert t[|t| - |OutlierSuffix|..] == OutlierSuffix;
    }
    ReplaceSuffix(name, OutlierSuffix, "");
  }

  /** No tag reports "Unknown"; a non-empty override group replaces the tag. */
  lemma VotingClusterFallbacks()
    ensures VotingCluster(None, None) == ClusterInfo("Unknown", "Unknown", "", false)
    ensures VotingCluster(Some("free_vote"), Some(AnalysisOverride("cross_party_aye", "")))
            == ClusterInfo("cross_party_aye", "Cross party aye", "", false)
  {
  }

  // ---- Motion ----

  const NonActionPhrases: seq<string> := [
    "believes", "regrets", "notes with approval", "expressed approval", "welcomes",
    "is concerned", "calls on the", "recognises", "takes note",
    "agrees with the goverment's decision", "regret that the gracious speech",
    "do now adjourn", "has considered"]

  const ActionPhrases: seq<string> := [
    "orders that", "requires the goverment", "censures", "declines to give a second reading"]

  /** The number of phrases found in the text. */
  function CountPresent(phrases: seq<string>, text: string): (n: nat)
    ensures n <= |phrases|
    ensures n > 0 <==> exists i :: 0 <= i < |phrases| && Contains(text, phrases[i])
    decreases |phrases|
  {
    if |phrases| == 0 then 0
    else (if Contains(text, phrases[0]) then 1 else 0) + CountPresent(phrases[1..], text)
  }

  /** `Motion.is_nonaction_vote`: each non-action phrase found adds one to the score
      and any action phrase found resets it to 0. So a motion is a non-action one
      exactly when some non-action phrase occurs in its lower-cased text and no
      action phrase does. */
  function IsNonactionVote(text: string): (r: bool)
    ensures r <==>
      (exists i :: 0 <= i < |NonActionPhrases| && Contains(Lower(text), NonActionPhrases[i]))
      && !(exists i :: 0 <= i < |ActionPhrases| && Contains(Lower(text), ActionPhrases[i]))
  {
    var reduced := Lower(text);
    var score := if CountPresent(ActionPhrases, reduced) > 0 then 0 else CountPresent(NonActionPhrases, reduced);
    score > 0
  }

  /** `Motion.motion_uses_powers`: only adjournment, "other" and government-agenda
      motions are analysed; among them non-action motions do not use powers. */
  function MotionUsesPowers(t: MotionType, text: string): (r: PowersAnalysis)
    ensures r != InsufficentInfo
    ensures r == DoesNotUsePowers <==>
      (t == Adjournment || t == OtherMotion || t == GovernmentAgenda) && IsNonactionVote(text)
  {
    if t == Adjournment || t == OtherMotion || t == GovernmentAgenda then
      (if IsNonactionVote(text) then DoesNotUsePowers else UsesPowers)
    else UsesPowers
  }

  datatype Motion = Motion(gid: string, motionType: MotionType, text: string)

  /** `Division.motion_uses_powers`: without a motion there is not enough to go on. */
  function DivisionUsesPowers(m: Option<Motion>): (r: PowersAnalysis)
    ensures r == InsufficentInfo <==> m.None?
    ensures m.Some? ==> r == MotionUsesPowers(m.value.motionType, m.value.text)
  {
    match m
    case None => InsufficentInfo
    case Some(motion) => MotionUsesPowers(motion.motionType, motion.text)
  }

  /** A motion of any type outside the three analysed ones uses powers whatever it says. */
  lemma OtherTypesUsePowers(t: MotionType, text: string, text2: string)
    requires t != Adjournment && t != OtherMotion && t != GovernmentAgenda
    ensures MotionUsesPowers(t, text) == MotionUsesPowers(t, text2) == UsesPowers
  {
  }

  /** The text after the last "/" of a Hansard id (`gid.split("/")[-1]`). */
  function LastSegment(gid: string): (r: string)
    ensures |r| <= |gid| && gid[|gid| - |r|..] == r
    ensures !Contains(r, "/")
  {
    JoinReplaceLast(gid, "/", "");
    SplitPiecesFree(gid, "/");
    Last(Split(gid, "/"))
  }

  /** The inner `version_agnostic_gid`: the character at index 10 of the last segment
      (the version letter after the date, as in 2020-01-01b) is dropped unless it is a
      '.'; a segment of 10 characters or fewer raises IndexError. */
  function VersionAgnosticGid(gid: string): (r: Result<string, Error>)
    ensures r.Failure? <==> |LastSegment(gid)| <= 10
    ensures r.Success? ==>
      var k := |gid| - |LastSegment(gid)|;
      k + 10 < |gid|
      && r.value == (if gid[k + 10] == '.' then gid else gid[..k + 10] + gid[k + 11..])
  {
    var parts := Split(gid, "/");
    var date := Last(parts);
    if |date| <= 10 then Failure(IndexError("string index out of range"))
    else
      var date' := if date[10] != '.' then date[..10] + date[11..] else date;
      VersionAgnosticShape(gid, date');
      Success(Join(parts[..|parts| - 1] + [date'], "/"))
  }

  lemma VersionAgnosticShape(gid: string, date': string)
    requires |LastSegment(gid)| > 10
    requires var date := LastSegment(gid);
             date' == if date[10] != '.' then date[..10] + date[11..] else date
    ensures var parts := Split(gid, "/");
            var k := |gid| - |LastSegment(gid)|;
            k + 10 < |gid|
            && Join(parts[..|parts| - 1] + [date'], "/") == (if gid[k + 10] == '.' then gid else gid[..k + 10] + gid[k + 11..])
  {
    JoinReplaceLast(gid, "/", date');
    var date := LastSegment(gid);
    var k := |gid| - |date|;
    CutVersion(gid, k, date, date');
  }

  /** Replacing the tail `date` of `g` by `date'` drops the character at `k + 10`
      exactly when `date'` drops it. */
  lemma CutVersion(g: string, k: nat, date: string, date': string)
    requires k + |date| == |g| && g[k..] == date && |date| > 10
    requires date' == if date[10] != '.' then date[..10] + date[11..] else date
    ensures k + 10 < |g|
    ensures g[..k] + date' == if g[k + 10] == '.' then g else g[..k + 10] + g[k + 11..]
  {
    assert g[k + 10] == date[10];
    assert g == g[..k] + date;
    if date[10] != '.' {
      assert g[..k] + date' == g[..k + 10] + g[k + 11..];
    }
  }

  /** `Motion.verison_agnostic_gid_match`: true at the first banned id with the same
      version-agnostic form; an id too short to have a version position raises when
      it is reached. */
  function GidMatch(gid: string, banned: seq<string>): (r: Result<bool, Error>)
    ensures VersionAgnosticGid(gid).Failure? ==> r.Failure?
    ensures r == Success(true) ==> exists i :: 0 <= i < |banned| && VersionAgnosticGid(banned[i]) == VersionAgnosticGid(gid)
    ensures r == Success(false) ==> forall i :: 0 <= i < |banned| ==>
      VersionAgnosticGid(banned[i]).Success? && VersionAgnosticGid(banned[i]) != VersionAgnosticGid(gid)
  {
    match VersionAgnosticGid(gid)
    case Failure(e) => Failure(e)
    case Success(own) => MatchFrom(own, banned)
  }

  function MatchFrom(own: string, banned: seq<string>): (r: Result<bool, Error>)
    ensures r == Success(true) ==> exists i :: 0 <= i < |banned| && VersionAgnosticGid(banned[i]) == Success(own)
    ensures r == Success(false) ==> forall i :: 0 <= i < |banned| ==>
      VersionAgnosticGid(banned[i]).Success? && VersionAgnosticGid(banned[i]).value != own
    decreases |banned|
  {
    if |banned| == 0 then Success(false)
    else match VersionAgnosticGid(banned[0])
      case Failure(e) => Failure(e)
      case Success(b) =>
        if b == own then Success(true)
        else
          var rest := MatchFrom(own, banned[1..]);
          MatchShift(own, banned, rest);
          rest
  }

  /** A match found in the tail of the banned ids is a match at a later index. */
  lemma MatchShift(own: string, banned: seq<string>, rest: Result<bool, Error>)
    requires |banned| > 0
    requires rest == Success(true) ==>
      exists j :: 0 <= j < |banned[1..]| && VersionAgnosticGid(banned[1..][j]) == Success(own)
    ensures rest == Success(true) ==>
      exists i :: 1 <= i < |banned| && VersionAgnosticGid(banned[i]) == Success(own)
  {
    if rest == Success(true) {
      var j :| 0 <= j < |banned[1..]| && VersionAgnosticGid(banned[1..][j]) == Success(own);
      assert banned[1..][j] == banned[j + 1];
    }
  }

  /** Two ids that differ only in the version letter of their last segment match,
      whatever the letters (other than '.'). */
  lemma VersionLetterIgnored(prefix: string, date: string, a: char, b: char, tail: string)
    requires |date| == 10 && a != '.' && b != '.'
    requires forall i :: 0 <= i < |date| ==> date[i] != '/'
    requires forall i :: 0 <= i < |tail| ==> tail[i] != '/'
    requires a != '/' && b != '/'
    ensures VersionAgnosticGid(prefix + "/" + date + [a] + tail) == VersionAgnosticGid(prefix + "/" + date + [b] + tail)
    ensures VersionAgnosticGid(prefix + "/" + date + [a] + tail) == Success(prefix + "/" + date + tail)
  {
    DropVersionLetter(prefix, date, a, tail);
    DropVersionLetter(prefix, date, b, tail);
  }

  lemma DropVersionLetter(prefix: string, date: string, a: char, tail: string)
    requires |date| == 10 && a != '.' && a != '/'
    requires forall i :: 0 <= i < |date| ==> date[i] != '/'
    requires forall i :: 0 <= i < |tail| ==> tail[i] != '/'
    ensures VersionAgnosticGid(prefix + "/" + date + [a] + tail) == Success(prefix + "/" + date + tail)
  {
    var seg := date + [a] + tail;
    assert forall i :: 0 <= i < |seg| ==> seg[i] != '/' by {
      forall i | 0 <= i < |seg| ensures seg[i] != '/' {
        if i < 10 { assert seg[i] == date[i]; }
        else if i > 10 { assert seg[i] == tail[i - 11]; }
      }
    }
    var g := prefix + "/" + seg;
    assert g == prefix + "/" + date + [a] + tail;
    LastSegmentAfterSlash(prefix, seg);
    var k := |g| - |seg|;
    assert k == |prefix| + 1;
    assert g[k + 10] == a;
    assert g[..k + 10] == prefix + "/" + date;
    assert g[k + 11..] == tail;
  }

  /** The last segment of `prefix + "/" + seg` is `seg` when `seg` has no "/". */
  lemma LastSegmentAfterSlash(prefix: string, seg: string)
    requires forall i :: 0 <= i < |seg| ==> seg[i] != '/'
    ensures LastSegment(prefix + "/" + seg) == seg
  {
    var s := prefix + "/" + seg;
    var last := LastSegment(s);
    var j := |s| - |seg| - 1;
    assert s[j] == '/' && s[j + 1..] == seg;
    assert |last| <= |seg| by {
      SlashFreeSuffix(s, j, last);
    }
    assert |last| >= |seg| by {
      if |last| < |seg| {
        SplitSeparatorBefore(s, "/");
        JoinReplaceLast(s, "/", "");
        assert false;
      }
    }
  }

  /** A suffix without "/" starts after any "/" of the text. */
  lemma SlashFreeSuffix(s: string, j: nat, last: string)
    requires j < |s| && s[j] == '/'
    requires |last| <= |s| && s[|s| - |last|..] == last && !Contains(last, "/")
    ensures |last| < |s| - j
  {
    if |last| >= |s| - j {
      var i := j - (|s| - |last|);
      assert last[i] == '/';
      assert last[i..i + 1] == "/";
      assert OccursAt(last, "/", i);
    }
  }

  /** Unless the string has no separator, the last piece of a split is preceded by it. */
  lemma SplitSeparatorBefore(s: string, sep: string)
    requires |sep| > 0
    ensures var parts := Split(s, sep);
            var last := parts[|parts| - 1];
            |parts| == 1 || (|last| + |sep| <= |s| && s[|s| - |last| - |sep|..|s| - |last|] == sep)
  {
    var parts := Split(s, sep);
    var last := parts[|parts| - 1];
    if |parts| > 1 {
      JoinSplit(s, sep);
      var init := parts[..|parts| - 1];
      assert parts == init + [last];
      JoinSnoc(init, last, sep);
    }
  }

  // ---- Chamber.last_decision_date ----

  /** The latest of a list of dates (`order_by("-date").first()`). */
  function Latest(ds: seq<Date>): (r: Option<Date>)
    ensures r.None? <==> |ds| == 0
    ensures r.Some? ==> r.value in ds && forall d :: d in ds ==> LessEq(d, r.value)
    decreases |ds|
  {
    if |ds| == 0 then None
    else match Latest(ds[1..])
      case None => Some(ds[0])
      case Some(m) =>
        var r := Max(ds[0], m);
        assert forall d :: d in ds ==> LessEq(d, r) by {
          forall d | d in ds ensures LessEq(d, r) {
            if d != ds[0] {
              assert d in ds[1..];
              LessEqTrans(d, m, r);
            }
          }
        }
        Some(r)
  }

  /** `Chamber.last_decision_date`: the later of the last division and the last
      agreement, whichever exist. */
  function LastDecisionDate(divisions: seq<Date>, agreements: seq<Date>): (r: Option<Date>)
    ensures r.None? <==> |divisions| == 0 && |agreements| == 0
  {
    match (Latest(divisions), Latest(agreements))
    case (None, None) => None
    case (None, Some(a)) => Some(a)
    case (Some(d), None) => Some(d)
    case (Some(d), Some(a)) => Some(Max(d, a))
  }

  /** The last decision date is the latest date of any decision in the chamber. */
  lemma LastDecisionIsLatest(divisions: seq<Date>, agreements: seq<Date>)
    requires |divisions| + |agreements| > 0
    ensures LastDecisionDate(divisions, agreements).Some?
    ensures LastDecisionDate(divisions, agreements).value in divisions + agreements
    ensures forall d :: d in divisions + agreements ==> LessEq(d, LastDecisionDate(divisions, agreements).value)
  {
    var r := LastDecisionDate(divisions, agreements).value;
    forall d | d in divisions + agreements ensures LessEq(d, r) {
      if d in divisions {
        var m := Latest(divisions).value;
        if Latest(agreements).Some? { LessEqTrans(d, m, r); }
      } else {
        var m := Latest(agreements).value;
        if Latest(divisions).Some? { LessEqTrans(d, m, r); }
      }
    }
  }
}

=== FILE: motions.dfy ===
/** Motion categorisation and import (`src/votes/populate/motions.py`): the
    lower-cased text of a motion is tested against an ordered list of phrase
    rules and the first that matches names its type. */
module Motions {
  import opened Wrappers
  import opened Text
  import opened Dates
  import opened Consts
  import opened Collections

  /** `all_present`: every item occurs in the text. */
  predicate AllPresent(search: string, items: seq<string>) {
    forall i :: 0 <= i < |items| ==> Contains(search, items[i])
  }

  /** `any_present`: some item occurs in the text. */
  predicate AnyPresent(search: string, items: seq<string>) {
    exists i :: 0 <= i < |items| && Contains(search, items[i])
  }

  /** The test of one branch of the categoriser. */
  datatype Test =
    | All(items: seq<string>)
    | Any(items: seq<string>)
    | Both(left: Test, right: Test)
    | Either(left: Test, right: Test)
    | Prefix(prefix: string)

  predicate Matches(t: Test, s: string) {
    match t
    case All(items) => AllPresent(s, items)
    case Any(items) => AnyPresent(s, items)
    case Both(a, b) => Matches(a, s) && Matches(b, s)
    case Either(a, b) => Matches(a, s) || Matches(b, s)
    case Prefix(p) => StartsWith(s, p)
  }

  datatype Rule = Rule(test: Test, motionType: MotionType)

  /** The branches of `catagorise_motion`, in order, with the phrase of the
      financial branch as a parameter. */
  function Rules(financial: string): seq<Rule> {
    EarlyRules + [Rule(All([financial]), Financial)] + LateRules
  }

  /** The branches before the financial one. */
  const EarlyRules: seq<Rule> :=
    [ Rule(All(["be approved", "laid before this house"]), ApproveStatutoryInstrument),
      Rule(All(["be revoked", "laid before this house"]), RevokeStatutoryInstrument),
      Rule(Any(["reasoned amendment", "declines to give the bill a"]), ReasonedAmendment),
      Rule(Any(["makes provision as set out in this order"]), TimetableChange),
      Rule(Any(["following standing order be made", "orders be standing orders of the house"]), StandingOrderChange),
      Rule(Any(["first reading"]), FirstStage),
      Rule(Both(Any(["second reading", "read a second time"]), Any(["clause"])), SecondStageCommittee),
      Rule(Any(["clause stand part of the bill"]), CommiteeClause),
      Rule(Any(["third reading", "read a third time", "read the third time"]), ThirdStage),
      Rule(Any(["second reading", "read a second time"]), SecondStage),
      Rule(All(["standing order", "23"]), TenMinuteRule),
      Rule(Any(["do adjourn until", "do now adjourn"]), Adjournment),
      Rule(Either(
             Any(["takes note of european union document", "takes note of european document",
                  "takes note of draft european council decision"]),
             All(["takes note of regulation", "of the european parliament"])), EuDocumentScrutiny),
      Rule(Any(["gracious speech"]), GovernmentAgenda),
      Rule(All(["amendment", "lords"]), LordsAmendment),
      Rule(Any(["amendment", "clause be added to the bill"]), Amendment),
      Rule(Any(["humble address be presented"]), HumbleAddress),
      Rule(Any(["that the house sit in private"]), PrivateSitting),
      Rule(All(["confidence in", "government"]), Confidence) ]

  /** The branches after the financial one. */
  const LateRules: seq<Rule> :=
    [ Rule(Prefix("new clause"), ProposedClause),
      Rule(Any(["that leave be given to bring in a bill"]), BillIntroduction) ]

  /** The index of the financial branch. */
  const FinancialRule := 19

  /** The financial phrase as the code writes it, with a capital "M". */
  const FinancialAsWritten := "be granted to his " + "Majesty" + FinancialTail

  /** The financial phrase in lower case, as the lower-cased text can contain it. */
  const FinancialPhrase := "be granted to his " + "majesty" + FinancialTail

  const FinancialTail := " to be issued by the treasury out of the consolidated fund"

  /** The first rule whose test matches, if any. */
  function FirstRule(rules: seq<Rule>, s: string, k: nat): (r: Option<nat>)
    requires k <= |rules|
    ensures r.Some? ==> k <= r.value < |rules| && Matches(rules[r.value].test, s)
    ensures r.Some? ==> forall j :: k <= j < r.value ==> !Matches(rules[j].test, s)
    ensures r.None? <==> forall j :: k <= j < |rules| ==> !Matches(rules[j].test, s)
    decreases |rules| - k
  {
    if k == |rules| then None
    else if Matches(rules[k].test, s) then Some(k)
    else FirstRule(rules, s, k + 1)
  }

  /** The type of the first matching rule for the lower-cased text, or "other". */
  function Categorise(rules: seq<Rule>, motion: string): (r: MotionType)
    ensures (forall j :: 0 <= j < |rules| ==> !Matches(rules[j].test, Lower(motion))) ==> r == OtherMotion
    ensures forall i :: 0 <= i < |rules| ==>
      Matches(rules[i].test, Lower(motion)) ==>
      (forall j :: 0 <= j < i ==> !Matches(rules[j].test, Lower(motion))) ==>
      r == rules[i].motionType
  {
    match FirstRule(rules, Lower(motion), 0)
    case Some(i) => rules[i].motionType
    case None => OtherMotion
  }

  /** `catagorise_motion` as written. */
  function CatagoriseAsWritten(motion: string): (r: MotionType)
    // the text is lower-cased but the financial phrase has a capital "M", so no
    // motion is ever financial
    ensures r != Financial
  {
    var rules := Rules(FinancialAsWritten);
    RuleTypes(FinancialAsWritten);
    WrittenFinancialFails(motion);
    var first := FirstRule(rules, Lower(motion), 0);
    assert first.Some? ==> first.value != FinancialRule;
    Categorise(rules, motion)
  }

  /** `catagorise_motion` with the financial phrase in lower case. */
  function CategoriseMotion(motion: string): (r: MotionType)
    // a supply motion that no earlier branch claims is financial
    ensures Contains(Lower(motion), FinancialPhrase) &&
      (forall j :: 0 <= j < FinancialRule ==> !Matches(Rules(FinancialPhrase)[j].test, Lower(motion)))
      ==> r == Financial
    // and the correction changes nothing else
    ensures r != CatagoriseAsWritten(motion) ==> r == Financial
  {
    RuleTypes(FinancialPhrase);
    assert Contains(Lower(motion), FinancialPhrase) ==> Matches(Rules(FinancialPhrase)[FinancialRule].test, Lower(motion));
    SameBesides(EarlyRules, Rule(All([FinancialAsWritten]), Financial), Rule(All([FinancialPhrase]), Financial), LateRules);
    WrittenFinancialFails(motion);
    CategoriseDiffer(Rules(FinancialAsWritten), Rules(FinancialPhrase), motion, FinancialRule);
    Categorise(Rules(FinancialPhrase), motion)
  }

  /** A phrase with a capital letter never occurs in lower-cased text. */
  lemma CapitalNeverInLower(s: string, p: string, k: nat)
    requires k < |p| && IsUpper(p[k])
    ensures !Contains(Lower(s), p)
  {
    LowerIdempotent(s);
    forall i ensures !OccursAt(Lower(s), p, i) {
      if 0 <= i && i + |p| <= |Lower(s)| {
        assert Lower(s)[i..i + |p|][k] == Lower(s)[i + k];
      }
    }
  }

  /** Only the financial branch has the financial type and no branch is "other". */
  lemma RuleTypes(financial: string)
    ensures |Rules(financial)| == 22
    ensures forall j :: 0 <= j < 22 ==>
      (Rules(financial)[j].motionType == Financial <==> j == FinancialRule)
    ensures forall j :: 0 <= j < 22 ==> Rules(financial)[j].motionType != OtherMotion
    ensures Rules(financial)[FinancialRule].test == All([financial])
  {
    var r := Rules(financial);
    assert |EarlyRules| == FinancialRule && |LateRules| == 2;
    forall j | 0 <= j < 22
      ensures (r[j].motionType == Financial <==> j == FinancialRule) && r[j].motionType != OtherMotion
    {
      if j < FinancialRule {
        assert r[j] == EarlyRules[j];
        EarlyTypes(j);
      } else if j > FinancialRule {
        assert r[j] == LateRules[j - FinancialRule - 1];
      }
    }
  }

  /** No branch before the financial one gives FINANCIAL or OTHER. */
  lemma EarlyTypes(j: int)
    requires 0 <= j < |EarlyRules|
    ensures EarlyRules[j].motionType != Financial && EarlyRules[j].motionType != OtherMotion
  {
  }

  /** Replacing one element of a sequence leaves the length and every other element. */
  lemma SameBesides<T>(pre: seq<T>, x: T, y: T, post: seq<T>)
    ensures |pre + [x] + post| == |pre + [y] + post|
    ensures forall j :: 0 <= j < |pre + [x] + post| && j != |pre| ==> (pre + [x] + post)[j] == (pre + [y] + post)[j]
  {
  }

  /** Two rule lists that differ only at `f`, where the first does not match: from
      `k` on they pick the same rule, unless the second picks `f`. */
  lemma {:induction false} FirstRuleDiffer(a: seq<Rule>, b: seq<Rule>, s: string, f: nat, k: nat)
    requires |a| == |b| && k <= |a| && f < |a|
    requires forall j :: 0 <= j < |a| && j != f ==> a[j] == b[j]
    requires !Matches(a[f].test, s)
    ensures FirstRule(a, s, k) == FirstRule(b, s, k) || FirstRule(b, s, k) == Some(f)
    decreases |a| - k
  {
    if k < |a| {
      FirstRuleDiffer(a, b, s, f, k + 1);
      var ma, mb := Matches(a[k].test, s), Matches(b[k].test, s);
      assert k != f ==> ma == mb by {
        if k != f {
          assert a[k] == b[k];
        }
      }
      PickStep(FirstRule(a, s, k), FirstRule(b, s, k), FirstRule(a, s, k + 1), FirstRule(b, s, k + 1), ma, mb, k, f);
    }
  }

  /** One step of two searches that agree from the next position on, unless the
      second picks `f`. */
  lemma PickStep(fa: Option<nat>, fb: Option<nat>, fa1: Option<nat>, fb1: Option<nat>, ma: bool, mb: bool, k: nat, f: nat)
    requires fa == (if ma then Some(k) else fa1) && fb == (if mb then Some(k) else fb1)
    requires fa1 == fb1 || fb1 == Some(f)
    requires k != f ==> ma == mb
    requires k == f ==> !ma
    ensures fa == fb || fb == Some(f)
  {
  }

  /** Categorisers whose rules differ only at `f`, where the first does not match,
      disagree only when the second gives the type of rule `f`. */
  lemma CategoriseDiffer(a: seq<Rule>, b: seq<Rule>, motion: string, f: nat)
    requires |a| == |b| && f < |a|
    requires forall j :: 0 <= j < |a| && j != f ==> a[j] == b[j]
    requires !Matches(a[f].test, Lower(motion))
    ensures Categorise(a, motion) != Categorise(b, motion) ==> Categorise(b, motion) == b[f].motionType
  {
    var s := Lower(motion);
    FirstRuleDiffer(a, b, s, f, 0);
    var fa := FirstRule(a, s, 0);
    if fa.Some? && fa == FirstRule(b, s, 0) {
      assert a[fa.value] == b[fa.value];
    }
  }

  /** The financial branch as written never matches lower-cased text. */
  lemma WrittenFinancialFails(motion: string)
    ensures !Matches(Rules(FinancialAsWritten)[FinancialRule].test, Lower(motion))
  {
    RuleTypes(FinancialAsWritten);
    assert FinancialAsWritten[18] == "Majesty"[0];
    CapitalNeverInLower(motion, FinancialAsWritten, 18);
    assert Rules(FinancialAsWritten)[FinancialRule].test.items[0] == FinancialAsWritten;
  }

  /** Statutory instruments come first: a motion that approves one laid before the
      House is categorised so whatever else it says. */
  lemma ApprovalComesFirst(motion: string)
    requires Contains(Lower(motion), "be approved") && Contains(Lower(motion), "laid before this house")
    ensures CategoriseMotion(motion) == ApproveStatutoryInstrument
  {
    var rules := Rules(FinancialPhrase);
    assert rules[0] == EarlyRules[0];
    assert Matches(rules[0].test, Lower(motion));
  }

  // ---- Import ----

  datatype MotionRow = MotionRow(gid: string, speechId: string, date: Date, title: string, text: string)

  datatype MotionRecord = MotionRecord(
    gid: string, speechId: string, date: Date, title: string, text: string, motionType: MotionType)

  /** Which stored motions are deleted before the new ones are created. */
  datatype DeleteScope = DeleteAll | DeleteFrom(since: Date)

  datatype MotionImport = MotionImport(deleted: DeleteScope, created: seq<MotionRecord>)

  /** A row made into a record, typed by the categoriser `cat`. */
  function ToRecord(row: MotionRow, cat: string -> MotionType): MotionRecord {
    MotionRecord(row.gid, row.speechId, row.date, row.title, row.text, cat(row.text))
  }

  function Gids(rows: seq<MotionRow>): (r: seq<string>)
    ensures |r| == |rows| && forall i :: 0 <= i < |rows| ==> r[i] == rows[i].gid
  {
    seq(|rows|, i requires 0 <= i < |rows| => rows[i].gid)
  }

  /** A row is kept by an update from `since` when it is dated on or after it. */
  predicate Kept(row: MotionRow, since: Option<Date>) {
    since.None? || LessEq(since.value, row.date)
  }

  /** The records of the rows dated on or after `since`, in order. */
  function RecordsSince(rows: seq<MotionRow>, since: Option<Date>, cat: string -> MotionType): (r: seq<MotionRecord>)
    ensures |r| <= |rows|
    ensures forall x :: x in r <==> (exists i :: 0 <= i < |rows| && x == ToRecord(rows[i], cat) && Kept(rows[i], since))
  {
    FilterMap(rows, row => Kept(row, since), row => ToRecord(row, cat))
  }

  /** `import_motions` after reading the rows, with the motion types given by `cat`:
      duplicate gids raise before anything is deleted; an update replaces only the
      motions from its date on. */
  function ImportWith(rows: seq<MotionRow>, updateSince: Option<Date>, cat: string -> MotionType): (r: Result<MotionImport, Error>)
    ensures r.Failure? <==> !NoDuplicates(Gids(rows))
    ensures r.Success? ==> r.value.created == RecordsSince(rows, updateSince, cat)
    ensures r.Success? ==> (r.value.deleted == DeleteAll <==> updateSince.None?)
    ensures r.Success? && updateSince.Some? ==> r.value.deleted == DeleteFrom(updateSince.value)
  {
    var gidCount := |Elements(Gids(rows))|;
    DistinctCard(Gids(rows));
    if gidCount != |rows| then
      Failure(ValueError("There are duplicate gids: " + IntToString(|rows| - gidCount)))
    else
      var deleted := if updateSince.Some? then DeleteFrom(updateSince.value) else DeleteAll;
      Success(MotionImport(deleted, RecordsSince(rows, updateSince, cat)))
  }

  /** `import_motions` as written: the rows are typed by `catagorise_motion` as
      written, so no created motion is ever financial. */
  function ImportMotions(rows: seq<MotionRow>, updateSince: Option<Date>): (r: Result<MotionImport, Error>)
    ensures r.Failure? <==> !NoDuplicates(Gids(rows))
    ensures r.Success? ==> r.value.created == RecordsSince(rows, updateSince, CatagoriseAsWritten)
    ensures r.Success? ==> (r.value.deleted == DeleteAll <==> updateSince.None?)
    ensures r.Success? && updateSince.Some? ==> r.value.deleted == DeleteFrom(updateSince.value)
    ensures r.Success? ==> forall x :: x in r.value.created ==> x.motionType != Financial
  {
    ImportWith(rows, updateSince, CatagoriseAsWritten)
  }

  /** The import with the corrected categoriser. */
  function ImportMotionsCorrected(rows: seq<MotionRow>, updateSince: Option<Date>): (r: Result<MotionImport, Error>)
    ensures r.Failure? <==> !NoDuplicates(Gids(rows))
    ensures r.Success? ==> r.value.created == RecordsSince(rows, updateSince, CategoriseMotion)
    ensures r.Success? ==> (r.value.deleted == DeleteAll <==> updateSince.None?)
  {
    ImportWith(rows, updateSince, CategoriseMotion)
  }

  /** Every created motion carries the type its text is categorised as by the
      categoriser as written, and without an update every row is created. */
  lemma ImportedTypes(rows: seq<MotionRow>, updateSince: Option<Date>)
    requires ImportMotions(rows, updateSince).Success?
    ensures forall x :: x in ImportMotions(rows, updateSince).value.created ==>
      x.motionType == CatagoriseAsWritten(x.text) && x.motionType != Financial
    ensures updateSince.None? ==> |ImportMotions(rows, updateSince).value.created| == |rows|
  {
    if updateSince.None? {
      FullImport(rows, CatagoriseAsWritten);
    }
  }

  /** The two imports create the same motions in the same order and delete the same
      ones; a created motion's type differs only where the corrected import makes it
      financial. */
  lemma CorrectedImportOnlyAddsFinancial(rows: seq<MotionRow>, updateSince: Option<Date>)
    ensures ImportMotions(rows, updateSince).Success? <==> ImportMotionsCorrected(rows, updateSince).Success?
    ensures ImportMotions(rows, updateSince).Success? ==>
      var a, c := ImportMotions(rows, updateSince).value, ImportMotionsCorrected(rows, updateSince).value;
      a.deleted == c.deleted && |a.created| == |c.created|
      && forall i :: 0 <= i < |a.created| ==>
        a.created[i] == c.created[i].(motionType := a.created[i].motionType)
        && (a.created[i].motionType != c.created[i].motionType ==> c.created[i].motionType == Financial)
  {
    var keep := row => Kept(row, updateSince);
    FilterMapAligned(rows, keep, row => ToRecord(row, CatagoriseAsWritten), row => ToRecord(row, CategoriseMotion));
  }

  /** A supply motion that no earlier branch claims is imported with a non-financial
      type as written, and as financial when corrected. */
  lemma SupplyMotionImport(row: MotionRow)
    requires Contains(Lower(row.text), FinancialPhrase)
    requires forall j :: 0 <= j < FinancialRule ==> !Matches(Rules(FinancialPhrase)[j].test, Lower(row.text))
    ensures ImportMotions([row], None).Success? && ImportMotionsCorrected([row], None).Success?
    ensures |ImportMotions([row], None).value.created| == 1
    ensures ImportMotions([row], None).value.created[0].motionType != Financial
    ensures ImportMotionsCorrected([row], None).value.created == [ToRecord(row, CategoriseMotion)]
    ensures ImportMotionsCorrected([row], None).value.created[0].motionType == Financial
  {
    assert NoDuplicates(Gids([row]));
    FullImport([row], CatagoriseAsWritten);
    FullImport([row], CategoriseMotion);
    var c := ImportMotionsCorrected([row], None).value.created;
    assert c[0] in c;
  }

  lemma FullImport(rows: seq<MotionRow>, cat: string -> MotionType)
    ensures |RecordsSince(rows, None, cat)| == |rows|
  {
    FilterMapKeepsAll(rows, row => Kept(row, None), row => ToRecord(row, cat));
  }
}

=== FILE: name_reconciliation.dfy ===
/** Name reconciliation (`votes/name_reconciliation.py`): a manual "(id)" after a
    name, honorific stripping, and the order in which a person id is looked for.
    The Popolo lookup by name, chamber and date is a parameter. */
module NameReconciliation {
  import opened Wrappers
  import opened Text
  import Forms

  // ---- Bracketed ids ----

  /** The id written as "(digits)" at the end of `s`. */
  function TrailingId(s: string): (r: Option<nat>)
    ensures r.Some? <==> exists p :: Forms.ShortAt(s, p)
    ensures forall p :: Forms.ShortAt(s, p) ==> r == Some(DigitsValue(s[p + 1..|s| - 1]))
  {
    match Forms.ShortStart(s)
    case Some(p) => Some(Forms.ShortId(s, p))
    case None => None
  }

  /** `extract_person_id_from_brackets`: the id written as "(digits)" at the end of
      the stripped name. */
  function ExtractPersonId(fullName: string): (r: Option<nat>)
    ensures r.Some? <==> exists p :: Forms.ShortAt(Strip(fullName), p)
    ensures forall p :: Forms.ShortAt(Strip(fullName), p) ==>
      r == Some(DigitsValue(Strip(fullName)[p + 1..|Strip(fullName)| - 1]))
  {
    TrailingId(Strip(fullName))
  }

  /** A name written with a non-negative id gives that id back. */
  lemma ExtractBracketed(name: string, n: nat)
    requires Forms.Stripped(name)
    ensures ExtractPersonId(Forms.Bracketed(name, NatToString(n))) == Some(n)
  {
    var k := if |name| > 0 then 0 else 1;
    var digits := NatToString(n);
    Forms.StripBracketed(name, digits);
    TrailingIdBracketed(name, digits, k);
    NatToStringValue(n);
  }

  /** The trailing id of "name (digits)", from any start up to the bracket. */
  lemma TrailingIdBracketed(name: string, digits: string, k: nat)
    requires |digits| > 0 && AllDigits(digits) && k <= |name| + 1
    ensures TrailingId(Forms.Bracketed(name, digits)[k..]) == Some(DigitsValue(digits))
  {
    var s := Forms.Bracketed(name, digits)[k..];
    Forms.ShortOfBracketed(name, digits, k);
    assert Forms.ShortAt(s, |name| + 1 - k);
  }

  /** The signature form reads the same id from a name as this extraction does. */
  lemma ExtractAgreesWithSignature(fullName: string, decode: string -> Forms.JsonDecoded)
    requires ExtractPersonId(fullName).Some?
    ensures Forms.FromText(fullName, decode).Success?
    ensures Forms.FromText(fullName, decode).value.personId == Some(ExtractPersonId(fullName).value as int)
  {
    var s := Strip(fullName);
    assert ExtractPersonId(fullName) == TrailingId(s);
    assert Forms.ShortStart(s).Some?;
    var p := Forms.ShortStart(s).value;
    assert TrailingId(s) == Some(Forms.ShortId(s, p));
    assert Forms.FromText(fullName, decode) == Forms.FromStripped(fullName, s, decode);
    assert Forms.FromStripped(fullName, s, decode) == Success(Forms.ShortSignature(fullName, s, p));
  }

  // ---- Honorifics ----

  /** A non-empty pattern. */
  type Word = w: string | |w| > 0 witness "a"

  const PreHonorifics: seq<Word> := [
    "Dame", "Sir", "Mr", "Mrs", "Ms", "Miss", "Dr", "Prof", "Professor", "Rev", "Reverend",
    "Lord", "Lady", "Hon", "Honourable", "Rt Hon", "Right Hon", "Right Honourable"]

  const PostHonorifics: seq<Word> := [
    "MP", "MSP", "MLA", "AM", "MS", "OBE", "MBE", "CBE", "KBE", "DBE", "QC", "KC", "PC"]

  /** The regex `\bw\b` with IGNORECASE matches `s` at `i`: the text there equals `w`
      up to case, and neither neighbour is a word character. */
  predicate WordAt(s: string, w: string, i: int) {
    0 <= i && i + |w| <= |s| && Lower(s[i..i + |w|]) == Lower(w)
    && (i == 0 || !IsWordChar(s[i - 1]))
    && (i + |w| == |s| || !IsWordChar(s[i + |w|]))
  }

  /** `re.sub(r"\bw\b", "", s[k..], flags=re.IGNORECASE)`, scanning left to right;
      the word boundaries are judged in the original text. */
  function RemoveFrom(s: string, w: string, k: nat): (r: string)
    requires |w| > 0 && k <= |s|
    ensures |r| <= |s| - k
    decreases |s| - k
  {
    if k == |s| then ""
    else if WordAt(s, w, k) then RemoveFrom(s, w, k + |w|)
    else [s[k]] + RemoveFrom(s, w, k + 1)
  }

  /** The scan from `k` keeps every character exactly when no match starts there or later. */
  lemma {:induction false} RemoveFromKeeps(s: string, w: string, k: nat)
    requires |w| > 0 && k <= |s|
    ensures |RemoveFrom(s, w, k)| == |s| - k <==> forall i :: k <= i ==> !WordAt(s, w, i)
    ensures (forall i :: k <= i ==> !WordAt(s, w, i)) ==> RemoveFrom(s, w, k) == s[k..]
    decreases |s| - k
  {
    if k < |s| {
      if WordAt(s, w, k) {
        RemoveFromKeeps(s, w, k + |w|);
      } else {
        RemoveFromKeeps(s, w, k + 1);
        assert s[k..] == [s[k]] + s[k + 1..];
      }
    }
  }

  function RemoveWord(s: string, w: string): (r: string)
    requires |w| > 0
    ensures |r| <= |s|
  {
    RemoveFrom(s, w, 0)
  }

  /** Removing a word shortens the text exactly when the word occurs in it, and
      leaves the text alone otherwise. */
  lemma RemoveWordSpec(s: string, w: string)
    requires |w| > 0
    ensures |RemoveWord(s, w)| < |s| <==> exists i :: WordAt(s, w, i)
    ensures (forall i :: !WordAt(s, w, i)) ==> RemoveWord(s, w) == s
  {
    RemoveFromKeeps(s, w, 0);
  }

  /** The words are removed one after the other, in list order. */
  function RemoveWords(s: string, ws: seq<Word>): (r: string)
    ensures |r| <= |s|
    decreases |ws|
  {
    if |ws| == 0 then s else RemoveWords(RemoveWord(s, ws[0]), ws[1..])
  }

  /** No word of the list occurs in `s`. */
  predicate NoneOf(s: string, ws: seq<Word>) {
    forall j, i :: 0 <= j < |ws| && 0 <= i < |s| ==> !WordAt(s, ws[j], i)
  }

  /** Removing words that do not occur changes nothing. */
  lemma {:induction false} RemoveAbsentWords(s: string, ws: seq<Word>)
    requires NoneOf(s, ws)
    ensures RemoveWords(s, ws) == s
    decreases |ws|
  {
    if |ws| > 0 {
      assert forall i :: !WordAt(s, ws[0], i);
      RemoveWordSpec(s, ws[0]);
      RemoveAbsentWords(s, ws[1..]);
    }
  }

  /** Every whitespace character is a single space with no whitespace after it. */
  predicate SingleSpaced(s: string) {
    forall i :: 0 <= i < |s| && IsSpace(s[i]) ==> s[i] == ' ' && (i + 1 < |s| ==> !IsSpace(s[i + 1]))
  }

  lemma SingleSpacedCons(c: char, t: string)
    requires SingleSpaced(t) && (IsSpace(c) ==> c == ' ' && (|t| > 0 ==> !IsSpace(t[0])))
    ensures SingleSpaced([c] + t)
  {
    var u := [c] + t;
    forall i | 0 <= i < |u| && IsSpace(u[i]) ensures u[i] == ' ' && (i + 1 < |u| ==> !IsSpace(u[i + 1])) {
      if i > 0 {
        assert u[i] == t[i - 1];
        if i + 1 < |u| { assert u[i + 1] == t[i]; }
      }
    }
  }

  lemma SingleSpacedTail(s: string)
    requires |s| > 0 && SingleSpaced(s)
    ensures SingleSpaced(s[1..])
  {
    SingleSpacedInfix(s, 1, |s|);
  }

  /** Leading whitespace is dropped; in a single-spaced text that is one space. */
  lemma LStripSpace(s: string)
    requires |s| > 0 && IsSpace(s[0])
    ensures |LStrip(s)| < |s|
    ensures SingleSpaced(s) ==> LStrip(s) == s[1..]
  {
    if SingleSpaced(s) && |s| > 1 {
      assert !IsSpace(s[1]);
    }
  }

  /** `re.sub(r"\s+", " ", s)`: each run of whitespace becomes one space. */
  function Collapse(s: string): (r: string)
    ensures |r| <= |s|
    ensures SingleSpaced(r)
    ensures |r| > 0 <==> |s| > 0
    ensures |r| > 0 ==> (IsSpace(r[0]) <==> IsSpace(s[0]))
    ensures SingleSpaced(s) ==> r == s
    decreases |s|
  {
    if |s| == 0 then ""
    else if IsSpace(s[0]) then
      LStripSpace(s);
      var t := Collapse(LStrip(s));
      SingleSpacedCons(' ', t);
      assert SingleSpaced(s) ==> SingleSpaced(s[1..]) by {
        if SingleSpaced(s) { SingleSpacedTail(s); }
      }
      [' '] + t
    else
      var t := Collapse(s[1..]);
      SingleSpacedCons(s[0], t);
      assert SingleSpaced(s) ==> SingleSpaced(s[1..]) by {
        if SingleSpaced(s) { SingleSpacedTail(s); }
      }
      [s[0]] + t
  }

  /** A stretch of a single-spaced text is single-spaced. */
  lemma SingleSpacedInfix(s: string, i: nat, j: nat)
    requires i <= j <= |s| && SingleSpaced(s)
    ensures SingleSpaced(s[i..j])
  {
    var t := s[i..j];
    forall k | 0 <= k < |t| && IsSpace(t[k]) ensures t[k] == ' ' && (k + 1 < |t| ==> !IsSpace(t[k + 1])) {
      assert t[k] == s[i + k];
      if k + 1 < |t| { assert t[k + 1] == s[i + k + 1]; }
    }
  }

  /** The text is stripped and its whitespace is single spaces between words. */
  predicate Tidy(s: string) {
    SingleSpaced(s) && (|s| == 0 || (!IsSpace(s[0]) && !IsSpace(s[|s| - 1])))
  }

  lemma StripSingleSpaced(c: string)
    requires SingleSpaced(c)
    ensures SingleSpaced(Strip(c))
  {
    var l := LStrip(c);
    SingleSpacedInfix(c, |c| - |l|, |c|);
    SingleSpacedInfix(l, 0, |RStrip(l)|);
  }

  /** `re.sub(r"\s+", " ", s).strip()` */
  function Tidied(s: string): (r: string)
    ensures Tidy(r)
    ensures Tidy(s) ==> r == s
  {
    TidyOfCollapse(s);
    Strip(Collapse(s))
  }

  lemma TidyOfCollapse(s: string)
    ensures Tidy(Strip(Collapse(s)))
    ensures Tidy(s) ==> Strip(Collapse(s)) == s
  {
    var c := Collapse(s);
    StripSingleSpaced(c);
    if Tidy(s) {
      assert c == s;
      StripNoSpace(s);
    }
  }

  /** `strip_honorifics`: the pre-honorifics and then the post-honorifics are removed
      wherever they stand as whole words, in any case, and the whitespace is tidied. */
  function StripHonorifics(fullName: string): (r: string)
    ensures Tidy(r)
    ensures |r| <= |fullName|
  {
    Tidied(RemoveWords(RemoveWords(fullName, PreHonorifics), PostHonorifics))
  }

  /** A tidy name in which no honorific stands as a word is returned unchanged. */
  lemma PlainNameUnchanged(fullName: string)
    requires Tidy(fullName) && NoneOf(fullName, PreHonorifics) && NoneOf(fullName, PostHonorifics)
    ensures StripHonorifics(fullName) == fullName
  {
    RemoveAbsentWords(fullName, PreHonorifics);
    RemoveAbsentWords(fullName, PostHonorifics);
  }

  // ---- What stripping removes ----

  /** A non-empty run of word characters. */
  predicate OneWord(s: string) {
    |s| > 0 && forall i :: 0 <= i < |s| ==> IsWordChar(s[i])
  }

  predicate Spaceless(w: string) {
    forall i :: 0 <= i < |w| ==> w[i] != ' '
  }

  predicate AllSpaceless(ws: seq<Word>) {
    forall j :: 0 <= j < |ws| ==> Spaceless(ws[j])
  }

  /** The honorifics written as one word: the first fifteen pre-honorifics and every
      post-honorific. */
  lemma HonorificShapes()
    ensures AllSpaceless(PreHonorifics[..15]) && AllSpaceless(PostHonorifics)
    ensures forall j :: 0 <= j < |PostHonorifics| ==> OneWord(PostHonorifics[j])
    ensures forall j :: 15 <= j < |PreHonorifics| ==> !OneWord(PreHonorifics[j])
  {
    assert PreHonorifics[15][2] == ' ' && PreHonorifics[16][5] == ' ' && PreHonorifics[17][5] == ' ';
  }

  /** The three honorifics of two words have their second word begin with "Hon",
      which no post-honorific does, and are longer than every post-honorific. */
  lemma TwoWordShapes()
    ensures forall j :: 15 <= j < |PreHonorifics| ==>
      |PreHonorifics[j]| > 3 && PreHonorifics[j][0] != ' '
      && forall k :: 0 <= k < |PreHonorifics[j]| && PreHonorifics[j][k] == ' ' ==>
           k + 1 < |PreHonorifics[j]| && PreHonorifics[j][k + 1] == 'H'
    ensures forall j :: 0 <= j < |PostHonorifics| ==>
      |PostHonorifics[j]| <= 3 && PostHonorifics[j][0] != 'H' && PostHonorifics[j][0] != 'h'
  {
  }

  /** In a single word a pattern matches only as the whole word. */
  lemma OneWordRemove(x: string, w: string)
    requires OneWord(x) && |w| > 0
    ensures RemoveWord(x, w) == (if Lower(x) == Lower(w) then "" else x)
  {
    forall i | !(i == 0 && |w| == |x|) ensures !WordAt(x, w, i) {
      if 0 < i <= |x| { assert IsWordChar(x[i - 1]); }
      if 0 <= i + |w| < |x| { assert IsWordChar(x[i + |w|]); }
    }
    if Lower(x) == Lower(w) {
      assert x[0..|w|] == x;
      assert WordAt(x, w, 0);
      assert RemoveWord(x, w) == RemoveFrom(x, w, |w|);
    } else {
      RemoveWordSpec(x, w);
    }
  }

  /** A single word is removed by a list exactly when some entry equals it up to case. */
  lemma {:induction false} OneWordRemoveWords(x: string, ws: seq<Word>)
    requires OneWord(x)
    ensures RemoveWords(x, ws) == (if exists j :: 0 <= j < |ws| && Lower(ws[j]) == Lower(x) then "" else x)
    decreases |ws|
  {
    if |ws| > 0 {
      OneWordRemove(x, ws[0]);
      if Lower(ws[0]) == Lower(x) {
        assert RemoveWords(x, ws) == RemoveWords("", ws[1..]);
      } else {
        OneWordRemoveWords(x, ws[1..]);
        assert forall j :: 1 <= j < |ws| ==> ws[j] == ws[1..][j - 1];
      }
    }
  }

  /** Removing words in two batches is removing them in one. */
  lemma {:induction false} RemoveWordsAppend(s: string, xs: seq<Word>, ys: seq<Word>)
    ensures RemoveWords(s, xs + ys) == RemoveWords(RemoveWords(s, xs), ys)
    decreases |xs|
  {
    if |xs| > 0 {
      assert (xs + ys)[1..] == xs[1..] + ys;
      RemoveWordsAppend(RemoveWord(s, xs[0]), xs[1..], ys);
    } else {
      assert xs + ys == ys;
    }
  }

  /** Past a separating space, matches are those of the right-hand text. */
  lemma WordAtRight(a: string, b: string, w: string, k: int)
    requires |a| + 1 <= k
    ensures WordAt(a + " " + b, w, k) <==> WordAt(b, w, k - |a| - 1)
  {
    var s := a + " " + b;
    var m := k - |a| - 1;
    if k + |w| <= |s| {
      assert s[k..k + |w|] == b[m..m + |w|];
      if k + |w| < |s| { assert s[k + |w|] == b[m + |w|]; }
      if m > 0 { assert s[k - 1] == b[m - 1]; }
    }
  }

  /** Before a separating space, matches of a word that fits, or of any space-free
      word, are those of the left-hand text. */
  lemma WordAtLeft(a: string, b: string, w: string, k: int)
    requires 0 <= k <= |a| && (k + |w| <= |a| || Spaceless(w))
    ensures WordAt(a + " " + b, w, k) <==> WordAt(a, w, k)
  {
    var s := a + " " + b;
    if k + |w| <= |a| {
      assert s[k..k + |w|] == a[k..k + |w|];
      assert s[k + |w|] == (if k + |w| == |a| then ' ' else a[k + |w|]);
      if k > 0 { assert s[k - 1] == a[k - 1]; }
    } else if k + |w| <= |s| {
      SpaceBreaksMatch(s[k..k + |w|], w, |a| - k);
    }
  }

  /** A space in the text where the pattern has none stops a case-blind match. */
  lemma SpaceBreaksMatch(t: string, w: string, j: int)
    requires 0 <= j < |t| && t[j] == ' ' && |w| == |t| && w[j] != ' '
    ensures Lower(t) != Lower(w)
  {
    assert Lower(t)[j] == ' ' != Lower(w)[j];
  }

  /** Scanning past a separating space is scanning the right-hand text. */
  lemma {:induction false} RemoveFromRight(a: string, b: string, w: string, k: nat)
    requires |w| > 0 && |a| + 1 <= k <= |a| + 1 + |b|
    ensures RemoveFrom(a + " " + b, w, k) == RemoveFrom(b, w, k - |a| - 1)
    decreases |a| + 1 + |b| - k
  {
    if k < |a| + 1 + |b| {
      WordAtRight(a, b, w, k);
      if WordAt(a + " " + b, w, k) {
        RemoveFromRight(a, b, w, k + |w|);
      } else {
        RemoveFromRight(a, b, w, k + 1);
        RightStep(a, b, w, k);
      }
    }
  }

  lemma RightStep(a: string, b: string, w: string, k: nat)
    requires |w| > 0 && |a| + 1 <= k < |a| + 1 + |b| && !WordAt(b, w, k - |a| - 1)
    requires !WordAt(a + " " + b, w, k)
    requires RemoveFrom(a + " " + b, w, k + 1) == RemoveFrom(b, w, k - |a|)
    ensures RemoveFrom(a + " " + b, w, k) == RemoveFrom(b, w, k - |a| - 1)
  {
    assert (a + " " + b)[k] == b[k - |a| - 1];
  }

  /** Scanning a space-free word across a separating space treats the two sides apart. */
  lemma {:induction false} RemoveFromLeft(a: string, b: string, w: string, k: nat)
    requires |w| > 0 && Spaceless(w) && k <= |a|
    ensures RemoveFrom(a + " " + b, w, k) == RemoveFrom(a, w, k) + " " + RemoveFrom(b, w, 0)
    decreases |a| - k
  {
    WordAtLeft(a, b, w, k);
    if k == |a| {
      RemoveFromRight(a, b, w, k + 1);
      AtSpace(a, b, w);
    } else if WordAt(a + " " + b, w, k) {
      RemoveFromLeft(a, b, w, k + |w|);
    } else {
      RemoveFromLeft(a, b, w, k + 1);
      LeftStep(a, b, w, k);
    }
  }

  /** The separating space is never the start of a match of a space-free word. */
  lemma AtSpace(a: string, b: string, w: string)
    requires |w| > 0 && Spaceless(w)
    requires RemoveFrom(a + " " + b, w, |a| + 1) == RemoveFrom(b, w, 0)
    ensures RemoveFrom(a + " " + b, w, |a|) == " " + RemoveFrom(b, w, 0)
  {
    var s := a + " " + b;
    if |a| + |w| <= |s| {
      SpaceBreaksMatch(s[|a|..|a| + |w|], w, 0);
    }
    assert !WordAt(s, w, |a|);
  }

  lemma LeftStep(a: string, b: string, w: string, k: nat)
    requires |w| > 0 && k < |a| && !WordAt(a, w, k) && !WordAt(a + " " + b, w, k)
    requires RemoveFrom(a + " " + b, w, k + 1) == RemoveFrom(a, w, k + 1) + " " + RemoveFrom(b, w, 0)
    ensures RemoveFrom(a + " " + b, w, k) == RemoveFrom(a, w, k) + " " + RemoveFrom(b, w, 0)
  {
    assert (a + " " + b)[k] == a[k];
  }

  /** Removing space-free words from two texts joined by a space treats each apart. */
  lemma {:induction false} RemoveWordsSplit(a: string, b: string, ws: seq<Word>)
    requires AllSpaceless(ws)
    ensures RemoveWords(a + " " + b, ws) == RemoveWords(a, ws) + " " + RemoveWords(b, ws)
    decreases |ws|
  {
    if |ws| > 0 {
      RemoveFromLeft(a, b, ws[0], 0);
      RemoveWordsSplit(RemoveWord(a, ws[0]), RemoveWord(b, ws[0]), ws[1..]);
    }
  }

  /** The conditions under which a two-word honorific `w` cannot occur in
      `n + " " + q`: not in `n`, not in `q`, and not straddling the space. */
  ghost predicate NoTwoWordMatch(n: string, q: string, w: string) {
    |w| > 0 && (forall i :: !WordAt(n, w, i)) && (q == "" || OneWord(q)) && |w| > |q|
    && forall k :: 0 <= k < |w| && w[k] == ' ' ==> Lower(w[k + 1..]) != Lower(q)
  }

  lemma NoMatchAcross(n: string, q: string, w: string)
    requires NoTwoWordMatch(n, q, w)
    ensures forall i :: !WordAt(n + " " + q, w, i)
  {
    var u := n + " " + q;
    var m := |n|;
    forall i ensures !WordAt(u, w, i) {
      if 0 <= i && i + |w| <= m {
        WordAtLeft(n, q, w, i);
      } else if 0 <= i <= m && i + |w| <= |u| {
        var t := u[i..i + |w|];
        if w[m - i] != ' ' {
          SpaceBreaksMatch(t, w, m - i);
        } else if i + |w| == |u| {
          assert t[m - i + 1..] == q;
          SuffixBreaksMatch(t, w, m - i + 1);
        } else {
          assert IsWordChar(q[i + |w| - m - 1]);
          assert u[i + |w|] == q[i + |w| - m - 1];
        }
      } else if m < i {
        WordAtRight(n, q, w, i);
        if q != "" {
          OneWordRemove(q, w);
        }
      }
    }
  }

  /** Texts whose ends differ up to case differ up to case. */
  lemma SuffixBreaksMatch(t: string, w: string, j: int)
    requires 0 <= j <= |t| == |w| && Lower(w[j..]) != Lower(t[j..])
    ensures Lower(t) != Lower(w)
  {
    LowerSlice(t, j, |t|);
    LowerSlice(w, j, |w|);
    assert t[j..|t|] == t[j..] && w[j..|w|] == w[j..];
  }

  /** `h + " "`, or nothing when there is no leading honorific. */
  function Before(h: string): string { if h == "" then "" else h + " " }

  /** The space left where a leading honorific was removed. */
  function Lead(h: string): string { if h == "" then "" else " " }

  /** `" " + p`, or nothing when there is no trailing honorific. */
  function After(p: string): string { if p == "" then "" else " " + p }

  /** What is left after the trailing word `p` has become `q`. */
  function After'(p: string, q: string): string { if p == "" then "" else " " + q }

  /** The first pass, over the one-word pre-honorifics `ws`, drops the leading
      honorific and leaves the name; a trailing word survives unless the list names
      it too ("MS" is "Ms" up to case). */
  lemma PreWordsPass(h: string, n: string, p: string, ws: seq<Word>)
    requires AllSpaceless(ws)
    requires h == "" || (h in ws && OneWord(h))
    requires p == "" || OneWord(p)
    requires NoneOf(n, ws)
    ensures RemoveWords(p, ws) == "" || RemoveWords(p, ws) == p
    ensures RemoveWords(Before(h) + n + After(p), ws) == Lead(h) + n + After'(p, RemoveWords(p, ws))
  {
    RemoveAbsentWords(n, ws);
    if p != "" { OneWordRemoveWords(p, ws); }
    if h != "" {
      var j :| 0 <= j < |ws| && ws[j] == h;
      OneWordRemoveWords(h, ws);
    }
    PreCases(h, n, p, ws);
  }

  lemma PreCases(h: string, n: string, p: string, ws: seq<Word>)
    requires AllSpaceless(ws) && RemoveWords(n, ws) == n && (h != "" ==> RemoveWords(h, ws) == "")
    ensures RemoveWords(Before(h) + n + After(p), ws) == Lead(h) + n + After'(p, RemoveWords(p, ws))
  {
    if h != "" && p != "" {
      PreBoth(h, n, p, ws);
    } else if h != "" {
      PreLead(h, n, p, ws);
    } else if p != "" {
      PreTrail(h, n, p, ws);
    } else {
      PreNeither(h, n, p, ws);
    }
  }

  lemma PreNeither(h: string, n: string, p: string, ws: seq<Word>)
    requires h == "" && p == "" && RemoveWords(n, ws) == n
    ensures RemoveWords(Before(h) + n + After(p), ws) == Lead(h) + n + After'(p, RemoveWords(p, ws))
  {
    ShapeNeither(h, n, p, RemoveWords(p, ws));
  }

  lemma PreBoth(h: string, n: string, p: string, ws: seq<Word>)
    requires h != "" && p != ""
    requires AllSpaceless(ws) && RemoveWords(n, ws) == n && RemoveWords(h, ws) == ""
    ensures RemoveWords(Before(h) + n + After(p), ws) == Lead(h) + n + After'(p, RemoveWords(p, ws))
  {
    ShapeBoth(h, n, p, RemoveWords(p, ws));
    SplitBoth(h, n, p, ws);
  }

  lemma PreLead(h: string, n: string, p: string, ws: seq<Word>)
    requires h != "" && p == ""
    requires AllSpaceless(ws) && RemoveWords(n, ws) == n && RemoveWords(h, ws) == ""
    ensures RemoveWords(Before(h) + n + After(p), ws) == Lead(h) + n + After'(p, RemoveWords(p, ws))
  {
    ShapeLead(h, n, p, RemoveWords(p, ws));
    RemoveWordsSplit(h, n, ws);
  }

  lemma PreTrail(h: string, n: string, p: string, ws: seq<Word>)
    requires h == "" && p != ""
    requires AllSpaceless(ws) && RemoveWords(n, ws) == n
    ensures RemoveWords(Before(h) + n + After(p), ws) == Lead(h) + n + After'(p, RemoveWords(p, ws))
  {
    ShapeTrail(h, n, p, RemoveWords(p, ws));
    RemoveWordsSplit(n, p, ws);
  }

  // The shapes of the text before and after the first pass, one lemma per case.

  lemma ShapeNeither(h: string, n: string, p: string, r: string)
    requires h == "" && p == ""
    ensures Before(h) + n + After(p) == n && Lead(h) + n + After'(p, r) == n
  {
  }

  lemma ShapeBoth(h: string, n: string, p: string, r: string)
    requires h != "" && p != ""
    ensures Before(h) + n + After(p) == h + " " + (n + " " + p)
    ensures Lead(h) + n + After'(p, r) == " " + n + " " + r
  {
  }

  lemma ShapeLead(h: string, n: string, p: string, r: string)
    requires h != "" && p == ""
    ensures Before(h) + n + After(p) == h + " " + n
    ensures Lead(h) + n + After'(p, r) == "" + " " + n
  {
  }

  lemma ShapeTrail(h: string, n: string, p: string, r: string)
    requires h == "" && p != ""
    ensures Before(h) + n + After(p) == n + " " + p
    ensures Lead(h) + n + After'(p, r) == n + " " + r
  {
  }

  /** Both honorifics present: the leading one goes, the name stays. */
  lemma SplitBoth(h: string, n: string, p: string, ws: seq<Word>)
    requires AllSpaceless(ws) && RemoveWords(h, ws) == "" && RemoveWords(n, ws) == n
    ensures RemoveWords(h + " " + (n + " " + p), ws) == " " + n + " " + RemoveWords(p, ws)
  {
    RemoveWordsSplit(h, n + " " + p, ws);
    RemoveWordsSplit(n, p, ws);
  }

  /** The shape of a two-word honorific: longer than three characters, starting
      with a letter, and every space in it followed by "H". */
  predicate TwoWordShape(w: string) {
    |w| > 3 && w[0] != ' '
    && forall k :: 0 <= k < |w| && w[k] == ' ' ==> k + 1 < |w| && w[k + 1] == 'H'
  }

  /** The shape of a word left at the end: empty, or one word of at most three
      characters not starting with "H" or "h". */
  predicate ShortTail(q: string) {
    q == "" || (OneWord(q) && |q| <= 3 && q[0] != 'H' && q[0] != 'h')
  }

  lemma TwoWordNoMatch(n: string, q: string, w: string)
    requires TwoWordShape(w) && ShortTail(q) && forall i :: 0 <= i < |n| ==> !WordAt(n, w, i)
    ensures forall i :: !WordAt(n + " " + q, w, i)
  {
    forall k | 0 <= k < |w| && w[k] == ' ' ensures Lower(w[k + 1..]) != Lower(q) {
      assert Lower(w[k + 1..])[0] == 'h';
      if q != "" { assert Lower(q)[0] != 'h'; }
    }
    assert forall i :: !WordAt(n, w, i) by {
      forall i | !(0 <= i < |n|) ensures !WordAt(n, w, i) { }
    }
    NoMatchAcross(n, q, w);
  }

  /** The second pass, over the two-word pre-honorifics `ws`, finds nothing. */
  lemma TwoWordsPass(lead: string, n: string, p: string, q: string, ws: seq<Word>)
    requires lead == "" || lead == " "
    requires forall j :: 0 <= j < |ws| ==> TwoWordShape(ws[j])
    requires ShortTail(q)
    requires NoneOf(n, ws)
    ensures RemoveWords(lead + n + After'(p, q), ws) == lead + n + After'(p, q)
  {
    var t := lead + n + After'(p, q);
    forall j | 0 <= j < |ws| ensures forall i :: !WordAt(t, ws[j], i) {
      TwoWordAbsent(lead, n, p, q, ws[j]);
    }
    RemoveAbsentWords(t, ws);
  }

  lemma TwoWordAbsent(lead: string, n: string, p: string, q: string, w: string)
    requires lead == "" || lead == " "
    requires TwoWordShape(w) && ShortTail(q) && forall i :: 0 <= i < |n| ==> !WordAt(n, w, i)
    ensures forall i :: !WordAt(lead + n + After'(p, q), w, i)
  {
    var u := n + After'(p, q);
    TwoWordNotInTail(n, p, q, w);
    if lead == " " {
      LeadingSpace(u, w);
      assert lead + n + After'(p, q) == " " + u;
    } else {
      assert lead + n + After'(p, q) == u;
    }
  }

  /** A two-word honorific occurs neither in the name nor across its end. */
  lemma TwoWordNotInTail(n: string, p: string, q: string, w: string)
    requires TwoWordShape(w) && ShortTail(q) && forall i :: 0 <= i < |n| ==> !WordAt(n, w, i)
    ensures forall i :: !WordAt(n + After'(p, q), w, i)
  {
    if p == "" {
      var u := n + After'(p, q);
      assert u == n;
      forall i ensures !WordAt(u, w, i) {
        if 0 <= i < |n| { assert !WordAt(n, w, i); }
      }
    } else {
      TwoWordNoMatch(n, q, w);
      assert n + After'(p, q) == n + " " + q;
    }
  }

  /** A leading space shifts the matches of a word that does not start with one. */
  lemma LeadingSpace(u: string, w: string)
    requires |w| > 0 && w[0] != ' ' && forall i :: !WordAt(u, w, i)
    ensures forall i :: !WordAt(" " + u, w, i)
  {
    assert " " + u == "" + " " + u;
    forall i ensures !WordAt(" " + u, w, i) {
      if i > 0 {
        WordAtRight("", u, w, i);
      } else if i == 0 && |w| <= |u| + 1 {
        SpaceBreaksMatch((" " + u)[0..|w|], w, 0);
      }
    }
  }

  /** The post-honorific pass over `ws` removes the trailing word and leaves the name. */
  lemma PostWordsPass(lead: string, n: string, p: string, q: string, ws: seq<Word>)
    requires lead == "" || lead == " "
    requires AllSpaceless(ws)
    requires q == "" || (OneWord(q) && q in ws)
    requires NoneOf(n, ws)
    ensures RemoveWords(lead + n + After'(p, q), ws) == lead + n + (if p == "" then "" else " ")
  {
    RemoveAbsentWords(n, ws);
    var tail, tail' := n + After'(p, q), n + (if p == "" then "" else " ");
    PostTail(n, p, q, ws);
    ShapeLeadSpace(lead, n, After'(p, q));
    ShapeLeadSpace(lead, n, if p == "" then "" else " ");
    if lead == " " {
      PostLead(tail, tail', ws);
    }
  }

  lemma ShapeLeadSpace(lead: string, n: string, x: string)
    requires lead == "" || lead == " "
    ensures lead == "" ==> lead + n + x == n + x
    ensures lead == " " ==> lead + n + x == " " + (n + x)
  {
  }

  lemma PostTail(n: string, p: string, q: string, ws: seq<Word>)
    requires AllSpaceless(ws)
    requires q == "" || (OneWord(q) && q in ws)
    requires RemoveWords(n, ws) == n
    ensures RemoveWords(n + After'(p, q), ws) == n + (if p == "" then "" else " ")
  {
    ShapeTail(n, p, q);
    if p != "" {
      if q != "" {
        var k :| 0 <= k < |ws| && ws[k] == q;
        OneWordRemoveWords(q, ws);
      } else {
        assert |RemoveWords(q, ws)| <= 0;
      }
      RemoveWordsSplit(n, q, ws);
    }
  }

  lemma ShapeTail(n: string, p: string, q: string)
    ensures p == "" ==> n + After'(p, q) == n && n + (if p == "" then "" else " ") == n
    ensures p != "" ==> n + After'(p, q) == n + " " + q && n + (if p == "" then "" else " ") == n + " " + ""
  {
  }

  lemma PostLead(tail: string, tail': string, ws: seq<Word>)
    requires AllSpaceless(ws) && RemoveWords(tail, ws) == tail'
    ensures RemoveWords(" " + tail, ws) == " " + tail'
  {
    assert " " + tail == "" + " " + tail;
    RemoveWordsSplit("", tail, ws);
  }

  /** A tidy name padded with at most one space on each side is single-spaced. */
  lemma PaddedSingleSpaced(lead: string, n: string, trail: string)
    requires lead == "" || lead == " "
    requires trail == "" || trail == " "
    requires Tidy(n) && |n| > 0
    ensures SingleSpaced(lead + n + trail)
  {
    var s := lead + n + trail;
    forall i | 0 <= i < |s| && IsSpace(s[i]) ensures s[i] == ' ' && (i + 1 < |s| ==> !IsSpace(s[i + 1])) {
      if |lead| <= i < |lead| + |n| {
        assert s[i] == n[i - |lead|];
        if i + 1 < |lead| + |n| { assert s[i + 1] == n[i + 1 - |lead|]; }
      }
    }
  }

  lemma StripPadded(lead: string, n: string, trail: string)
    requires lead == "" || lead == " "
    requires trail == "" || trail == " "
    requires |n| > 0 && !IsSpace(n[0]) && !IsSpace(n[|n| - 1])
    ensures Strip(lead + n + trail) == n
  {
    assert lead + n + trail == lead + (n + trail);
    LStripPadded(lead, n + trail);
    RStripPadded(n, trail);
  }

  lemma LStripPadded(lead: string, t: string)
    requires lead == "" || lead == " "
    requires |t| > 0 && !IsSpace(t[0])
    ensures LStrip(lead + t) == t
  {
    if lead == " " {
      assert (lead + t)[1..] == t;
    } else {
      assert lead + t == t;
    }
  }

  lemma RStripPadded(n: string, trail: string)
    requires trail == "" || trail == " "
    requires |n| > 0 && !IsSpace(n[|n| - 1])
    ensures RStrip(n + trail) == n
  {
    if trail == " " {
      assert (n + trail)[..|n|] == n;
    } else {
      assert n + trail == n;
    }
  }

  /** Tidying removes the spaces left where the honorifics were. */
  lemma TidiedPadded(lead: string, n: string, trail: string)
    requires lead == "" || lead == " "
    requires trail == "" || trail == " "
    requires Tidy(n) && |n| > 0
    ensures Tidied(lead + n + trail) == n
  {
    PaddedSingleSpaced(lead, n, trail);
    StripPadded(lead, n, trail);
  }

  /** The documented promise: a leading one-word pre-honorific and a trailing
      post-honorific are removed from a tidy name that holds no honorific itself,
      with either or both of them absent. */
  lemma StripsSurroundingHonorifics(h: string, n: string, p: string)
    requires h == "" || (h in PreHonorifics && OneWord(h))
    requires p == "" || p in PostHonorifics
    requires Tidy(n) && |n| > 0 && NoneOf(n, PreHonorifics) && NoneOf(n, PostHonorifics)
    ensures StripHonorifics(Before(h) + n + After(p)) == n
  {
    var pre1, pre2 := PreHonorifics[..15], PreHonorifics[15..];
    HonorificShapes();
    TwoWordShapes();
    assert NoneOf(n, pre1) && NoneOf(n, pre2);
    assert forall j :: 0 <= j < |pre2| ==> TwoWordShape(pre2[j]);
    if h != "" {
      var j :| 0 <= j < |PreHonorifics| && PreHonorifics[j] == h;
      assert j < 15 && pre1[j] == h;
    }
    if p != "" {
      var j :| 0 <= j < |PostHonorifics| && PostHonorifics[j] == p;
      assert OneWord(p) && ShortTail(p);
    }
    assert PreHonorifics == pre1 + pre2;
    StripsWith(h, n, p, pre1, pre2, PostHonorifics);
  }

  /** The same, for any word lists of the shapes the honorific lists have. */
  lemma StripsWith(h: string, n: string, p: string, pre1: seq<Word>, pre2: seq<Word>, post: seq<Word>)
    requires AllSpaceless(pre1) && AllSpaceless(post)
    requires forall j :: 0 <= j < |pre2| ==> TwoWordShape(pre2[j])
    requires h == "" || (h in pre1 && OneWord(h))
    requires p == "" || (p in post && ShortTail(p))
    requires Tidy(n) && |n| > 0 && NoneOf(n, pre1) && NoneOf(n, pre2) && NoneOf(n, post)
    ensures Tidied(RemoveWords(RemoveWords(Before(h) + n + After(p), pre1 + pre2), post)) == n
  {
    var x := Before(h) + n + After(p);
    var lead := Lead(h);
    PreWordsPass(h, n, p, pre1);
    var q := RemoveWords(p, pre1);
    RemoveWordsAppend(x, pre1, pre2);
    TwoWordsPass(lead, n, p, q, pre2);
    PostWordsPass(lead, n, p, q, post);
    TidiedPadded(lead, n, if p == "" then "" else " ");
  }

  /** Stripping a name of that shape a second time changes nothing. */
  lemma StripHonorificsSettles(h: string, n: string, p: string)
    requires h == "" || (h in PreHonorifics && OneWord(h))
    requires p == "" || p in PostHonorifics
    requires Tidy(n) && |n| > 0 && NoneOf(n, PreHonorifics) && NoneOf(n, PostHonorifics)
    ensures StripHonorifics(StripHonorifics(Before(h) + n + After(p))) == StripHonorifics(Before(h) + n + After(p))
  {
    StripsSurroundingHonorifics(h, n, p);
    PlainNameUnchanged(n);
  }

  // ---- Finding a person ----

  /** `person_id_from_name`: a bracketed id wins without any lookup; otherwise the
      name as given is looked up, and only if that fails the name with its honorifics
      stripped. */
  function PersonIdFromName(fullName: string, lookup: string -> Option<int>): (r: Option<int>)
    ensures ExtractPersonId(fullName).Some? ==> r == Some(ExtractPersonId(fullName).value as int)
    ensures r.None? <==>
      ExtractPersonId(fullName).None? && lookup(fullName).None? && lookup(StripHonorifics(fullName)).None?
    ensures ExtractPersonId(fullName).None? && lookup(fullName).Some? ==> r == lookup(fullName)
    ensures r.Some? && ExtractPersonId(fullName).None? && r != lookup(fullName) ==>
      lookup(fullName).None? && r == lookup(StripHonorifics(fullName))
  {
    match ExtractPersonId(fullName)
    case Some(n) => Some(n)
    case None =>
      match lookup(fullName)
      case Some(p) => Some(p)
      case None => lookup(StripHonorifics(fullName))
  }

  /** Whatever the lookup says, "name (id)" resolves to the id. */
  lemma BracketedIdWins(name: string, n: nat, lookup: string -> Option<int>)
    requires Forms.Stripped(name)
    ensures PersonIdFromName(Forms.Bracketed(name, NatToString(n)), lookup) == Some(n)
  {
    ExtractBracketed(name, n);
  }

  /** A name the lookup knows is never stripped: two lookups that agree on it agree
      on the result. */
  lemma KnownNameNotStripped(fullName: string, lookup1: string -> Option<int>, lookup2: string -> Option<int>)
    requires lookup1(fullName).Some? && lookup1(fullName) == lookup2(fullName)
    ensures PersonIdFromName(fullName, lookup1) == PersonIdFromName(fullName, lookup2)
  {
  }
}

=== FILE: people.dfy ===
/** People and memberships (`votes/populate/people.py`): Popolo id parsing, the
    effective party, date resolution, member counts per chamber over time, and the
    two fixes applied to a person's overlapping membership ranges.

    Dates are day numbers, as `date.toordinal()` gives them, so that "one day
    before" is subtraction. */
module People {
  import opened Wrappers
  import opened Text
  import opened Collections
  import Consts

  // ---- int_id ----

  /** `int(s)` on ASCII decimal digits; anything else raises ValueError. */
  function ParseInt(s: string): (r: Result<int, Error>)
    ensures r.Success? <==> |s| > 0 && AllDigits(s)
    ensures r.Success? ==> r.value == DigitsValue(s)
  {
    if |s| > 0 && AllDigits(s) then Success(DigitsValue(s))
    else Failure(ValueError("invalid literal for int() with base 10: " + s))
  }

  /** `int_id`: the last "/"-separated segment of a Popolo id as a number; `None`
      stays `None`. */
  function IntId(value: Option<string>): (r: Option<Result<int, Error>>)
    ensures r.None? <==> value.None?
  {
    match value
    case None => None
    case Some(v) => Some(ParseInt(Last(Split(v, "/"))))
  }

  /** An id made of "/"-free segments followed by a number gives that number back. */
  lemma IntIdOfPath(parts: seq<string>, n: nat)
    requires forall k :: 0 <= k < |parts| ==> '/' !in parts[k]
    ensures IntId(Some(Join(parts + [NatToString(n)], "/"))) == Some(Success(n))
  {
    var ps := parts + [NatToString(n)];
    assert '/' !in NatToString(n);
    assert forall k :: 0 <= k < |ps| ==> '/' !in ps[k] by {
      forall k | 0 <= k < |ps| ensures '/' !in ps[k] {
        if k < |parts| { assert ps[k] == parts[k]; }
      }
    }
    assert "/" == ['/'];
    SplitJoin(ps, '/');
    NatToStringValue(n);
  }

  // ---- get_effective_party ----

  /** `get_effective_party`: Labour Co-operative members count as Labour, and no
      party is the empty slug. */
  function EffectiveParty(slug: Option<string>): (r: string)
    ensures r != "labourco-operative"
    ensures slug.None? ==> r == ""
  {
    match slug
    case None => ""
    case Some(s) => if s == "labourco-operative" then "labour" else s
  }

  /** The effective party is already effective, and only the co-operative slug is
      changed. */
  lemma EffectivePartyStable(slug: Option<string>)
    ensures EffectiveParty(Some(EffectiveParty(slug))) == EffectiveParty(slug)
    ensures slug.Some? && slug.value != "labourco-operative" ==> EffectiveParty(slug) == slug.value
  {
  }

  // ---- resolve_date and minus_one_date ----

  /** `date(9999, 12, 31).toordinal()`, the date used for "no end". */
  const Future: int := 3652059

  /** A Popolo date: absent, exact, or approximate with a latest possible day. */
  datatype SourceDate = Missing | Exact(day: int) | Approx(earliest: int, latest: int)

  /** `resolve_date`.  The source returns the far future for a missing date and
      never reads its `default` argument. */
  function ResolveDate(d: SourceDate, default: int): (r: int)
    ensures d.Missing? ==> r == Future
    ensures d.Approx? ==> r == d.latest
  {
    match d
    case Missing => Future
    case Exact(day) => day
    case Approx(_, latest) => latest
  }

  /** Whatever default is passed, the resolved date is the same. */
  lemma ResolveIgnoresDefault(d: SourceDate, a: int, b: int)
    ensures ResolveDate(d, a) == ResolveDate(d, b)
  {
  }

  /** The values `minus_one_date` compares: a date and a string are never equal in
      Python, and two values of one kind are equal when their contents are. */
  datatype PyValue = PyDate(day: int) | PyText(text: string)

  /** `minus_one_date` as written: it compares the date with the text
      "9999-12-31", so the far future is moved back a day like any other date. */
  function MinusOneDateAsWritten(d: int): (r: int)
    ensures r == d - 1
  {
    if PyDate(d) == PyText("9999-12-31") then d else d - 1
  }

  /** `minus_one_date` as its comment intends: the day before for every date but
      the far future, which is left alone; it never moves a date later. */
  function MinusOneDate(d: int): (r: int)
    ensures r <= d
    ensures r == d <==> d == Future
    ensures d != Future ==> r + 1 == d
  {
    if d == Future then d else d - 1
  }

  /** The as-written version moves the far future too, unlike the intended rule. */
  lemma AsWrittenMovesFuture()
    ensures MinusOneDateAsWritten(Future) != MinusOneDate(Future)
  {
  }

  /** Which reading of `minus_one_date` the range computation uses. */
  datatype Reading = AsWritten | Corrected

  function DayBefore(reading: Reading, d: int): int {
    match reading
    case AsWritten => MinusOneDateAsWritten(d)
    case Corrected => MinusOneDate(d)
  }

  // ---- post_org_or_self_org ----

  /** `post_org_or_self_org`: the organisation of the membership's post when it has
      one, else the membership's own organisation; ValueError when that is missing.
      `post` is `None` for no post, and `Some(org)` for a post and its organisation. */
  function PostOrgOrSelfOrg(post: Option<Option<string>>, own: Option<string>): (r: Result<string, Error>)
    ensures post.Some? ==> (r.Success? <==> post.value.Some?)
    ensures post.Some? && r.Success? ==> r.value == post.value.value
    ensures post.None? ==> (r.Success? <==> own.Some?) && (r.Success? ==> r.value == own.value)
  {
    var org := if post.Some? then post.value else own;
    match org
    case None => Failure(ValueError("No organization for membership"))
    case Some(o) => Success(o)
  }

  // ---- membership_on_date ----

  /** A Popolo membership, as far as the count needs it. */
  datatype PopoloMembership = PopoloMembership(
    post: Option<Option<string>>, organization: Option<string>, startDate: SourceDate, endDate: SourceDate)

  /** One row of the membership frame. */
  datatype Row = Row(chamber: string, start: int, end: int)

  /** The membership frame, or the error of the first membership without an
      organisation. */
  function MembershipRows(ms: seq<PopoloMembership>): (r: Result<seq<Row>, Error>)
    ensures r.Success? ==> |r.value| == |ms|
    ensures r.Success? ==> forall i :: 0 <= i < |ms| ==>
      r.value[i].start == ResolveDate(ms[i].startDate, 0) && r.value[i].end == ResolveDate(ms[i].endDate, Future)
    decreases |ms|
  {
    if |ms| == 0 then Success([])
    else
      var m := ms[0];
      var org :- PostOrgOrSelfOrg(m.post, m.organization);
      var chamber := Consts.FromParlparse(org, true).value;
      var rest :- MembershipRows(ms[1..]);
      Success([Row(chamber, ResolveDate(m.startDate, 0), ResolveDate(m.endDate, Future))] + rest)
  }

  /** A join (+1) or a leave (-1) on a day. */
  datatype Event = Event(date: int, delta: int)

  const DateKey: Event -> int := (e: Event) => e.date

  /** The join events of a chamber's rows, in row order. */
  function StartEvents(rows: seq<Row>, c: string): seq<Event>
    decreases |rows|
  {
    if |rows| == 0 then []
    else (if rows[0].chamber == c then [Event(rows[0].start, 1)] else []) + StartEvents(rows[1..], c)
  }

  /** The leave events of a chamber's rows, in row order. */
  function EndEvents(rows: seq<Row>, c: string): seq<Event>
    decreases |rows|
  {
    if |rows| == 0 then []
    else (if rows[0].chamber == c then [Event(rows[0].end, -1)] else []) + EndEvents(rows[1..], c)
  }

  /** `pd.melt` of the start and end columns for one chamber: joins, then leaves. */
  function ChamberEvents(rows: seq<Row>, c: string): seq<Event> {
    StartEvents(rows, c) + EndEvents(rows, c)
  }

  /** The sum of the events on or before day `d`. */
  function SumUpTo(es: seq<Event>, d: int): int
    decreases |es|
  {
    if |es| == 0 then 0
    else (if es[0].date <= d then es[0].delta else 0) + SumUpTo(es[1..], d)
  }

  /** The sum of all the events: the last value of their `cumsum`. */
  function Total(es: seq<Event>): int
    decreases |es|
  {
    if |es| == 0 then 0 else es[0].delta + Total(es[1..])
  }

  /** The number of a chamber's memberships that start on or before `d`. */
  function StartedBy(rows: seq<Row>, c: string, d: int): nat
    decreases |rows|
  {
    if |rows| == 0 then 0
    else (if rows[0].chamber == c && rows[0].start <= d then 1 else 0) + StartedBy(rows[1..], c, d)
  }

  /** The number of a chamber's memberships that end on or before `d`. */
  function EndedBy(rows: seq<Row>, c: string, d: int): nat
    decreases |rows|
  {
    if |rows| == 0 then 0
    else (if rows[0].chamber == c && rows[0].end <= d then 1 else 0) + EndedBy(rows[1..], c, d)
  }

  lemma {:induction false} SumUpToConcat(a: seq<Event>, b: seq<Event>, d: int)
    ensures SumUpTo(a + b, d) == SumUpTo(a, d) + SumUpTo(b, d)
    decreases |a|
  {
    if |a| > 0 {
      SumUpToConcat(a[1..], b, d);
      assert (a + b)[0] == a[0];
      assert (a + b)[1..] == a[1..] + b;
    } else {
      assert a + b == b;
    }
  }

  lemma {:induction false} StartEventsSum(rows: seq<Row>, c: string, d: int)
    ensures SumUpTo(StartEvents(rows, c), d) == StartedBy(rows, c, d)
    decreases |rows|
  {
    if |rows| > 0 {
      StartEventsSum(rows[1..], c, d);
      var head := if rows[0].chamber == c then [Event(rows[0].start, 1)] else [];
      SumUpToConcat(head, StartEvents(rows[1..], c), d);
    }
  }

  lemma {:induction false} EndEventsSum(rows: seq<Row>, c: string, d: int)
    ensures SumUpTo(EndEvents(rows, c), d) == -(EndedBy(rows, c, d) as int)
    decreases |rows|
  {
    if |rows| > 0 {
      EndEventsSum(rows[1..], c, d);
      var head := if rows[0].chamber == c then [Event(rows[0].end, -1)] else [];
      SumUpToConcat(head, EndEvents(rows[1..], c), d);
    }
  }

  /** The running count on day `d` is the number of memberships begun by then less
      the number ended by then. */
  lemma ChamberEventsCount(rows: seq<Row>, c: string, d: int)
    ensures SumUpTo(ChamberEvents(rows, c), d) == StartedBy(rows, c, d) - EndedBy(rows, c, d)
  {
    SumUpToConcat(StartEvents(rows, c), EndEvents(rows, c), d);
    StartEventsSum(rows, c, d);
    EndEventsSum(rows, c, d);
  }

  /** Inserting an event in date order does not change any running count. */
  lemma {:induction false} InsertKeepsSums(e: Event, es: seq<Event>, d: int)
    requires SortedBy(es, DateKey)
    ensures SumUpTo(InsertBy(e, es, DateKey), d) == SumUpTo([e] + es, d)
    decreases |es|
  {
    if |es| > 0 && DateKey(e) > DateKey(es[0]) {
      InsertKeepsSums(e, es[1..], d);
      assert ([e] + es)[1..] == es;
      assert ([e] + es[1..])[1..] == es[1..];
    }
  }

  /** Sorting events by date does not change any running count, whatever order
      equal dates end up in. */
  lemma {:induction false} SortKeepsSums(es: seq<Event>, d: int)
    ensures SumUpTo(SortBy(es, DateKey), d) == SumUpTo(es, d)
    decreases |es|
  {
    if |es| > 0 {
      SortKeepsSums(es[1..], d);
      InsertKeepsSums(es[0], SortBy(es[1..], DateKey), d);
      assert ([es[0]] + SortBy(es[1..], DateKey))[1..] == SortBy(es[1..], DateKey);
    }
  }

  lemma {:induction false} SumUpToAllBefore(es: seq<Event>, d: int)
    requires forall i :: 0 <= i < |es| ==> es[i].date <= d
    ensures SumUpTo(es, d) == Total(es)
    decreases |es|
  {
    if |es| > 0 { SumUpToAllBefore(es[1..], d); }
  }

  lemma {:induction false} SumUpToAllAfter(es: seq<Event>, d: int)
    requires forall i :: 0 <= i < |es| ==> es[i].date > d
    ensures SumUpTo(es, d) == 0
    decreases |es|
  {
    if |es| > 0 { SumUpToAllAfter(es[1..], d); }
  }

  lemma {:induction false} TotalSnoc(es: seq<Event>, e: Event)
    ensures Total(es + [e]) == Total(es) + e.delta
    decreases |es|
  {
    if |es| > 0 {
      TotalSnoc(es[1..], e);
      assert (es + [e])[1..] == es[1..] + [e];
    }
  }

  /** In date order, the cumulative sum at the last event of a day is the running
      count for that day. */
  lemma PrefixIsSumUpTo(es: seq<Event>, i: int)
    requires SortedBy(es, DateKey) && 0 <= i < |es|
    requires i + 1 == |es| || es[i + 1].date != es[i].date
    ensures Total(es[..i + 1]) == SumUpTo(es, es[i].date)
  {
    var d := es[i].date;
    var pre, post := es[..i + 1], es[i + 1..];
    assert es == pre + post;
    SumUpToConcat(pre, post, d);
    forall j | 0 <= j < |pre| ensures pre[j].date <= d {
      assert DateKey(es[j]) <= DateKey(es[i]) || j == i;
    }
    SumUpToAllBefore(pre, d);
    forall j | 0 <= j < |post| ensures post[j].date > d {
      assert DateKey(es[i]) <= DateKey(es[i + 1]) <= DateKey(es[i + 1 + j]);
    }
    SumUpToAllAfter(post, d);
  }

  /** A row of the result: from `start` to `end` the chamber has `count` members. */
  datatype Range = Range(start: int, end: int, count: int)

  function DatesOf(es: seq<Event>): (r: seq<int>)
    ensures |r| == |es| && forall i :: 0 <= i < |es| ==> r[i] == es[i].date
  {
    seq(|es|, i requires 0 <= i < |es| => es[i].date)
  }

  function StartsOf(rs: seq<Range>): (r: seq<int>)
    ensures |r| == |rs| && forall k :: 0 <= k < |rs| ==> r[k] == rs[k].start
  {
    seq(|rs|, k requires 0 <= k < |rs| => rs[k].start)
  }

  /** The ranges of a list of start days and their counts: each ends the day before
      the next one starts, the last one the day before the far future. */
  function BuildRanges(starts: seq<int>, counts: seq<int>, reading: Reading): (r: seq<Range>)
    requires |starts| == |counts|
    ensures |r| == |starts|
    ensures forall k :: 0 <= k < |r| ==> r[k].start == starts[k] && r[k].count == counts[k]
    ensures forall k :: 0 <= k < |r| - 1 ==> r[k].end == DayBefore(reading, r[k + 1].start)
    ensures |r| > 0 ==> r[|r| - 1].end == DayBefore(reading, Future)
  {
    var r := seq(|starts|, k requires 0 <= k < |starts| =>
      Range(starts[k], DayBefore(reading, if k + 1 < |starts| then starts[k + 1] else Future), counts[k]));
    assert forall k :: 0 <= k < |r| - 1 ==> r[k].end == DayBefore(reading, r[k + 1].start) by {
      forall k | 0 <= k < |r| - 1 ensures r[k].end == DayBefore(reading, r[k + 1].start) {
        assert r[k + 1].start == starts[k + 1];
      }
    }
    r
  }

  /** What scanning the first `i` events in date order has produced: the days
      seen so far whose last event has been passed, increasing, each with its
      running count. */
  ghost predicate Scanned(es: seq<Event>, i: int, starts: seq<int>, counts: seq<int>) {
    0 <= i <= |es| && |starts| == |counts|
    && (forall k :: 0 <= k < |starts| ==> counts[k] == SumUpTo(es, starts[k]))
    && (forall k, l :: 0 <= k < l < |starts| ==> starts[k] < starts[l])
    && (i < |es| && |starts| > 0 ==> starts[|starts| - 1] < es[i].date)
    && (forall j :: 0 <= j < i ==> es[j].date in starts || (i < |es| && es[j].date == es[i].date))
    && (forall k :: 0 <= k < |starts| ==> starts[k] in DatesOf(es))
  }

  /** The last event of a day: that day joins the scan with its running count. */
  lemma ScanRecord(es: seq<Event>, i: int, starts: seq<int>, counts: seq<int>)
    requires SortedBy(es, DateKey) && Scanned(es, i, starts, counts) && i < |es|
    requires i + 1 == |es| || es[i + 1].date != es[i].date
    ensures Scanned(es, i + 1, starts + [es[i].date], counts + [Total(es[..i + 1])])
  {
    RecordCounts(es, i, starts, counts);
    RecordDays(es, i, starts, counts);
  }

  /** The recorded day has its running count and comes after every day before it
      and before the next event's. */
  lemma RecordCounts(es: seq<Event>, i: int, starts: seq<int>, counts: seq<int>)
    requires SortedBy(es, DateKey) && Scanned(es, i, starts, counts) && i < |es|
    requires i + 1 == |es| || es[i + 1].date != es[i].date
    ensures var starts', counts' := starts + [es[i].date], counts + [Total(es[..i + 1])];
      (forall k :: 0 <= k < |starts'| ==> counts'[k] == SumUpTo(es, starts'[k]))
      && (forall k, l :: 0 <= k < l < |starts'| ==> starts'[k] < starts'[l])
      && (i + 1 < |es| ==> starts'[|starts'| - 1] < es[i + 1].date)
  {
    var d := es[i].date;
    var starts', counts' := starts + [d], counts + [Total(es[..i + 1])];
    PrefixIsSumUpTo(es, i);
    forall k | 0 <= k < |starts'| ensures counts'[k] == SumUpTo(es, starts'[k]) {
      if k < |starts| {
        assert counts'[k] == counts[k] && starts'[k] == starts[k];
      }
    }
    forall k, l | 0 <= k < l < |starts'| ensures starts'[k] < starts'[l] {
      if l < |starts| {
        assert starts'[k] == starts[k] && starts'[l] == starts[l];
      } else {
        assert starts'[k] == starts[k] && starts'[l] == d;
      }
    }
    if i + 1 < |es| {
      assert DateKey(es[i]) <= DateKey(es[i + 1]);
    }
  }

  /** After the last event of a day every day passed is recorded, and every
      recorded day is the day of some event. */
  lemma RecordDays(es: seq<Event>, i: int, starts: seq<int>, counts: seq<int>)
    requires Scanned(es, i, starts, counts) && i < |es|
    requires i + 1 == |es| || es[i + 1].date != es[i].date
    ensures var starts' := starts + [es[i].date];
      (forall j :: 0 <= j < i + 1 ==> es[j].date in starts')
      && (forall k :: 0 <= k < |starts'| ==> starts'[k] in DatesOf(es))
  {
    var d := es[i].date;
    var starts' := starts + [d];
    forall j | 0 <= j < i + 1 ensures es[j].date in starts' {
      if j < i {
        assert es[j].date in starts || es[j].date == d;
      }
    }
    forall k | 0 <= k < |starts'| ensures starts'[k] in DatesOf(es) {
      if k < |starts| {
        assert starts'[k] == starts[k];
      } else {
        assert DatesOf(es)[i] == d;
      }
    }
  }

  /** An event followed by another of the same day: nothing is recorded yet. */
  lemma ScanSkip(es: seq<Event>, i: int, starts: seq<int>, counts: seq<int>)
    requires SortedBy(es, DateKey) && Scanned(es, i, starts, counts)
    requires i + 1 < |es| && es[i + 1].date == es[i].date
    ensures Scanned(es, i + 1, starts, counts)
  {
    forall j | 0 <= j < i + 1 ensures es[j].date in starts || es[j].date == es[i + 1].date {
    }
  }

  /** `get_range_counts` on one chamber's events in date order: the cumulative
      sum, the last value kept for each date, and each range ended the day before
      the next one starts (the last one the day before the far future). */
  method RangeCounts(es: seq<Event>, reading: Reading) returns (ranges: seq<Range>)
    requires SortedBy(es, DateKey)
    ensures forall k :: 0 <= k < |ranges| ==> ranges[k].count == SumUpTo(es, ranges[k].start)
    ensures forall k, l :: 0 <= k < l < |ranges| ==> ranges[k].start < ranges[l].start
    ensures forall k :: 0 <= k < |ranges| - 1 ==> ranges[k].end == DayBefore(reading, ranges[k + 1].start)
    ensures |ranges| > 0 ==> ranges[|ranges| - 1].end == DayBefore(reading, Future)
    ensures forall i :: 0 <= i < |es| ==> es[i].date in StartsOf(ranges)
    ensures forall k :: 0 <= k < |ranges| ==> ranges[k].start in DatesOf(es)
  {
    var starts: seq<int> := [];
    var counts: seq<int> := [];
    var acc := 0;
    var i := 0;
    while i < |es|
      invariant 0 <= i <= |es| && (starts, counts) == ScanUpTo(es, i)
      invariant acc == Total(es[..i])
    {
      TotalStep(es, i);
      acc := acc + es[i].delta;
      if i + 1 == |es| || es[i + 1].date != es[i].date {
        starts := starts + [es[i].date];
        counts := counts + [acc];
      }
      i := i + 1;
    }
    ScanUpToScanned(es, |es|);
    ranges := BuildRanges(starts, counts, reading);
    RangesOfScan(es, starts, counts, reading);
  }

  /** The days recorded, with their running counts, after the first `i` events:
      a day is recorded at its last event. */
  function ScanUpTo(es: seq<Event>, i: nat): (seq<int>, seq<int>)
    requires i <= |es|
  {
    if i == 0 then ([], [])
    else
      var (starts, counts) := ScanUpTo(es, i - 1);
      if i == |es| || es[i].date != es[i - 1].date then (starts + [es[i - 1].date], counts + [Total(es[..i])])
      else (starts, counts)
  }

  /** Scanning any prefix of the events in date order keeps the days seen in
      increasing order, each with its running count. */
  lemma {:induction false} ScanUpToScanned(es: seq<Event>, i: nat)
    requires SortedBy(es, DateKey) && i <= |es|
    ensures Scanned(es, i, ScanUpTo(es, i).0, ScanUpTo(es, i).1)
  {
    if i > 0 {
      ScanUpToScanned(es, i - 1);
      var (starts, counts) := ScanUpTo(es, i - 1);
      if i == |es| || es[i].date != es[i - 1].date {
        ScanRecord(es, i - 1, starts, counts);
      } else {
        ScanSkip(es, i - 1, starts, counts);
      }
    }
  }

  /** The running total grows by one event. */
  lemma TotalStep(es: seq<Event>, i: int)
    requires 0 <= i < |es|
    ensures Total(es[..i + 1]) == Total(es[..i]) + es[i].delta
  {
    assert es[..i + 1] == es[..i] + [es[i]];
    TotalSnoc(es[..i], es[i]);
  }

  /** A finished scan gives ranges with every event's day among their starts. */
  lemma RangesOfScan(es: seq<Event>, starts: seq<int>, counts: seq<int>, reading: Reading)
    requires Scanned(es, |es|, starts, counts)
    ensures var ranges := BuildRanges(starts, counts, reading);
      (forall k :: 0 <= k < |ranges| ==> ranges[k].count == SumUpTo(es, ranges[k].start))
      && (forall k, l :: 0 <= k < l < |ranges| ==> ranges[k].start < ranges[l].start)
      && (forall i :: 0 <= i < |es| ==> es[i].date in StartsOf(ranges))
      && (forall k :: 0 <= k < |ranges| ==> ranges[k].start in DatesOf(es))
  {
    assert StartsOf(BuildRanges(starts, counts, reading)) == starts;
  }

  /** The chamber slugs in the sorted order `groupby` visits them. */
  const ChamberOrder: seq<string> := ["commons", "lords", "ni", "other", "scotland", "senedd"]

  /** Every slug of the order is a chamber slug, and every chamber slug is in it. */
  lemma ChamberOrderComplete(c: Consts.ChamberSlug)
    ensures Consts.ChamberValue(c) in ChamberOrder
    ensures forall k :: 0 <= k < |ChamberOrder| ==> Consts.ChamberFromValue(ChamberOrder[k]).Some?
  {
  }

  /** Whether some row of the frame is in chamber `c`. */
  predicate Occurs(rows: seq<Row>, c: string) {
    exists i :: 0 <= i < |rows| && rows[i].chamber == c
  }

  /** The chambers of `order` that occur in the frame, in that order. */
  function PresentChambers(rows: seq<Row>, order: seq<string>): (r: seq<string>)
    ensures forall c :: c in r <==> c in order && Occurs(rows, c)
    decreases |order|
  {
    if |order| == 0 then []
    else
      var rest := PresentChambers(rows, order[1..]);
      assert forall c :: c in order <==> c == order[0] || c in order[1..];
      (if Occurs(rows, order[0]) then [order[0]] else []) + rest
  }

  /** One chamber's block of the final frame. */
  datatype ChamberRanges = ChamberRanges(chamber: string, ranges: seq<Range>)

  /** Every range of the block counts the chamber's memberships begun and not yet
      ended on its first day. */
  predicate CountsMembers(rows: seq<Row>, blk: ChamberRanges) {
    forall k :: 0 <= k < |blk.ranges| ==>
      blk.ranges[k].count == StartedBy(rows, blk.chamber, blk.ranges[k].start) - EndedBy(rows, blk.chamber, blk.ranges[k].start)
  }

  /** One chamber's ranges: its events sorted by date and counted. A range starts
      on each day some membership of the chamber begins or ends, and on no other
      day; the ranges follow each other without gap or overlap. */
  method ChamberBlock(rows: seq<Row>, c: string, reading: Reading) returns (blk: ChamberRanges)
    ensures blk.chamber == c && CountsMembers(rows, blk)
    ensures forall e :: e in ChamberEvents(rows, c) ==> e.date in StartsOf(blk.ranges)
    ensures forall k :: 0 <= k < |blk.ranges| ==> blk.ranges[k].start in DatesOf(ChamberEvents(rows, c))
    ensures forall k, l :: 0 <= k < l < |blk.ranges| ==> blk.ranges[k].start < blk.ranges[l].start
    ensures forall k :: 0 <= k < |blk.ranges| - 1 ==> blk.ranges[k].end == DayBefore(reading, blk.ranges[k + 1].start)
    ensures |blk.ranges| > 0 ==> blk.ranges[|blk.ranges| - 1].end == DayBefore(reading, Future)
  {
    var events := ChamberEvents(rows, c);
    var sorted := SortBy(events, DateKey);
    var ranges := RangeCounts(sorted, reading);
    SortedCounts(rows, c, ranges);
    SortedDays(events, sorted, StartsOf(ranges));
    blk := ChamberRanges(c, ranges);
  }

  /** Counting the sorted events of a chamber up to a range's first day counts the
      memberships begun and not yet ended on it. */
  lemma SortedCounts(rows: seq<Row>, c: string, ranges: seq<Range>)
    requires forall k :: 0 <= k < |ranges| ==>
      ranges[k].count == SumUpTo(SortBy(ChamberEvents(rows, c), DateKey), ranges[k].start)
    ensures forall k :: 0 <= k < |ranges| ==>
      ranges[k].count == StartedBy(rows, c, ranges[k].start) - EndedBy(rows, c, ranges[k].start)
  {
    forall k | 0 <= k < |ranges|
      ensures ranges[k].count == StartedBy(rows, c, ranges[k].start) - EndedBy(rows, c, ranges[k].start)
    {
      SortKeepsSums(ChamberEvents(rows, c), ranges[k].start);
      ChamberEventsCount(rows, c, ranges[k].start);
    }
  }

  /** Sorting the events keeps their days: days covering the sorted events cover
      the events, and days taken from the sorted events are the events' days. */
  lemma SortedDays(events: seq<Event>, sorted: seq<Event>, days: seq<int>)
    requires multiset(sorted) == multiset(events)
    requires forall i :: 0 <= i < |sorted| ==> sorted[i].date in days
    requires forall k :: 0 <= k < |days| ==> days[k] in DatesOf(sorted)
    ensures forall e :: e in events ==> e.date in days
    ensures forall k :: 0 <= k < |days| ==> days[k] in DatesOf(events)
  {
    forall e | e in events ensures e.date in days {
      assert e in multiset(sorted) by {
        assert e in multiset(events);
      }
      var i :| 0 <= i < |sorted| && sorted[i] == e;
    }
    forall k | 0 <= k < |days| ensures days[k] in DatesOf(events) {
      var i :| 0 <= i < |sorted| && DatesOf(sorted)[i] == days[k];
      assert sorted[i] in multiset(events) by {
        assert sorted[i] in multiset(sorted);
      }
      var j :| 0 <= j < |events| && events[j] == sorted[i];
      assert DatesOf(events)[j] == days[k];
    }
  }

  /** One block per chamber of `cs`, in that order. */
  method ChamberBlocks(rows: seq<Row>, cs: seq<string>, reading: Reading) returns (blocks: seq<ChamberRanges>)
    ensures |blocks| == |cs|
    ensures forall x :: 0 <= x < |cs| ==> blocks[x].chamber == cs[x] && CountsMembers(rows, blocks[x])
    ensures forall x, e :: 0 <= x < |cs| && e in ChamberEvents(rows, cs[x]) ==> e.date in StartsOf(blocks[x].ranges)
  {
    blocks := [];
    var b := 0;
    while b < |cs|
      invariant 0 <= b <= |cs| && |blocks| == b
      invariant forall x :: 0 <= x < b ==> blocks[x].chamber == cs[x] && CountsMembers(rows, blocks[x])
      invariant forall x, e :: 0 <= x < b && e in ChamberEvents(rows, cs[x]) ==> e.date in StartsOf(blocks[x].ranges)
    {
      var blk := ChamberBlock(rows, cs[b], reading);
      blocks := blocks + [blk];
      b := b + 1;
    }
  }

  /** `membership_on_date` after the frame is built: one block of ranges per known
      chamber present, in `groupby` order. A frame of no rows has no columns, so
      `pd.melt` raises KeyError; `pd.concat` of no block raises ValueError. */
  method MembershipOnDate(rows: seq<Row>, reading: Reading) returns (r: Result<seq<ChamberRanges>, Error>)
    ensures |rows| == 0 ==> r.Failure? && r.error.KeyError?
    ensures |rows| > 0 ==> (r.Failure? <==> forall i :: 0 <= i < |rows| ==> rows[i].chamber !in ChamberOrder)
    ensures |rows| > 0 && r.Failure? ==> r.error.ValueError?
    ensures r.Success? ==> forall b :: 0 <= b < |r.value| ==>
      r.value[b].chamber in ChamberOrder && Occurs(rows, r.value[b].chamber)
    // every known chamber present gets its own block, in order
    ensures r.Success? ==> (|r.value| == |PresentChambers(rows, ChamberOrder)|
      && forall b :: 0 <= b < |r.value| ==> r.value[b].chamber == PresentChambers(rows, ChamberOrder)[b])
    ensures r.Success? ==> forall b :: 0 <= b < |r.value| ==> CountsMembers(rows, r.value[b])
    ensures r.Success? ==> forall b, e :: 0 <= b < |r.value| && e in ChamberEvents(rows, r.value[b].chamber) ==>
      e.date in StartsOf(r.value[b].ranges)
  {
    if |rows| == 0 {
      return Failure(KeyError("chamber"));
    }
    var cs := PresentChambers(rows, ChamberOrder);
    if |cs| == 0 {
      forall i | 0 <= i < |rows| ensures rows[i].chamber !in ChamberOrder {
        assert Occurs(rows, rows[i].chamber);
      }
      return Failure(ValueError("No objects to concatenate"));
    }
    var blocks := ChamberBlocks(rows, cs, reading);
    forall x | 0 <= x < |blocks| ensures blocks[x].chamber in ChamberOrder && Occurs(rows, blocks[x].chamber) {
      assert blocks[x].chamber in cs;
    }
    r := Success(blocks);
  }

  /** On the last range of a block, the far-future end: moved back a day as
      written, kept as the far future when corrected. */
  lemma LastRangeEnd(reading: Reading)
    ensures DayBefore(AsWritten, Future) == Future - 1
    ensures DayBefore(Corrected, Future) == Future
  {
  }

  // ---- adjust_overlapping_time_ranges ----

  /** A person's membership of an organisation, from `start` to `end` inclusive. */
  datatype Membership = Membership(org: string, start: int, end: int)

  const StartKey: Membership -> int := (m: Membership) => m.start

  /** Whether the fix of `adjust_overlapping_time_ranges` applies at `i`: the
      membership ends on the day the next one starts, in the same organisation. */
  predicate Touching(s: seq<Membership>, i: int)
    requires 0 <= i
  {
    i + 1 < |s| && s[i].end == s[i + 1].start && s[i].org == s[i + 1].org
  }

  /** `adjust_overlapping_time_ranges` for one person: the memberships in start
      order, each one that ends on the day the next one of the same organisation
      starts ended a day earlier. */
  function AdjustOverlapping(ms: seq<Membership>): (r: seq<Membership>)
    ensures |r| == |ms|
    ensures SortedBy(r, StartKey)
  {
    var s := SortBy(ms, StartKey);
    var r := seq(|s|, i requires 0 <= i < |s| => if Touching(s, i) then s[i].(end := s[i].end - 1) else s[i]);
    assert forall i :: 0 <= i < |s| ==> r[i].start == s[i].start;
    r
  }

  /** After the fix no membership ends on the day the next one of its organisation
      starts; only touching ends moved, by exactly one day, and nothing else about
      the sorted memberships changed. */
  lemma AdjustOverlappingSpec(ms: seq<Membership>)
    ensures forall i :: 0 <= i < |ms| - 1 && AdjustOverlapping(ms)[i].org == AdjustOverlapping(ms)[i + 1].org ==>
      AdjustOverlapping(ms)[i].end != AdjustOverlapping(ms)[i + 1].start
    ensures forall i :: 0 <= i < |ms| ==>
      var s := SortBy(ms, StartKey);
      AdjustOverlapping(ms)[i] == (if Touching(s, i) then s[i].(end := s[i].end - 1) else s[i])
    ensures multiset(SortBy(ms, StartKey)) == multiset(ms)
  {
  }

  // ---- adjust_very_overlapping_time_ranges ----

  /** Whether the fix of `adjust_very_overlapping_time_ranges` applies at `i` of a
      group of one organisation in start order: the membership runs into the next
      one, and ending it the day before the next starts would not end it before it
      starts. */
  predicate Overruns(g: seq<Membership>, i: int)
    requires 0 <= i
  {
    i + 1 < |g| && g[i].end >= g[i + 1].start && !(g[i + 1].start - 1 < g[i].start)
  }

  /** One organisation's memberships in start order, each overrunning one ended the
      day before the next starts. */
  function AdjustVeryGroup(g: seq<Membership>): (r: seq<Membership>)
    ensures |r| == |g|
    ensures forall i :: 0 <= i < |g| ==> r[i].org == g[i].org && r[i].start == g[i].start
    ensures forall i :: 0 <= i < |g| ==> r[i].end <= g[i].end
    // a membership is kept, or ends the day before the next one starts
    ensures forall i :: 0 <= i < |g| ==> r[i] == g[i] || (i + 1 < |g| && r[i] == g[i].(end := g[i + 1].start - 1))
  {
    seq(|g|, i requires 0 <= i < |g| => if Overruns(g, i) then g[i].(end := g[i + 1].start - 1) else g[i])
  }

  /** In a group in start order, after the fix a membership ends before the next
      starts unless both start on the same day; a range that was well formed stays
      well formed. */
  lemma AdjustVeryGroupSpec(g: seq<Membership>)
    requires SortedBy(g, StartKey)
    ensures forall i :: 0 <= i < |g| - 1 ==>
      AdjustVeryGroup(g)[i].end < AdjustVeryGroup(g)[i + 1].start
      || AdjustVeryGroup(g)[i].start == AdjustVeryGroup(g)[i + 1].start
      || g[i].end < g[i + 1].start
    ensures forall i :: 0 <= i < |g| && g[i].start <= g[i].end ==>
      AdjustVeryGroup(g)[i].start <= AdjustVeryGroup(g)[i].end
    // an overrunning membership ends the day before the next starts; any other keeps its end
    ensures forall i :: 0 <= i < |g| ==>
      (Overruns(g, i) ==> AdjustVeryGroup(g)[i].end == g[i + 1].start - 1)
      && (!Overruns(g, i) ==> AdjustVeryGroup(g)[i] == g[i])
  {
    forall i | 0 <= i < |g| - 1
      ensures AdjustVeryGroup(g)[i].end < AdjustVeryGroup(g)[i + 1].start
        || AdjustVeryGroup(g)[i].start == AdjustVeryGroup(g)[i + 1].start
        || g[i].end < g[i + 1].start
    {
      assert StartKey(g[i]) <= StartKey(g[i + 1]);
    }
  }

  /** The memberships of one organisation, in their original order. */
  function OfOrg(ms: seq<Membership>, o: string): (r: seq<Membership>)
    ensures forall i :: 0 <= i < |r| ==> r[i].org == o && r[i] in ms
    ensures forall m :: m in ms && m.org == o ==> m in r
    decreases |ms|
  {
    if |ms| == 0 then []
    else (if ms[0].org == o then [ms[0]] else []) + OfOrg(ms[1..], o)
  }

  /** The distinct organisations of the memberships, first occurrences kept. */
  function Orgs(ms: seq<Membership>): (r: seq<string>)
    ensures forall o :: o in r <==> exists i :: 0 <= i < |ms| && ms[i].org == o
    ensures NoDuplicates(r)
    decreases |ms|
  {
    if |ms| == 0 then []
    else
      var rest := Orgs(ms[1..]);
      assert forall i :: 1 <= i < |ms| ==> ms[i] == ms[1..][i - 1];
      if ms[0].org in rest then rest
      else
        assert forall i :: 0 <= i < |rest| ==> rest[i] != ms[0].org;
        [ms[0].org] + rest
  }

  /** `adjust_very_overlapping_time_ranges` for one person: the memberships grouped
      by organisation in sorted order (`groupby` after a sort on the organisation),
      each group in start order and fixed. There is one group per organisation,
      holding only that organisation's memberships. */
  function AdjustVeryOverlapping(ms: seq<Membership>): (r: seq<seq<Membership>>)
    ensures |r| == |Orgs(ms)|
    ensures forall k :: 0 <= k < |r| ==> SortedBy(r[k], StartKey)
    ensures forall k, i :: 0 <= k < |r| && 0 <= i < |r[k]| ==> r[k][i].org == SortStrings(Orgs(ms))[k]
    // each group holds all of its organisation's memberships, with their start days
    ensures forall k :: 0 <= k < |r| ==> (|r[k]| == |OfOrg(ms, SortStrings(Orgs(ms))[k])|
      && multiset(MapSeq(r[k], StartKey)) == multiset(MapSeq(OfOrg(ms, SortStrings(Orgs(ms))[k]), StartKey)))
  {
    var orgs := SortStrings(Orgs(ms));
    assert |orgs| == |multiset(orgs)| == |multiset(Orgs(ms))| == |Orgs(ms)|;
    seq(|orgs|, k requires 0 <= k < |orgs| => OrgGroup(ms, orgs[k]))
  }

  /** The fixed group of one organisation: its memberships in start order, all of
      that organisation. */
  function OrgGroup(ms: seq<Membership>, o: string): (r: seq<Membership>)
    ensures SortedBy(r, StartKey)
    ensures forall i :: 0 <= i < |r| ==> r[i].org == o
    ensures |r| == |OfOrg(ms, o)|
    ensures multiset(MapSeq(r, StartKey)) == multiset(MapSeq(OfOrg(ms, o), StartKey))
    // each entry is one of the organisation's memberships, its end kept or moved earlier
    ensures forall i :: 0 <= i < |r| ==> exists m :: m in OfOrg(ms, o) && r[i] == m.(end := r[i].end) && r[i].end <= m.end
  {
    var g := SortBy(OfOrg(ms, o), StartKey);
    OrgGroupParts(OfOrg(ms, o), o, g);
    AdjustVeryGroup(g)
  }

  /** The fix of `f` in start order stays in start order and in `f`'s organisation,
      keeps `f`'s start days, and each entry comes from a membership of `f`. */
  lemma OrgGroupParts(f: seq<Membership>, o: string, g: seq<Membership>)
    requires forall i :: 0 <= i < |f| ==> f[i].org == o
    requires multiset(g) == multiset(f) && SortedBy(g, StartKey)
    ensures SortedBy(AdjustVeryGroup(g), StartKey)
    ensures forall i :: 0 <= i < |g| ==> AdjustVeryGroup(g)[i].org == o
    ensures |g| == |f|
    ensures multiset(MapSeq(AdjustVeryGroup(g), StartKey)) == multiset(MapSeq(f, StartKey))
    ensures forall i :: 0 <= i < |g| ==>
      exists m :: m in f && AdjustVeryGroup(g)[i] == m.(end := AdjustVeryGroup(g)[i].end) && AdjustVeryGroup(g)[i].end <= m.end
  {
    var r := AdjustVeryGroup(g);
    SortedOfOrg(f, o, g);
    AdjustVeryGroupSorted(g);
    assert |g| == |multiset(g)| == |multiset(f)| == |f|;
    assert MapSeq(r, StartKey) == MapSeq(g, StartKey);
    MapPermute(g, f, StartKey);
    forall i | 0 <= i < |g|
      ensures exists m :: m in f && r[i] == m.(end := r[i].end) && r[i].end <= m.end
    {
      assert g[i] in multiset(f) by {
        assert g[i] in multiset(g);
      }
      assert r[i] == g[i].(end := r[i].end);
    }
  }

  /** Sorting memberships all of one organisation keeps them all of it. */
  lemma SortedOfOrg(f: seq<Membership>, o: string, g: seq<Membership>)
    requires forall i :: 0 <= i < |f| ==> f[i].org == o
    requires multiset(g) == multiset(f)
    ensures forall i :: 0 <= i < |g| ==> g[i].org == o
  {
    forall i | 0 <= i < |g| ensures g[i].org == o {
      assert g[i] in multiset(f);
    }
  }

  /** Fixing a group keeps its start order. */
  lemma AdjustVeryGroupSorted(g: seq<Membership>)
    requires SortedBy(g, StartKey)
    ensures SortedBy(AdjustVeryGroup(g), StartKey)
  {
    assert forall i :: 0 <= i < |g| ==> AdjustVeryGroup(g)[i].start == g[i].start;
  }
}

=== FILE: policy_models.dfy ===
/** The storage form of a policy (`twfy_votes/policy/models.py`): the keys that
    identify divisions, agreements and policy links, and the composite key of a
    policy whose hash records which version of the policy a score was built from. */
module PolicyModels {
  import opened Wrappers
  import opened Text
  import opened Dates
  import opened Consts
  import opened Collections

  /** A `datetime.date`: always a real calendar date. */
  type ValidDate = d: Date | Valid(d) witness Date(2000, 1, 1)

  datatype StrengthMeaning = Classic | Simplified

  function MeaningValue(m: StrengthMeaning): string {
    match m
    case Classic => "classic"
    case Simplified => "simplified"
  }

  datatype PartialDivision = PartialDivision(chamber: ChamberSlug, date: ValidDate, number: int)

  datatype PartialAgreement = PartialAgreement(chamber: ChamberSlug, date: ValidDate, ref: string)

  /** The decision a link points at: a division or an agreement. */
  datatype Decision =
    | DivisionDecision(division: PartialDivision)
    | AgreementDecision(agreement: PartialAgreement)

  /** `PartialDivision.key`: "pw-{date}-{number}-{chamber}". */
  function DivisionKey(d: PartialDivision): (r: string)
    // read from the front: the "pw-" tag, then the date; from the back: the chamber
    ensures |r| > 14 && r[..3] == "pw-" && r[3..13] == IsoFormat(d.date) && r[13] == '-'
    ensures EndsWith(r, "-" + ChamberValue(d.chamber))
  {
    var r := "pw-" + IsoFormat(d.date) + "-" + IntToString(d.number) + "-" + ChamberValue(d.chamber);
    assert r == ("pw-" + IsoFormat(d.date) + "-" + IntToString(d.number)) + ("-" + ChamberValue(d.chamber));
    DatedNumberParts(d.date, d.number);
    r
  }

  /** `PartialAgreement.key`: "a-{chamber}-{date}-{ref}". */
  function AgreementKey(a: PartialAgreement): (r: string)
    // read from the front: the "a-" tag, the chamber up to the next dash, then the
    // date; what follows the date and a dash is the reference
    ensures var c := ChamberValue(a.chamber); var n := 2 + |c|;
      |r| == n + 12 + |a.ref| && r[..2] == "a-" && r[2..n] == c && '-' !in c && r[n] == '-'
      && r[n + 1..n + 11] == IsoFormat(a.date) && r[n + 11] == '-' && r[n + 12..] == a.ref
  {
    NoDashInNames(a.chamber, Agree, Weak, Classic);
    "a-" + ChamberValue(a.chamber) + "-" + IsoFormat(a.date) + "-" + a.ref
  }

  function DecisionKey(d: Decision): string {
    match d
    case DivisionDecision(x) => DivisionKey(x)
    case AgreementDecision(x) => AgreementKey(x)
  }

  datatype PartialLink = PartialLink(
    decision: Decision, alignment: PolicyDirection, strength: PolicyStrength, notes: string)

  /** `link_key`: "{decision_key}-{alignment}-{strength}". */
  function LinkKey(l: PartialLink): (r: string)
    // the decision's key, then the alignment and the strength, each after a dash and
    // free of dashes; the notes take no part
    ensures var a := DirectionValue(l.alignment); var s := StrengthValue(l.strength);
      '-' !in a && '-' !in s && StartsWith(r, DecisionKey(l.decision) + "-")
      && EndsWith(r, "-" + a + "-" + s)
  {
    NoDashInNames(OtherChamber, l.alignment, l.strength, Classic);
    DashJoinEnds(DecisionKey(l.decision), DirectionValue(l.alignment), StrengthValue(l.strength));
    DecisionKey(l.decision) + "-" + DirectionValue(l.alignment) + "-" + StrengthValue(l.strength)
  }

  /** The front and the back of three dash-joined pieces. */
  lemma DashJoinEnds(k: string, a: string, s: string)
    ensures StartsWith(k + "-" + a + "-" + s, k + "-") && EndsWith(k + "-" + a + "-" + s, "-" + a + "-" + s)
  {
    var r := k + "-" + a + "-" + s;
    assert r == (k + "-") + (a + "-" + s);
    assert r == k + ("-" + a + "-" + s);
  }

  // ---- The keys identify what they are built from ----

  /** When both parts after the last dash are free of dashes, the split is forced. */
  lemma SplitAtLastDash(a: string, b: string, c: string, d: string)
    requires '-' !in b && '-' !in d
    requires a + "-" + b == c + "-" + d
    ensures a == c && b == d
  {
    var s := a + "-" + b;
    assert s[|a|] == '-' && s[|c|] == '-';
    assert forall i :: |a| < i < |s| ==> s[i] == b[i - |a| - 1];
    assert forall i :: |c| < i < |s| ==> s[i] == d[i - |c| - 1];
    assert |a| == |c|;
    assert a == s[..|a|] && c == s[..|c|];
    assert b == s[|a| + 1..] && d == s[|c| + 1..];
  }

  /** When both parts before the first dash are free of dashes, the split is forced. */
  lemma SplitAtFirstDash(a: string, b: string, c: string, d: string)
    requires '-' !in a && '-' !in c
    requires a + "-" + b == c + "-" + d
    ensures a == c && b == d
  {
    var s := a + "-" + b;
    assert s[|a|] == '-' && s[|c|] == '-';
    assert forall i :: 0 <= i < |a| ==> s[i] == a[i];
    assert forall i :: 0 <= i < |c| ==> s[i] == c[i];
    assert |a| == |c|;
    assert a == s[..|a|] && c == s[..|c|];
    assert b == s[|a| + 1..] && d == s[|c| + 1..];
  }

  lemma ChamberValueInjective(a: ChamberSlug, b: ChamberSlug)
    requires ChamberValue(a) == ChamberValue(b)
    ensures a == b
  {
    assert ChamberFromValue(ChamberValue(a)) == Some(a);
    assert ChamberFromValue(ChamberValue(b)) == Some(b);
  }

  lemma NoDashInNames(c: ChamberSlug, d: PolicyDirection, s: PolicyStrength, m: StrengthMeaning)
    ensures '-' !in ChamberValue(c) && '-' !in DirectionValue(d)
    ensures '-' !in StrengthValue(s) && '-' !in MeaningValue(m)
  {
  }

  lemma IsoInjective(a: ValidDate, b: ValidDate)
    requires IsoFormat(a) == IsoFormat(b)
    ensures a == b
  {
    IsoRoundTrip(a);
    IsoRoundTrip(b);
  }

  /** Distinct divisions have distinct keys. */
  lemma DivisionKeyInjective(x: PartialDivision, y: PartialDivision)
    requires DivisionKey(x) == DivisionKey(y)
    ensures x == y
  {
    NoDashInNames(x.chamber, Agree, Weak, Classic);
    NoDashInNames(y.chamber, Agree, Weak, Classic);
    var px := "pw-" + IsoFormat(x.date) + "-" + IntToString(x.number);
    var py := "pw-" + IsoFormat(y.date) + "-" + IntToString(y.number);
    SplitAtLastDash(px, ChamberValue(x.chamber), py, ChamberValue(y.chamber));
    ChamberValueInjective(x.chamber, y.chamber);
    DatedNumberParts(x.date, x.number);
    DatedNumberParts(y.date, y.number);
    IsoInjective(x.date, y.date);
    IntToStringInjective(x.number, y.number);
  }

  lemma DatedNumberParts(d: ValidDate, n: int)
    ensures ("pw-" + IsoFormat(d) + "-" + IntToString(n))[3..13] == IsoFormat(d)
    ensures ("pw-" + IsoFormat(d) + "-" + IntToString(n))[14..] == IntToString(n)
  {
    SliceAround("pw-", IsoFormat(d), IntToString(n));
  }

  /** The pieces of `pre + mid + "-" + post` are found at their offsets. */
  lemma SliceAround(pre: string, mid: string, post: string)
    ensures var s := pre + mid + "-" + post;
            s[|pre|..|pre| + |mid|] == mid && s[|pre| + |mid| + 1..] == post
  {
  }

  /** An agreement key is "a-", the chamber, a dash, then the date and the reference. */
  lemma AgreementKeyParts(x: PartialAgreement)
    ensures AgreementKey(x)[2..] == ChamberValue(x.chamber) + "-" + (IsoFormat(x.date) + "-" + x.ref)
  {
    DropPrefix("a-", ChamberValue(x.chamber), IsoFormat(x.date), x.ref);
  }

  lemma DropPrefix(pre: string, a: string, b: string, c: string)
    ensures (pre + a + "-" + b + "-" + c)[|pre|..] == a + "-" + (b + "-" + c)
  {
    var s := pre + a + "-" + b + "-" + c;
    assert s == pre + (a + "-" + (b + "-" + c));
  }

  lemma DatedRefParts(d: ValidDate, ref: string)
    ensures (IsoFormat(d) + "-" + ref)[..10] == IsoFormat(d)
    ensures (IsoFormat(d) + "-" + ref)[11..] == ref
  {
    SliceAround("", IsoFormat(d), ref);
    assert "" + IsoFormat(d) == IsoFormat(d);
  }

  /** Distinct agreements have distinct keys. */
  lemma AgreementKeyInjective(x: PartialAgreement, y: PartialAgreement)
    requires AgreementKey(x) == AgreementKey(y)
    ensures x == y
  {
    NoDashInNames(x.chamber, Agree, Weak, Classic);
    NoDashInNames(y.chamber, Agree, Weak, Classic);
    var rx := IsoFormat(x.date) + "-" + x.ref;
    var ry := IsoFormat(y.date) + "-" + y.ref;
    AgreementKeyParts(x);
    AgreementKeyParts(y);
    SplitAtFirstDash(ChamberValue(x.chamber), rx, ChamberValue(y.chamber), ry);
    ChamberValueInjective(x.chamber, y.chamber);
    DatedRefParts(x.date, x.ref);
    DatedRefParts(y.date, y.ref);
    IsoInjective(x.date, y.date);
  }

  /** Distinct decisions have distinct keys; a division key never equals an
      agreement key. */
  lemma DecisionKeyInjective(x: Decision, y: Decision)
    requires DecisionKey(x) == DecisionKey(y)
    ensures x == y
  {
    assert DecisionKey(x)[0] == (if x.DivisionDecision? then 'p' else 'a');
    assert DecisionKey(y)[0] == (if y.DivisionDecision? then 'p' else 'a');
    match x
    case DivisionDecision(a) =>
      DivisionKeyInjective(a, y.division);
    case AgreementDecision(a) =>
      AgreementKeyInjective(a, y.agreement);
  }

  /** Two links have the same key exactly when they link the same decision with the
      same alignment and strength; the notes are not part of the key. */
  lemma LinkKeyInjective(x: PartialLink, y: PartialLink)
    ensures LinkKey(x) == LinkKey(y) <==>
      (x.decision == y.decision && x.alignment == y.alignment && x.strength == y.strength)
  {
    if LinkKey(x) == LinkKey(y) {
      NoDashInNames(OtherChamber, x.alignment, x.strength, Classic);
      NoDashInNames(OtherChamber, y.alignment, y.strength, Classic);
      var ax := DecisionKey(x.decision) + "-" + DirectionValue(x.alignment);
      var ay := DecisionKey(y.decision) + "-" + DirectionValue(y.alignment);
      SplitAtLastDash(ax, StrengthValue(x.strength), ay, StrengthValue(y.strength));
      SplitAtLastDash(DecisionKey(x.decision), DirectionValue(x.alignment),
                      DecisionKey(y.decision), DirectionValue(y.alignment));
      DecisionKeyInjective(x.decision, y.decision);
    }
  }

  // ---- The composite key ----

  datatype PartialPolicy = PartialPolicy(
    id: int,
    name: string,
    contextDescription: string,
    policyDescription: string,
    notes: string,
    status: string,
    strengthMeaning: StrengthMeaning,
    highlightable: bool,
    chamber: ChamberSlug,
    groups: seq<string>,
    divisionLinks: seq<PartialLink>,
    agreementLinks: seq<PartialLink>)

  function LinkKeys(links: seq<PartialLink>): (r: seq<string>)
    ensures |r| == |links| && forall i :: 0 <= i < |links| ==> r[i] == LinkKey(links[i])
  {
    MapSeq(links, LinkKey)
  }

  /** The link keys of all the policy's links, sorted. */
  function SortedLinkKeys(p: PartialPolicy): (r: seq<string>)
    ensures SortedStrings(r)
    ensures multiset(r) == multiset(LinkKeys(p.divisionLinks + p.agreementLinks))
  {
    LinkKeysConcat(p.divisionLinks, p.agreementLinks);
    SortStrings(LinkKeys(p.divisionLinks) + LinkKeys(p.agreementLinks))
  }

  /** `composite_key`: the id, chamber and strength meaning, then the sorted link keys,
      all joined with dashes. */
  function CompositeKey(p: PartialPolicy): (r: string)
    ensures StartsWith(r, IntToString(p.id) + "-" + ChamberValue(p.chamber) + "-" + MeaningValue(p.strengthMeaning) + "-")
    // every link's key appears in it, so a change to any link's decision, alignment
    // or strength is seen
    ensures forall l :: l in p.divisionLinks || l in p.agreementLinks ==> Contains(r, LinkKey(l))
  {
    var head := IntToString(p.id) + "-" + ChamberValue(p.chamber) + "-" + MeaningValue(p.strengthMeaning) + "-";
    HeadHasLinks(p, head);
    head + Join(SortedLinkKeys(p), "-")
  }

  /** `composite_hash`: the first eight characters of the digest of the composite
      key; the digest function is a parameter. */
  function CompositeHash(p: PartialPolicy, md5: string -> string): (r: string)
    ensures |r| == if |md5(CompositeKey(p))| < 8 then |md5(CompositeKey(p))| else 8
    ensures StartsWith(md5(CompositeKey(p)), r)
  {
    var h := md5(CompositeKey(p));
    if |h| <= 8 then h else h[..8]
  }

  lemma LinkKeysConcat(a: seq<PartialLink>, b: seq<PartialLink>)
    ensures LinkKeys(a + b) == LinkKeys(a) + LinkKeys(b)
  {
    MapConcat(a, b, LinkKey);
  }

  /** Equal collections of links have equal collections of keys. */
  lemma LinkKeysPermute(xs: seq<PartialLink>, ys: seq<PartialLink>)
    requires multiset(xs) == multiset(ys)
    ensures multiset(LinkKeys(xs)) == multiset(LinkKeys(ys))
  {
    MapPermute(xs, ys, LinkKey);
  }

  /** The composite key, and so its hash, does not depend on the order in which the
      links are listed, nor on which list a link is in. */
  lemma CompositeKeyIgnoresOrder(p: PartialPolicy, q: PartialPolicy, md5: string -> string)
    requires p.id == q.id && p.chamber == q.chamber && p.strengthMeaning == q.strengthMeaning
    requires multiset(p.divisionLinks + p.agreementLinks) == multiset(q.divisionLinks + q.agreementLinks)
    ensures CompositeKey(p) == CompositeKey(q)
    ensures CompositeHash(p, md5) == CompositeHash(q, md5)
  {
    LinkKeysPermute(p.divisionLinks + p.agreementLinks, q.divisionLinks + q.agreementLinks);
    SortedUnique(SortedLinkKeys(p), SortedLinkKeys(q));
  }

  /** A piece of a join is found in the joined text. */
  lemma {:induction false} JoinContainsPiece(parts: seq<string>, sep: string, i: nat)
    requires i < |parts|
    ensures Contains(Join(parts, sep), parts[i])
    decreases |parts|
  {
    if |parts| == 1 {
      SelfContains(parts[0]);
    } else if i == 0 {
      JoinHeadContains(parts, sep);
    } else {
      JoinContainsPiece(parts[1..], sep, i - 1);
      JoinTailContains(parts, sep, parts[i]);
    }
  }

  lemma SelfContains(p: string)
    ensures Contains(p, p)
  {
    assert OccursAt(p, p, 0);
    ContainsWitness(p, p, 0);
  }

  /** The first piece of a join of two or more appears in it. */
  lemma JoinHeadContains(parts: seq<string>, sep: string)
    requires |parts| > 1
    ensures Contains(Join(parts, sep), parts[0])
  {
    SelfContains(parts[0]);
    ContainsInfix("", parts[0], sep + Join(parts[1..], sep), parts[0]);
    assert Join(parts, sep) == "" + parts[0] + (sep + Join(parts[1..], sep));
  }

  /** What appears in the join of the later pieces appears in the whole join. */
  lemma JoinTailContains(parts: seq<string>, sep: string, p: string)
    requires |parts| > 1 && Contains(Join(parts[1..], sep), p)
    ensures Contains(Join(parts, sep), p)
  {
    ContainsInfix(parts[0] + sep, Join(parts[1..], sep), "", p);
    assert Join(parts, sep) == parts[0] + sep + Join(parts[1..], sep) + "";
  }

  /** Every link's key appears after any head followed by the joined sorted keys. */
  lemma HeadHasLinks(p: PartialPolicy, head: string)
    ensures forall l :: l in p.divisionLinks || l in p.agreementLinks ==>
      Contains(head + Join(SortedLinkKeys(p), "-"), LinkKey(l))
  {
    forall l | l in p.divisionLinks || l in p.agreementLinks
      ensures Contains(head + Join(SortedLinkKeys(p), "-"), LinkKey(l))
    {
      HeadHasLink(p, head, l);
    }
  }

  lemma HeadHasLink(p: PartialPolicy, head: string, l: PartialLink)
    requires l in p.divisionLinks || l in p.agreementLinks
    ensures Contains(head + Join(SortedLinkKeys(p), "-"), LinkKey(l))
  {
    var all := p.divisionLinks + p.agreementLinks;
    var keys := SortedLinkKeys(p);
    assert l in all;
    var k :| 0 <= k < |all| && all[k] == l;
    assert LinkKeys(all)[k] == LinkKey(l);
    assert LinkKey(l) in multiset(keys);
    var i :| 0 <= i < |keys| && keys[i] == LinkKey(l);
    JoinContainsPiece(keys, "-", i);
    ContainsInfix(head, Join(keys, "-"), "", LinkKey(l));
    assert head + Join(keys, "-") == head + Join(keys, "-") + "";
  }
}

=== FILE: policy_tools.dfy ===
/** The policy file tools (`twfy_votes/policy/tools.py`): allocating the id of a new
    policy and adding a decision to a policy from its web address.  The folder of
    policy files is a map from policy id to the links the file holds; parsing dates
    and integers out of the address is done by the parameters `parseDate` and
    `parseInt`. */
module PolicyTools {
  import opened Wrappers
  import opened Text
  import opened Dates
  import opened Consts
  import opened Collections
  import opened PolicyModels

  // ---- Allocating a policy id ----

  /** The first id tried for a new policy in each chamber; the other chamber has none. */
  function StartingValue(c: ChamberSlug): Option<int> {
    match c
    case Commons => Some(20001)
    case Lords => Some(30001)
    case Wales => Some(40001)
    case Scotland => Some(50001)
    case NI => Some(60001)
    case OtherChamber => None
  }

  /** `id` is the least id at or after `base` that no existing policy uses. */
  predicate LeastUnused(base: int, ids: seq<int>, id: int) {
    base <= id && id !in ids && forall j :: base <= j < id ==> j in ids
  }

  /** An id above every existing one. */
  function Ceiling(ids: seq<int>): (r: int)
    ensures forall i :: 0 <= i < |ids| ==> ids[i] < r
    decreases |ids|
  {
    if |ids| == 0 then 0
    else
      var rest := Ceiling(ids[1..]);
      assert forall i :: 1 <= i < |ids| ==> ids[i] == ids[1..][i - 1];
      if ids[0] < rest then rest else ids[0] + 1
  }

  /** The id loop of `create_new_policy`: count up from the chamber's starting value
      past every id already used.  The chamber with no starting value raises. */
  method NewPolicyId(chamber: ChamberSlug, currentIds: seq<int>) returns (r: Result<int, Error>)
    ensures r.Failure? <==> StartingValue(chamber).None?
    ensures r.Success? ==> LeastUnused(StartingValue(chamber).value, currentIds, r.value)
  {
    if StartingValue(chamber).None? {
      return Failure(KeyError(ChamberValue(chamber)));
    }
    var base := StartingValue(chamber).value;
    var top := Ceiling(currentIds);
    var id := base;
    while id in currentIds
      invariant base <= id
      invariant id <= top || id == base
      invariant forall j :: base <= j < id ==> j in currentIds
      decreases top - id
    {
      id := id + 1;
    }
    return Success(id);
  }

  /** At most one id is the least unused one, so the allocation is determined. */
  lemma LeastUnusedUnique(base: int, ids: seq<int>, a: int, b: int)
    requires LeastUnused(base, ids, a) && LeastUnused(base, ids, b)
    ensures a == b
  {
  }

  /** The file a new policy is written to. */
  function PolicyPath(id: int): string {
    IntToString(id) + ".yml"
  }

  /** `create_new_policy`: a draft with no links and not highlightable, stored under
      the allocated id. */
  method CreateNewPolicy(name: string, contextDescription: string, policyDescription: string,
                         status: string, chamber: ChamberSlug, groups: seq<string>, currentIds: seq<int>)
    returns (r: Result<(PartialPolicy, string), Error>)
    ensures r.Failure? <==> StartingValue(chamber).None?
    ensures r.Success? ==> LeastUnused(StartingValue(chamber).value, currentIds, r.value.0.id)
    ensures r.Success? ==> r.value.1 == PolicyPath(r.value.0.id)
    ensures r.Success? ==> r.value.0.divisionLinks == [] && r.value.0.agreementLinks == []
    ensures r.Success? ==> !r.value.0.highlightable && r.value.0.strengthMeaning == Simplified
    ensures r.Success? ==> r.value.0.chamber == chamber && r.value.0.name == name && r.value.0.groups == groups
  {
    var id := NewPolicyId(chamber, currentIds);
    if id.Failure? {
      return Failure(id.error);
    }
    var policy := PartialPolicy(id.value, name, contextDescription, policyDescription, "", status,
                                Simplified, false, chamber, groups, [], []);
    return Success((policy, PolicyPath(id.value)));
  }

  // ---- Adding a decision from its address ----

  /** The decision named by the last four segments of a decisions address,
      ".../division/{chamber}/{date}/{number}" or ".../agreement/{chamber}/{date}/{ref}".
      Too few segments is Python's IndexError; any other kind, an unknown chamber, a bad
      date or a bad number raises ValueError. */
  function ParseDecisionUrl(url: string, parseDate: string -> Option<ValidDate>, parseInt: string -> Option<int>)
    : (r: Result<Decision, Error>)
    ensures |Split(url, "/")| < 4 ==> r == Failure(IndexError("list index out of range"))
    ensures r.Success? ==> var parts := Split(url, "/"); var n := |parts|;
      n >= 4 &&
      ChamberFromValue(parts[n - 3]) == Some(DecisionChamber(r.value)) &&
      parseDate(parts[n - 2]) == Some(DecisionDate(r.value)) &&
      (parts[n - 4] == "division" ==>
        r.value.DivisionDecision? && parseInt(parts[n - 1]) == Some(r.value.division.number)) &&
      (parts[n - 4] == "agreement" ==>
        r.value.AgreementDecision? && r.value.agreement.ref == parts[n - 1])
    ensures var parts := Split(url, "/");
      |parts| >= 4 && parts[|parts| - 4] != "division" && parts[|parts| - 4] != "agreement" ==>
        r == Failure(ValueError(parts[|parts| - 4] + " not a decision type."))
  {
    ParseParts(Split(url, "/"), parseDate, parseInt)
  }

  /** `add_vote_to_policy_from_url` once the address has been split at its slashes. */
  function ParseParts(parts: seq<string>, parseDate: string -> Option<ValidDate>, parseInt: string -> Option<int>)
    : (r: Result<Decision, Error>)
    ensures |parts| < 4 ==> r == Failure(IndexError("list index out of range"))
    ensures r.Success? ==> var n := |parts|;
      n >= 4 &&
      ChamberFromValue(parts[n - 3]) == Some(DecisionChamber(r.value)) &&
      parseDate(parts[n - 2]) == Some(DecisionDate(r.value)) &&
      (parts[n - 4] == "division" ==>
        r.value.DivisionDecision? && parseInt(parts[n - 1]) == Some(r.value.division.number)) &&
      (parts[n - 4] == "agreement" ==>
        r.value.AgreementDecision? && r.value.agreement.ref == parts[n - 1])
    ensures |parts| >= 4 && parts[|parts| - 4] != "division" && parts[|parts| - 4] != "agreement" ==>
      r == Failure(ValueError(parts[|parts| - 4] + " not a decision type."))
  {
    var n := |parts|;
    if n < 4 then Failure(IndexError("list index out of range"))
    else if parts[n - 4] != "division" && parts[n - 4] != "agreement" then
      Failure(ValueError(parts[n - 4] + " not a decision type."))
    else
      match ChamberFromValue(parts[n - 3])
      case None => Failure(ValueError(parts[n - 3] + " is not a valid ChamberSlug"))
      case Some(chamber) =>
        match parseDate(parts[n - 2])
        case None => Failure(ValueError("time data does not match format '%Y-%m-%d'"))
        case Some(date) =>
          if parts[n - 4] == "agreement" then
            Success(AgreementDecision(PartialAgreement(chamber, date, parts[n - 1])))
          else
            match parseInt(parts[n - 1])
            case None => Failure(ValueError("invalid literal for int()"))
            case Some(number) => Success(DivisionDecision(PartialDivision(chamber, date, number)))
  }

  function DecisionChamber(d: Decision): ChamberSlug {
    match d
    case DivisionDecision(x) => x.chamber
    case AgreementDecision(x) => x.chamber
  }

  function DecisionDate(d: Decision): ValidDate {
    match d
    case DivisionDecision(x) => x.date
    case AgreementDecision(x) => x.date
  }

  /** The address segments of a decision after the site's own prefix. */
  function DecisionSegments(d: Decision): seq<string> {
    match d
    case DivisionDecision(x) => ["division", ChamberValue(x.chamber), IsoFormat(x.date), IntToString(x.number)]
    case AgreementDecision(x) => ["agreement", ChamberValue(x.chamber), IsoFormat(x.date), x.ref]
  }

  /** No chamber slug contains a slash. */
  lemma ChamberNoSlash(c: ChamberSlug)
    ensures '/' !in ChamberValue(c)
  {
    match c
    case Commons => assert ChamberValue(c) == "commons";
    case Lords => assert ChamberValue(c) == "lords";
    case Scotland => assert ChamberValue(c) == "scotland";
    case Wales => assert ChamberValue(c) == "senedd";
    case NI => assert ChamberValue(c) == "ni";
    case OtherChamber => assert ChamberValue(c) == "other";
  }

  lemma NoSlashInSegments(d: Decision)
    requires d.AgreementDecision? ==> '/' !in d.agreement.ref
    ensures forall k :: 0 <= k < |DecisionSegments(d)| ==> '/' !in DecisionSegments(d)[k]
  {
    ChamberNoSlash(DecisionChamber(d));
    IsoChars(DecisionDate(d));
    assert '/' !in IsoFormat(DecisionDate(d));
    match d
    case DivisionDecision(x) =>
      IntToStringChars(x.number);
      assert '/' !in IntToString(x.number);
      assert DecisionSegments(d) == ["division", ChamberValue(x.chamber), IsoFormat(x.date), IntToString(x.number)];
    case AgreementDecision(x) =>
      assert DecisionSegments(d) == ["agreement", ChamberValue(x.chamber), IsoFormat(x.date), x.ref];
  }

  /** A decision's segments at the end of the address are read back as the decision. */
  lemma ParseSegments(url: string, prefix: seq<string>, d: Decision,
                      parseDate: string -> Option<ValidDate>, parseInt: string -> Option<int>)
    requires Split(url, "/") == prefix + DecisionSegments(d)
    requires parseDate(IsoFormat(DecisionDate(d))) == Some(DecisionDate(d))
    requires d.DivisionDecision? ==> parseInt(IntToString(d.division.number)) == Some(d.division.number)
    ensures ParseDecisionUrl(url, parseDate, parseInt) == Success(d)
  {
    assert ParseDecisionUrl(url, parseDate, parseInt) == ParseParts(prefix + DecisionSegments(d), parseDate, parseInt);
    PartsOfSegments(prefix, d, parseDate, parseInt);
  }

  lemma PartsOfSegments(prefix: seq<string>, d: Decision,
                        parseDate: string -> Option<ValidDate>, parseInt: string -> Option<int>)
    requires parseDate(IsoFormat(DecisionDate(d))) == Some(DecisionDate(d))
    requires d.DivisionDecision? ==> parseInt(IntToString(d.division.number)) == Some(d.division.number)
    ensures ParseParts(prefix + DecisionSegments(d), parseDate, parseInt) == Success(d)
  {
    var segs := DecisionSegments(d);
    var parts := prefix + segs;
    var n := |parts|;
    assert parts[n - 4] == segs[0] && parts[n - 3] == segs[1] && parts[n - 2] == segs[2] && parts[n - 1] == segs[3];
    ChamberRoundTrip(DecisionChamber(d));
    match d
    case DivisionDecision(x) =>
      assert segs[0] == "division" && segs[1] == ChamberValue(x.chamber);
    case AgreementDecision(x) =>
      assert segs[0] == "agreement" && segs[1] == ChamberValue(x.chamber);
  }

  lemma ChamberRoundTrip(c: ChamberSlug)
    ensures ChamberFromValue(ChamberValue(c)) == Some(c)
  {
  }

  /** An address built from a decision's segments after any prefix of slash-free
      segments parses back to that decision, given date and integer parsers that
      read back what `isoformat` and `str` write. */
  lemma UrlRoundTrip(prefix: seq<string>, d: Decision,
                     parseDate: string -> Option<ValidDate>, parseInt: string -> Option<int>)
    requires forall k :: 0 <= k < |prefix| ==> '/' !in prefix[k]
    requires d.AgreementDecision? ==> '/' !in d.agreement.ref
    requires parseDate(IsoFormat(DecisionDate(d))) == Some(DecisionDate(d))
    requires d.DivisionDecision? ==> parseInt(IntToString(d.division.number)) == Some(d.division.number)
    ensures ParseDecisionUrl(Join(prefix + DecisionSegments(d), "/"), parseDate, parseInt) == Success(d)
  {
    var parts := prefix + DecisionSegments(d);
    var url := Join(parts, "/");
    assert Split(url, "/") == parts by {
      NoSlashInSegments(d);
      SplitJoinSlash(prefix, DecisionSegments(d));
    }
    ParseSegments(url, prefix, d, parseDate, parseInt);
  }

  /** Slash-free segments joined by slashes split back into those segments. */
  lemma SplitJoinSlash(prefix: seq<string>, segs: seq<string>)
    requires forall k :: 0 <= k < |prefix| ==> '/' !in prefix[k]
    requires forall k :: 0 <= k < |segs| ==> '/' !in segs[k]
    requires |segs| > 0
    ensures Split(Join(prefix + segs, "/"), "/") == prefix + segs
  {
    var parts := prefix + segs;
    assert forall k :: 0 <= k < |parts| ==> '/' !in parts[k] by {
      assert forall k :: |prefix| <= k < |parts| ==> parts[k] == segs[k - |prefix|];
    }
    assert "/" == ['/'];
    SplitJoin(parts, '/');
  }

  /** A policy file: its division links and its agreement links. */
  datatype PolicyFile = PolicyFile(divisionLinks: seq<PartialLink>, agreementLinks: seq<PartialLink>)

  /** The key the duplicate check builds for a stored decision, as the code builds it:
      chamber, date, then the division number, or for an agreement the value under the
      key "division_ref", which agreements do not have, so "None". */
  function DupKeyAsWritten(d: Decision): (r: string)
    // a division's key is the intended one
    ensures d.DivisionDecision? ==> r == DupKey(d)
    // an agreement's is the intended key of the same agreement with reference "None":
    // the reference takes no part
    ensures d.AgreementDecision? ==> r == DupKey(AgreementDecision(d.agreement.(ref := "None")))
  {
    match d
    case DivisionDecision(x) => ChamberValue(x.chamber) + "-" + IsoFormat(x.date) + "-" + IntToString(x.number)
    case AgreementDecision(x) => ChamberValue(x.chamber) + "-" + IsoFormat(x.date) + "-" + "None"
  }

  /** The key the duplicate check evidently means to build: the agreement's reference
      in place of "None". */
  function DupKey(d: Decision): (r: string)
    // the chamber is what comes before the first dash, the date follows it, and
    // the number or reference ends the key after a dash
    ensures var c := ChamberValue(DecisionChamber(d));
      '-' !in c && StartsWith(r, c + "-") && |c| + 12 <= |r|
      && r[|c| + 1..|c| + 11] == IsoFormat(DecisionDate(d)) && EndsWith(r, "-" + DupTail(d))
  {
    NoDashInNames(DecisionChamber(d), Agree, Weak, Classic);
    DupKeyLayout(ChamberValue(DecisionChamber(d)), IsoFormat(DecisionDate(d)), DupTail(d));
    match d
    case DivisionDecision(x) => ChamberValue(x.chamber) + "-" + IsoFormat(x.date) + "-" + IntToString(x.number)
    case AgreementDecision(x) => ChamberValue(x.chamber) + "-" + IsoFormat(x.date) + "-" + x.ref
  }

  function Decisions(links: seq<PartialLink>): (r: seq<Decision>)
    ensures |r| == |links| && forall i :: 0 <= i < |links| ==> r[i] == links[i].decision
  {
    seq(|links|, i requires 0 <= i < |links| => links[i].decision)
  }

  function Keys(ds: seq<Decision>, keyOf: Decision -> string): (r: seq<string>)
    ensures |r| == |ds| && forall i :: 0 <= i < |ds| ==> r[i] == keyOf(ds[i])
  {
    seq(|ds|, i requires 0 <= i < |ds| => keyOf(ds[i]))
  }

  /** The first position whose key was already seen, scanning from `k`. */
  function FirstRepeat(keys: seq<string>, k: nat): (r: Option<nat>)
    requires k <= |keys|
    requires NoDuplicates(keys[..k])
    ensures r.None? <==> NoDuplicates(keys)
    ensures r.Some? ==> k <= r.value < |keys| && keys[r.value] in keys[..r.value]
    decreases |keys| - k
  {
    if k == |keys| then
      assert keys[..k] == keys;
      None
    else if keys[k] in keys[..k] then
      var j :| 0 <= j < k && keys[..k][j] == keys[k];
      assert keys[j] == keys[k];
      Some(k)
    else
      assert NoDuplicates(keys[..k + 1]) by {
        assert keys[..k + 1] == keys[..k] + [keys[k]];
      }
      FirstRepeat(keys, k + 1)
  }

  /** The links of a policy file after `link` is appended, checked with `keyOf`: the
      file must exist, and a decision key seen twice in the list raises. */
  function AddLinkWith(files: map<int, PolicyFile>, policyId: int, link: PartialLink, keyOf: Decision -> string)
    : (r: Result<PolicyFile, Error>)
    ensures policyId !in files ==> r == Failure(ValueError("Policy does not exist"))
    ensures policyId in files ==> var f := files[policyId];
      var list := (if link.decision.DivisionDecision? then f.divisionLinks else f.agreementLinks) + [link];
      (r.Success? <==> NoDuplicates(Keys(Decisions(list), keyOf))) &&
      (r.Success? && link.decision.DivisionDecision? ==> r.value == PolicyFile(list, f.agreementLinks)) &&
      (r.Success? && link.decision.AgreementDecision? ==> r.value == PolicyFile(f.divisionLinks, list))
  {
    if policyId !in files then Failure(ValueError("Policy does not exist"))
    else
      var f := files[policyId];
      var list := (if link.decision.DivisionDecision? then f.divisionLinks else f.agreementLinks) + [link];
      var keys := Keys(Decisions(list), keyOf);
      assert keys[..0] == [];
      match FirstRepeat(keys, 0)
      case Some(i) => Failure(ValueError("Division " + keys[i] + " already exists in policy."))
      case None =>
        if link.decision.DivisionDecision? then Success(PolicyFile(list, f.agreementLinks))
        else Success(PolicyFile(f.divisionLinks, list))
  }

  /** `g` is `f` with `link` appended to the list of its kind. */
  predicate Appended(f: PolicyFile, link: PartialLink, g: PolicyFile) {
    if link.decision.DivisionDecision? then g == PolicyFile(f.divisionLinks + [link], f.agreementLinks)
    else g == PolicyFile(f.divisionLinks, f.agreementLinks + [link])
  }

  /** `add_vote_to_policy_from_url` as written. */
  function AddVoteAsWritten(url: string, policyId: int, alignment: PolicyDirection, strength: PolicyStrength,
                            files: map<int, PolicyFile>,
                            parseDate: string -> Option<ValidDate>, parseInt: string -> Option<int>)
    : (r: Result<PolicyFile, Error>)
    // an address that does not parse raises the parser's error
    ensures ParseDecisionUrl(url, parseDate, parseInt).Failure? ==>
      r == Failure(ParseDecisionUrl(url, parseDate, parseInt).error)
    // one that does is added with an empty notes field, under the as-written key
    ensures ParseDecisionUrl(url, parseDate, parseInt).Success? ==>
      r == AddLinkWith(files, policyId,
        PartialLink(ParseDecisionUrl(url, parseDate, parseInt).value, alignment, strength, ""), DupKeyAsWritten)
    ensures r.Success? ==>
      (policyId in files && ParseDecisionUrl(url, parseDate, parseInt).Success? &&
       Appended(files[policyId],
         PartialLink(ParseDecisionUrl(url, parseDate, parseInt).value, alignment, strength, ""), r.value))
  {
    var decision :- ParseDecisionUrl(url, parseDate, parseInt);
    AddLinkWith(files, policyId, PartialLink(decision, alignment, strength, ""), DupKeyAsWritten)
  }

  /** `add_vote_to_policy_from_url` with the duplicate check keyed on the agreement's
      reference. */
  function AddVoteFromUrl(url: string, policyId: int, alignment: PolicyDirection, strength: PolicyStrength,
                          files: map<int, PolicyFile>,
                          parseDate: string -> Option<ValidDate>, parseInt: string -> Option<int>)
    : (r: Result<PolicyFile, Error>)
    ensures ParseDecisionUrl(url, parseDate, parseInt).Failure? ==>
      r == Failure(ParseDecisionUrl(url, parseDate, parseInt).error)
    ensures ParseDecisionUrl(url, parseDate, parseInt).Success? ==>
      r == AddLinkWith(files, policyId,
        PartialLink(ParseDecisionUrl(url, parseDate, parseInt).value, alignment, strength, ""), DupKey)
    ensures r.Success? ==>
      (policyId in files && ParseDecisionUrl(url, parseDate, parseInt).Success? &&
       Appended(files[policyId],
         PartialLink(ParseDecisionUrl(url, parseDate, parseInt).value, alignment, strength, ""), r.value))
  {
    var decision :- ParseDecisionUrl(url, parseDate, parseInt);
    AddLinkWith(files, policyId, PartialLink(decision, alignment, strength, ""), DupKey)
  }

  /** The address of a decision not yet in an existing policy adds exactly that
      decision to it. */
  lemma AddVoteOfDecisionUrl(prefix: seq<string>, d: Decision, policyId: int, alignment: PolicyDirection,
                             strength: PolicyStrength, files: map<int, PolicyFile>,
                             parseDate: string -> Option<ValidDate>, parseInt: string -> Option<int>)
    requires forall k :: 0 <= k < |prefix| ==> '/' !in prefix[k]
    requires d.AgreementDecision? ==> '/' !in d.agreement.ref
    requires parseDate(IsoFormat(DecisionDate(d))) == Some(DecisionDate(d))
    requires d.DivisionDecision? ==> parseInt(IntToString(d.division.number)) == Some(d.division.number)
    requires policyId in files
    requires var f := files[policyId];
      NoDuplicates(Keys(Decisions((if d.DivisionDecision? then f.divisionLinks else f.agreementLinks)
                                  + [PartialLink(d, alignment, strength, "")]), DupKey))
    ensures var r := AddVoteFromUrl(Join(prefix + DecisionSegments(d), "/"), policyId, alignment, strength,
                                    files, parseDate, parseInt);
      r.Success? && Appended(files[policyId], PartialLink(d, alignment, strength, ""), r.value)
  {
    var url := Join(prefix + DecisionSegments(d), "/");
    UrlRoundTrip(prefix, d, parseDate, parseInt);
    AddVoteParsed(url, d, policyId, alignment, strength, files, parseDate, parseInt);
    AddLinkAppends(files, policyId, PartialLink(d, alignment, strength, ""), DupKey);
  }

  lemma AddVoteParsed(url: string, d: Decision, policyId: int, alignment: PolicyDirection,
                      strength: PolicyStrength, files: map<int, PolicyFile>,
                      parseDate: string -> Option<ValidDate>, parseInt: string -> Option<int>)
    requires ParseDecisionUrl(url, parseDate, parseInt) == Success(d)
    ensures AddVoteFromUrl(url, policyId, alignment, strength, files, parseDate, parseInt)
      == AddLinkWith(files, policyId, PartialLink(d, alignment, strength, ""), DupKey)
  {
  }

  /** A link whose key is new to its list is appended to it. */
  lemma AddLinkAppends(files: map<int, PolicyFile>, policyId: int, link: PartialLink, keyOf: Decision -> string)
    requires policyId in files
    requires var f := files[policyId];
      NoDuplicates(Keys(Decisions((if link.decision.DivisionDecision? then f.divisionLinks else f.agreementLinks)
                                  + [link]), keyOf))
    ensures AddLinkWith(files, policyId, link, keyOf).Success?
    ensures Appended(files[policyId], link, AddLinkWith(files, policyId, link, keyOf).value)
  {
  }

  /** As written, two agreements of the same chamber on the same day get the same
      duplicate key whatever their references. */
  lemma AgreementKeysCollide(a: PartialAgreement, b: PartialAgreement)
    requires a.chamber == b.chamber && a.date == b.date
    ensures DupKeyAsWritten(AgreementDecision(a)) == DupKeyAsWritten(AgreementDecision(b))
  {
  }

  /** So, as written, adding a second agreement of a chamber and day to a policy is
      refused as a duplicate even when it is a different agreement. */
  lemma SecondAgreementRefused(files: map<int, PolicyFile>, policyId: int, stored: PartialLink, a: PartialAgreement,
                               alignment: PolicyDirection, strength: PolicyStrength)
    requires policyId in files && stored in files[policyId].agreementLinks
    requires stored.decision.AgreementDecision?
    requires stored.decision.agreement.chamber == a.chamber && stored.decision.agreement.date == a.date
    ensures AddLinkWith(files, policyId, PartialLink(AgreementDecision(a), alignment, strength, ""), DupKeyAsWritten).Failure?
  {
    var f := files[policyId];
    var list := f.agreementLinks + [PartialLink(AgreementDecision(a), alignment, strength, "")];
    var keys := Keys(Decisions(list), DupKeyAsWritten);
    var i :| 0 <= i < |f.agreementLinks| && f.agreementLinks[i] == stored;
    assert keys[i] == keys[|list| - 1];
  }

  lemma DupKeyLayout(c: string, date: string, tail: string)
    requires |date| == 10
    ensures var r := c + "-" + date + "-" + tail;
      StartsWith(r, c + "-") && |c| + 12 <= |r| && r[|c| + 1..|c| + 11] == date && EndsWith(r, "-" + tail)
  {
    var r := c + "-" + date + "-" + tail;
    assert r == (c + "-") + (date + "-" + tail);
    assert r == (c + "-" + date) + ("-" + tail);
  }

  /** What follows the date in the corrected key. */
  function DupTail(d: Decision): string {
    match d
    case DivisionDecision(x) => IntToString(x.number)
    case AgreementDecision(x) => x.ref
  }

  lemma DupKeyParts(d: Decision)
    ensures DupKey(d) == ChamberValue(DecisionChamber(d)) + "-" + (IsoFormat(DecisionDate(d)) + "-" + DupTail(d))
  {
  }

  /** The corrected key tells decisions of a kind apart: distinct decisions have
      distinct keys. */
  lemma DupKeyInjective(x: Decision, y: Decision)
    requires DupKey(x) == DupKey(y)
    requires x.DivisionDecision? == y.DivisionDecision?
    ensures x == y
  {
    NoDashInNames(DecisionChamber(x), Agree, Weak, Classic);
    NoDashInNames(DecisionChamber(y), Agree, Weak, Classic);
    DupKeyParts(x);
    DupKeyParts(y);
    var tx := IsoFormat(DecisionDate(x)) + "-" + DupTail(x);
    var ty := IsoFormat(DecisionDate(y)) + "-" + DupTail(y);
    SplitAtFirstDash(ChamberValue(DecisionChamber(x)), tx, ChamberValue(DecisionChamber(y)), ty);
    ChamberValueInjective(DecisionChamber(x), DecisionChamber(y));
    DatedRefParts(DecisionDate(x), DupTail(x));
    DatedRefParts(DecisionDate(y), DupTail(y));
    IsoInjective(DecisionDate(x), DecisionDate(y));
    if x.DivisionDecision? {
      IntToStringInjective(x.division.number, y.division.number);
    }
  }

  /** Adding a decision already in the list repeats its key. */
  lemma RepeatRepeatsKey(prior: seq<PartialLink>, link: PartialLink)
    requires link.decision in Decisions(prior)
    ensures !NoDuplicates(Keys(Decisions(prior + [link]), DupKey))
  {
    var keys := Keys(Decisions(prior + [link]), DupKey);
    var i :| 0 <= i < |prior| && Decisions(prior)[i] == link.decision;
    assert (prior + [link])[i] == prior[i];
    assert keys[i] == keys[|prior|];
  }

  /** Adding a new decision of the same kind to a list of distinct decisions keeps
      the keys distinct. */
  lemma FreshKeepsKeysDistinct(prior: seq<PartialLink>, link: PartialLink)
    requires forall i :: 0 <= i < |prior| ==> prior[i].decision.DivisionDecision? == link.decision.DivisionDecision?
    requires NoDuplicates(Decisions(prior))
    requires link.decision !in Decisions(prior)
    ensures NoDuplicates(Keys(Decisions(prior + [link]), DupKey))
  {
    var ds := Decisions(prior + [link]);
    assert ds == Decisions(prior) + [link.decision];
    var kind := link.decision.DivisionDecision?;
    assert forall k :: 0 <= k < |ds| ==> ds[k].DivisionDecision? == kind;
    assert NoDuplicates(ds) by {
      forall i, j | 0 <= i < j < |ds| ensures ds[i] != ds[j] {
        if j == |prior| {
          assert ds[i] == Decisions(prior)[i];
        }
      }
    }
    DistinctKeys(ds, kind);
  }

  /** Distinct decisions of one kind have distinct corrected keys. */
  lemma DistinctKeys(ds: seq<Decision>, kind: bool)
    requires forall i :: 0 <= i < |ds| ==> ds[i].DivisionDecision? == kind
    requires NoDuplicates(ds)
    ensures NoDuplicates(Keys(ds, DupKey))
  {
    var keys := Keys(ds, DupKey);
    forall i, j | 0 <= i < j < |keys| ensures keys[i] != keys[j] {
      if keys[i] == keys[j] {
        DupKeyInjective(ds[i], ds[j]);
      }
    }
  }

  /** With the corrected key, adding a decision to a file whose list of that kind
      names each decision once succeeds exactly when the decision is not already in
      the list. */
  lemma AddRefusesOnlyRepeats(files: map<int, PolicyFile>, policyId: int, link: PartialLink)
    requires policyId in files
    requires var f := files[policyId];
      var prior := if link.decision.DivisionDecision? then f.divisionLinks else f.agreementLinks;
      (forall i :: 0 <= i < |prior| ==> prior[i].decision.DivisionDecision? == link.decision.DivisionDecision?) &&
      NoDuplicates(Decisions(prior))
    ensures var f := files[policyId];
      var prior := if link.decision.DivisionDecision? then f.divisionLinks else f.agreementLinks;
      AddLinkWith(files, policyId, link, DupKey).Success? <==> link.decision !in Decisions(prior)
  {
    var f := files[policyId];
    var prior := if link.decision.DivisionDecision? then f.divisionLinks else f.agreementLinks;
    if link.decision in Decisions(prior) {
      RepeatRepeatsKey(prior, link);
    } else {
      FreshKeepsKeysDistinct(prior, link);
    }
  }
}

=== FILE: populate.dfy ===
/** The `populate` management command (`votes/management/commands/populate.py`):
    a shortcut supplies defaults for unset arguments, conflicting arguments are
    rejected with a message, `--update-last N` becomes a date N days before today,
    and exactly one kind of run is dispatched.  Dates are day numbers and "today"
    is a parameter. */
module Populate {
  import opened Wrappers
  import opened Register
  import opened Text

  /** The command-line arguments; an empty string is an unset name and `None` an unset value. */
  datatype Args = Args(
    model: string, group: string, startGroup: string, endGroup: string, shortcut: string,
    all: bool, quiet: bool, updateSince: Option<int>, updateLast: Option<int>, showOptions: bool)

  /** An `InstructionDict`: the keys a shortcut may set, missing keys as their defaults. */
  datatype Instructions = Instructions(
    model: string, group: string, startGroup: string, endGroup: string,
    all: bool, quiet: bool, updateSince: Option<int>, updateLast: Option<int>)

  function RangeShortcut(last: int, start: string, end: string): Instructions {
    Instructions("", "", start, end, false, false, None, Some(last))
  }

  function AllShortcut(last: int): Instructions {
    Instructions("", "", "", "", true, false, None, Some(last))
  }

  /** The `shortcuts` table. */
  function Shortcut(name: string): Option<Instructions> {
    if name == "refresh_commons_api" then Some(RangeShortcut(1, "api_votes", "person_stats"))
    else if name == "refresh_motions_agreements" then Some(RangeShortcut(3, "download_motions", "decisions"))
    else if name == "refresh_daily" then Some(AllShortcut(1))
    else if name == "refresh_recent" then Some(AllShortcut(10))
    else if name == "refresh_policies" then Some(RangeShortcut(7, "policies", "policycalc"))
    else None
  }

  /** Python's `a or b` on the argument types: an empty string, False and 0 are
      unset; a date is always set. */
  function OrText(a: string, b: string): string { if a != "" then a else b }
  function OrFlag(a: bool, b: bool): bool { a || b }
  function OrDate(a: Option<int>, b: Option<int>): Option<int> { if a.Some? then a else b }
  function OrDays(a: Option<int>, b: Option<int>): Option<int> { if a.Some? && a.value != 0 then a else b }

  /** The arguments once the shortcut's instructions have filled the unset ones. */
  function Merge(a: Args, ins: Instructions): (r: Args)
    ensures a.model != "" ==> r.model == a.model
    ensures a.model == "" ==> r.model == ins.model
    ensures a.group != "" ==> r.group == a.group
    ensures a.group == "" ==> r.group == ins.group
    ensures a.startGroup != "" ==> r.startGroup == a.startGroup
    ensures a.startGroup == "" ==> r.startGroup == ins.startGroup
    ensures a.endGroup != "" ==> r.endGroup == a.endGroup
    ensures a.endGroup == "" ==> r.endGroup == ins.endGroup
    ensures r.all <==> a.all || ins.all
    ensures r.quiet <==> a.quiet || ins.quiet
    ensures a.updateSince.Some? ==> r.updateSince == a.updateSince
    ensures a.updateSince.None? ==> r.updateSince == ins.updateSince
    ensures a.updateLast.Some? && a.updateLast.value != 0 ==> r.updateLast == a.updateLast
    ensures a.updateLast.None? || a.updateLast.value == 0 ==> r.updateLast == ins.updateLast
    ensures r.shortcut == a.shortcut && r.showOptions == a.showOptions
  {
    a.(model := OrText(a.model, ins.model),
       group := OrText(a.group, ins.group),
       startGroup := OrText(a.startGroup, ins.startGroup),
       endGroup := OrText(a.endGroup, ins.endGroup),
       all := OrFlag(a.all, ins.all),
       quiet := OrFlag(a.quiet, ins.quiet),
       updateSince := OrDate(a.updateSince, ins.updateSince),
       updateLast := OrDays(a.updateLast, ins.updateLast))
  }

  /** What the command does. */
  datatype Outcome =
    | ShowTables
    | Message(text: string)
    | RunModel(model: string, quiet: bool, since: Option<int>)
    | RunGroupNamed(group: string, quiet: bool, since: Option<int>)
    | RunRange(start: string, end: string, quiet: bool, since: Option<int>)
    | RunEverything(quiet: bool, since: Option<int>)

  predicate IsRun(o: Outcome) { !o.ShowTables? && !o.Message? }

  /** The arguments that govern the run: the given ones, or the merged ones when a
      known shortcut is named; `None` for an unknown shortcut. */
  function Effective(a: Args): Option<Args> {
    if a.shortcut == "" then Some(a)
    else match Shortcut(a.shortcut)
      case None => None
      case Some(ins) => Some(Merge(a, ins))
  }

  /** The three rejected combinations. */
  predicate Conflicting(e: Args) {
    (e.group != "" && (e.startGroup != "" || e.endGroup != ""))
    || (e.startGroup != "" && e.endGroup == "")
    || (e.updateLast.Some? && e.updateSince.Some?)
  }

  /** The date the run updates from. */
  function Since(e: Args, today: int): Option<int> {
    if e.updateLast.Some? then Some(today - e.updateLast.value) else e.updateSince
  }

  /** The checks and the dispatch, on the effective arguments. */
  function Dispatch(e: Args, today: int): (r: Outcome)
    ensures Conflicting(e) <==> r.Message? && r.text != "You must specify a model, group or all"
    ensures !Conflicting(e) && e.model != "" ==> r == RunModel(e.model, e.quiet, Since(e, today))
    ensures !Conflicting(e) && e.model == "" && e.group != "" ==> r == RunGroupNamed(e.group, e.quiet, Since(e, today))
    ensures !Conflicting(e) && e.model == "" && e.group == "" && e.startGroup != ""
            ==> r == RunRange(e.startGroup, e.endGroup, e.quiet, Since(e, today))
    ensures !Conflicting(e) && e.model == "" && e.group == "" && e.startGroup == "" && e.all
            ==> r == RunEverything(e.quiet, Since(e, today))
    ensures IsRun(r) || r.Message?
  {
    if e.group != "" && (e.startGroup != "" || e.endGroup != "") then
      Message("You cannot specify both group and start/end group")
    else if e.startGroup != "" && e.endGroup == "" then
      Message("You must specify both start-group and end-group")
    else if e.updateLast.Some? && e.updateSince.Some? then
      Message("You cannot specify both update-last and update-since")
    else
      var since := Since(e, today);
      if e.model != "" then RunModel(e.model, e.quiet, since)
      else if e.group != "" then RunGroupNamed(e.group, e.quiet, since)
      else if e.startGroup != "" then RunRange(e.startGroup, e.endGroup, e.quiet, since)
      else if e.all then RunEverything(e.quiet, since)
      else Message("You must specify a model, group or all")
  }

  /** `Command.handle` */
  function Handle(a: Args, today: int): (r: Outcome)
    ensures a.showOptions ==> r == ShowTables
    ensures !a.showOptions && Effective(a).None? ==> r == Message("Shortcut " + a.shortcut + " not found")
    ensures !a.showOptions && Effective(a).Some? ==> r == Dispatch(Effective(a).value, today)
  {
    if a.showOptions then ShowTables
    else match Effective(a)
      case None => Message("Shortcut " + a.shortcut + " not found")
      case Some(e) => Dispatch(e, today)
  }

  /** A run happens only with the tables not requested, a known or no shortcut,
      no conflict, and something to run; nothing else ever runs. */
  lemma RunsOnlyWhenConsistent(a: Args, today: int)
    ensures IsRun(Handle(a, today)) <==>
      !a.showOptions && Effective(a).Some? && !Conflicting(Effective(a).value)
      && (Effective(a).value.model != "" || Effective(a).value.group != ""
          || Effective(a).value.startGroup != "" || Effective(a).value.all)
  {
  }

  /** `--update-last N` runs from N days before today, and without it an explicit
      `--update-since` is passed through unchanged. */
  lemma UpdateLastBecomesSince(a: Args, today: int)
    requires IsRun(Handle(a, today))
    ensures Effective(a).Some?
    ensures Effective(a).value.updateLast.Some? ==>
      Handle(a, today).since == Some(today - Effective(a).value.updateLast.value)
    ensures Effective(a).value.updateLast.None? ==> Handle(a, today).since == Effective(a).value.updateSince
  {
  }

  /** Explicit arguments win over a shortcut's, so naming a model alongside an
      all-groups shortcut runs just that model. */
  lemma ExplicitModelWins(a: Args, today: int)
    requires !a.showOptions && a.model != "" && a.group == "" && a.startGroup == "" && a.endGroup == ""
    requires a.updateSince.None?
    requires a.shortcut == "refresh_daily" || a.shortcut == "refresh_recent"
    ensures Handle(a, today).RunModel? && Handle(a, today).model == a.model
  {
  }

  /** Every shortcut sets `update_last`, so an explicit `--update-since` with any
      shortcut is rejected as naming both. */
  lemma ShortcutRejectsUpdateSince(a: Args, today: int)
    requires !a.showOptions && a.updateSince.Some? && Shortcut(a.shortcut).Some?
    ensures Handle(a, today).Message?
  {
  }

  /** A zero `--update-last` is falsy, so a shortcut's own value replaces it:
      `--update-last 0 --shortcut refresh_daily` updates from yesterday, while
      `--update-last 0` alone with `--all` updates from today. */
  lemma ZeroUpdateLastOverridden(today: int)
    ensures Handle(Args("", "", "", "", "refresh_daily", false, true, None, Some(0), false), today)
            == RunEverything(true, Some(today - 1))
    ensures Handle(Args("", "", "", "", "", true, true, None, Some(0), false), today)
            == RunEverything(true, Some(today))
  {
  }

  /** Carries out an outcome on an import register: showing the tables or a
      message runs nothing; one model runs alone or raises having run nothing; an
      unknown group, or a range with an unknown end, raises before anything runs; everything on a
      complete register never raises. */
  function Execute(reg: ImportRegister, o: Outcome): (r: RunResult)
    ensures o.ShowTables? || o.Message? ==> r == RunResult([], None)
    ensures o.RunModel? ==> (r.error.None? <==> |r.ran| == 1) && |r.ran| <= 1
    ensures o.RunGroupNamed? && OrderFromName(o.group).None? ==> r.ran == [] && r.error.Some?
    ensures o.RunRange? && (OrderFromName(o.start).None? || OrderFromName(o.end).None?) ==>
      r.ran == [] && r.error.Some?
    ensures o.RunEverything? && Complete(reg) ==> r.error.None?
  {
    match o
    case ShowTables => RunResult([], None)
    case Message(_) => RunResult([], None)
    case RunModel(m, q, s) =>
      (match RunImport(reg, m, q, s)
       case Success(c) => RunResult([c], None)
       case Failure(e) => RunResult([], Some(e)))
    case RunGroupNamed(g, q, s) => RunGroup(reg, g, q, s)
    case RunRange(lo, hi, q, s) => RunGroupRange(reg, lo, hi, q, s)
    case RunEverything(q, s) => RunAll(reg, q, s)
  }

  /** `refresh_policies` runs the policy groups, in order, from a week ago. */
  lemma RefreshPoliciesRuns(reg: ImportRegister, today: int)
    ensures var a := Args("", "", "", "", "refresh_policies", false, false, None, None, false);
      Execute(reg, Handle(a, today)) == RunOrders(reg, [Policies, PrepPolicycalc, Policycalc], false, Some(today - 7))
  {
    var a := Args("", "", "", "", "refresh_policies", false, false, None, None, false);
    assert Effective(a) == Some(a.(startGroup := "policies", endGroup := "policycalc", updateLast := Some(7)));
    assert Handle(a, today) == RunRange("policies", "policycalc", false, Some(today - 7));
    PolicyRangeRuns(reg, "policies", "policycalc", Some(today - 7));
  }

  /** Running the groups from "policies" to "policycalc" runs the three policy groups. */
  lemma PolicyRangeRuns(reg: ImportRegister, lo: string, hi: string, since: Option<int>)
    requires lo == "policies" && hi == "policycalc"
    ensures RunGroupRange(reg, lo, hi, false, since) == RunOrders(reg, [Policies, PrepPolicycalc, Policycalc], false, since)
  {
    PolicyGroupNames(lo, hi);
    PolicyGroupsBetween();
  }

  lemma PolicyGroupNames(lo: string, hi: string)
    requires lo == "policies" && hi == "policycalc"
    ensures OrderFromName(lo) == Some(Policies)
    ensures OrderFromName(hi) == Some(Policycalc)
  {
    assert Upper(lo) == "POLICIES";
    assert Upper(hi) == "POLICYCALC";
  }

  lemma PolicyGroupsBetween()
    ensures GroupsBetween(Policies, Policycalc) == [Policies, PrepPolicycalc, Policycalc]
  {
    GroupsBetweenPolicy(Policies, Policycalc, [Policies, PrepPolicycalc, Policycalc]);
  }

  lemma GroupsBetweenPolicy(lo: ImportOrder, hi: ImportOrder, three: seq<ImportOrder>)
    requires lo == Policies && hi == Policycalc && three == [Policies, PrepPolicycalc, Policycalc]
    ensures GroupsBetween(lo, hi) == three
  {
    PolicySeq(GroupsBetween(lo, hi), three);
  }

  /** The ascending groups numbered from policies to policycalc are the three
      policy groups. */
  lemma PolicySeq(between: seq<ImportOrder>, three: seq<ImportOrder>)
    requires forall g :: g in between <==> OrderValue(Policies) <= OrderValue(g) <= OrderValue(Policycalc)
    requires forall i, j :: 0 <= i < j < |between| ==> OrderValue(between[i]) < OrderValue(between[j])
    requires three == [Policies, PrepPolicycalc, Policycalc]
    ensures between == three
  {
    assert forall i, j :: 0 <= i < j < |three| ==> OrderValue(three[i]) < OrderValue(three[j]);
    forall g ensures g in between <==> g in three {
      PolicyRange(g, three);
    }
    SortedUnique(between, three);
  }

  /** The groups numbered from policies to policycalc. */
  lemma PolicyRange(g: ImportOrder, three: seq<ImportOrder>)
    requires three == [Policies, PrepPolicycalc, Policycalc]
    ensures OrderValue(Policies) <= OrderValue(g) <= OrderValue(Policycalc) <==> g in three
  {
    assert g in three <==> g == Policies || g == PrepPolicycalc || g == Policycalc;
  }

  /** Two strictly ascending sequences with the same members are equal. */
  lemma {:induction false} SortedUnique(s: seq<ImportOrder>, t: seq<ImportOrder>)
    requires forall i, j :: 0 <= i < j < |s| ==> OrderValue(s[i]) < OrderValue(s[j])
    requires forall i, j :: 0 <= i < j < |t| ==> OrderValue(t[i]) < OrderValue(t[j])
    requires forall g :: g in s <==> g in t
    ensures s == t
    decreases |s| + |t|
  {
    assert |s| > 0 ==> s[0] in t;
    assert |t| > 0 ==> t[0] in s;
    if |s| > 0 {
      assert s[0] in t && t[0] in s;
      assert OrderValue(s[0]) <= OrderValue(t[0]);
      assert OrderValue(t[0]) <= OrderValue(s[0]);
      assert s[0] == t[0];
      forall g ensures g in s[1..] <==> g in t[1..] {
        if g in s[1..] { assert g != s[0]; assert g in t; }
        if g in t[1..] { assert g != t[0]; assert g in s; }
      }
      SortedUnique(s[1..], t[1..]);
    }
  }

  /** `refresh_motions_agreements` names a `download_motions` group that this
      `ImportOrder` lacks, so it raises KeyError before running anything. */
  lemma RefreshMotionsRaises(reg: ImportRegister, today: int)
    ensures var a := Args("", "", "", "", "refresh_motions_agreements", false, false, None, None, false);
      Execute(reg, Handle(a, today)).ran == [] && Execute(reg, Handle(a, today)).error.Some?
  {
    assert |Upper("download_motions")| == 16;
    assert OrderFromName("download_motions").None?;
  }
}

=== FILE: register.dfy ===
/** The import register (`src/votes/populate/register.py`): import functions are
    registered under a name and an `ImportOrder` group, and run one at a time, a
    group at a time, over a range of groups, or all registered groups in order.
    Running is modelled as the sequence of calls it makes; an exception stops the
    run, and the calls made before it stay made. */
module Register {
  import opened Wrappers
  import opened Text

  datatype ImportOrder =
    | Download | Chambers | People | Lookups | Motions | ApiVotes | Decisions
    | PreBreakdowns | Breakdowns | DivisionAnalysis | Votes | PersonStats
    | Policies | PrepPolicycalc | Policycalc

  function OrderValue(g: ImportOrder): int {
    match g
    case Download => 1
    case Chambers => 4
    case People => 5
    case Lookups => 10
    case Motions => 13
    case ApiVotes => 14
    case Decisions => 15
    case PreBreakdowns => 16
    case Breakdowns => 17
    case DivisionAnalysis => 18
    case Votes => 19
    case PersonStats => 20
    case Policies => 23
    case PrepPolicycalc => 25
    case Policycalc => 30
  }

  function OrderName(g: ImportOrder): string {
    match g
    case Download => "DOWNLOAD"
    case Chambers => "CHAMBERS"
    case People => "PEOPLE"
    case Lookups => "LOOKUPS"
    case Motions => "MOTIONS"
    case ApiVotes => "API_VOTES"
    case Decisions => "DECISIONS"
    case PreBreakdowns => "PRE_BREAKDOWNS"
    case Breakdowns => "BREAKDOWNS"
    case DivisionAnalysis => "DIVISION_ANALYSIS"
    case Votes => "VOTES"
    case PersonStats => "PERSON_STATS"
    case Policies => "POLICIES"
    case PrepPolicycalc => "PREP_POLICYCALC"
    case Policycalc => "POLICYCALC"
  }

  /** The members in definition order, which is ascending value order. */
  const AllOrders: seq<ImportOrder> := [
    Download, Chambers, People, Lookups, Motions, ApiVotes, Decisions, PreBreakdowns,
    Breakdowns, DivisionAnalysis, Votes, PersonStats, Policies, PrepPolicycalc, Policycalc]

  lemma AllOrdersSorted(g: ImportOrder)
    ensures g in AllOrders
    ensures forall i, j :: 0 <= i < j < |AllOrders| ==> OrderValue(AllOrders[i]) < OrderValue(AllOrders[j])
  {
  }

  /** `ImportOrder[name.upper()]` */
  function OrderFromName(name: string): (r: Option<ImportOrder>)
    ensures r.Some? ==> OrderName(r.value) == Upper(name)
    ensures r.None? ==> forall g :: OrderName(g) != Upper(name)
  {
    OrderNamed(Upper(name))
  }

  /** The group whose name is exactly `u`, if any. */
  function OrderNamed(u: string): (r: Option<ImportOrder>)
    ensures r.Some? ==> OrderName(r.value) == u
    ensures r.None? ==> forall g :: OrderName(g) != u
  {
    if u == "DOWNLOAD" then Some(Download)
    else if u == "CHAMBERS" then Some(Chambers)
    else if u == "PEOPLE" then Some(People)
    else if u == "LOOKUPS" then Some(Lookups)
    else if u == "MOTIONS" then Some(Motions)
    else if u == "API_VOTES" then Some(ApiVotes)
    else if u == "DECISIONS" then Some(Decisions)
    else if u == "PRE_BREAKDOWNS" then Some(PreBreakdowns)
    else if u == "BREAKDOWNS" then Some(Breakdowns)
    else if u == "DIVISION_ANALYSIS" then Some(DivisionAnalysis)
    else if u == "VOTES" then Some(Votes)
    else if u == "PERSON_STATS" then Some(PersonStats)
    else if u == "POLICIES" then Some(Policies)
    else if u == "PREP_POLICYCALC" then Some(PrepPolicycalc)
    else if u == "POLICYCALC" then Some(Policycalc)
    else
      assert forall g :: OrderName(g) != u by {
        UnknownName(u);
      }
      None
  }

  /** A text that is none of the group names names no group. */
  lemma UnknownName(u: string)
    requires u !in AllNames
    ensures forall g :: OrderName(g) != u
  {
    forall g ensures OrderName(g) != u {
      AllOrdersSorted(g);
      assert OrderName(g) in AllNames;
    }
  }

  /** The names of all the groups. */
  const AllNames: seq<string> := [
    "DOWNLOAD", "CHAMBERS", "PEOPLE", "LOOKUPS", "MOTIONS", "API_VOTES", "DECISIONS",
    "PRE_BREAKDOWNS", "BREAKDOWNS", "DIVISION_ANALYSIS", "VOTES", "PERSON_STATS", "POLICIES",
    "PREP_POLICYCALC", "POLICYCALC"]

  /** Which of the two keyword arguments an import function's signature names. */
  datatype Signature = Signature(acceptsQuiet: bool, acceptsUpdateSince: bool)

  /** A call made to an import function; dates are day numbers. */
  datatype Call =
    | WithSince(name: string, quiet: bool, since: Option<int>)
    | QuietOnly(name: string, quiet: bool)

  datatype ImportRegister = ImportRegister(functions: map<string, Signature>, groups: map<ImportOrder, seq<string>>)

  const EmptyRegister := ImportRegister(map[], map[])

  /** `register(name, group)`: the name is appended to its group's list, creating the
      list on first use.  The function itself is recorded by `Decorate`. */
  function RegisterName(reg: ImportRegister, name: string, group: ImportOrder): (r: ImportRegister)
    ensures group in r.groups
    ensures r.groups[group] == (if group in reg.groups then reg.groups[group] else []) + [name]
    ensures forall g :: g != group ==> (g in r.groups <==> g in reg.groups)
    ensures forall g :: g != group && g in reg.groups ==> r.groups[g] == reg.groups[g]
    ensures r.functions == reg.functions
  {
    var existing := if group in reg.groups then reg.groups[group] else [];
    reg.(groups := reg.groups[group := existing + [name]])
  }

  /** The decorator `register` returns: it maps the name to the function. */
  function Decorate(reg: ImportRegister, name: string, sig: Signature): (r: ImportRegister)
    ensures r.functions == reg.functions[name := sig]
    ensures r.groups == reg.groups
  {
    reg.(functions := reg.functions[name := sig])
  }

  /** A register in which every registered name has its function. */
  predicate Complete(reg: ImportRegister) {
    forall g :: g in reg.groups ==> forall i :: 0 <= i < |reg.groups[g]| ==> reg.groups[g][i] in reg.functions
  }

  /** Registering with the decorator applied keeps a register complete. */
  lemma RegisterKeepsComplete(reg: ImportRegister, name: string, group: ImportOrder, sig: Signature)
    requires Complete(reg)
    ensures Complete(Decorate(RegisterName(reg, name, group), name, sig))
  {
  }

  /** `run_import`: the function is called with `update_since` when it accepts it,
      else with `quiet` alone; an unknown name raises KeyError and a function that
      accepts neither raises TypeError. */
  function RunImport(reg: ImportRegister, slug: string, quiet: bool, since: Option<int>): (r: Result<Call, Error>)
    ensures slug !in reg.functions ==> r.Failure? && r.error.KeyError?
    ensures slug in reg.functions && reg.functions[slug].acceptsUpdateSince ==> r == Success(WithSince(slug, quiet, since))
    ensures slug in reg.functions && !reg.functions[slug].acceptsUpdateSince && reg.functions[slug].acceptsQuiet
            ==> r == Success(QuietOnly(slug, quiet))
    ensures slug in reg.functions && !reg.functions[slug].acceptsUpdateSince && !reg.functions[slug].acceptsQuiet
            ==> r.Failure? && r.error.TypeError?
  {
    if slug !in reg.functions then Failure(KeyError(slug))
    else
      var sig := reg.functions[slug];
      if sig.acceptsUpdateSince then Success(WithSince(slug, quiet, since))
      else if sig.acceptsQuiet then Success(QuietOnly(slug, quiet))
      else Failure(TypeError("Function " + slug + " does not accept 'quiet' or 'update_since'"))
  }

  /** The calls a run made, and the exception that stopped it, if any. */
  datatype RunResult = RunResult(ran: seq<Call>, error: Option<Error>)

  /** The call `run_group` makes for one function; a function accepting neither
      argument is skipped without error. */
  function GroupCall(slug: string, sig: Signature, quiet: bool, since: Option<int>): seq<Call> {
    if sig.acceptsUpdateSince then [WithSince(slug, quiet, since)]
    else if sig.acceptsQuiet then [QuietOnly(slug, quiet)]
    else []
  }

  function GroupCalls(reg: ImportRegister, slugs: seq<string>, quiet: bool, since: Option<int>): (r: seq<Call>)
    requires forall i :: 0 <= i < |slugs| ==> slugs[i] in reg.functions
    ensures |r| <= |slugs|
    decreases |slugs|
  {
    if |slugs| == 0 then []
    else GroupCall(slugs[0], reg.functions[slugs[0]], quiet, since) + GroupCalls(reg, slugs[1..], quiet, since)
  }

  /** `run_group` on a resolved group. */
  function RunOrder(reg: ImportRegister, g: ImportOrder, quiet: bool, since: Option<int>): (r: RunResult)
    ensures g !in reg.groups ==> r == RunResult([], Some(KeyError(OrderName(g))))
    ensures r.error.None? ==> g in reg.groups
    ensures r.error.Some? ==> r.ran == []
  {
    if g !in reg.groups then RunResult([], Some(KeyError(OrderName(g))))
    else
      var slugs := reg.groups[g];
      if exists i :: 0 <= i < |slugs| && slugs[i] !in reg.functions then RunResult([], Some(KeyError("unregistered import function")))
      else RunResult(GroupCalls(reg, slugs, quiet, since), None)
  }

  /** `run_group(name)`: an unknown name or a group nobody registered raises before
      anything runs. */
  function RunGroup(reg: ImportRegister, name: string, quiet: bool, since: Option<int>): (r: RunResult)
    ensures OrderFromName(name).None? ==> r.ran == [] && r.error.Some?
    ensures OrderFromName(name).Some? ==> r == RunOrder(reg, OrderFromName(name).value, quiet, since)
  {
    match OrderFromName(name)
    case None => RunResult([], Some(KeyError(name)))
    case Some(g) => RunOrder(reg, g, quiet, since)
  }

  /** When every function of a group accepts `quiet`, `run_group` calls each of them
      once, in registration order. */
  lemma {:induction false} GroupCallsInOrder(reg: ImportRegister, slugs: seq<string>, quiet: bool, since: Option<int>)
    requires forall i :: 0 <= i < |slugs| ==> slugs[i] in reg.functions
    requires forall i :: 0 <= i < |slugs| ==> reg.functions[slugs[i]].acceptsQuiet || reg.functions[slugs[i]].acceptsUpdateSince
    ensures |GroupCalls(reg, slugs, quiet, since)| == |slugs|
    ensures forall i :: 0 <= i < |slugs| ==> GroupCalls(reg, slugs, quiet, since)[i].name == slugs[i]
    decreases |slugs|
  {
    if |slugs| > 0 {
      GroupCallsInOrder(reg, slugs[1..], quiet, since);
    }
  }

  /** `run_group` never calls a function that accepts neither argument (where
      `run_import` would raise). */
  lemma {:induction false} GroupCallsSkipNeither(reg: ImportRegister, slugs: seq<string>, quiet: bool, since: Option<int>)
    requires forall i :: 0 <= i < |slugs| ==> slugs[i] in reg.functions
    ensures forall c :: c in GroupCalls(reg, slugs, quiet, since) ==>
      c.name in slugs && (reg.functions[c.name].acceptsQuiet || reg.functions[c.name].acceptsUpdateSince)
    decreases |slugs|
  {
    if |slugs| > 0 {
      GroupCallsSkipNeither(reg, slugs[1..], quiet, since);
    }
  }

  /** Runs groups one after the other, stopping at the first exception. */
  function RunOrders(reg: ImportRegister, gs: seq<ImportOrder>, quiet: bool, since: Option<int>): (r: RunResult)
    decreases |gs|
  {
    if |gs| == 0 then RunResult([], None)
    else
      var first := RunOrder(reg, gs[0], quiet, since);
      if first.error.Some? then first
      else
        var rest := RunOrders(reg, gs[1..], quiet, since);
        RunResult(first.ran + rest.ran, rest.error)
  }

  /** The groups between two bounds, in ascending order. */
  function GroupsBetween(lo: ImportOrder, hi: ImportOrder): (r: seq<ImportOrder>)
    ensures forall g :: g in r <==> OrderValue(lo) <= OrderValue(g) <= OrderValue(hi)
    ensures forall i, j :: 0 <= i < j < |r| ==> OrderValue(r[i]) < OrderValue(r[j])
  {
    AllOrdersSorted(lo);
    var r := FilterBetween(AllOrders, lo, hi);
    forall g ensures g in r <==> OrderValue(lo) <= OrderValue(g) <= OrderValue(hi) {
      AllOrdersSorted(g);
    }
    r
  }

  function FilterBetween(gs: seq<ImportOrder>, lo: ImportOrder, hi: ImportOrder): (r: seq<ImportOrder>)
    requires forall i, j :: 0 <= i < j < |gs| ==> OrderValue(gs[i]) < OrderValue(gs[j])
    ensures forall g :: g in r <==> g in gs && OrderValue(lo) <= OrderValue(g) <= OrderValue(hi)
    ensures forall i, j :: 0 <= i < j < |r| ==> OrderValue(r[i]) < OrderValue(r[j])
    decreases |gs|
  {
    if |gs| == 0 then []
    else
      var rest := FilterBetween(gs[1..], lo, hi);
      if OrderValue(lo) <= OrderValue(gs[0]) <= OrderValue(hi) then
        assert forall j :: 0 <= j < |rest| ==> rest[j] in gs[1..];
        [gs[0]] + rest
      else rest
  }

  /** `run_group_range`: both names are resolved first (an unknown one raises before
      anything runs), then every group from start to end is run in ascending order. */
  function RunGroupRange(reg: ImportRegister, start: string, end: string, quiet: bool, since: Option<int>): (r: RunResult)
    ensures OrderFromName(start).None? || OrderFromName(end).None? ==> r.ran == [] && r.error.Some?
    ensures OrderFromName(start).Some? && OrderFromName(end).Some? ==>
      r == RunOrders(reg, GroupsBetween(OrderFromName(start).value, OrderFromName(end).value), quiet, since)
  {
    match (OrderFromName(start), OrderFromName(end))
    case (Some(lo), Some(hi)) => RunOrders(reg, GroupsBetween(lo, hi), quiet, since)
    case (None, _) => RunResult([], Some(KeyError(start)))
    case (_, None) => RunResult([], Some(KeyError(end)))
  }

  /** Running a list of groups without error is running each group in turn. */
  lemma {:induction false} RunOrdersNeedsRegistered(reg: ImportRegister, gs: seq<ImportOrder>, quiet: bool, since: Option<int>)
    requires RunOrders(reg, gs, quiet, since).error.None?
    ensures forall g :: g in gs ==> g in reg.groups
    decreases |gs|
  {
    if |gs| > 0 {
      RunOrdersNeedsRegistered(reg, gs[1..], quiet, since);
    }
  }

  /** A group in the range that nobody registered stops the run there: the groups
      before it have run, and nothing after it does. */
  lemma {:induction false} RunOrdersStopsAtMissing(reg: ImportRegister, gs: seq<ImportOrder>, k: nat, quiet: bool, since: Option<int>)
    requires k < |gs| && gs[k] !in reg.groups
    requires forall i :: 0 <= i < k ==> RunOrder(reg, gs[i], quiet, since).error.None?
    ensures RunOrders(reg, gs, quiet, since).error == Some(KeyError(OrderName(gs[k])))
    ensures RunOrders(reg, gs, quiet, since).ran == RunOrders(reg, gs[..k], quiet, since).ran
    decreases k
  {
    if k > 0 {
      RunOrdersStopsAtMissing(reg, gs[1..], k - 1, quiet, since);
      assert gs[1..][..k - 1] == gs[..k][1..];
    }
  }

  /** The registered groups sorted by value. */
  function RegisteredGroups(reg: ImportRegister): (r: seq<ImportOrder>)
    ensures forall g :: g in r <==> g in reg.groups
    ensures forall i, j :: 0 <= i < j < |r| ==> OrderValue(r[i]) < OrderValue(r[j])
  {
    AllOrdersSorted(Download);
    var r := FilterIn(AllOrders, reg);
    forall g ensures g in r <==> g in reg.groups {
      AllOrdersSorted(g);
    }
    r
  }

  function FilterIn(gs: seq<ImportOrder>, reg: ImportRegister): (r: seq<ImportOrder>)
    requires forall i, j :: 0 <= i < j < |gs| ==> OrderValue(gs[i]) < OrderValue(gs[j])
    ensures forall g :: g in r <==> g in gs && g in reg.groups
    ensures forall i, j :: 0 <= i < j < |r| ==> OrderValue(r[i]) < OrderValue(r[j])
    decreases |gs|
  {
    if |gs| == 0 then []
    else
      var rest := FilterIn(gs[1..], reg);
      if gs[0] in reg.groups then
        assert forall j :: 0 <= j < |rest| ==> rest[j] in gs[1..];
        [gs[0]] + rest
      else rest
  }

  /** `run_all`: every registered group, in ascending order of value. On a
      complete register it never raises: it only visits groups that exist. */
  function RunAll(reg: ImportRegister, quiet: bool, since: Option<int>): (r: RunResult)
    ensures Complete(reg) ==> r.error.None?
  {
    if Complete(reg) then
      RunOrdersOfRegistered(reg, RegisteredGroups(reg), quiet, since);
      RunOrders(reg, RegisteredGroups(reg), quiet, since)
    else RunOrders(reg, RegisteredGroups(reg), quiet, since)
  }

  lemma {:induction false} RunOrdersOfRegistered(reg: ImportRegister, gs: seq<ImportOrder>, quiet: bool, since: Option<int>)
    requires Complete(reg)
    requires forall g :: g in gs ==> g in reg.groups
    ensures RunOrders(reg, gs, quiet, since).error.None?
    decreases |gs|
  {
    if |gs| > 0 {
      RunOrdersOfRegistered(reg, gs[1..], quiet, since);
    }
  }
}

=== FILE: routes.dfy ===
/** URL routing helpers (`twfy_votes/helpers/routes.py`): the two path converters
    and `RouteApp.route`, which rewrites `{name:type}` and `{name}` placeholders
    into Django's `<type:name>` and `<name>` and appends one pattern per call. */
module Routes {
  import opened Wrappers
  import opened Text
  import opened Dates

  // ---------------------------------------------------------------------------
  // Converters

  /** `ISODateConverter.to_python`: called only on text its regex
      `\d{4}-\d{2}-\d{2}` matched; out-of-range fields are a ValueError, which
      the router reads as "no match". */
  function DateToPython(value: string): (r: Result<Date, Error>)
    requires IsoShaped(value)
    ensures r.Success? ==> Valid(r.value)
    ensures r.Failure? ==> r.error.ValueError?
  {
    match FromIso(value)
    case Some(d) => Success(d)
    case None => Failure(ValueError("Invalid isoformat string: " + value))
  }

  /** `ISODateConverter.to_url` */
  function DateToUrl(d: Date): (r: string)
    requires Valid(d)
    ensures IsoShaped(r)
  {
    IsoRoundTrip(d);
    IsoFormat(d)
  }

  /** The date converter round-trips both ways: a date goes to its URL text and
      back, and any URL text it accepts is the canonical rendering of its date. */
  lemma DateConverterRoundTrip(d: Date, value: string)
    requires Valid(d)
    requires IsoShaped(value)
    ensures DateToPython(DateToUrl(d)) == Success(d)
    ensures DateToPython(value).Success? ==> DateToUrl(DateToPython(value).value) == value
  {
    IsoRoundTrip(d);
    if FromIso(value).Some? {
      IsoCanonical(value);
    }
  }

  /** The character class `[a-z0-9.]`. */
  predicate SlugChar(c: char) { IsLowerLetter(c) || IsDigit(c) || c == '.' }

  /** How many characters of the class start `s`. */
  function SlugRun(s: string): (n: nat)
    ensures n <= |s|
    ensures forall i :: 0 <= i < n ==> SlugChar(s[i])
    ensures n < |s| ==> !SlugChar(s[n])
    decreases |s|
  {
    if |s| > 0 && SlugChar(s[0]) then 1 + SlugRun(s[1..]) else 0
  }

  /** `StringNotJson.regex`, `[a-z0-9.]+(?<!\.json)`, matched against a whole path
      segment: one or more class characters, and the look-behind refuses a match
      that ends just after `.json`. */
  function MatchesNotJson(value: string): (r: bool)
    ensures r <==> |value| > 0 && (forall i :: 0 <= i < |value| ==> SlugChar(value[i]))
                   && !EndsWith(value, ".json")
  {
    var n := SlugRun(value);
    n > 0 && n == |value| && !(|value| >= 5 && value[|value| - 5..] == ".json")
  }

  /** `StringNotJson.to_python` / `to_url` */
  function NotJsonToPython(value: string): string { value }
  function NotJsonToUrl(value: string): string { value }

  /** Values the converter takes are the ones it hands back in URLs, and none of
      them names a `.json` file. */
  lemma NotJsonRoundTrip(value: string)
    requires MatchesNotJson(value)
    ensures MatchesNotJson(NotJsonToUrl(NotJsonToPython(value)))
    ensures !EndsWith(NotJsonToPython(value), ".json")
  {
  }

  /** `x.json` never matches, while `x.jsonx` and the bare `json` do. */
  lemma JsonExamples()
    ensures !MatchesNotJson("votes.json")
    ensures MatchesNotJson("votes.jsonl")
    ensures MatchesNotJson("json")
  {
    JsonRefused("votes.json");
    JsonlAccepted("votes.jsonl");
    SlugAccepted("json");
  }

  lemma JsonRefused(v: string)
    requires v == "votes.json"
    ensures !MatchesNotJson(v)
  {
    assert v[5..] == ".json";
  }

  lemma JsonlAccepted(v: string)
    requires v == "votes.jsonl"
    ensures MatchesNotJson(v)
  {
    assert v[|v| - 5..] != ".json" by {
      assert v[|v| - 5] == 'j';
    }
    assert forall i :: 0 <= i < |v| ==> SlugChar(v[i]);
  }

  lemma SlugAccepted(v: string)
    requires v == "json"
    ensures MatchesNotJson(v)
  {
    assert forall i :: 0 <= i < |v| ==> SlugChar(v[i]);
  }

  // ---------------------------------------------------------------------------
  // Placeholder rewriting

  /** How many word characters (`\w`) start `s`. */
  function WordRun(s: string): (n: nat)
    ensures n <= |s|
    ensures forall i :: 0 <= i < n ==> IsWordChar(s[i])
    ensures n < |s| ==> !IsWordChar(s[n])
    decreases |s|
  {
    if |s| > 0 && IsWordChar(s[0]) then 1 + WordRun(s[1..]) else 0
  }

  predicate IsWord(s: string) { |s| > 0 && forall i :: 0 <= i < |s| ==> IsWordChar(s[i]) }

  /** A word followed by a non-word character is exactly the run at the start. */
  lemma WordRunOf(w: string, rest: string)
    requires IsWord(w)
    requires |rest| > 0 && !IsWordChar(rest[0])
    ensures WordRun(w + rest) == |w|
  {
    assert (w + rest)[|w|] == rest[0];
    assert forall i :: 0 <= i < |w| ==> (w + rest)[i] == w[i];
  }

  /** A match of `{(\w+):(\w+)}` at the start of `s`: the two groups and where the
      match ends.  `\w+` is greedy and `:` is not a word character, so the first
      run is always taken whole. */
  function TypedAt(s: string): Option<(string, string, nat)> {
    if |s| == 0 || s[0] != '{' then None
    else
      var n := WordRun(s[1..]);
      if n == 0 || 1 + n >= |s| || s[1 + n] != ':' then None
      else
        var t := WordRun(s[2 + n..]);
        if t == 0 || 2 + n + t >= |s| || s[2 + n + t] != '}' then None
        else Some((s[1..1 + n], s[2 + n..2 + n + t], 3 + n + t))
  }

  /** A match of `{(\w+)}` at the start of `s`: the group and where the match ends. */
  function PlainAt(s: string): Option<(string, nat)> {
    if |s| == 0 || s[0] != '{' then None
    else
      var n := WordRun(s[1..]);
      if n == 0 || 1 + n >= |s| || s[1 + n] != '}' then None
      else Some((s[1..1 + n], 2 + n))
  }

  /** `re.sub(r"{(\w+):(\w+)}", r"<\2:\1>", s)`: left to right, each match
      replaced, and on no match one character copied. */
  function TypedSub(s: string): string
    decreases |s|
  {
    if |s| == 0 then ""
    else match TypedAt(s)
      case Some((name, typ, e)) => "<" + typ + ":" + name + ">" + TypedSub(s[e..])
      case None => [s[0]] + TypedSub(s[1..])
  }

  /** `re.sub(r"{(\w+)}", r"<\1>", s)` */
  function PlainSub(s: string): string
    decreases |s|
  {
    if |s| == 0 then ""
    else match PlainAt(s)
      case Some((name, e)) => "<" + name + ">" + PlainSub(s[e..])
      case None => [s[0]] + PlainSub(s[1..])
  }

  /** The rewrite `route` applies before handing the pattern to Django; a route
      without any `{` is handed on as written. */
  function Convert(route: string): (r: string)
    ensures '{' !in route ==> r == route
  {
    if '{' in route then PlainSub(TypedSub(route))
    else
      BraceFreeTyped(route, "");
      BraceFreePlain(route, "");
      assert route + "" == route;
      PlainSub(TypedSub(route))
  }

  /** A route, read as a sequence of literal characters and placeholders. */
  datatype Piece = Lit(c: char) | Typed(name: string, typ: string) | Var(name: string)

  predicate WellFormedPiece(p: Piece) {
    match p
    case Lit(c) => c != '{'
    case Typed(n, t) => IsWord(n) && IsWord(t)
    case Var(n) => IsWord(n)
  }

  /** How the piece is written in a `route(...)` call. */
  function RouteText(p: Piece): string {
    match p
    case Lit(c) => [c]
    case Typed(n, t) => "{" + n + ":" + t + "}"
    case Var(n) => "{" + n + "}"
  }

  /** How Django's `path()` expects the piece. */
  function PathText(p: Piece): string {
    match p
    case Lit(c) => [c]
    case Typed(n, t) => "<" + t + ":" + n + ">"
    case Var(n) => "<" + n + ">"
  }

  function Concat(ps: seq<Piece>, f: Piece -> string): string
    decreases |ps|
  {
    if |ps| == 0 then "" else f(ps[0]) + Concat(ps[1..], f)
  }

  /** After the first pass a piece is in its final form, except that a plain
      placeholder is still in braces. */
  function AfterTyped(p: Piece): string {
    match p
    case Typed(n, t) => "<" + t + ":" + n + ">"
    case _ => RouteText(p)
  }

  lemma TypedSubTyped(n: string, t: string, rest: string)
    requires IsWord(n) && IsWord(t)
    ensures TypedSub("{" + n + ":" + t + "}" + rest) == "<" + t + ":" + n + ">" + TypedSub(rest)
  {
    var s := "{" + n + ":" + t + "}" + rest;
    assert s[1..] == n + (":" + t + "}" + rest);
    WordRunOf(n, ":" + t + "}" + rest);
    assert s[2 + |n|..] == t + ("}" + rest);
    WordRunOf(t, "}" + rest);
    assert s[1 + |n|] == ':' && s[2 + |n| + |t|] == '}';
    assert s[1..1 + |n|] == n && s[2 + |n|..2 + |n| + |t|] == t;
    assert TypedAt(s) == Some((n, t, 3 + |n| + |t|));
    assert s[3 + |n| + |t|..] == rest;
  }

  /** A plain placeholder is not a typed one. */
  lemma VarNotTyped(n: string, rest: string)
    requires IsWord(n)
    ensures TypedAt("{" + n + "}" + rest).None?
  {
    var s := "{" + n + "}" + rest;
    assert s[1..] == n + ("}" + rest);
    WordRunOf(n, "}" + rest);
    assert s[1 + |n|] == '}';
  }

  /** The first pass copies the brace of a plain placeholder. */
  lemma VarBraceCopied(n: string, rest: string)
    requires IsWord(n)
    ensures TypedSub("{" + n + "}" + rest) == "{" + TypedSub(n + "}" + rest)
  {
    var s := "{" + n + "}" + rest;
    VarNotTyped(n, rest);
    TypedSubCopies(s);
    assert s[1..] == n + "}" + rest;
  }

  lemma WordNoBrace(n: string)
    requires IsWord(n)
    ensures '{' !in n + "}"
  {
    assert forall i :: 0 <= i < |n| ==> IsWordChar(n[i]);
  }

  lemma TypedSubVar(n: string, rest: string)
    requires IsWord(n)
    ensures TypedSub("{" + n + "}" + rest) == "{" + n + "}" + TypedSub(rest)
  {
    var a := n + "}";
    var tail := TypedSub(rest);
    VarBraceCopied(n, rest);
    assert TypedSub(a + rest) == a + tail by {
      WordNoBrace(n);
      BraceFreeTyped(a, rest);
    }
    Regroup("{", n, "}", tail);
  }

  lemma Regroup(a: string, b: string, c: string, d: string)
    ensures a + (b + c + d) == a + b + c + d
  {
  }

  /** The first pass rewrites one leading piece and continues after it. */
  lemma TypedSubPiece(p: Piece, rest: string)
    requires WellFormedPiece(p)
    ensures TypedSub(RouteText(p) + rest) == AfterTyped(p) + TypedSub(rest)
  {
    match p
    case Lit(c) =>
      assert ([c] + rest)[1..] == rest;
    case Typed(n, t) =>
      TypedSubTyped(n, t, rest);
    case Var(n) =>
      TypedSubVar(n, rest);
  }

  lemma TypedSubCopies(s: string)
    requires |s| > 0 && TypedAt(s).None?
    ensures TypedSub(s) == [s[0]] + TypedSub(s[1..])
  {
  }

  lemma PlainSubCopies(s: string)
    requires |s| > 0 && s[0] != '{'
    ensures PlainSub(s) == [s[0]] + PlainSub(s[1..])
  {
  }

  /** Text without `{` passes through the first pass unchanged. */
  lemma {:induction false} BraceFreeTyped(a: string, rest: string)
    requires '{' !in a
    ensures TypedSub(a + rest) == a + TypedSub(rest)
    decreases |a|
  {
    if |a| > 0 {
      var tail := a[1..];
      HeadSplit(a, rest, TypedSub(rest));
      assert TypedSub(a + rest) == [a[0]] + TypedSub(tail + rest) by {
        assert a[0] in a;
        assert TypedAt(a + rest).None?;
        TypedSubCopies(a + rest);
      }
      assert '{' !in tail by {
        assert forall c :: c in tail ==> c in a;
      }
      BraceFreeTyped(tail, rest);
    } else {
      assert a + rest == rest;
    }
  }

  /** Text without `{` passes through the second pass unchanged. */
  lemma {:induction false} BraceFreePlain(a: string, rest: string)
    requires '{' !in a
    ensures PlainSub(a + rest) == a + PlainSub(rest)
    decreases |a|
  {
    if |a| > 0 {
      var tail := a[1..];
      HeadSplit(a, rest, PlainSub(rest));
      assert PlainSub(a + rest) == [a[0]] + PlainSub(tail + rest) by {
        assert a[0] in a;
        PlainSubCopies(a + rest);
      }
      assert '{' !in tail by {
        assert forall c :: c in tail ==> c in a;
      }
      BraceFreePlain(tail, rest);
    } else {
      assert a + rest == rest;
    }
  }

  /** The first character and the rest of a non-empty text followed by more. */
  lemma HeadSplit(a: string, rest: string, out: string)
    requires |a| > 0
    ensures (a + rest)[0] == a[0] && (a + rest)[1..] == a[1..] + rest
    ensures a + out == [a[0]] + (a[1..] + out)
  {
    assert a == [a[0]] + a[1..];
  }

  /** The second pass turns a leading piece of the first pass's output into its
      final form. */
  lemma PlainSubPiece(p: Piece, rest: string)
    requires WellFormedPiece(p)
    ensures PlainSub(AfterTyped(p) + rest) == PathText(p) + PlainSub(rest)
  {
    match p
    case Lit(c) =>
      BraceFreePlain([c], rest);
    case Typed(n, t) =>
      assert '{' !in "<" + t + ":" + n + ">" by {
        assert forall i :: 0 <= i < |n| ==> IsWordChar(n[i]);
        assert forall i :: 0 <= i < |t| ==> IsWordChar(t[i]);
      }
      BraceFreePlain("<" + t + ":" + n + ">", rest);
    case Var(n) =>
      var s := "{" + n + "}" + rest;
      assert s[1..] == n + ("}" + rest);
      WordRunOf(n, "}" + rest);
      assert s[2 + |n|..] == rest;
      assert s[1..1 + |n|] == n;
  }

  lemma {:induction false} TypedSubPieces(ps: seq<Piece>)
    requires forall i :: 0 <= i < |ps| ==> WellFormedPiece(ps[i])
    ensures TypedSub(Concat(ps, RouteText)) == Concat(ps, AfterTyped)
    decreases |ps|
  {
    if |ps| > 0 {
      TypedSubPiece(ps[0], Concat(ps[1..], RouteText));
      TypedSubPieces(ps[1..]);
    }
  }

  lemma {:induction false} PlainSubPieces(ps: seq<Piece>)
    requires forall i :: 0 <= i < |ps| ==> WellFormedPiece(ps[i])
    ensures PlainSub(Concat(ps, AfterTyped)) == Concat(ps, PathText)
    decreases |ps|
  {
    if |ps| > 0 {
      PlainSubPiece(ps[0], Concat(ps[1..], AfterTyped));
      PlainSubPieces(ps[1..]);
    }
  }

  /** The rewrite is exact on any route made of literal characters (other than
      `{`) and placeholders with word names: `{name:type}` becomes
      `<type:name>`, `{name}` becomes `<name>`, and everything else is kept. */
  lemma ConvertPieces(ps: seq<Piece>)
    requires forall i :: 0 <= i < |ps| ==> WellFormedPiece(ps[i])
    ensures Convert(Concat(ps, RouteText)) == Concat(ps, PathText)
  {
    TypedSubPieces(ps);
    PlainSubPieces(ps);
  }

  // ---------------------------------------------------------------------------
  // The app

  /** A registered `path(route, view, kwargs=..., name=...)`. */
  datatype UrlPattern = UrlPattern(route: string, view: string, kwargs: map<string, string>, name: string)

  /** `RouteApp`: its url patterns, namespace and app name. */
  datatype RouteApp = RouteApp(urls: seq<UrlPattern>, namespace: string, appName: string)

  /** `RouteApp(app_name, namespace)` */
  function NewApp(appName: string, namespace: string): (r: RouteApp)
    ensures r.urls == [] && r.appName == appName && r.namespace == namespace
  {
    RouteApp([], namespace, appName)
  }

  /** `@app.route(route, kwargs=..., name=...)` applied to the view class named
      `view`: the pattern is rewritten, missing kwargs become `{}`, and a missing
      or empty name falls back to the view's name. */
  function Route(app: RouteApp, route: string, kwargs: Option<map<string, string>>,
                 name: Option<string>, view: string): (r: RouteApp)
    ensures |r.urls| == |app.urls| + 1 && r.urls[..|app.urls|] == app.urls
    ensures r.namespace == app.namespace && r.appName == app.appName
    ensures var p := Last(r.urls);
            p.route == Convert(route) && p.view == view
            && p.kwargs == (if kwargs.Some? then kwargs.value else map[])
            && p.name == (if name.Some? && name.value != "" then name.value else view)
  {
    var kw := if kwargs.Some? then kwargs.value else map[];
    var n := if name.Some? && name.value != "" then name.value else view;
    app.(urls := app.urls + [UrlPattern(Convert(route), view, kw, n)])
  }
}

=== FILE: scoring.dfy ===
/** Policy alignment scoring (`votes/policy_generation/scoring.py`): the scalar
    branch of `SimplifiedScore.score`.  A score of 0 means a person always voted
    with a policy, 1 always against; -1 means there was nothing to score. */
module Scoring {
  import opened Wrappers

  /** Counts of weak and strong votes, grouped together (`ScoreFloatPair`). */
  datatype ScorePair = ScorePair(weak: real, strong: real)

  /** `ScoreFloatPair.add` */
  function Add(a: ScorePair, b: ScorePair): (r: ScorePair)
    ensures r.weak - b.weak == a.weak && r.strong - b.strong == a.strong
  {
    ScorePair(a.weak + b.weak, a.strong + b.strong)
  }

  /** `ScoreFloatPair.divide`; Python raises ZeroDivisionError for a zero divisor. */
  function Divide(a: ScorePair, x: real): (r: Result<ScorePair, Error>)
    ensures x == 0.0 <==> r.Failure?
    ensures r.Success? ==> r.value.weak * x == a.weak && r.value.strong * x == a.strong
  {
    if x == 0.0 then Failure(ZeroDivisionError) else Success(ScorePair(a.weak / x, a.strong / x))
  }

  /** Adding pairs is order-independent and grouping-independent, and dividing a sum
      is the sum of the divisions. */
  lemma AddDivideLaws(a: ScorePair, b: ScorePair, c: ScorePair, x: real)
    requires x != 0.0
    ensures Add(a, b) == Add(b, a)
    ensures Add(Add(a, b), c) == Add(a, Add(b, c))
    ensures Divide(Add(a, b), x).value == Add(Divide(a, x).value, Divide(b, x).value)
  {
  }

  /** The six tallies a score is computed from. */
  datatype Tallies = Tallies(
    votesSame: ScorePair,
    votesDifferent: ScorePair,
    votesAbsent: ScorePair,
    votesAbstain: ScorePair,
    agreementsSame: ScorePair,
    agreementsDifferent: ScorePair)

  const VoteWeight := ScorePair(0.0, 10.0)
  const AgreementWeight := VoteWeight
  const AbstainTotalWeight := VoteWeight
  /** Abstentions are half marks. */
  const AbstainWeight := ScorePair(VoteWeight.weak / 2.0, VoteWeight.strong / 2.0)
  const AbsenceWeight := ScorePair(0.0, 0.0)
  const AbsenceTotalWeight := ScorePair(0.0, 0.0)

  /** Points scored against the policy. */
  function Points(t: Tallies): real {
    VoteWeight.weak * t.votesDifferent.weak
    + VoteWeight.strong * t.votesDifferent.strong
    + AbsenceWeight.weak * t.votesAbsent.weak
    + AbsenceWeight.strong * t.votesAbsent.strong
    + AbstainWeight.weak * t.votesAbstain.weak
    + AbstainWeight.strong * t.votesAbstain.strong
    + AgreementWeight.weak * t.agreementsDifferent.weak
    + AgreementWeight.strong * t.agreementsDifferent.strong
  }

  /** Points that could have been scored. */
  function Available(t: Tallies): real {
    VoteWeight.weak * (t.votesSame.weak + t.votesDifferent.weak)
    + VoteWeight.strong * (t.votesSame.strong + t.votesDifferent.strong)
    + AgreementWeight.weak * (t.agreementsSame.weak + t.agreementsDifferent.weak)
    + AgreementWeight.strong * (t.agreementsSame.strong + t.agreementsDifferent.strong)
    + AbsenceTotalWeight.weak * t.votesAbsent.weak
    + AbsenceTotalWeight.strong * t.votesAbsent.strong
    + AbstainTotalWeight.weak * t.votesAbstain.weak
    + AbstainTotalWeight.strong * t.votesAbstain.strong
  }

  /** All strong votes, including absences and abstentions. */
  function StrongTotal(t: Tallies): real {
    t.votesSame.strong + t.votesDifferent.strong + t.votesAbsent.strong + t.votesAbstain.strong
  }

  /** More than one strong absence rules out the "consistently" bands. */
  predicate FirstCap(t: Tallies) { t.votesAbsent.strong > 1.0 }

  /** Absences making up a third of the strong votes rule out the "almost always" bands. */
  predicate SecondCap(t: Tallies) {
    t.votesAbsent.strong > 0.0 && t.votesAbsent.strong >= StrongTotal(t) / 3.0
  }

  /** The score before any cap is applied. */
  function Raw(t: Tallies): real
    requires Available(t) != 0.0
  {
    Points(t) / Available(t)
  }

  /** `SimplifiedScore.score` on floats. */
  function Score(t: Tallies): (r: real)
    ensures Available(t) == 0.0 ==> r == -1.0
    ensures Available(t) != 0.0 && !FirstCap(t) && !SecondCap(t) ==> r == Raw(t)
    ensures Available(t) != 0.0 && FirstCap(t) ==> 0.05 < r < 0.95
    ensures Available(t) != 0.0 && SecondCap(t) ==> 0.15 < r < 0.85
    ensures Available(t) != 0.0 ==> r == Raw(t) || r == 0.06 || r == 0.94 || r == 0.16 || r == 0.84
    ensures Available(t) != 0.0 && 0.15 < Raw(t) < 0.85 ==> r == Raw(t)
    // the first cap lifts a near-0 score to 0.06 and lowers a near-1 score to 0.94
    ensures Available(t) != 0.0 && FirstCap(t) && !SecondCap(t) && Raw(t) <= 0.05 ==> r == 0.06
    ensures Available(t) != 0.0 && FirstCap(t) && !SecondCap(t) && Raw(t) >= 0.95 ==> r == 0.94
    ensures Available(t) != 0.0 && FirstCap(t) && !SecondCap(t) && 0.05 < Raw(t) < 0.95 ==> r == Raw(t)
    // the second cap, applied to the first-capped value, does the same at 0.16 and 0.84
    ensures Available(t) != 0.0 && SecondCap(t) && Raw(t) <= 0.15 ==> r == 0.16
    ensures Available(t) != 0.0 && SecondCap(t) && Raw(t) >= 0.85 ==> r == 0.84
  {
    if Available(t) == 0.0 then -1.0
    else
      var s0 := Raw(t);
      var s1 := if FirstCap(t) then (if s0 <= 0.05 then 0.06 else if s0 >= 0.95 then 0.94 else s0) else s0;
      if SecondCap(t) then (if s1 <= 0.15 then 0.16 else if s1 >= 0.85 then 0.84 else s1) else s1
  }

  /** The strong tallies only; weak ones have weight 0. */
  predicate SameStrong(a: Tallies, b: Tallies) {
    a.votesSame.strong == b.votesSame.strong
    && a.votesDifferent.strong == b.votesDifferent.strong
    && a.votesAbsent.strong == b.votesAbsent.strong
    && a.votesAbstain.strong == b.votesAbstain.strong
    && a.agreementsSame.strong == b.agreementsSame.strong
    && a.agreementsDifferent.strong == b.agreementsDifferent.strong
  }

  /** The points and the available points with the weights filled in. */
  lemma WeightedSums(t: Tallies)
    ensures Points(t) == 10.0 * t.votesDifferent.strong + 5.0 * t.votesAbstain.strong
                         + 10.0 * t.agreementsDifferent.strong
    ensures Available(t) == 10.0 * (t.votesSame.strong + t.votesDifferent.strong + t.votesAbstain.strong
                                    + t.agreementsSame.strong + t.agreementsDifferent.strong)
  {
  }

  /** Weak votes are informative only: changing any weak count never changes the score. */
  lemma WeakVotesIgnored(a: Tallies, b: Tallies)
    requires SameStrong(a, b)
    ensures Score(a) == Score(b)
  {
    WeightedSums(a);
    WeightedSums(b);
    assert Points(a) == Points(b) && Available(a) == Available(b);
    assert FirstCap(a) == FirstCap(b) && SecondCap(a) == SecondCap(b);
  }

  /** Strong absences add nothing to the points or to the available points; only the
      caps depend on them. */
  lemma AbsencesOnlyCap(t: Tallies, absent: ScorePair)
    ensures Points(t.(votesAbsent := absent)) == Points(t)
    ensures Available(t.(votesAbsent := absent)) == Available(t)
  {
  }

  /** Before capping, the score is the share of strong votes and agreements that went
      against the policy, an abstention counting as half a vote against. */
  lemma RawFormula(t: Tallies)
    requires Available(t) != 0.0
    ensures var against := t.votesDifferent.strong + t.votesAbstain.strong / 2.0 + t.agreementsDifferent.strong;
            var all := t.votesSame.strong + t.votesDifferent.strong + t.votesAbstain.strong
                       + t.agreementsSame.strong + t.agreementsDifferent.strong;
            all != 0.0 && Raw(t) == against / all
  {
    var against := t.votesDifferent.strong + t.votesAbstain.strong / 2.0 + t.agreementsDifferent.strong;
    var all := t.votesSame.strong + t.votesDifferent.strong + t.votesAbstain.strong
               + t.agreementsSame.strong + t.agreementsDifferent.strong;
    assert Points(t) == 10.0 * against;
    assert Available(t) == 10.0 * all;
  }

  predicate NonNegative(p: ScorePair) { p.weak >= 0.0 && p.strong >= 0.0 }

  predicate NonNegativeTallies(t: Tallies) {
    NonNegative(t.votesSame) && NonNegative(t.votesDifferent) && NonNegative(t.votesAbsent)
    && NonNegative(t.votesAbstain) && NonNegative(t.agreementsSame) && NonNegative(t.agreementsDifferent)
  }

  /** With counts (non-negative tallies) every score is -1 or lies in [0, 1]. */
  lemma ScoreRange(t: Tallies)
    requires NonNegativeTallies(t)
    ensures Available(t) != 0.0 ==> 0.0 <= Raw(t) <= 1.0
    ensures Score(t) == -1.0 || 0.0 <= Score(t) <= 1.0
  {
    if Available(t) != 0.0 {
      RawFormula(t);
      var against := t.votesDifferent.strong + t.votesAbstain.strong / 2.0 + t.agreementsDifferent.strong;
      var all := t.votesSame.strong + t.votesDifferent.strong + t.votesAbstain.strong
                 + t.agreementsSame.strong + t.agreementsDifferent.strong;
      assert 0.0 <= against <= all;
      DivisionInUnit(against, all);
    }
  }

  lemma DivisionInUnit(x: real, y: real)
    requires 0.0 <= x <= y && y != 0.0
    ensures 0.0 <= x / y <= 1.0
  {
  }

  function Pair(strong: real): ScorePair { ScorePair(0.0, strong) }

  /** Tallies with strong counts only. */
  function StrongTallies(same: real, different: real, absent: real, abstain: real, agSame: real, agDifferent: real): Tallies {
    Tallies(Pair(same), Pair(different), Pair(absent), Pair(abstain), Pair(agSame), Pair(agDifferent))
  }

  /** A strong abstention scores half a vote against, so all-abstain gives 0.5; with
      nothing but absences there is nothing to score. */
  lemma AbstainAndAbsentExamples(n: real, m: real)
    requires n > 0.0
    ensures Score(StrongTallies(0.0, 0.0, 0.0, n, 0.0, 0.0)) == 0.5
    ensures Score(StrongTallies(0.0, 0.0, m, 0.0, 0.0, 0.0)) == -1.0
  {
    RawFormula(StrongTallies(0.0, 0.0, 0.0, n, 0.0, 0.0));
  }

  /** A quarter of the strong votes against the policy gives 0.25, and the same
      proportion in agreements keeps it there. */
  lemma QuarterExamples()
    ensures Score(StrongTallies(15.0, 5.0, 0.0, 0.0, 0.0, 0.0)) == 0.25
    ensures Score(StrongTallies(15.0, 5.0, 0.0, 0.0, 15.0, 5.0)) == 0.25
    ensures Score(StrongTallies(5.0, 15.0, 0.0, 0.0, 0.0, 0.0)) == 0.75
  {
  }
}

=== FILE: statements.dfy ===
/** The statement importer's guards (`votes/populate/statements.py`): the slug
    de-duplication of `DuplicateSlugManager` and the duplicate key check run before
    anything is written.  Dates are day numbers. */
module Statements {
  import opened Wrappers
  import opened Text
  import opened Collections

  /** A slug as used on a day. */
  datatype Used = Used(date: int, slug: string)

  /** `f"{slug}-{counter}"` */
  function Suffixed(slug: string, counter: nat): (r: string)
    ensures |r| > |slug| + 1 && r[..|slug|] == slug && r[|slug|] == '-'
  {
    slug + "-" + NatToString(counter)
  }

  /** Different counters give different suffixed slugs, none equal to the slug
      itself. */
  lemma SuffixedInjective(slug: string, a: nat, b: nat)
    ensures Suffixed(slug, a) == Suffixed(slug, b) <==> a == b
    ensures Suffixed(slug, a) != slug
  {
    if Suffixed(slug, a) == Suffixed(slug, b) {
      var n := |slug| + 1;
      assert Suffixed(slug, a)[n..] == NatToString(a);
      assert Suffixed(slug, b)[n..] == NatToString(b);
      NatToStringInjective(a, b);
    }
  }

  /** The slugs tried before counter `counter`: the slug itself, then its
      suffixed forms from 2 up to `counter - 1`. */
  predicate Tried(date: int, slug: string, counter: nat, p: Used) {
    p.date == date && (p.slug == slug || exists k :: 2 <= k < counter && p.slug == Suffixed(slug, k))
  }

  /** `DuplicateSlugManager.check`: the slug unchanged if it is unused on that day,
      else the first of `slug-2`, `slug-3`, ... that is; the result is recorded as
      used. */
  method Check(used: set<Used>, slug: string, date: int) returns (r: string, recorded: set<Used>)
    ensures Used(date, slug) !in used ==> r == slug
    ensures Used(date, r) !in used
    ensures recorded == used + {Used(date, r)}
    ensures r == slug || exists n :: (n >= 2 && r == Suffixed(slug, n) && Used(date, slug) in used
      && forall k :: 2 <= k < n ==> Used(date, Suffixed(slug, k)) in used)
  {
    r := slug;
    var counter: nat := 2;
    ghost var tried: set<Used> := {};
    while Used(date, r) in used
      invariant tried <= used && |tried| == counter - 2
      invariant r == if counter == 2 then slug else Suffixed(slug, counter - 1)
      invariant forall p :: p in tried <==> p.date == date && Tried(date, slug, counter - 1, p) && counter > 2
      invariant counter > 2 ==> Used(date, slug) in used
      invariant forall k :: 2 <= k < counter - 1 ==> Used(date, Suffixed(slug, k)) in used
      decreases |used| - |tried|
    {
      assert Used(date, r) !in tried by {
        if counter > 2 {
          SuffixedInjective(slug, counter - 1, counter - 1);
          forall k | 2 <= k < counter - 1 ensures Suffixed(slug, k) != r {
            SuffixedInjective(slug, k, counter - 1);
          }
        }
      }
      tried := tried + {Used(date, r)};
      r := Suffixed(slug, counter);
      counter := counter + 1;
      assert forall p :: p in tried <==> p.date == date && Tried(date, slug, counter - 1, p) by {
        forall p ensures p in tried <==> p.date == date && Tried(date, slug, counter - 1, p) {
          if Tried(date, slug, counter - 1, p) && p.slug != slug {
            var k :| 2 <= k < counter - 1 && p.slug == Suffixed(slug, k);
            if k < counter - 2 {
              assert Tried(date, slug, counter - 2, p);
            }
          }
        }
      }
      SetSizeBound(tried, used);
    }
    recorded := used + {Used(date, r)};
    if counter > 2 {
      assert r == Suffixed(slug, counter - 1);
    }
  }

  lemma SetSizeBound(a: set<Used>, b: set<Used>)
    requires a <= b
    ensures |a| <= |b|
  {
    assert b == a + (b - a);
  }

  /** Checking a whole run: the returned slugs, paired with their days, are all
      different from each other and from the pairs used before, and all end up
      recorded. */
  method CheckAll(used: set<Used>, items: seq<Used>) returns (slugs: seq<string>, recorded: set<Used>)
    ensures |slugs| == |items|
    ensures forall i :: 0 <= i < |items| ==> Used(items[i].date, slugs[i]) !in used
    ensures forall i, j :: 0 <= i < j < |items| ==> Used(items[i].date, slugs[i]) != Used(items[j].date, slugs[j])
    ensures recorded == used + set i | 0 <= i < |items| :: Used(items[i].date, slugs[i])
  {
    slugs := [];
    recorded := used;
    var i := 0;
    while i < |items|
      invariant 0 <= i <= |items| && |slugs| == i
      invariant recorded == used + Pairs(items, slugs, i)
      invariant forall j :: 0 <= j < i ==> Used(items[j].date, slugs[j]) !in used
      invariant forall j, k :: 0 <= j < k < i ==> Used(items[j].date, slugs[j]) != Used(items[k].date, slugs[k])
    {
      var s, rec := Check(recorded, items[i].slug, items[i].date);
      forall j | 0 <= j < i ensures Used(items[j].date, slugs[j]) != Used(items[i].date, s) {
        PairsMember(items, slugs, i, j);
      }
      PairsStep(items, slugs, s);
      slugs := slugs + [s];
      recorded := rec;
      i := i + 1;
    }
  }

  /** The (day, slug) pairs of the first `n` items. */
  function Pairs(items: seq<Used>, slugs: seq<string>, n: nat): set<Used>
    requires n <= |items| && n <= |slugs|
  {
    set j | 0 <= j < n :: Used(items[j].date, slugs[j])
  }

  lemma PairsMember(items: seq<Used>, slugs: seq<string>, n: nat, j: nat)
    requires j < n <= |items| && n <= |slugs|
    ensures Used(items[j].date, slugs[j]) in Pairs(items, slugs, n)
  {
  }

  /** One more slug adds its pair. */
  lemma PairsStep(items: seq<Used>, slugs: seq<string>, s: string)
    requires |slugs| < |items|
    ensures Pairs(items, slugs + [s], |slugs| + 1) == Pairs(items, slugs, |slugs|) + {Used(items[|slugs|].date, s)}
  {
    var t := slugs + [s];
    assert forall j :: 0 <= j < |slugs| ==> t[j] == slugs[j];
  }

  // ---- the duplicate key check ----

  /** The distinct keys, each kept at its last occurrence. A `Counter` keeps first
      occurrences instead, so only the set of keys, not their order, is the same. */
  function Distinct(s: seq<string>): (r: seq<string>)
    ensures forall x :: x in r <==> x in s
    ensures NoDuplicates(r)
    decreases |s|
  {
    if |s| == 0 then []
    else
      var rest := Distinct(s[1..]);
      assert forall x :: x in s <==> x == s[0] || x in s[1..];
      if s[0] in rest then rest
      else
        assert forall i :: 0 <= i < |rest| ==> rest[i] != s[0];
        [s[0]] + rest
  }

  /** The keys that occur more than once, each once, at its last occurrence. */
  function DuplicateKeys(keys: seq<string>): (r: seq<string>)
    ensures forall k :: k in r <==> multiset(keys)[k] > 1
  {
    var d := Distinct(keys);
    Filter(d, keys)
  }

  /** The members of `d` counted more than once in `keys`. */
  function Filter(d: seq<string>, keys: seq<string>): (r: seq<string>)
    ensures forall k :: k in r <==> k in d && multiset(keys)[k] > 1
    decreases |d|
  {
    if |d| == 0 then []
    else
      assert forall x :: x in d <==> x == d[0] || x in d[1..];
      (if multiset(keys)[d[0]] > 1 then [d[0]] else []) + Filter(d[1..], keys)
  }

  /** A value at two positions of a list is counted at least twice. */
  lemma RepeatedCountsTwice(keys: seq<string>, i: int, j: int)
    requires 0 <= i < j < |keys| && keys[i] == keys[j]
    ensures multiset(keys)[keys[i]] > 1
  {
    var a, b := keys[..j], keys[j..];
    assert keys == a + b;
    assert keys[i] == a[i] && keys[j] == b[0];
    assert multiset(keys) == multiset(a) + multiset(b);
  }

  /** The check before the statements are written: when the set of keys is
      smaller than the list and some key repeats, ValueError; otherwise the keys
      go on to be written. */
  function CheckKeys(keys: seq<string>): (r: Result<seq<string>, Error>)
    ensures r.Success? ==> r.value == keys
  {
    if |keys| != |Elements(keys)| then
      var dups := DuplicateKeys(keys);
      if |dups| > 0 then Failure(ValueError("Duplicate keys found in to_create")) else Success(keys)
    else Success(keys)
  }

  /** The check fails exactly when some key repeats, and then every repeated key is
      in the reported list. */
  lemma CheckKeysSpec(keys: seq<string>)
    ensures CheckKeys(keys).Failure? <==> !NoDuplicates(keys)
    ensures forall k :: k in DuplicateKeys(keys) <==> exists i, j :: 0 <= i < j < |keys| && keys[i] == k && keys[j] == k
  {
    DistinctCard(keys);
    if !NoDuplicates(keys) {
      var i, j :| 0 <= i < j < |keys| && keys[i] == keys[j];
      RepeatedCountsTwice(keys, i, j);
      assert keys[i] in DuplicateKeys(keys);
    }
    forall k ensures k in DuplicateKeys(keys) <==> exists i, j :: 0 <= i < j < |keys| && keys[i] == k && keys[j] == k {
      if k in DuplicateKeys(keys) {
        KeyAtTwoPositions(keys, k);
      }
      if exists i, j :: 0 <= i < j < |keys| && keys[i] == k && keys[j] == k {
        var i, j :| 0 <= i < j < |keys| && keys[i] == k && keys[j] == k;
        RepeatedCountsTwice(keys, i, j);
      }
    }
  }

  /** A key counted twice is found at two positions. */
  lemma KeyAtTwoPositions(keys: seq<string>, k: string)
    requires multiset(keys)[k] > 1
    ensures exists i, j :: 0 <= i < j < |keys| && keys[i] == k && keys[j] == k
    decreases |keys|
  {
    assert keys == [keys[0]] + keys[1..];
    assert multiset(keys) == multiset{keys[0]} + multiset(keys[1..]);
    if keys[0] == k {
      assert k in keys[1..];
      var j :| 0 <= j < |keys[1..]| && keys[1..][j] == k;
      assert keys[0] == k && keys[j + 1] == k;
    } else {
      KeyAtTwoPositions(keys[1..], k);
      var i, j :| 0 <= i < j < |keys[1..]| && keys[1..][i] == k && keys[1..][j] == k;
      assert keys[i + 1] == k && keys[j + 1] == k;
    }
  }
}

=== FILE: text.dfy ===
/** String operations with Python's semantics, restricted to ASCII: case mapping,
    `in`/`find`, `replace`, `split`/`join`, `strip`, `str(int)`/`int(str)` and
    `title()`.  The rest of the model builds every message, key and slug from these. */
module Text {

  predicate IsUpper(c: char) { 'A' <= c <= 'Z' }
  predicate IsLowerLetter(c: char) { 'a' <= c <= 'z' }
  predicate IsLetter(c: char) { IsUpper(c) || IsLowerLetter(c) }
  predicate IsDigit(c: char) { '0' <= c <= '9' }

  /** The regex class `\w`, restricted to ASCII. */
  predicate IsWordChar(c: char) { IsLetter(c) || IsDigit(c) || c == '_' }

  /** `str.isspace()` and the regex class `\s`, restricted to ASCII. */
  predicate IsSpace(c: char) {
    c == ' ' || c == '\t' || c == '\n' || c == '\r' || c == '\U{0B}' || c == '\U{0C}'
    || ('\U{1C}' <= c <= '\U{1F}')
  }

  predicate AllDigits(s: string) { forall i :: 0 <= i < |s| ==> IsDigit(s[i]) }
  predicate AllSpace(s: string) { forall i :: 0 <= i < |s| ==> IsSpace(s[i]) }

  function LowerChar(c: char): char {
    if IsUpper(c) then (c as int + 32) as char else c
  }

  function UpperChar(c: char): char {
    if IsLowerLetter(c) then (c as int - 32) as char else c
  }

  /** `str.lower()` */
  function Lower(s: string): (r: string)
    ensures |r| == |s|
    ensures forall i :: 0 <= i < |s| ==> r[i] == LowerChar(s[i])
  {
    seq(|s|, i requires 0 <= i < |s| => LowerChar(s[i]))
  }

  /** `str.upper()` */
  function Upper(s: string): (r: string)
    ensures |r| == |s|
    ensures forall i :: 0 <= i < |s| ==> r[i] == UpperChar(s[i])
  {
    seq(|s|, i requires 0 <= i < |s| => UpperChar(s[i]))
  }

  /** Lower-casing is idempotent and leaves no upper-case letter behind. */
  lemma LowerIdempotent(s: string)
    ensures Lower(Lower(s)) == Lower(s)
    ensures forall i :: 0 <= i < |s| ==> !IsUpper(Lower(s)[i])
  {
  }

  lemma LowerConcat(a: string, b: string)
    ensures Lower(a + b) == Lower(a) + Lower(b)
  {
  }

  predicate StartsWith(s: string, p: string) { |p| <= |s| && s[..|p|] == p }
  predicate EndsWith(s: string, p: string) { |p| <= |s| && s[|s| - |p|..] == p }

  /** `p` occurs in `s` starting at index `i`. */
  ghost predicate OccursAt(s: string, p: string, i: int) {
    0 <= i && i + |p| <= |s| && s[i..i + |p|] == p
  }

  /** `s.find(p, k)`: the least index at or after `k` where `p` occurs, or -1. */
  function FindFrom(s: string, p: string, k: nat): (r: int)
    ensures r == -1 || (k <= r && OccursAt(s, p, r))
    ensures r == -1 ==> forall i :: k <= i ==> !OccursAt(s, p, i)
    ensures r != -1 ==> forall i :: k <= i < r ==> !OccursAt(s, p, i)
    decreases |s| - k
  {
    if k + |p| > |s| then -1
    else if s[k..k + |p|] == p then k
    else FindFrom(s, p, k + 1)
  }

  /** `s.find(p)` */
  function Find(s: string, p: string): (r: int)
    ensures r == -1 <==> forall i :: !OccursAt(s, p, i)
    ensures r != -1 ==> OccursAt(s, p, r) && forall i :: 0 <= i < r ==> !OccursAt(s, p, i)
  {
    FindFrom(s, p, 0)
  }

  /** Python's `p in s` on strings. */
  predicate Contains(s: string, p: string) {
    Find(s, p) != -1
  }

  lemma ContainsWitness(s: string, p: string, i: int)
    requires OccursAt(s, p, i)
    ensures Contains(s, p)
  {
  }

  lemma ContainsSlice(s: string, a: int, b: int)
    requires 0 <= a <= b <= |s|
    ensures Contains(s, s[a..b])
  {
    ContainsWitness(s, s[a..b], a);
  }

  /** A text found in `b` is found in anything that has `b` inside it. */
  lemma ContainsInfix(a: string, b: string, c: string, p: string)
    requires Contains(b, p)
    ensures Contains(a + b + c, p)
  {
    var j := Find(b, p);
    var s := a + b + c;
    assert s[|a| + j..|a| + j + |p|] == b[j..j + |p|];
    ContainsWitness(s, p, |a| + j);
  }

  lemma StartsWithContains(s: string, p: string)
    requires StartsWith(s, p)
    ensures Contains(s, p)
  {
    assert OccursAt(s, p, 0);
  }

  /** A string that contains `p + q` contains `p`. */
  lemma ContainsLonger(s: string, p: string, q: string)
    ensures Contains(s, p + q) ==> Contains(s, p)
  {
    forall i | OccursAt(s, p + q, i) ensures OccursAt(s, p, i) {
      assert s[i..i + |p|] == s[i..i + |p + q|][..|p|];
    }
  }

  /** A lower-cased word found in `u` is still found in the stripped prefix of `u`
      that ends with it. */
  lemma LowerWordInPrefix(u: string, j: int, p: string)
    requires 0 < |p| && !IsSpace(p[0]) && !IsSpace(p[|p| - 1])
    requires 0 <= j && j + |p| <= |u| && Lower(u)[j..j + |p|] == p
    ensures Contains(Lower(Strip(u[..j + |p|])), p)
  {
    var w := u[..j + |p|];
    LowerSlice(u, 0, j + |p|);
    assert Lower(w)[j..j + |p|] == p;
    ContainsWitness(Lower(w), p, j);
    StripKeepsLowerWord(w, p);
  }

  /** Nothing longer than a string occurs in it. */
  lemma TooLongAbsent(s: string, p: string)
    requires |s| < |p|
    ensures !Contains(s, p)
  {
  }

  /** A text whose first character is not in `s` does not occur in `s`. */
  lemma FirstCharAbsent(s: string, p: string)
    requires |p| > 0 && forall i :: 0 <= i < |s| ==> s[i] != p[0]
    ensures !Contains(s, p)
  {
    forall i | 0 <= i && i + |p| <= |s| ensures !OccursAt(s, p, i) {
      assert s[i..i + |p|][0] == s[i];
    }
  }

  /** A text as long as `s` occurs in it only if it is `s`. */
  lemma SameLengthAbsent(s: string, p: string)
    requires |s| == |p| && s != p
    ensures !Contains(s, p)
  {
    assert s[0..|p|] == s;
  }

  /** A string contains whatever its tail ends with. */
  lemma ContainsAtEnd(a: string, p: string, q: string)
    requires |q| <= |p| && p[|p| - |q|..] == q
    ensures Contains(a + p, q)
  {
    var s := a + p;
    assert s[|s| - |q|..] == q;
    ContainsWitness(s, q, |s| - |q|);
  }

  /** What a string contains, its lower-cased form contains lower-cased. */
  lemma ContainsLowered(s: string, p: string)
    ensures Contains(s, p) ==> Contains(Lower(s), Lower(p))
  {
    var j := Find(s, p);
    if j != -1 {
      LowerSlice(s, j, j + |p|);
      ContainsWitness(Lower(s), Lower(p), j);
    }
  }

  /** A lower-cased word that begins and ends with a non-space character is still
      found after the string is stripped. */
  lemma StripKeepsLowerWord(x: string, p: string)
    requires 0 < |p| && !IsSpace(p[0]) && !IsSpace(p[|p| - 1])
    ensures Contains(Lower(x), p) ==> Contains(Lower(Strip(x)), p)
  {
    var j := Find(Lower(x), p);
    if j != -1 {
      assert Lower(x)[j..j + |p|] == p;
      assert Lower(x)[j] == p[0] && Lower(x)[j + |p| - 1] == p[|p| - 1];
      LowerStripContains(x, j, p);
    }
  }

  /** `s.replace(p, r)`: every non-overlapping occurrence of `p`, scanning left to
      right, is replaced by `r`.  Patterns in the modelled code are non-empty literals. */
  function ReplaceAll(s: string, p: string, r: string): string
    requires |p| > 0
    decreases |s|
  {
    if |s| < |p| then s
    else if s[..|p|] == p then r + ReplaceAll(s[|p|..], p, r)
    else [s[0]] + ReplaceAll(s[1..], p, r)
  }

  /** Occurrences in a string with one more character in front sit one place later. */
  lemma OccursInTail(h: char, t: string, p: string, i: int)
    requires 0 <= i
    ensures OccursAt([h] + t, p, i + 1) <==> OccursAt(t, p, i)
  {
    if i + |p| <= |t| {
      assert ([h] + t)[i + 1..i + 1 + |p|] == t[i..i + |p|];
    }
  }

  /** A pattern that starts nowhere inside `a` is replaced where it follows `a`,
      and the scan carries on after it. */
  lemma {:induction false} ReplaceAfter(a: string, p: string, c: string, r: string)
    requires |p| > 0
    requires forall i :: 0 <= i < |a| ==> !OccursAt(a + p + c, p, i)
    ensures ReplaceAll(a + p + c, p, r) == a + r + ReplaceAll(c, p, r)
    decreases |a|
  {
    var s := a + p + c;
    if |a| == 0 {
      assert s[..|p|] == p;
      assert s[|p|..] == c;
    } else {
      var t := a[1..] + p + c;
      assert s == [a[0]] + t;
      assert !OccursAt(s, p, 0);
      assert ReplaceAll(s, p, r) == [a[0]] + ReplaceAll(t, p, r);
      forall i | 0 <= i < |a| - 1
        ensures !OccursAt(t, p, i)
      {
        OccursInTail(a[0], t, p, i);
      }
      ReplaceAfter(a[1..], p, c, r);
      assert a == [a[0]] + a[1..];
    }
  }

  /** A pattern added at the end of a string in which it does not start earlier is
      the only occurrence `replace` sees there. */
  lemma ReplaceSuffix(a: string, p: string, r: string)
    requires |p| > 0
    requires forall i :: 0 <= i < |a| ==> !OccursAt(a + p, p, i)
    ensures ReplaceAll(a + p, p, r) == a + r
  {
    assert a + p + "" == a + p;
    ReplaceAfter(a, p, "", r);
    assert ReplaceAll("", p, r) == "";
    assert a + r + "" == a + r;
  }

  /** A string that does not contain the pattern is left unchanged by `replace`. */
  lemma {:induction false} ReplaceAbsent(s: string, p: string, r: string)
    requires |p| > 0
    requires !Contains(s, p)
    ensures ReplaceAll(s, p, r) == s
    decreases |s|
  {
    if |s| < |p| {
    } else if s[..|p|] == p {
      assert false;
    } else {
      forall j
        ensures !OccursAt(s[1..], p, j)
      {
        if 0 <= j && j + |p| <= |s| - 1 {
          assert s[1..][j..j + |p|] == s[j + 1..j + 1 + |p|];
          assert !OccursAt(s, p, j + 1);
        }
      }
      ReplaceAbsent(s[1..], p, r);
      assert s == [s[0]] + s[1..];
    }
  }

  /** `s.split(sep)` with a non-empty separator. */
  function Split(s: string, sep: string): (parts: seq<string>)
    requires |sep| > 0
    ensures |parts| >= 1
    decreases |s|
  {
    var i := Find(s, sep);
    if i == -1 then [s] else [s[..i]] + Split(s[i + |sep|..], sep)
  }

  /** `sep.join(parts)` */
  function Join(parts: seq<string>, sep: string): string
    decreases |parts|
  {
    if |parts| == 0 then ""
    else if |parts| == 1 then parts[0]
    else parts[0] + sep + Join(parts[1..], sep)
  }

  /** Joining the pieces of a split with the same separator gives back the string. */
  lemma {:induction false} JoinSplit(s: string, sep: string)
    requires |sep| > 0
    ensures Join(Split(s, sep), sep) == s
    decreases |s|
  {
    var i := Find(s, sep);
    if i != -1 {
      var head, rest := s[..i], s[i + |sep|..];
      var tail := Split(rest, sep);
      assert Split(s, sep) == [head] + tail;
      assert Join([head] + tail, sep) == head + sep + Join(tail, sep) by {
        assert ([head] + tail)[1..] == tail;
      }
      JoinSplit(rest, sep);
      assert s == head + sep + rest by {
        assert OccursAt(s, sep, i);
        ThreeParts(s, i, |sep|);
      }
    }
  }

  lemma ThreeParts(s: string, i: nat, n: nat)
    requires i + n <= |s|
    ensures s == s[..i] + s[i..i + n] + s[i + n..]
  {
  }

  /** No piece of a split contains the separator. */
  lemma {:induction false} SplitPiecesFree(s: string, sep: string)
    requires |sep| > 0
    ensures forall k :: 0 <= k < |Split(s, sep)| ==> !Contains(Split(s, sep)[k], sep)
    decreases |s|
  {
    var i := Find(s, sep);
    var parts := Split(s, sep);
    if i != -1 {
      var rest := s[i + |sep|..];
      SplitPiecesFree(rest, sep);
      HeadFree(s, sep, i);
      assert parts == [s[..i]] + Split(rest, sep);
      forall k | 0 <= k < |parts| ensures !Contains(parts[k], sep) {
        if k > 0 {
          assert parts[k] == Split(rest, sep)[k - 1];
        }
      }
    }
  }

  /** The text before the first occurrence of `sep` does not contain it. */
  lemma HeadFree(s: string, sep: string, i: int)
    requires |sep| > 0 && i == Find(s, sep) && i != -1
    ensures !Contains(s[..i], sep)
  {
    var head := s[..i];
    if Contains(head, sep) {
      var j := Find(head, sep);
      assert head[j..j + |sep|] == s[j..j + |sep|];
      assert OccursAt(s, sep, j);
      assert false;
    }
  }

  /** Joining with one more piece at the end appends the separator and the piece. */
  lemma {:induction false} JoinSnoc(init: seq<string>, x: string, sep: string)
    ensures Join(init + [x], sep) == (if |init| == 0 then x else Join(init, sep) + sep + x)
    decreases |init|
  {
    if |init| > 1 {
      JoinSnoc(init[1..], x, sep);
      assert (init + [x])[1..] == init[1..] + [x];
    } else if |init| == 1 {
      assert init + [x] == [init[0], x];
    }
  }

  /** Splitting on a one-character separator undoes a join of pieces that do not
      contain it. */
  lemma {:induction false} SplitJoin(parts: seq<string>, c: char)
    requires |parts| >= 1
    requires forall k :: 0 <= k < |parts| ==> c !in parts[k]
    ensures Split(Join(parts, [c]), [c]) == parts
    decreases |parts|
  {
    var s := Join(parts, [c]);
    var head := parts[0];
    if |parts| == 1 {
      forall i ensures !OccursAt(s, [c], i) {
        if 0 <= i < |s| { assert s[i..i + 1] == [s[i]]; }
      }
    } else {
      var rest := Join(parts[1..], [c]);
      assert s == head + [c] + rest;
      assert OccursAt(s, [c], |head|);
      forall i | 0 <= i < |head| ensures !OccursAt(s, [c], i) {
        assert s[i..i + 1] == [head[i]];
      }
      assert Find(s, [c]) == |head|;
      assert s[..|head|] == head && s[|head| + 1..] == rest;
      SplitJoin(parts[1..], c);
    }
  }

  /** The last piece of a split is a suffix of the string, and replacing that piece
      before joining replaces that suffix: what comes before it is kept verbatim. */
  lemma JoinReplaceLast(s: string, sep: string, x: string)
    requires |sep| > 0
    ensures var parts := Split(s, sep);
            var last := parts[|parts| - 1];
            |last| <= |s| && s[|s| - |last|..] == last
            && Join(parts[..|parts| - 1] + [x], sep) == s[..|s| - |last|] + x
  {
    var parts := Split(s, sep);
    var init := parts[..|parts| - 1];
    var last := parts[|parts| - 1];
    JoinSplit(s, sep);
    assert parts == init + [last];
    JoinSnoc(init, last, sep);
    JoinSnoc(init, x, sep);
  }

  /** The last element of a non-empty sequence (Python's `xs[-1]`). */
  function Last<T>(xs: seq<T>): T
    requires |xs| > 0
  {
    xs[|xs| - 1]
  }

  /** `str.lstrip()` */
  function LStrip(s: string): (r: string)
    ensures |r| <= |s| && r == s[|s| - |r|..]
    ensures AllSpace(s[..|s| - |r|])
    ensures |r| > 0 ==> !IsSpace(r[0])
    decreases |s|
  {
    if |s| > 0 && IsSpace(s[0]) then LStrip(s[1..]) else s
  }

  /** `str.rstrip()` */
  function RStrip(s: string): (r: string)
    ensures |r| <= |s| && r == s[..|r|]
    ensures AllSpace(s[|r|..])
    ensures |r| > 0 ==> !IsSpace(r[|r| - 1])
    decreases |s|
  {
    if |s| > 0 && IsSpace(s[|s| - 1]) then RStrip(s[..|s| - 1]) else s
  }

  /** How many leading whitespace characters `strip` removes. */
  function StripStart(s: string): (k: nat)
    ensures k <= |s|
  {
    |s| - |LStrip(s)|
  }

  /** `str.strip()` */
  function Strip(s: string): (r: string)
    ensures |r| <= |s|
    ensures |r| > 0 ==> !IsSpace(r[0]) && !IsSpace(r[|r| - 1])
  {
    RStrip(LStrip(s))
  }

  /** Stripping removes only whitespace: the result sits inside `s` between two
      all-whitespace margins, and stripping twice changes nothing. */
  lemma StripIsInfix(s: string)
    ensures exists i :: 0 <= i <= |s| - |Strip(s)| && s[i..i + |Strip(s)|] == Strip(s)
              && AllSpace(s[..i]) && AllSpace(s[i + |Strip(s)|..])
    ensures Strip(Strip(s)) == Strip(s)
  {
    var l := LStrip(s);
    var r := Strip(s);
    var i := |s| - |l|;
    StripIsSlice(s);
    DropOfSuffix(s, i, |r|);
    assert AllSpace(s[..i]) && AllSpace(s[i + |r|..]);
    StripNoSpace(r);
  }

  lemma DropOfSuffix<T>(s: seq<T>, k: nat, a: nat)
    requires k + a <= |s|
    ensures s[k..][a..] == s[k + a..]
  {
  }

  /** `lstrip` stops at the first non-space character. */
  lemma LStripStopsAt(s: string, j: int)
    requires 0 <= j < |s| && !IsSpace(s[j])
    ensures StripStart(s) <= j
  {
    var k := StripStart(s);
    assert forall i :: 0 <= i < k ==> s[..k][i] == s[i];
  }

  /** `rstrip` keeps everything up to the last non-space character. */
  lemma RStripKeepsUpTo(s: string, j: int)
    requires 0 <= j < |s| && !IsSpace(s[j])
    ensures j < |RStrip(s)|
  {
    var r := RStrip(s);
    assert forall i :: |r| <= i < |s| ==> s[|r|..][i - |r|] == s[i];
  }

  lemma SliceOfSuffix(s: string, k: int, a: int, b: int)
    requires 0 <= k <= |s| && 0 <= a <= b <= |s| - k
    ensures s[k..][a..b] == s[k + a..k + b]
  {
    assert forall i :: 0 <= i < b - a ==> s[k..][a..b][i] == s[k + a + i];
  }

  lemma RStripWindow(s: string, j: int, n: int)
    requires 0 <= j && 0 < n && j + n <= |s| && !IsSpace(s[j + n - 1])
    requires StripStart(s) <= j
    ensures j + n - StripStart(s) <= |RStrip(LStrip(s))|
  {
    var l := LStrip(s);
    var k := |s| - |l|;
    assert l[j + n - 1 - k] == s[j + n - 1];
    RStripKeepsUpTo(l, j + n - 1 - k);
  }

  /** The stripped string is the slice of `s` after the leading whitespace. */
  lemma StripIsSlice(s: string)
    ensures StripStart(s) + |Strip(s)| <= |s|
    ensures Strip(s) == s[StripStart(s)..StripStart(s) + |Strip(s)|]
  {
    var l := LStrip(s);
    var k := |s| - |l|;
    var r := RStrip(l);
    assert r == l[..|r|] && l == s[k..];
    SliceOfSuffix(s, k, 0, |r|);
  }

  /** `t` is the slice of `s` from `k`, and it covers `s[j..j + n]`. */
  predicate Covers(s: string, t: string, k: int, j: int, n: int) {
    0 <= k <= j && 0 <= n && j + n <= k + |t| <= |s| && t == s[k..k + |t|]
  }

  /** A piece that starts and ends with a non-space character survives `strip`:
      the stripped string is a slice of `s` that covers the piece. */
  lemma StripKeepsInner(s: string, j: int, n: int)
    requires 0 <= j && 0 < n && j + n <= |s|
    requires !IsSpace(s[j]) && !IsSpace(s[j + n - 1])
    ensures Covers(s, Strip(s), StripStart(s), j, n)
  {
    LStripStopsAt(s, j);
    RStripWindow(s, j, n);
    StripIsSlice(s);
  }

  /** A lower-cased word of `x` whose ends are not whitespace is still found after
      `x` is stripped and lower-cased. */
  lemma LowerStripContains(x: string, j: int, p: string)
    requires 0 <= j && 0 < |p| && j + |p| <= |x|
    requires Lower(x)[j..j + |p|] == p
    requires !IsSpace(x[j]) && !IsSpace(x[j + |p| - 1])
    ensures Contains(Lower(Strip(x)), p)
  {
    StripKeepsInner(x, j, |p|);
    LowerPieceContains(x, Strip(x), StripStart(x), j, p);
  }

  /** A piece `t` of `x` that covers a lower-cased occurrence of `p` contains it
      once lower-cased. */
  lemma LowerPieceContains(x: string, t: string, k: int, j: int, p: string)
    requires Covers(x, t, k, j, |p|)
    requires Lower(x)[j..j + |p|] == p
    ensures Contains(Lower(t), p)
  {
    LowerWindowContains(x, k, k + |t|, j, p);
  }

  lemma SliceOfSlice(s: string, k: int, m: int, a: int, b: int)
    requires 0 <= k <= m <= |s| && 0 <= a <= b <= m - k
    ensures s[k..m][a..b] == s[k + a..k + b]
  {
    assert forall i :: 0 <= i < b - a ==> s[k..m][a..b][i] == s[k + a + i];
  }

  /** A slice of `x` that covers a lower-cased occurrence of `p` contains it once
      lower-cased. */
  lemma LowerWindowContains(x: string, k: int, m: int, j: int, p: string)
    requires 0 <= k <= j && j + |p| <= m <= |x|
    requires Lower(x)[j..j + |p|] == p
    ensures Contains(Lower(x[k..m]), p)
  {
    var b := x[j..j + |p|];
    assert x[k..m] == x[k..j] + b + x[j + |p|..m];
    LowerSlice(x, j, j + |p|);
    ContainsSlice(Lower(b), 0, |p|);
    LowerContainsInfix(x[k..j], b, x[j + |p|..m], p);
  }

  lemma LowerSlice(x: string, a: int, b: int)
    requires 0 <= a <= b <= |x|
    ensures Lower(x[a..b]) == Lower(x)[a..b]
  {
  }

  /** What the lower-cased middle of a string contains, the lower-cased whole
      contains. */
  lemma LowerContainsInfix(a: string, b: string, c: string, p: string)
    requires Contains(Lower(b), p)
    ensures Contains(Lower(a + b + c), p)
  {
    LowerConcat(a, b);
    LowerConcat(a + b, c);
    ContainsInfix(Lower(a), Lower(b), Lower(c), p);
  }

  /** What the lower-cased strip of a string contains, the lower-cased string
      contains. */
  lemma StripContainsLower(x: string, p: string)
    requires Contains(Lower(Strip(x)), p)
    ensures Contains(Lower(x), p)
  {
    var t := Strip(x);
    var i := StripStart(x);
    StripIsSlice(x);
    ThreeParts(x, i, |t|);
    LowerContainsInfix(x[..i], t, x[i + |t|..], p);
  }

  /** What the lower-cased piece of a split contains, the lower-cased string
      contains. */
  lemma SplitPieceContainsLower(s: string, sep: string, k: int, p: string)
    requires |sep| > 0 && 0 <= k < |Split(s, sep)|
    requires Contains(Lower(Split(s, sep)[k]), p)
    ensures Contains(Lower(s), p)
  {
    var piece := Split(s, sep)[k];
    JoinSplit(s, sep);
    var j := JoinPieceAt(Split(s, sep), sep, k);
    assert SliceAt(s, j, piece);
    ThreeParts(s, j, |piece|);
    LowerContainsInfix(s[..j], piece, s[j + |piece|..], p);
  }

  /** `t` occurs in `s` starting at `j`. */
  predicate SliceAt<T(==)>(s: seq<T>, j: int, t: seq<T>) {
    0 <= j && j + |t| <= |s| && s[j..j + |t|] == t
  }

  /** Every piece of a join is a slice of the joined text: the one returned starts at `j`. */
  lemma {:induction false} JoinPieceAt(parts: seq<string>, sep: string, k: int) returns (j: int)
    requires 0 <= k < |parts|
    ensures SliceAt(Join(parts, sep), j, parts[k])
    decreases |parts|
  {
    if |parts| == 1 {
      j := 0;
    } else {
      var tail := Join(parts[1..], sep);
      var head := parts[0] + sep;
      assert Join(parts, sep) == head + tail by {
        assert Join(parts, sep) == parts[0] + sep + tail;
      }
      if k == 0 {
        j := 0;
        assert (head + tail)[..|parts[0]|] == parts[0];
      } else {
        assert parts[k] == parts[1..][k - 1];
        var j' := JoinPieceAt(parts[1..], sep, k - 1);
        j := |head| + j';
        AppendSlice(head, tail, j', parts[k]);
      }
    }
  }

  /** A slice of the second half of a concatenation, shifted by the first half's length. */
  lemma AppendSlice<T>(a: seq<T>, b: seq<T>, j: int, t: seq<T>)
    requires SliceAt(b, j, t)
    ensures SliceAt(a + b, |a| + j, t)
  {
    assert (a + b)[|a| + j..|a| + j + |t|] == b[j..j + |t|];
  }

  /** Python's `s[lo:hi]`: negative bounds count from the end, and both bounds are
      clamped to the string. */
  function Slice(s: string, lo: int, hi: int): (r: string)
    ensures |r| <= |s|
  {
    var a := Clamp(if lo < 0 then lo + |s| else lo, |s|);
    var b := Clamp(if hi < 0 then hi + |s| else hi, |s|);
    if a < b then s[a..b] else ""
  }

  function Clamp(i: int, n: nat): (r: nat)
    ensures r <= n
  {
    if i < 0 then 0 else if i > n then n else i
  }

  /** Stripping keeps a property every character has. */
  lemma StripPreserves(s: string, P: char -> bool)
    requires forall i :: 0 <= i < |s| ==> P(s[i])
    ensures forall i :: 0 <= i < |Strip(s)| ==> P(Strip(s)[i])
  {
    var l := LStrip(s);
    SliceKeeps(s, |s| - |l|, |s|, P);
    SliceKeeps(l, 0, |RStrip(l)|, P);
  }

  /** A slice keeps a property every character has. */
  lemma SliceKeeps(s: string, a: nat, b: nat, P: char -> bool)
    requires a <= b <= |s|
    requires forall i :: 0 <= i < |s| ==> P(s[i])
    ensures forall i :: 0 <= i < b - a ==> P(s[a..b][i])
  {
    forall i | 0 <= i < b - a ensures P(s[a..b][i]) {
      assert s[a..b][i] == s[a + i];
    }
  }

  lemma StripNoSpace(s: string)
    requires |s| == 0 || (!IsSpace(s[0]) && !IsSpace(s[|s| - 1]))
    ensures Strip(s) == s
  {
  }

  /** The decimal digit for `d`. */
  function DigitChar(d: nat): char
    requires d < 10
  {
    ('0' as int + d) as char
  }

  /** `str(n)` for a natural number: decimal, no leading zeros. */
  function NatToString(n: nat): (r: string)
    ensures |r| >= 1 && AllDigits(r)
    ensures |r| > 1 ==> r[0] != '0'
    decreases n
  {
    if n < 10 then [DigitChar(n)] else NatToString(n / 10) + [DigitChar(n % 10)]
  }

  /** The value of a string of decimal digits (Python's `int(s)` on such a string). */
  function DigitsValue(s: string): nat
    requires AllDigits(s)
    decreases |s|
  {
    if |s| == 0 then 0
    else DigitsValue(s[..|s| - 1]) * 10 + (s[|s| - 1] as int - '0' as int)
  }

  /** Parsing the decimal rendering of `n` gives `n` back. */
  lemma {:induction false} NatToStringValue(n: nat)
    ensures DigitsValue(NatToString(n)) == n
    decreases n
  {
    if n >= 10 {
      NatToStringValue(n / 10);
      var r := NatToString(n);
      assert r[..|r| - 1] == NatToString(n / 10);
    }
  }

  /** Distinct numbers have distinct decimal renderings. */
  lemma NatToStringInjective(a: nat, b: nat)
    requires NatToString(a) == NatToString(b)
    ensures a == b
  {
    NatToStringValue(a);
    NatToStringValue(b);
  }

  /** `str(i)` for any integer. */
  function IntToString(i: int): (r: string)
    ensures |r| >= 1
  {
    if i < 0 then "-" + NatToString(-i) else NatToString(i)
  }

  /** An integer's rendering is digits after an optional minus sign. */
  lemma IntToStringChars(i: int)
    ensures forall k :: 0 <= k < |IntToString(i)| ==> IntToString(i)[k] == '-' || IsDigit(IntToString(i)[k])
  {
    if i < 0 {
      var t := NatToString(-i);
      assert forall k :: 1 <= k < |t| + 1 ==> ("-" + t)[k] == t[k - 1];
    }
  }

  lemma IntToStringInjective(a: int, b: int)
    requires IntToString(a) == IntToString(b)
    ensures a == b
  {
    if a < 0 && b < 0 {
      assert NatToString(-a) == IntToString(a)[1..];
      NatToStringInjective(-a, -b);
    } else if a >= 0 && b >= 0 {
      NatToStringInjective(a, b);
    }
  }

  /** `str.title()`: a letter is upper-cased when it follows a non-letter and
      lower-cased when it follows a letter; other characters are kept. */
  function Title(s: string): (r: string)
    ensures |r| == |s|
  {
    TitleAfter(s, false)
  }

  function TitleAfter(s: string, afterLetter: bool): (r: string)
    ensures |r| == |s|
    decreases |s|
  {
    if |s| == 0 then ""
    else
      var c := if afterLetter then LowerChar(s[0]) else UpperChar(s[0]);
      [c] + TitleAfter(s[1..], IsLetter(s[0]))
  }

  /** What `title()` does at each position: a letter following a letter is
      lower-cased, any other character is upper-cased. */
  lemma {:induction false} TitleAfterPointwise(s: string, afterLetter: bool)
    ensures forall i :: 0 <= i < |s| ==>
      TitleAfter(s, afterLetter)[i]
        == (if (if i == 0 then afterLetter else IsLetter(s[i - 1])) then LowerChar(s[i]) else UpperChar(s[i]))
    decreases |s|
  {
    if |s| > 0 {
      TitleAfterPointwise(s[1..], IsLetter(s[0]));
      var r := TitleAfter(s, afterLetter);
      forall i | 1 <= i < |s|
        ensures r[i] == (if IsLetter(s[i - 1]) then LowerChar(s[i]) else UpperChar(s[i]))
      {
        assert r[i] == TitleAfter(s[1..], IsLetter(s[0]))[i - 1];
        assert s[1..][i - 1] == s[i];
        if i >= 2 {
          assert s[1..][i - 2] == s[i - 1];
        }
      }
    }
  }

  /** Replacing a single character by a single character works position by position. */
  lemma {:induction false} ReplaceCharPointwise(s: string, a: char, b: char)
    ensures |ReplaceAll(s, [a], [b])| == |s|
    ensures forall i :: 0 <= i < |s| ==> ReplaceAll(s, [a], [b])[i] == (if s[i] == a then b else s[i])
    decreases |s|
  {
    if |s| > 0 {
      ReplaceCharPointwise(s[1..], a, b);
      var r := ReplaceAll(s, [a], [b]);
      assert r == [if s[0] == a then b else s[0]] + ReplaceAll(s[1..], [a], [b]);
      forall i | 1 <= i < |s|
        ensures r[i] == (if s[i] == a then b else s[i])
      {
        assert s[1..][i - 1] == s[i];
      }
    }
  }

  /** A character occurs in a string exactly when the one-character text does. */
  lemma CharContained(s: string, c: char)
    ensures c in s <==> Contains(s, [c])
  {
    if c in s {
      var i :| 0 <= i < |s| && s[i] == c;
      assert s[i..i + 1] == [c];
      ContainsWitness(s, [c], i);
    }
    if Contains(s, [c]) {
      var i := Find(s, [c]);
      assert s[i..i + 1] == [c];
      assert s[i] == c;
    }
  }

  /** Splitting on a character the text lacks gives the text alone. */
  lemma SplitAbsent(s: string, c: char)
    requires c !in s
    ensures Split(s, [c]) == [s]
  {
    CharContained(s, c);
  }

  /** The last piece of a split on a character is a suffix without that character. */
  lemma LastPieceSuffix(s: string, c: char)
    ensures EndsWith(s, Last(Split(s, [c]))) && c !in Last(Split(s, [c]))
  {
    var f := Last(Split(s, [c]));
    JoinReplaceLast(s, [c], f);
    SplitPiecesFree(s, [c]);
    CharContained(f, c);
  }

  /** A text with the character splits into at least two pieces. */
  lemma SplitPresent(s: string, c: char)
    requires c in s
    ensures |Split(s, [c])| > 1
  {
    CharContained(s, c);
  }

  /** In a text with the character, the last piece follows its last occurrence. */
  lemma LastPieceAfterSep(s: string, c: char)
    requires c in s
    ensures EndsWith(s, [c] + Last(Split(s, [c])))
  {
    var sep := [c];
    var parts := Split(s, sep);
    SplitPresent(s, c);
    LastPieceJoin(parts, sep);
    JoinSplit(s, sep);
    var x := Join(parts[..|parts| - 1], sep);
    EndsWithAfter(x, sep + parts[|parts| - 1]);
  }

  lemma LastPieceJoin(parts: seq<string>, sep: string)
    requires |parts| > 1
    ensures Join(parts, sep) == Join(parts[..|parts| - 1], sep) + (sep + parts[|parts| - 1])
  {
    var init := parts[..|parts| - 1];
    assert parts == init + [parts[|parts| - 1]];
    JoinSnoc(init, parts[|parts| - 1], sep);
  }

  lemma EndsWithAfter(x: string, y: string)
    ensures EndsWith(x + y, y)
  {
    assert (x + y)[|x|..] == y;
  }
}

=== FILE: twfy_bridge.dfy ===
/** The bridge to the Public Whip data model that TheyWorkForYou still imports
    (`votes/views/twfy_bridge.py`): policy vote types, motion descriptions, vote
    options and counts. */
module TwfyBridge {
  import opened Wrappers
  import opened Text
  import opened Consts

  // ---- Policy vote types ----

  datatype PopoloVoteType = AyeType | NoType | BothType | Aye3 | No3 | Both3

  function VoteTypeValue(t: PopoloVoteType): string {
    match t
    case AyeType => "aye"
    case NoType => "no"
    case BothType => "both"
    case Aye3 => "aye3"
    case No3 => "no3"
    case Both3 => "both3"
  }

  /** `PopoloVoteType.from_modern`: agreement is "aye", disagreement "no", a strong
      link gets the "3" form, and a neutral link is "both" whatever its strength. */
  function FromModern(d: PolicyDirection, s: PolicyStrength): (r: PopoloVoteType)
    ensures r == BothType <==> d == Neutral
    ensures r != Both3
    ensures d == Agree ==> r == (if s == Strong then Aye3 else AyeType)
    ensures d == Against ==> r == (if s == Strong then No3 else NoType)
  {
    match d
    case Agree => if s == Strong then Aye3 else AyeType
    case Against => if s == Strong then No3 else NoType
    case Neutral => BothType
  }

  /** Away from neutral links the old vote type keeps both the direction and the strength. */
  lemma FromModernInjective(d1: PolicyDirection, s1: PolicyStrength, d2: PolicyDirection, s2: PolicyStrength)
    requires d1 != Neutral
    ensures FromModern(d1, s1) == FromModern(d2, s2) <==> d1 == d2 && s1 == s2
  {
  }

  // ---- Motion descriptions ----

  datatype PopoloDirection = MajorityStrong | MajorityWeak | MinorityStrong | MinorityWeak | Abstention

  function DirectionText(p: PopoloDirection): string {
    match p
    case MajorityStrong => "Majority (strong)"
    case MajorityWeak => "Majority"
    case MinorityStrong => "minority (strong)"
    case MinorityWeak => "minority"
    case Abstention => "abstention"
  }

  predicate IsMajority(p: PopoloDirection) { p == MajorityStrong || p == MajorityWeak }
  predicate IsStrongDirection(p: PopoloDirection) { p == MajorityStrong || p == MinorityStrong }

  /** The description of a policy link on a motion that passed or failed: with a
      passed motion agreement is the majority side, with a failed one it is the
      minority; neutral links are abstentions. */
  function Describe(passed: bool, d: PolicyDirection, s: PolicyStrength): (r: PopoloDirection)
    ensures r == Abstention <==> d == Neutral
    ensures d != Neutral ==> (IsMajority(r) <==> (d == Agree) == passed)
    ensures d != Neutral ==> (IsStrongDirection(r) <==> s == Strong)
  {
    if d == Neutral then Abstention
    else if (d == Agree) == passed then (if s == Strong then MajorityStrong else MajorityWeak)
    else (if s == Strong then MinorityStrong else MinorityWeak)
  }

  /** `pw_style_motion_description` as written: the motion result (1, 0 or -1) is
      tested for truthiness, so a failed motion (-1) counts as passed. */
  function MotionDescriptionAsWritten(motionResult: int, d: PolicyDirection, s: PolicyStrength): (r: PopoloDirection)
    ensures r == Describe(motionResult != 0, d, s)
  {
    if motionResult != 0 then
      match d
      case Agree => if s == Strong then MajorityStrong else MajorityWeak
      case Against => if s == Strong then MinorityStrong else MinorityWeak
      case Neutral => Abstention
    else
      match d
      case Agree => if s == Strong then MinorityStrong else MinorityWeak
      case Against => if s == Strong then MajorityStrong else MajorityWeak
      case Neutral => Abstention
  }

  /** The description with only a successful motion (result 1) treated as passed. */
  function MotionDescription(motionResult: int, d: PolicyDirection, s: PolicyStrength): (r: PopoloDirection)
    ensures d != Neutral ==> (IsMajority(r) <==> (d == Agree) == (motionResult == 1))
    ensures r == Abstention <==> d == Neutral
  {
    Describe(motionResult == 1, d, s)
  }

  /** The discrepancy: on a failed motion (-1) an agreeing link is described as on the
      majority side, the same as on a successful one. */
  lemma FailedMotionDescribedAsPassed(s: PolicyStrength)
    ensures MotionDescriptionAsWritten(-1, Agree, s) == MotionDescriptionAsWritten(1, Agree, s)
    ensures IsMajority(MotionDescriptionAsWritten(-1, Agree, s))
    ensures !IsMajority(MotionDescription(-1, Agree, s))
  {
  }

  /** With the correction, a successful and a failed motion swap the sides of every
      non-neutral link and keep its strength. */
  lemma FailureSwapsSides(d: PolicyDirection, s: PolicyStrength)
    requires d != Neutral
    ensures IsMajority(MotionDescription(1, d, s)) != IsMajority(MotionDescription(-1, d, s))
    ensures IsStrongDirection(MotionDescription(1, d, s)) == IsStrongDirection(MotionDescription(-1, d, s))
  {
  }

  // ---- Votes ----

  datatype PopoloVoteOption = AyeOption | TellNoOption | TellAyeOption | NoOption | BothOption | AbsentOption

  function OptionValue(o: PopoloVoteOption): string {
    match o
    case AyeOption => "aye"
    case TellNoOption => "tellno"
    case TellAyeOption => "tellaye"
    case NoOption => "no"
    case BothOption => "both"
    case AbsentOption => "absent"
  }

  datatype PopoloVote = PopoloVote(id: string, option: PopoloVoteOption)

  const PersonPrefix := "uk.org.publicwhip/person/"

  /** `PopoloVote.from_vote_unvalidated`: every position but a collective one has an
      option, named as the position except that an abstention is "both"; the id
      carries the person's number. */
  function FromVote(v: VotePosition, personId: int): (r: Result<PopoloVote, Error>)
    ensures r.Failure? <==> v == Collective
    ensures r.Success? ==> r.value.id == PersonPrefix + IntToString(personId)
    ensures r.Success? ==> OptionValue(r.value.option) == (if v == Abstain then "both" else PositionValue(v))
  {
    var id := PersonPrefix + IntToString(personId);
    match v
    case Aye => Success(PopoloVote(id, AyeOption))
    case No => Success(PopoloVote(id, NoOption))
    case Abstain => Success(PopoloVote(id, BothOption))
    case Absent => Success(PopoloVote(id, AbsentOption))
    case TellNo => Success(PopoloVote(id, TellNoOption))
    case TellAye => Success(PopoloVote(id, TellAyeOption))
    case Collective => Failure(ValueError("Unknown vote position " + IntToString(Code(v))))
  }

  /** Different positions give different options, and different people different ids. */
  lemma FromVoteInjective(v: VotePosition, w: VotePosition, p: int, q: int)
    requires FromVote(v, p).Success? && FromVote(w, q).Success?
    ensures FromVote(v, p).value.option == FromVote(w, q).value.option ==> v == w
    ensures FromVote(v, p).value.id == FromVote(w, q).value.id ==> p == q
  {
    if FromVote(v, p).value.id == FromVote(w, q).value.id {
      var a := PersonPrefix + IntToString(p);
      var b := PersonPrefix + IntToString(q);
      assert a[|PersonPrefix|..] == IntToString(p);
      assert b[|PersonPrefix|..] == IntToString(q);
      IntToStringInjective(p, q);
    }
  }

  // ---- Counts ----

  /** The overall breakdown of a division. */
  datatype Breakdown = Breakdown(forMotion: int, againstMotion: int, neutralMotion: int, absentMotion: int)

  datatype VoteCount = VoteCount(option: PopoloVoteOption, value: int)

  /** `breakdown_to_vote_count`: four counts, no, aye, both and absent, in that order. */
  function BreakdownToVoteCount(b: Breakdown): (r: seq<VoteCount>)
    ensures |r| == 4
    ensures forall i, j :: 0 <= i < j < 4 ==> r[i].option != r[j].option
    ensures forall i :: 0 <= i < 4 ==> r[i].option in {NoOption, AyeOption, BothOption, AbsentOption}
    ensures r[0].value + r[1].value + r[2].value + r[3].value
      == b.forMotion + b.againstMotion + b.neutralMotion + b.absentMotion
  {
    [VoteCount(NoOption, b.againstMotion), VoteCount(AyeOption, b.forMotion),
     VoteCount(BothOption, b.neutralMotion), VoteCount(AbsentOption, b.absentMotion)]
  }

  /** The count a breakdown gives for an option, read back from the list. */
  function CountOf(cs: seq<VoteCount>, o: PopoloVoteOption): int
    decreases |cs|
  {
    if |cs| == 0 then 0 else if cs[0].option == o then cs[0].value else CountOf(cs[1..], o)
  }

  /** Each count lands under its own option. */
  lemma VoteCountsReadBack(b: Breakdown)
    ensures CountOf(BreakdownToVoteCount(b), AyeOption) == b.forMotion
    ensures CountOf(BreakdownToVoteCount(b), NoOption) == b.againstMotion
    ensures CountOf(BreakdownToVoteCount(b), BothOption) == b.neutralMotion
    ensures CountOf(BreakdownToVoteCount(b), AbsentOption) == b.absentMotion
  {
    var cs := BreakdownToVoteCount(b);
    var t1 := [VoteCount(AyeOption, b.forMotion), VoteCount(BothOption, b.neutralMotion), VoteCount(AbsentOption, b.absentMotion)];
    var t2 := [VoteCount(BothOption, b.neutralMotion), VoteCount(AbsentOption, b.absentMotion)];
    var t3 := [VoteCount(AbsentOption, b.absentMotion)];
    assert cs[1..] == t1 && t1[1..] == t2 && t2[1..] == t3;
    assert CountOf(cs, BothOption) == CountOf(t2, BothOption);
    assert CountOf(cs, AbsentOption) == CountOf(t2, AbsentOption) == CountOf(t3, AbsentOption);
  }

  /** The vote counts of a person's distribution on a policy. */
  datatype Counts = Counts(
    same: real, strongSame: real, different: real, strongDifferent: real,
    absent: real, strongAbsent: real, abstain: real, strongAbstain: real)

  /** `VoteDistribution.total_votes` */
  function Total(c: Counts): real {
    c.same + c.strongSame + c.different + c.strongDifferent
    + c.absent + c.strongAbsent + c.abstain + c.strongAbstain
  }

  /** Python's `int()` on a float truncates toward zero. */
  function Trunc(x: real): int {
    if x >= 0.0 then x.Floor else -((-x).Floor)
  }

  /** The "present" and "absent" counts of the alignments export: the votes cast
      (same or different, either strength), found by taking abstentions and absences
      out of the total. */
  function PresentAbsent(c: Counts): (r: (int, int))
    ensures r.0 == Trunc(c.same + c.strongSame + c.different + c.strongDifferent)
    ensures r.1 == Trunc(c.absent + c.strongAbsent)
  {
    var absent := c.absent + c.strongAbsent;
    var bothVoted := Total(c) - c.abstain - c.strongAbstain - absent;
    (Trunc(bothVoted), Trunc(absent))
  }

  // ---- Organisations ----

  datatype Organisation = CommonsOrg | LordsOrg | ScottishParliamentOrg

  function OrganisationValue(o: Organisation): string {
    match o
    case CommonsOrg => "uk.parliament.commons"
    case LordsOrg => "uk.parliament.lords"
    case ScottishParliamentOrg => "scottish.parliament"
  }

  /** `org_type`: the three chambers with a Public Whip organisation; others raise. */
  function OrgType(c: ChamberSlug): (r: Result<Organisation, Error>)
    ensures r.Success? <==> c in {Commons, Lords, Scotland}
    ensures r.Success? ==> (r.value == CommonsOrg <==> c == Commons) && (r.value == LordsOrg <==> c == Lords)
  {
    match c
    case Commons => Success(CommonsOrg)
    case Lords => Success(LordsOrg)
    case Scotland => Success(ScottishParliamentOrg)
    case _ => Failure(ValueError("Unknown chamber " + ChamberValue(c)))
  }
}

=== FILE: update_queue.dfy ===
/** The update queue (`Update` in `votes/models.py`): tasks carry instructions, are
    created unless an unfinished task has the same instructions, and are taken
    off the queue with later duplicates of pending instructions deleted.  The
    table is a sequence in creation order; clock readings are parameters. */
module UpdateQueue {
  import opened Wrappers

  datatype Update<I> = Update(
    id: nat, created: int, started: Option<int>, completed: Option<int>, instructions: I, createdVia: string)

  datatype Queue<I> = Queue(items: seq<Update<I>>, nextId: nat)

  predicate Unfinished<I>(u: Update<I>) { u.completed.None? }

  /** Neither started nor completed. */
  predicate Pending<I>(u: Update<I>) { u.completed.None? && u.started.None? }

  /** The first unfinished task with the given instructions, if any. */
  function FirstUnfinished<I(==,!new)>(items: seq<Update<I>>, ins: I): (r: Option<nat>)
    ensures r.Some? ==> r.value < |items| && Unfinished(items[r.value]) && items[r.value].instructions == ins
    ensures r.Some? ==> forall i :: 0 <= i < r.value ==> !(Unfinished(items[i]) && items[i].instructions == ins)
    ensures r.None? ==> forall i :: 0 <= i < |items| ==> !(Unfinished(items[i]) && items[i].instructions == ins)
    decreases |items|
  {
    if |items| == 0 then None
    else if Unfinished(items[0]) && items[0].instructions == ins then Some(0)
    else match FirstUnfinished(items[1..], ins)
      case None => None
      case Some(k) => Some(k + 1)
  }

  /** `Update.create_task`: with the check on, an unfinished task with equal
      instructions is returned and nothing is created; otherwise a new task is
      appended. */
  function CreateTask<I(==,!new)>(q: Queue<I>, ins: I, via: string, check: bool, now: int): (r: (Queue<I>, Update<I>))
    ensures r.1.instructions == ins
    ensures check && FirstUnfinished(q.items, ins).Some? ==> r.0 == q && r.1 in q.items && Unfinished(r.1)
    ensures !(check && FirstUnfinished(q.items, ins).Some?) ==>
      r.0.items == q.items + [r.1] && r.1 == Update(q.nextId, now, None, None, ins, via)
  {
    if check && FirstUnfinished(q.items, ins).Some? then
      (q, q.items[FirstUnfinished(q.items, ins).value])
    else
      var u := Update(q.nextId, now, None, None, ins, via);
      (Queue(q.items + [u], q.nextId + 1), u)
  }

  /** Asking twice for the same instructions with the check on creates one task. */
  lemma CreateTaskIdempotent<I(!new)>(q: Queue<I>, ins: I, via: string, via2: string, now: int, later: int)
    ensures var (q1, t1) := CreateTask(q, ins, via, true, now);
            var (q2, t2) := CreateTask(q1, ins, via2, true, later);
            q2 == q1 && t2 == t1
  {
    var (q1, t1) := CreateTask(q, ins, via, true, now);
    if FirstUnfinished(q.items, ins).None? {
      assert q1.items[|q.items|] == t1;
      FirstUnfinishedAppend(q.items, t1, ins);
    }
  }

  lemma {:induction false} FirstUnfinishedAppend<I(!new)>(items: seq<Update<I>>, u: Update<I>, ins: I)
    requires FirstUnfinished(items, ins).None?
    requires Unfinished(u) && u.instructions == ins
    ensures FirstUnfinished(items + [u], ins) == Some(|items|)
    decreases |items|
  {
    if |items| > 0 {
      assert (items + [u])[1..] == items[1..] + [u];
      FirstUnfinishedAppend(items[1..], u, ins);
    }
  }

  /** `Update.start` and `Update.complete` on the task with the given id. */
  function SetStarted<I>(items: seq<Update<I>>, id: nat, now: int): (r: seq<Update<I>>)
    ensures |r| == |items|
    ensures forall i :: 0 <= i < |items| ==>
      r[i] == (if items[i].id == id then items[i].(started := Some(now)) else items[i])
  {
    seq(|items|, i requires 0 <= i < |items| => if items[i].id == id then items[i].(started := Some(now)) else items[i])
  }

  function SetCompleted<I>(items: seq<Update<I>>, id: nat, now: int): (r: seq<Update<I>>)
    ensures |r| == |items|
    ensures forall i :: 0 <= i < |items| ==>
      r[i] == (if items[i].id == id then items[i].(completed := Some(now)) else items[i])
  {
    seq(|items|, i requires 0 <= i < |items| => if items[i].id == id then items[i].(completed := Some(now)) else items[i])
  }

  /** The pending tasks of a queue, in order. */
  function PendingOf<I(!new)>(items: seq<Update<I>>): (r: seq<Update<I>>)
    ensures forall u :: u in r <==> u in items && Pending(u)
    decreases |items|
  {
    if |items| == 0 then []
    else (if Pending(items[0]) then [items[0]] else []) + PendingOf(items[1..])
  }

  /** The run list and the table after `to_run`. */
  datatype Taken<I> = Taken(toRun: seq<Update<I>>, table: seq<Update<I>>)

  /** `Update.to_run` with `seen` the instructions already taken: a pending task whose
      instructions were seen is deleted; the first one with new instructions is taken;
      started and completed tasks stay in the table untouched. */
  function TakeFrom<I(==,!new)>(items: seq<Update<I>>, seen: seq<I>): (r: Taken<I>)
    ensures forall u :: u in r.toRun ==> u in items && Pending(u) && u.instructions !in seen
    ensures forall i, j :: 0 <= i < j < |r.toRun| ==> r.toRun[i].instructions != r.toRun[j].instructions
    decreases |items|
  {
    if |items| == 0 then Taken([], [])
    else
      var u := items[0];
      if !Pending(u) then
        var rest := TakeFrom(items[1..], seen);
        Taken(rest.toRun, [u] + rest.table)
      else if u.instructions in seen then
        TakeFrom(items[1..], seen)
      else
        var rest := TakeFrom(items[1..], seen + [u.instructions]);
        Taken([u] + rest.toRun, [u] + rest.table)
  }

  /** Every pending instruction not yet seen is taken once; started and completed
      tasks stay; nothing enters the table that was not there, and what is taken stays. */
  lemma TakeFromKeeps<I(!new)>(items: seq<Update<I>>, seen: seq<I>)
    ensures forall u :: u in items && Pending(u) && u.instructions !in seen ==>
      exists v :: v in TakeFrom(items, seen).toRun && v.instructions == u.instructions
    ensures forall u :: u in items && !Pending(u) ==> u in TakeFrom(items, seen).table
    ensures forall u :: u in TakeFrom(items, seen).table ==> u in items
    ensures forall u :: u in TakeFrom(items, seen).toRun ==> u in TakeFrom(items, seen).table
  {
    TakeFromCovers(items, seen);
    TakeFromKeepsStarted(items, seen);
    TakeFromTable(items, seen);
  }

  /** Every pending instruction not yet seen is taken. */
  lemma {:induction false} TakeFromCovers<I(!new)>(items: seq<Update<I>>, seen: seq<I>)
    ensures forall u :: u in items && Pending(u) && u.instructions !in seen ==>
      exists v :: v in TakeFrom(items, seen).toRun && v.instructions == u.instructions
    decreases |items|
  {
    if |items| > 0 {
      var u := items[0];
      var r := TakeFrom(items, seen);
      if !Pending(u) || u.instructions in seen {
        TakeFromCovers(items[1..], seen);
        forall w | w in items && Pending(w) && w.instructions !in seen
          ensures exists v :: v in r.toRun && v.instructions == w.instructions
        {
          assert w in items[1..];
        }
      } else {
        TakeFromCovers(items[1..], seen + [u.instructions]);
        forall w | w in items && Pending(w) && w.instructions !in seen
          ensures exists v :: v in r.toRun && v.instructions == w.instructions
        {
          if w.instructions == u.instructions {
            assert u in r.toRun;
          } else {
            assert w in items[1..];
          }
        }
      }
    }
  }

  /** Started and completed tasks stay in the table. */
  lemma {:induction false} TakeFromKeepsStarted<I(!new)>(items: seq<Update<I>>, seen: seq<I>)
    ensures forall u :: u in items && !Pending(u) ==> u in TakeFrom(items, seen).table
    decreases |items|
  {
    if |items| > 0 {
      var u := items[0];
      if !Pending(u) || u.instructions in seen {
        TakeFromKeepsStarted(items[1..], seen);
      } else {
        TakeFromKeepsStarted(items[1..], seen + [u.instructions]);
      }
      forall w | w in items && !Pending(w) ensures w in TakeFrom(items, seen).table {
        if w != u {
          assert w in items[1..];
        }
      }
    }
  }

  /** Nothing enters the table that was not there, and what is taken stays in it. */
  lemma {:induction false} TakeFromTable<I(!new)>(items: seq<Update<I>>, seen: seq<I>)
    ensures forall u :: u in TakeFrom(items, seen).table ==> u in items
    ensures forall u :: u in TakeFrom(items, seen).toRun ==> u in TakeFrom(items, seen).table
    decreases |items|
  {
    if |items| > 0 {
      var u := items[0];
      if !Pending(u) || u.instructions in seen {
        TakeFromTable(items[1..], seen);
      } else {
        TakeFromTable(items[1..], seen + [u.instructions]);
      }
    }
  }

  /** `Update.to_run`: every pending instruction is taken once, by a pending task
      holding it; duplicates are deleted, started and completed tasks are kept,
      nothing new enters the table, and no duplicate pending task is left in it. */
  function ToRun<I(==,!new)>(items: seq<Update<I>>): (r: Taken<I>)
    // in table order: the first pending task of each instructions is run, later ones deleted
    ensures r.toRun == Firsts(items, |items|)
    ensures r.table == Kept(items, |items|)
    ensures forall u :: u in r.toRun ==> u in items && Pending(u)
    ensures forall i, j :: 0 <= i < j < |r.toRun| ==> r.toRun[i].instructions != r.toRun[j].instructions
    ensures forall u :: u in items && Pending(u) ==>
      exists v :: v in r.toRun && v.instructions == u.instructions
    ensures forall u :: u in items && !Pending(u) ==> u in r.table
    ensures forall u :: u in r.table ==> u in items
    ensures forall u :: u in r.toRun ==> u in r.table
    ensures PendingDistinct(r.table, [])
  {
    ToRunSpec(items);
    TakeFrom(items, [])
  }

  /** The facts of `ToRun`, about the run from an empty list of seen instructions. */
  lemma ToRunSpec<I(!new)>(items: seq<Update<I>>)
    ensures TakeFrom(items, []).toRun == Firsts(items, |items|)
    ensures TakeFrom(items, []).table == Kept(items, |items|)
    ensures forall u :: u in TakeFrom(items, []).toRun ==> u in items && Pending(u)
    ensures forall u :: u in items && Pending(u) ==>
      exists v :: v in TakeFrom(items, []).toRun && v.instructions == u.instructions
    ensures forall u :: u in items && !Pending(u) ==> u in TakeFrom(items, []).table
    ensures forall u :: u in TakeFrom(items, []).table ==> u in items
    ensures forall u :: u in TakeFrom(items, []).toRun ==> u in TakeFrom(items, []).table
    ensures PendingDistinct(TakeFrom(items, []).table, [])
  {
    TakeFromKeeps(items, []);
    TakeFromLeavesDistinct(items, []);
    ToRunOrder(items);
  }

  lemma ToRunOrder<I(!new)>(items: seq<Update<I>>)
    ensures TakeFrom(items, []).toRun == Firsts(items, |items|)
    ensures TakeFrom(items, []).table == Kept(items, |items|)
  {
    TakeFromFirsts(items, 0);
    assert InstructionsOf(Firsts(items, 0)) == [];
    assert items[0..] == items;
    EmptyPrefix(Firsts(items, 0), TakeFrom(items, []).toRun);
    EmptyPrefix(Kept(items, 0), TakeFrom(items, []).table);
  }

  lemma EmptyPrefix<T>(a: seq<T>, s: seq<T>)
    requires a == []
    ensures a + s == s
  {
  }

  /** Whether `items[i]` is pending and no earlier pending task holds its instructions. */
  predicate FirstPendingAt<I(==)>(items: seq<Update<I>>, i: int)
    requires 0 <= i < |items|
  {
    Pending(items[i]) && forall j :: 0 <= j < i && Pending(items[j]) ==> items[j].instructions != items[i].instructions
  }

  /** The first pending task of each instructions among the first `n`, in table order. */
  function Firsts<I(==)>(items: seq<Update<I>>, n: nat): seq<Update<I>>
    requires n <= |items|
  {
    if n == 0 then [] else Firsts(items, n - 1) + (if FirstPendingAt(items, n - 1) then [items[n - 1]] else [])
  }

  /** The tasks among the first `n` that a run leaves in the table, in table order:
      the started or completed ones and the first pending one of each instructions. */
  function Kept<I(==)>(items: seq<Update<I>>, n: nat): seq<Update<I>>
    requires n <= |items|
  {
    if n == 0 then []
    else Kept(items, n - 1) + (if !Pending(items[n - 1]) || FirstPendingAt(items, n - 1) then [items[n - 1]] else [])
  }

  function InstructionsOf<I>(us: seq<Update<I>>): (r: seq<I>)
    ensures |r| == |us| && forall i :: 0 <= i < |us| ==> r[i] == us[i].instructions
  {
    seq(|us|, i requires 0 <= i < |us| => us[i].instructions)
  }

  /** The instructions the first `k` tasks' first pending ones hold are those of the
      pending tasks among the first `k`. */
  lemma {:induction false} FirstsSeen<I>(items: seq<Update<I>>, k: nat)
    requires k <= |items|
    ensures forall x :: x in InstructionsOf(Firsts(items, k)) <==>
      exists j :: 0 <= j < k && Pending(items[j]) && items[j].instructions == x
  {
    if k > 0 {
      FirstsSeen(items, k - 1);
      var u := items[k - 1];
      var before := InstructionsOf(Firsts(items, k - 1));
      var after := InstructionsOf(Firsts(items, k));
      if FirstPendingAt(items, k - 1) {
        assert after == before + [u.instructions];
      } else {
        assert after == before;
        if Pending(u) {
          var j :| 0 <= j < k - 1 && Pending(items[j]) && items[j].instructions == u.instructions;
        }
      }
    }
  }

  /** From task `k` on, `to_run` with the instructions seen so far completes the run
      list and the table of the whole queue. */
  lemma {:induction false} TakeFromFirsts<I(!new)>(items: seq<Update<I>>, k: nat)
    requires k <= |items|
    ensures Firsts(items, k) + TakeFrom(items[k..], InstructionsOf(Firsts(items, k))).toRun == Firsts(items, |items|)
    ensures Kept(items, k) + TakeFrom(items[k..], InstructionsOf(Firsts(items, k))).table == Kept(items, |items|)
    decreases |items| - k
  {
    if k == |items| {
      assert items[k..] == [];
    } else {
      TakeFromFirsts(items, k + 1);
      FirstsStep(items, k);
    }
  }

  /** One task of the queue: the run list and the table grow by it exactly as
      `to_run` with the instructions seen so far takes or keeps it. */
  lemma FirstsStep<I(!new)>(items: seq<Update<I>>, k: nat)
    requires k < |items|
    ensures var seen := InstructionsOf(Firsts(items, k));
      var rest := TakeFrom(items[k + 1..], InstructionsOf(Firsts(items, k + 1)));
      Firsts(items, k) + TakeFrom(items[k..], seen).toRun == Firsts(items, k + 1) + rest.toRun
      && Kept(items, k) + TakeFrom(items[k..], seen).table == Kept(items, k + 1) + rest.table
  {
    var u, tail := items[k], items[k + 1..];
    var seen := InstructionsOf(Firsts(items, k));
    assert items[k..] == [u] + tail;
    FirstPendingIff(items, k);
    FirstsGrow(items, k);
    TakeFromCons(u, tail, seen);
    JoinTaken(Firsts(items, k), Kept(items, k), Firsts(items, k + 1), Kept(items, k + 1),
      TakeFrom([u] + tail, seen), TakeFrom(tail, InstructionsOf(Firsts(items, k + 1))), u);
  }

  /** A task is the first pending one of its instructions exactly when it is pending
      and no earlier first pending task holds its instructions. */
  lemma FirstPendingIff<I>(items: seq<Update<I>>, k: nat)
    requires k < |items|
    ensures FirstPendingAt(items, k) <==> Pending(items[k]) && items[k].instructions !in InstructionsOf(Firsts(items, k))
  {
    FirstsSeen(items, k);
  }

  /** How the run list, the table and the instructions seen grow by task `k`. */
  lemma FirstsGrow<I>(items: seq<Update<I>>, k: nat)
    requires k < |items|
    ensures FirstPendingAt(items, k) ==>
      Firsts(items, k + 1) == Firsts(items, k) + [items[k]]
      && InstructionsOf(Firsts(items, k + 1)) == InstructionsOf(Firsts(items, k)) + [items[k].instructions]
    ensures !FirstPendingAt(items, k) ==>
      Firsts(items, k + 1) == Firsts(items, k)
    ensures Kept(items, k + 1) == Kept(items, k) + (if !Pending(items[k]) || FirstPendingAt(items, k) then [items[k]] else [])
  {
  }

  /** A run list `f` and a table `t` followed by the result `x` of one step of
      `to_run` are the grown `f2` and `t2` followed by the rest of the run. */
  lemma JoinTaken<I>(f: seq<Update<I>>, t: seq<Update<I>>, f2: seq<Update<I>>, t2: seq<Update<I>>,
                     x: Taken<I>, rest: Taken<I>, u: Update<I>)
    requires (x == Taken([u] + rest.toRun, [u] + rest.table) && f2 == f + [u] && t2 == t + [u])
      || (x == Taken(rest.toRun, [u] + rest.table) && f2 == f && t2 == t + [u])
      || (x == rest && f2 == f && t2 == t)
    ensures f + x.toRun == f2 + rest.toRun && t + x.table == t2 + rest.table
  {
  }

  /** `to_run` on a queue with a first task `u`, taken apart by the three cases. */
  lemma TakeFromCons<I(!new)>(u: Update<I>, tail: seq<Update<I>>, seen: seq<I>)
    ensures !Pending(u) ==>
      TakeFrom([u] + tail, seen) == Taken(TakeFrom(tail, seen).toRun, [u] + TakeFrom(tail, seen).table)
    ensures Pending(u) && u.instructions in seen ==> TakeFrom([u] + tail, seen) == TakeFrom(tail, seen)
    ensures Pending(u) && u.instructions !in seen ==>
      var rest := TakeFrom(tail, seen + [u.instructions]);
      TakeFrom([u] + tail, seen) == Taken([u] + rest.toRun, [u] + rest.table)
  {
    assert ([u] + tail)[0] == u && ([u] + tail)[1..] == tail;
  }

  /** No two pending tasks share instructions, nor any instructions in `seen`. */
  predicate PendingDistinct<I(==,!new)>(items: seq<Update<I>>, seen: seq<I>)
    decreases |items|
  {
    |items| == 0
    || (if Pending(items[0]) then
          items[0].instructions !in seen && PendingDistinct(items[1..], seen + [items[0].instructions])
        else PendingDistinct(items[1..], seen))
  }

  /** After `to_run`, no duplicate pending instructions remain in the table. */
  lemma {:induction false} TakeFromLeavesDistinct<I(!new)>(items: seq<Update<I>>, seen: seq<I>)
    ensures PendingDistinct(TakeFrom(items, seen).table, seen)
    decreases |items|
  {
    if |items| > 0 {
      var u := items[0];
      if !Pending(u) {
        TakeFromLeavesDistinct(items[1..], seen);
        var t := TakeFrom(items, seen).table;
        assert t[1..] == TakeFrom(items[1..], seen).table;
      } else if u.instructions in seen {
        TakeFromLeavesDistinct(items[1..], seen);
      } else {
        TakeFromLeavesDistinct(items[1..], seen + [u.instructions]);
        var t := TakeFrom(items, seen).table;
        assert t[1..] == TakeFrom(items[1..], seen + [u.instructions]).table;
      }
    }
  }

  /** On a table without duplicates `to_run` deletes nothing and takes every pending task. */
  lemma {:induction false} TakeFromDistinct<I(!new)>(items: seq<Update<I>>, seen: seq<I>)
    requires PendingDistinct(items, seen)
    ensures TakeFrom(items, seen) == Taken(PendingOf(items), items)
    decreases |items|
  {
    if |items| > 0 {
      var u := items[0];
      if Pending(u) {
        TakeFromDistinct(items[1..], seen + [u.instructions]);
      } else {
        TakeFromDistinct(items[1..], seen);
      }
      assert items == [u] + items[1..];
    }
  }

  /** A second `to_run` on what the first left behind deletes nothing more and
      takes the same tasks. */
  lemma ToRunIdempotent<I(!new)>(items: seq<Update<I>>)
    ensures ToRun(ToRun(items).table).table == ToRun(items).table
    ensures ToRun(ToRun(items).table).toRun == PendingOf(ToRun(items).table)
  {
    TakeFromLeavesDistinct(items, []);
    TakeFromDistinct(ToRun(items).table, []);
  }
}

=== FILE: validator.dfy ===
/** The slow reference scorer (`votes/management/commands/vr_validator.py`): the
    `Score` record with its tolerance comparison, totals, reduction and addition,
    and the loop of `get_scores_slow` that classifies each vote of the target
    person and of the other members of their party. */
module Validator {
  import opened Wrappers
  import opened Consts

  /** A distribution of votes.  The sorted list of comparator counts is kept as a
      multiset: after every append the source sorts it again. */
  datatype Score = Score(
    votesSame: real, strongVotesSame: real,
    votesDifferent: real, strongVotesDifferent: real,
    votesAbsent: real, strongVotesAbsent: real,
    votesAbstain: real, strongVotesAbstain: real,
    agreementsSame: real, strongAgreementsSame: real,
    agreementsDifferent: real, strongAgreementsDifferent: real,
    comparators: multiset<int>)

  const EmptyScore := Score(0.0, 0.0, 0.0, 0.0, 0.0, 0.0, 0.0, 0.0, 0.0, 0.0, 0.0, 0.0, multiset{})

  /** The eight vote fields, in the order the source lists them. */
  datatype VoteField =
    | VotesSame | StrongVotesSame | VotesDifferent | StrongVotesDifferent
    | VotesAbsent | StrongVotesAbsent | VotesAbstain | StrongVotesAbstain

  const VoteFields: seq<VoteField> := [
    VotesSame, StrongVotesSame, VotesDifferent, StrongVotesDifferent,
    VotesAbsent, StrongVotesAbsent, VotesAbstain, StrongVotesAbstain]

  lemma VoteFieldsComplete(f: VoteField)
    ensures f in VoteFields
  {
  }

  function Get(s: Score, f: VoteField): real {
    match f
    case VotesSame => s.votesSame
    case StrongVotesSame => s.strongVotesSame
    case VotesDifferent => s.votesDifferent
    case StrongVotesDifferent => s.strongVotesDifferent
    case VotesAbsent => s.votesAbsent
    case StrongVotesAbsent => s.strongVotesAbsent
    case VotesAbstain => s.votesAbstain
    case StrongVotesAbstain => s.strongVotesAbstain
  }

  /** The agreement counts and the comparators, which only some operations touch. */
  predicate SameExtras(a: Score, b: Score) {
    a.agreementsSame == b.agreementsSame && a.strongAgreementsSame == b.strongAgreementsSame
    && a.agreementsDifferent == b.agreementsDifferent
    && a.strongAgreementsDifferent == b.strongAgreementsDifferent
    && a.comparators == b.comparators
  }

  /** The four agreement counts. */
  predicate SameAgreements(a: Score, b: Score) {
    a.agreementsSame == b.agreementsSame && a.strongAgreementsSame == b.strongAgreementsSame
    && a.agreementsDifferent == b.agreementsDifferent
    && a.strongAgreementsDifferent == b.strongAgreementsDifferent
  }

  /** `Score.total_votes`: the eight vote fields; agreements are not votes. */
  function TotalVotes(s: Score): real {
    s.votesSame + s.votesDifferent + s.votesAbsent + s.strongVotesSame
    + s.strongVotesDifferent + s.strongVotesAbsent + s.votesAbstain + s.strongVotesAbstain
  }

  /** The total sums every vote field once and nothing else. */
  lemma TotalVotesSpec(s: Score, t: Score)
    ensures TotalVotes(s) == Get(s, VoteFields[0]) + Get(s, VoteFields[1]) + Get(s, VoteFields[2])
      + Get(s, VoteFields[3]) + Get(s, VoteFields[4]) + Get(s, VoteFields[5])
      + Get(s, VoteFields[6]) + Get(s, VoteFields[7])
    ensures (forall f :: Get(s, f) == Get(t, f)) ==> TotalVotes(s) == TotalVotes(t)
  {
    if forall f :: Get(s, f) == Get(t, f) {
      assert Get(s, VotesSame) == Get(t, VotesSame);
      assert Get(s, StrongVotesSame) == Get(t, StrongVotesSame);
      assert Get(s, VotesDifferent) == Get(t, VotesDifferent);
      assert Get(s, StrongVotesDifferent) == Get(t, StrongVotesDifferent);
      assert Get(s, VotesAbsent) == Get(t, VotesAbsent);
      assert Get(s, StrongVotesAbsent) == Get(t, StrongVotesAbsent);
      assert Get(s, VotesAbstain) == Get(t, VotesAbstain);
      assert Get(s, StrongVotesAbstain) == Get(t, StrongVotesAbstain);
    }
  }

  function Abs(x: real): real { if x < 0.0 then -x else x }
  function MaxReal(a: real, b: real): real { if a < b then b else a }

  /** `math.isclose(a, b, rel_tol=relTol, abs_tol=absTol)` */
  predicate IsClose(a: real, b: real, relTol: real, absTol: real) {
    Abs(a - b) <= MaxReal(relTol * MaxReal(Abs(a), Abs(b)), absTol)
  }

  /** The validator's tolerance: `isclose` with its default relative tolerance and an
      absolute tolerance of 0.05. */
  predicate Tolerant(a: real, b: real) {
    IsClose(a, b, 0.000000001, 0.05)
  }

  /** `Score.tol_errors`: the vote fields (in source order) that differ beyond the
      tolerance; the message text is reduced to the field it names. */
  function TolErrors(a: Score, b: Score): (r: seq<VoteField>)
    ensures forall f :: f in r <==> !Tolerant(Get(a, f), Get(b, f))
  {
    var r := FailingFields(a, b, VoteFields);
    assert forall f :: f in VoteFields by { forall f ensures f in VoteFields { VoteFieldsComplete(f); } }
    r
  }

  function FailingFields(a: Score, b: Score, fs: seq<VoteField>): (r: seq<VoteField>)
    ensures forall f :: f in r <==> f in fs && !Tolerant(Get(a, f), Get(b, f))
    decreases |fs|
  {
    if |fs| == 0 then []
    else
      var rest := FailingFields(a, b, fs[1..]);
      if Tolerant(Get(a, fs[0]), Get(b, fs[0])) then rest else [fs[0]] + rest
  }

  /** `Score.__eq__` */
  predicate Equal(a: Score, b: Score) {
    |TolErrors(a, b)| == 0
  }

  lemma TolerantSymmetric(x: real, y: real)
    ensures Tolerant(x, y) == Tolerant(y, x)
    ensures Tolerant(x, x)
  {
    assert Abs(x - y) == Abs(y - x);
    assert MaxReal(Abs(x), Abs(y)) == MaxReal(Abs(y), Abs(x));
  }

  /** Scores are equal exactly when every vote field agrees within the tolerance;
      agreements and comparators are not compared. */
  lemma EqualSpec(a: Score, b: Score)
    ensures Equal(a, b) <==> forall f :: Tolerant(Get(a, f), Get(b, f))
  {
    if !Equal(a, b) {
      var f := TolErrors(a, b)[0];
      assert f in TolErrors(a, b);
    }
  }

  /** Equality is reflexive and symmetric. */
  lemma EqualReflexiveSymmetric(a: Score, b: Score)
    ensures Equal(a, a)
    ensures Equal(a, b) ==> Equal(b, a)
  {
    EqualSpec(a, a);
    EqualSpec(a, b);
    EqualSpec(b, a);
    forall f ensures Tolerant(Get(a, f), Get(a, f)) && (Tolerant(Get(a, f), Get(b, f)) == Tolerant(Get(b, f), Get(a, f))) {
      TolerantSymmetric(Get(a, f), Get(b, f));
      TolerantSymmetric(Get(a, f), Get(a, f));
    }
  }

  /** The tolerance makes equality intransitive: 0 ~ 0.05 and 0.05 ~ 0.1, but not 0 ~ 0.1. */
  lemma EqualNotTransitive()
    ensures Equal(EmptyScore, EmptyScore.(votesSame := 0.05))
    ensures Equal(EmptyScore.(votesSame := 0.05), EmptyScore.(votesSame := 0.1))
    ensures !Equal(EmptyScore, EmptyScore.(votesSame := 0.1))
  {
    EqualSpec(EmptyScore, EmptyScore.(votesSame := 0.05));
    EqualSpec(EmptyScore.(votesSame := 0.05), EmptyScore.(votesSame := 0.1));
    EqualSpec(EmptyScore, EmptyScore.(votesSame := 0.1));
    assert !Tolerant(Get(EmptyScore, VotesSame), Get(EmptyScore.(votesSame := 0.1), VotesSame));
  }

  /** Each vote field divided by `t`. */
  function Scaled(s: Score, t: real): Score
    requires t != 0.0
  {
    s.(votesSame := s.votesSame / t, strongVotesSame := s.strongVotesSame / t,
       votesDifferent := s.votesDifferent / t, strongVotesDifferent := s.strongVotesDifferent / t,
       votesAbsent := s.votesAbsent / t, strongVotesAbsent := s.strongVotesAbsent / t,
       votesAbstain := s.votesAbstain / t, strongVotesAbstain := s.strongVotesAbstain / t)
  }

  lemma ScaledTotal(s: Score, t: real)
    requires t != 0.0
    ensures TotalVotes(Scaled(s, t)) == TotalVotes(s) / t
  {
  }

  /** `Score.reduce`: each vote field as a fraction of the total.  A zero total raises
      ZeroDivisionError; the "total should be 1" check can never fire in exact arithmetic. */
  function Reduce(s: Score): (r: Result<Score, Error>)
    ensures r.Failure? <==> TotalVotes(s) == 0.0
    ensures r.Success? ==> TotalVotes(r.value) == 1.0
    ensures r.Success? ==> forall f :: Get(r.value, f) * TotalVotes(s) == Get(s, f)
    ensures r.Success? ==> SameExtras(r.value, s)
  {
    var total := TotalVotes(s);
    if total == 0.0 then Failure(ZeroDivisionError)
    else
      var n := Scaled(s, total);
      ScaledTotal(s, total);
      if !IsClose(TotalVotes(n), 1.0, 0.000000001, 0.0) then Failure(ValueError("Total votes should be 1"))
      else Success(n)
  }

  /** `Score.__add__`: the vote fields of `b` are added into `a`; `a` keeps its
      agreements and comparators. */
  function AddScores(a: Score, b: Score): (r: Score)
    ensures forall f :: Get(r, f) == Get(a, f) + Get(b, f)
    ensures SameExtras(r, a)
    ensures TotalVotes(r) == TotalVotes(a) + TotalVotes(b)
  {
    a.(votesSame := a.votesSame + b.votesSame, strongVotesSame := a.strongVotesSame + b.strongVotesSame,
       votesDifferent := a.votesDifferent + b.votesDifferent,
       strongVotesDifferent := a.strongVotesDifferent + b.strongVotesDifferent,
       votesAbsent := a.votesAbsent + b.votesAbsent, strongVotesAbsent := a.strongVotesAbsent + b.strongVotesAbsent,
       votesAbstain := a.votesAbstain + b.votesAbstain,
       strongVotesAbstain := a.strongVotesAbstain + b.strongVotesAbstain)
  }

  /** A vote goes the policy's way when it is for an AGREE motion or against an AGAINST one. */
  predicate Aligned(v: VotePosition, a: PolicyDirection) {
    ((v == Aye || v == TellAye) && a == Agree) || ((v == No || v == TellNo) && a == Against)
  }

  datatype Bucket = SameBucket | AbstainBucket | AbsentBucket | DifferentBucket

  /** Where a vote is counted: aligned votes are "same"; otherwise abstentions and
      absences have their own buckets and anything else is "different". */
  function Classify(v: VotePosition, a: PolicyDirection): (b: Bucket)
    ensures b == SameBucket <==> Aligned(v, a)
    ensures b == AbstainBucket <==> !Aligned(v, a) && v == Abstain
    ensures b == AbsentBucket <==> !Aligned(v, a) && v == Absent
    ensures b == DifferentBucket <==> !Aligned(v, a) && v != Abstain && v != Absent
  {
    if Aligned(v, a) then SameBucket
    else if v == Abstain then AbstainBucket
    else if v == Absent then AbsentBucket
    else DifferentBucket
  }

  /** The vote field a classified vote of the given strength is counted in. */
  function FieldFor(strong: bool, b: Bucket): VoteField {
    match b
    case SameBucket => if strong then StrongVotesSame else VotesSame
    case AbstainBucket => if strong then StrongVotesAbstain else VotesAbstain
    case AbsentBucket => if strong then StrongVotesAbsent else VotesAbsent
    case DifferentBucket => if strong then StrongVotesDifferent else VotesDifferent
  }

  /** Counting one vote adds 1 to exactly one vote field and changes nothing else. */
  function Bump(s: Score, strong: bool, b: Bucket): (r: Score)
    ensures forall f :: Get(r, f) == (if f == FieldFor(strong, b) then Get(s, f) + 1.0 else Get(s, f))
    ensures SameExtras(r, s)
    ensures TotalVotes(r) == TotalVotes(s) + 1.0
  {
    match FieldFor(strong, b)
    case VotesSame => s.(votesSame := s.votesSame + 1.0)
    case StrongVotesSame => s.(strongVotesSame := s.strongVotesSame + 1.0)
    case VotesDifferent => s.(votesDifferent := s.votesDifferent + 1.0)
    case StrongVotesDifferent => s.(strongVotesDifferent := s.strongVotesDifferent + 1.0)
    case VotesAbsent => s.(votesAbsent := s.votesAbsent + 1.0)
    case StrongVotesAbsent => s.(strongVotesAbsent := s.strongVotesAbsent + 1.0)
    case VotesAbstain => s.(votesAbstain := s.votesAbstain + 1.0)
    case StrongVotesAbstain => s.(strongVotesAbstain := s.strongVotesAbstain + 1.0)
  }

  /** A vote of a given strength lands in a field of that strength. */
  lemma FieldForKeepsStrength(strong: bool, b: Bucket)
    ensures FieldFor(strong, b) in {StrongVotesSame, StrongVotesAbstain, StrongVotesAbsent, StrongVotesDifferent} <==> strong
  {
  }

  /** What the loops need to know about the target person; dates are day numbers and
      memberships are given as predicates on them. */
  datatype Context = Context(
    person: int,
    chamber: int,
    memberOn: int -> bool,        // the person holds a seat in the chamber that day
    inPeriod: int -> bool,        // the comparison period covers that day
    rowsOn: int -> seq<int>)      // person ids of the party rows (and the person) valid that day

  datatype AgreementLink = AgreementLink(date: int, chamber: int, alignment: PolicyDirection, strength: PolicyStrength)

  predicate AgreementCounted(l: AgreementLink, ctx: Context) {
    ctx.memberOn(l.date) && ctx.inPeriod(l.date) && l.chamber == ctx.chamber && l.alignment != Neutral
  }

  function AgreementTotal(s: Score): real {
    s.agreementsSame + s.strongAgreementsSame + s.agreementsDifferent + s.strongAgreementsDifferent
  }

  /** Number of links that survive the agreement filters with the given strength
      (strong or not) and alignment (AGREE or not). */
  function CountedAs(links: seq<AgreementLink>, ctx: Context, strong: bool, same: bool): nat
    decreases |links|
  {
    if |links| == 0 then 0
    else
      CountsAs(links[0], ctx, strong, same) + CountedAs(links[1..], ctx, strong, same)
  }

  /** One when `l` survives the agreement filters with the given strength and
      alignment, else zero. */
  function CountsAs(l: AgreementLink, ctx: Context, strong: bool, same: bool): nat {
    if AgreementCounted(l, ctx) && (l.strength == Strong) == strong && (l.alignment == Agree) == same
    then 1 else 0
  }

  /** One agreement's step of the loop: the field of its strength and alignment goes
      up by one if it is counted, and nothing else changes. */
  function TallyOne(l: AgreementLink, ctx: Context, s: Score): (r: Score)
    ensures forall f :: Get(r, f) == Get(s, f)
    ensures r.comparators == s.comparators
    ensures r.strongAgreementsSame == s.strongAgreementsSame + CountsAs(l, ctx, true, true) as real
    ensures r.strongAgreementsDifferent == s.strongAgreementsDifferent + CountsAs(l, ctx, true, false) as real
    ensures r.agreementsSame == s.agreementsSame + CountsAs(l, ctx, false, true) as real
    ensures r.agreementsDifferent == s.agreementsDifferent + CountsAs(l, ctx, false, false) as real
    ensures !AgreementCounted(l, ctx) ==> r == s
  {
    if !AgreementCounted(l, ctx) then s
    else if l.strength == Strong then
      (if l.alignment == Agree then s.(strongAgreementsSame := s.strongAgreementsSame + 1.0)
       else s.(strongAgreementsDifferent := s.strongAgreementsDifferent + 1.0))
    else
      (if l.alignment == Agree then s.(agreementsSame := s.agreementsSame + 1.0)
       else s.(agreementsDifferent := s.agreementsDifferent + 1.0))
  }

  /** The agreements loop: every agreement that survives the filters counts once, as
      "same" when its alignment is AGREE and "different" otherwise, by strength. */
  function TallyAgreements(links: seq<AgreementLink>, ctx: Context, s: Score): (r: Score)
    ensures forall f :: Get(r, f) == Get(s, f)
    ensures r.comparators == s.comparators
    ensures r.strongAgreementsSame == s.strongAgreementsSame + CountedAs(links, ctx, true, true) as real
    ensures r.strongAgreementsDifferent == s.strongAgreementsDifferent + CountedAs(links, ctx, true, false) as real
    ensures r.agreementsSame == s.agreementsSame + CountedAs(links, ctx, false, true) as real
    ensures r.agreementsDifferent == s.agreementsDifferent + CountedAs(links, ctx, false, false) as real
    ensures AgreementTotal(r) >= AgreementTotal(s)
    ensures (forall i :: 0 <= i < |links| ==> !AgreementCounted(links[i], ctx)) ==> r == s
    decreases |links|
  {
    if |links| == 0 then s
    else
      TallyAgreements(links[1..], ctx, TallyOne(links[0], ctx, s))
  }

  /** Number of links that survive the agreement filters. */
  function Counted(links: seq<AgreementLink>, ctx: Context): nat
    decreases |links|
  {
    if |links| == 0 then 0 else (if AgreementCounted(links[0], ctx) then 1 else 0) + Counted(links[1..], ctx)
  }

  /** Every counted agreement adds exactly one to the agreement fields, in the field of
      its strength and alignment. */
  lemma {:induction false} TallyAgreementsCounts(links: seq<AgreementLink>, ctx: Context, s: Score)
    ensures Counted(links, ctx) == CountedAs(links, ctx, true, true) + CountedAs(links, ctx, true, false)
                                   + CountedAs(links, ctx, false, true) + CountedAs(links, ctx, false, false)
    ensures AgreementTotal(TallyAgreements(links, ctx, s)) == AgreementTotal(s) + Counted(links, ctx) as real
    decreases |links|
  {
    if |links| > 0 {
      TallyAgreementsCounts(links[1..], ctx, s);
    }
  }

  datatype DivisionLink = DivisionLink(
    date: int, chamber: int, alignment: PolicyDirection, strength: PolicyStrength,
    votes: seq<(int, VotePosition)>)

  /** The division filters: neutral links, other chambers, dates outside the period
      and dates the person was not a member are skipped. */
  predicate DivisionCounted(l: DivisionLink, ctx: Context) {
    l.alignment != Neutral && l.chamber == ctx.chamber && ctx.inPeriod(l.date) && ctx.memberOn(l.date)
  }

  /** A counted division raises in the member loop: it has no votes at all
      (`votes[0]` is an IndexError), or some party row has no vote (a ValueError). */
  predicate DivisionFails(l: DivisionLink, ctx: Context) {
    DivisionCounted(l, ctx)
    && (|l.votes| == 0 || exists j :: 0 <= j < |ctx.rowsOn(l.date)| && ctx.rowsOn(l.date)[j] !in VoteLookup(l.votes))
  }

  /** `{v.person.id: v for v in votes}`: a later vote for the same person wins. */
  function VoteLookup(votes: seq<(int, VotePosition)>): map<int, VotePosition>
    decreases |votes|
  {
    if |votes| == 0 then map[]
    else VoteLookup(votes[..|votes| - 1])[votes[|votes| - 1].0 := votes[|votes| - 1].1]
  }

  /** The member loop of one division: each row's vote is classified and counted for
      the target or for the others; a row without a vote raises. */
  function TallyRows(rows: seq<int>, lookup: map<int, VotePosition>, person: int, l: DivisionLink,
                     member: Score, others: Score): (r: Result<(Score, Score), Error>)
    ensures r.Success? <==> forall i :: 0 <= i < |rows| ==> rows[i] in lookup
    ensures r.Success? ==> SameExtras(r.value.0, member) && SameExtras(r.value.1, others)
    ensures r.Success? ==> TotalVotes(r.value.1) >= TotalVotes(others)
    decreases |rows|
  {
    if |rows| == 0 then Success((member, others))
    else if rows[0] !in lookup then Failure(ValueError("Vote not found"))
    else
      var b := Classify(lookup[rows[0]], l.alignment);
      var strong := l.strength == Strong;
      if rows[0] == person then TallyRows(rows[1..], lookup, person, l, Bump(member, strong, b), others)
      else TallyRows(rows[1..], lookup, person, l, member, Bump(others, strong, b))
  }

  /** The loop state.  `aliased` records that `other_score` has been bound to the very
      object `member_score` names, so that changes to either show in both. */
  datatype LoopState = LoopState(member: Score, other: Score, aliased: bool)

  /** The object `other_score` currently names. */
  function OtherView(st: LoopState): Score {
    if st.aliased then st.member else st.other
  }

  /** The division's reduced votes go to whichever object `other_score` names; the
      member's tally is replaced by the loop's. */
  function AddThisVote(st: LoopState, member: Score, thisVote: Score): LoopState {
    if TotalVotes(thisVote) > 0.0 then
      var reduced := Reduce(thisVote).value;
      if st.aliased then st.(member := AddScores(member, reduced))
      else st.(member := member, other := AddScores(st.other, reduced))
    else st.(member := member)
  }

  /** The comparator counts: the other rows go to `other_score`, the target's one row
      to `member_score`, both to the same object once aliased. */
  function AddComparators(st: LoopState, rowCount: int): LoopState {
    if st.aliased then
      st.(member := st.member.(comparators := st.member.comparators + multiset{rowCount - 1, 1}))
    else
      st.(other := st.other.(comparators := st.other.comparators + multiset{rowCount - 1}),
          member := st.member.(comparators := st.member.comparators + multiset{1}))
  }

  /** One division link of `get_scores_slow`, as written. */
  function DivisionStepAsWritten(st: LoopState, l: DivisionLink, ctx: Context): (r: Result<LoopState, Error>)
    ensures st.aliased && r.Success? ==> r.value.aliased
    ensures r.Failure? <==> DivisionFails(l, ctx)
  {
    if !DivisionCounted(l, ctx) then Success(st)
    else if |l.votes| == 0 then Failure(IndexError("list index out of range"))
    else
      var rows := ctx.rowsOn(l.date);
      var tallied :- TallyRows(rows, VoteLookup(l.votes), ctx.person, l, st.member, EmptyScore);
      var st2 := AddComparators(AddThisVote(st, tallied.0, tallied.1), |rows|);
      if TotalVotes(OtherView(st2)) == 0.0 then Success(st2.(aliased := true)) else Success(st2)
  }

  function DivisionsAsWritten(st: LoopState, links: seq<DivisionLink>, ctx: Context): (r: Result<LoopState, Error>)
    ensures r.Failure? <==> exists i :: 0 <= i < |links| && DivisionFails(links[i], ctx)
    decreases |links|
  {
    if |links| == 0 then Success(st)
    else
      assert forall i :: 1 <= i < |links| ==> links[i] == links[1..][i - 1];
      var st1 :- DivisionStepAsWritten(st, links[0], ctx);
      DivisionsAsWritten(st1, links[1..], ctx)
  }

  /** The comparison `get_scores_slow` returns: the target's distribution and the
      comparator's. */
  datatype Comparison = Comparison(target: Score, other: Score)

  /** `get_scores_slow` as written: it raises exactly when some counted division
      has no votes or a party row without a vote, as the corrected one does. */
  function ScoresSlowAsWritten(agreements: seq<AgreementLink>, divisions: seq<DivisionLink>, ctx: Context): (r: Result<Comparison, Error>)
    ensures r.Failure? <==> exists i :: 0 <= i < |divisions| && DivisionFails(divisions[i], ctx)
  {
    ComparedAsWritten(TallyAgreements(agreements, ctx, EmptyScore), divisions, ctx)
  }

  /** The as-written division loop from the member's agreement tally, made into
      the comparison. */
  function ComparedAsWritten(member: Score, divisions: seq<DivisionLink>, ctx: Context): (r: Result<Comparison, Error>)
    ensures r.Failure? <==> exists i :: 0 <= i < |divisions| && DivisionFails(divisions[i], ctx)
  {
    var run := DivisionsAsWritten(LoopState(member, EmptyScore, false), divisions, ctx);
    if run.Failure? then Failure(run.error)
    else Success(Comparison(run.value.member, OtherView(run.value)))
  }

  /** One division link with the comparator kept apart from the member's score. */
  function DivisionStep(member: Score, other: Score, l: DivisionLink, ctx: Context): (r: Result<(Score, Score), Error>)
    ensures r.Failure? <==> DivisionFails(l, ctx)
    ensures r.Success? ==> SameAgreements(r.value.0, member)
  {
    if !DivisionCounted(l, ctx) then Success((member, other))
    else if |l.votes| == 0 then Failure(IndexError("list index out of range"))
    else
      var rows := ctx.rowsOn(l.date);
      var tallied :- TallyRows(rows, VoteLookup(l.votes), ctx.person, l, member, EmptyScore);
      var (member1, thisVote) := tallied;
      var other1 := if TotalVotes(thisVote) > 0.0 then AddScores(other, Reduce(thisVote).value) else other;
      Success((member1.(comparators := member1.comparators + multiset{1}),
               other1.(comparators := other1.comparators + multiset{|rows| - 1})))
  }

  /** The corrected division loop: it raises exactly when some counted division
      does, and the member's agreement counts pass through it unchanged. */
  function Divisions(member: Score, other: Score, links: seq<DivisionLink>, ctx: Context): (r: Result<(Score, Score), Error>)
    ensures r.Failure? <==> exists i :: 0 <= i < |links| && DivisionFails(links[i], ctx)
    ensures r.Success? ==> SameAgreements(r.value.0, member)
    decreases |links|
  {
    if |links| == 0 then Success((member, other))
    else
      assert forall i :: 1 <= i < |links| ==> links[i] == links[1..][i - 1];
      var next :- DivisionStep(member, other, links[0], ctx);
      Divisions(next.0, next.1, links[1..], ctx)
  }

  /** `get_scores_slow` with the evidently intended fallback: when no other member
      cast a vote, the comparator is a copy of the member's finished score. */
  function ScoresSlow(agreements: seq<AgreementLink>, divisions: seq<DivisionLink>, ctx: Context): (r: Result<Comparison, Error>)
    ensures r.Success? && TotalVotes(r.value.other) == 0.0 ==> r.value.other == r.value.target
    ensures r.Failure? <==> exists i :: 0 <= i < |divisions| && DivisionFails(divisions[i], ctx)
    ensures r.Success? ==> SameAgreements(r.value.target, TallyAgreements(agreements, ctx, EmptyScore))
    // when the comparators voted, their distribution is the sum of their reduced per-division votes
    ensures r.Success? && TotalVotes(OtherVotes(divisions, ctx, EmptyScore)) != 0.0 ==>
      SameVotes(r.value.other, OtherVotes(divisions, ctx, EmptyScore))
  {
    var scored := Divisions(TallyAgreements(agreements, ctx, EmptyScore), EmptyScore, divisions, ctx);
    if scored.Success? then
      DivisionsOtherIsOthers(TallyAgreements(agreements, ctx, EmptyScore), EmptyScore, divisions, ctx);
      TotalVotesSpec(scored.value.1, OtherVotes(divisions, ctx, EmptyScore));
      Compared(scored)
    else Compared(scored)
  }

  /** The member's score and the comparators' score made into the comparison,
      with the member's score standing in for comparators that cast nothing. */
  function Compared(scored: Result<(Score, Score), Error>): (r: Result<Comparison, Error>)
    ensures r.Success? <==> scored.Success?
    ensures r.Success? ==> r.value.target == scored.value.0
    ensures r.Success? && TotalVotes(r.value.other) == 0.0 ==> r.value.other == r.value.target
    ensures r.Success? && TotalVotes(scored.value.1) != 0.0 ==> r.value.other == scored.value.1
  {
    match scored
    case Failure(e) => Failure(e)
    case Success(pair) => Success(Comparison(pair.0, if TotalVotes(pair.1) == 0.0 then pair.0 else pair.1))
  }

  /** The target's own votes, counted with no other member involved. */
  function OwnRows(rows: seq<int>, lookup: map<int, VotePosition>, person: int, l: DivisionLink, s: Score): Score
    decreases |rows|
  {
    if |rows| == 0 then s
    else if rows[0] == person && rows[0] in lookup then
      OwnRows(rows[1..], lookup, person, l, Bump(s, l.strength == Strong, Classify(lookup[rows[0]], l.alignment)))
    else OwnRows(rows[1..], lookup, person, l, s)
  }

  /** The target's vote fields: each counted division adds the target's own classified
      votes, and nothing else. */
  function OwnVotes(links: seq<DivisionLink>, ctx: Context, s: Score): Score
    decreases |links|
  {
    if |links| == 0 then s
    else if !DivisionCounted(links[0], ctx) then OwnVotes(links[1..], ctx, s)
    else OwnVotes(links[1..], ctx, OwnRows(ctx.rowsOn(links[0].date), VoteLookup(links[0].votes), ctx.person, links[0], s))
  }

  predicate SameVotes(a: Score, b: Score) {
    forall f :: Get(a, f) == Get(b, f)
  }

  /** The other party members' votes in one division, with the target left out. */
  function OtherRows(rows: seq<int>, lookup: map<int, VotePosition>, person: int, l: DivisionLink, s: Score): Score
    decreases |rows|
  {
    if |rows| == 0 then s
    else if rows[0] != person && rows[0] in lookup then
      OtherRows(rows[1..], lookup, person, l, Bump(s, l.strength == Strong, Classify(lookup[rows[0]], l.alignment)))
    else OtherRows(rows[1..], lookup, person, l, s)
  }

  /** The comparators' vote fields: each counted division in which the others cast
      any vote adds their votes reduced to fractions of one. */
  function OtherVotes(links: seq<DivisionLink>, ctx: Context, s: Score): Score
    decreases |links|
  {
    if |links| == 0 then s else OtherVotes(links[1..], ctx, OtherStep(links[0], ctx, s))
  }

  /** One division's share of the comparators' vote fields. */
  function OtherStep(l: DivisionLink, ctx: Context, s: Score): Score {
    if !DivisionCounted(l, ctx) then s
    else
      var t := OtherRows(ctx.rowsOn(l.date), VoteLookup(l.votes), ctx.person, l, EmptyScore);
      if TotalVotes(t) > 0.0 then AddScores(s, Reduce(t).value) else s
  }

  /** One corrected division step adds to the comparator exactly its share. */
  lemma DivisionStepOthers(member: Score, other: Score, l: DivisionLink, ctx: Context)
    requires DivisionStep(member, other, l, ctx).Success?
    ensures SameVotes(DivisionStep(member, other, l, ctx).value.1, OtherStep(l, ctx, other))
  {
    if DivisionCounted(l, ctx) {
      var rows := ctx.rowsOn(l.date);
      var t := TallyRows(rows, VoteLookup(l.votes), ctx.person, l, member, EmptyScore).value.1;
      TallyRowsOthers(rows, VoteLookup(l.votes), ctx.person, l, member, EmptyScore);
      var other1 := if TotalVotes(t) > 0.0 then AddScores(other, Reduce(t).value) else other;
      assert OtherStep(l, ctx, other) == other1;
      SameVotesComparators(other1, other1.comparators + multiset{|rows| - 1});
    }
  }

  lemma SameVotesComparators(s: Score, c: multiset<int>)
    ensures SameVotes(s.(comparators := c), s)
  {
  }

  /** The others' part of the member loop is exactly the classified votes of the
      rows other than the target's. */
  lemma {:induction false} TallyRowsOthers(rows: seq<int>, lookup: map<int, VotePosition>, person: int, l: DivisionLink,
                                           member: Score, others: Score)
    requires TallyRows(rows, lookup, person, l, member, others).Success?
    ensures TallyRows(rows, lookup, person, l, member, others).value.1 == OtherRows(rows, lookup, person, l, others)
    decreases |rows|
  {
    if |rows| > 0 {
      var b := Classify(lookup[rows[0]], l.alignment);
      var strong := l.strength == Strong;
      if rows[0] == person {
        TallyRowsOthers(rows[1..], lookup, person, l, Bump(member, strong, b), others);
      } else {
        TallyRowsOthers(rows[1..], lookup, person, l, member, Bump(others, strong, b));
      }
    }
  }

  lemma {:induction false} OtherVotesRespectsVotes(links: seq<DivisionLink>, ctx: Context, a: Score, b: Score)
    requires SameVotes(a, b)
    ensures SameVotes(OtherVotes(links, ctx, a), OtherVotes(links, ctx, b))
    decreases |links|
  {
    if |links| > 0 {
      OtherVotesRespectsVotes(links[1..], ctx, OtherStep(links[0], ctx, a), OtherStep(links[0], ctx, b));
    }
  }

  /** With the comparator kept apart, its vote fields are exactly the other members'
      reduced votes, division by division. */
  lemma {:induction false} DivisionsOtherIsOthers(member: Score, other: Score, links: seq<DivisionLink>, ctx: Context)
    requires Divisions(member, other, links, ctx).Success?
    ensures SameVotes(Divisions(member, other, links, ctx).value.1, OtherVotes(links, ctx, other))
    decreases |links|
  {
    if |links| > 0 {
      var l := links[0];
      var next := DivisionStep(member, other, l, ctx).value;
      DivisionsOtherIsOthers(next.0, next.1, links[1..], ctx);
      DivisionStepOthers(member, other, l, ctx);
      OtherVotesRespectsVotes(links[1..], ctx, next.1, OtherStep(l, ctx, other));
    }
  }

  lemma {:induction false} TallyRowsMember(rows: seq<int>, lookup: map<int, VotePosition>, person: int, l: DivisionLink,
                                            member: Score, others: Score)
    requires TallyRows(rows, lookup, person, l, member, others).Success?
    ensures SameVotes(TallyRows(rows, lookup, person, l, member, others).value.0, OwnRows(rows, lookup, person, l, member))
    decreases |rows|
  {
    if |rows| > 0 {
      var b := Classify(lookup[rows[0]], l.alignment);
      var strong := l.strength == Strong;
      if rows[0] == person {
        TallyRowsMember(rows[1..], lookup, person, l, Bump(member, strong, b), others);
      } else {
        TallyRowsMember(rows[1..], lookup, person, l, member, Bump(others, strong, b));
      }
    }
  }

  lemma {:induction false} OwnRowsRespectsVotes(rows: seq<int>, lookup: map<int, VotePosition>, person: int, l: DivisionLink, a: Score, b: Score)
    requires SameVotes(a, b)
    ensures SameVotes(OwnRows(rows, lookup, person, l, a), OwnRows(rows, lookup, person, l, b))
    decreases |rows|
  {
    if |rows| > 0 {
      if rows[0] == person && rows[0] in lookup {
        var strong := l.strength == Strong;
        var c := Classify(lookup[rows[0]], l.alignment);
        OwnRowsRespectsVotes(rows[1..], lookup, person, l, Bump(a, strong, c), Bump(b, strong, c));
      } else {
        OwnRowsRespectsVotes(rows[1..], lookup, person, l, a, b);
      }
    }
  }

  lemma {:induction false} OwnVotesRespectsVotes(links: seq<DivisionLink>, ctx: Context, a: Score, b: Score)
    requires SameVotes(a, b)
    ensures SameVotes(OwnVotes(links, ctx, a), OwnVotes(links, ctx, b))
    decreases |links|
  {
    if |links| > 0 {
      if !DivisionCounted(links[0], ctx) {
        OwnVotesRespectsVotes(links[1..], ctx, a, b);
      } else {
        var l := links[0];
        OwnRowsRespectsVotes(ctx.rowsOn(l.date), VoteLookup(l.votes), ctx.person, l, a, b);
        OwnVotesRespectsVotes(links[1..], ctx,
          OwnRows(ctx.rowsOn(l.date), VoteLookup(l.votes), ctx.person, l, a),
          OwnRows(ctx.rowsOn(l.date), VoteLookup(l.votes), ctx.person, l, b));
      }
    }
  }

  /** With the comparator kept apart, the member's vote fields are exactly the
      target's own classified votes: other members' votes never leak into them. */
  lemma {:induction false} DivisionsMemberIsOwn(member: Score, other: Score, links: seq<DivisionLink>, ctx: Context)
    requires Divisions(member, other, links, ctx).Success?
    ensures SameVotes(Divisions(member, other, links, ctx).value.0, OwnVotes(links, ctx, member))
    decreases |links|
  {
    if |links| > 0 {
      var l := links[0];
      var next := DivisionStep(member, other, l, ctx).value;
      if DivisionCounted(l, ctx) {
        var rows := ctx.rowsOn(l.date);
        TallyRowsMember(rows, VoteLookup(l.votes), ctx.person, l, member, EmptyScore);
        var own := OwnRows(rows, VoteLookup(l.votes), ctx.person, l, member);
        assert SameVotes(next.0, own);
        DivisionsMemberIsOwn(next.0, next.1, links[1..], ctx);
        OwnVotesRespectsVotes(links[1..], ctx, next.0, own);
      } else {
        DivisionsMemberIsOwn(next.0, next.1, links[1..], ctx);
      }
    }
  }

  /** The corrected scorer's target distribution counts only the target's votes. */
  lemma ScoresSlowTargetIsOwn(agreements: seq<AgreementLink>, divisions: seq<DivisionLink>, ctx: Context)
    requires ScoresSlow(agreements, divisions, ctx).Success?
    ensures SameVotes(ScoresSlow(agreements, divisions, ctx).value.target,
                      OwnVotes(divisions, ctx, TallyAgreements(agreements, ctx, EmptyScore)))
  {
    DivisionsMemberIsOwn(TallyAgreements(agreements, ctx, EmptyScore), EmptyScore, divisions, ctx);
  }

  /** Two strong AGREE divisions where the target votes aye both times: on day 1 the
      target (id 7) is the only party row, on day 2 a colleague (id 8) also votes aye. */
  function ExampleContext(): Context {
    Context(7, 1, d => true, d => true, d => if d == 1 then [7] else [7, 8])
  }

  function ExampleLinks(): seq<DivisionLink> {
    [DivisionLink(1, 1, Agree, Strong, [(7, Aye)]),
     DivisionLink(2, 1, Agree, Strong, [(7, Aye), (8, Aye)])]
  }

  /** The first example division binds the comparator to the member's score. */
  lemma ExampleFirstStep(l1: DivisionLink, ctx: Context)
    requires l1 == ExampleLinks()[0] && ctx == ExampleContext()
    ensures var r := DivisionStepAsWritten(LoopState(EmptyScore, EmptyScore, false), l1, ctx);
            r.Success? && r.value.aliased && r.value.member.strongVotesSame == 1.0
  {
    var one := Bump(EmptyScore, true, SameBucket);
    ExampleRows();
    ExampleLookups();
    assert Classify(Aye, Agree) == SameBucket;
    assert TallyRows([7], map[7 := Aye], 7, l1, EmptyScore, EmptyScore)
           == TallyRows([], map[7 := Aye], 7, l1, one, EmptyScore);
    BumpSame(EmptyScore);
  }

  /** Once aliased, the reduced votes are added to the member's own tally. */
  lemma AddThisVoteAliased(st: LoopState, member: Score, thisVote: Score)
    requires st.aliased && TotalVotes(thisVote) > 0.0
    ensures AddThisVote(st, member, thisVote).member.strongVotesSame
            == member.strongVotesSame + Reduce(thisVote).value.strongVotesSame
  {
    assert Get(AddScores(member, Reduce(thisVote).value), StrongVotesSame)
           == Get(member, StrongVotesSame) + Get(Reduce(thisVote).value, StrongVotesSame);
  }

  /** Once aliased, a division's reduced votes of the others are added to the
      member's own score. */
  lemma AliasedStepAdds(st: LoopState, l: DivisionLink, ctx: Context, member: Score, thisVote: Score)
    requires st.aliased && DivisionCounted(l, ctx) && |l.votes| > 0
    requires TallyRows(ctx.rowsOn(l.date), VoteLookup(l.votes), ctx.person, l, st.member, EmptyScore)
             == Success((member, thisVote))
    requires TotalVotes(thisVote) > 0.0
    ensures DivisionStepAsWritten(st, l, ctx).Success?
    ensures DivisionStepAsWritten(st, l, ctx).value.member.strongVotesSame
            == member.strongVotesSame + Reduce(thisVote).value.strongVotesSame
  {
    var st2 := AddComparators(AddThisVote(st, member, thisVote), |ctx.rowsOn(l.date)|);
    assert st2.member.strongVotesSame == member.strongVotesSame + Reduce(thisVote).value.strongVotesSame by {
      AddThisVoteAliased(st, member, thisVote);
    }
    assert DivisionStepAsWritten(st, l, ctx) == Success(st2) || DivisionStepAsWritten(st, l, ctx) == Success(st2.(aliased := true));
  }

  lemma ExampleRows()
    ensures ExampleContext().rowsOn(1) == [7] && ExampleContext().rowsOn(2) == [7, 8]
  {
  }

  lemma ExampleLookups()
    ensures VoteLookup(ExampleLinks()[0].votes) == map[7 := Aye]
    ensures VoteLookup(ExampleLinks()[1].votes) == map[7 := Aye, 8 := Aye]
  {
    assert ExampleLinks()[1].votes[..1] == [(7, Aye)];
  }

  /** A strong aligned vote adds one to the strong "same" field. */
  lemma BumpSame(s: Score)
    ensures Bump(s, true, SameBucket).strongVotesSame == s.strongVotesSame + 1.0
  {
    assert Get(Bump(s, true, SameBucket), StrongVotesSame) == Get(s, StrongVotesSame) + 1.0;
  }

  /** A distribution that already totals 1 is its own reduction. */
  lemma ReduceUnit(v: Score)
    requires TotalVotes(v) == 1.0
    ensures Reduce(v) == Success(v)
  {
    assert Scaled(v, 1.0) == v;
  }

  /** A single strong "same" vote reduces to itself. */
  lemma ReduceOne()
    ensures Reduce(Bump(EmptyScore, true, SameBucket)).Success?
    ensures Reduce(Bump(EmptyScore, true, SameBucket)).value.strongVotesSame == 1.0
  {
    var v := Bump(EmptyScore, true, SameBucket);
    BumpSame(EmptyScore);
    ReduceUnit(v);
  }

  /** On the second example day the target's aye goes to the member, the
      colleague's to the others. */
  lemma ExampleSecondTally(m1: Score)
    ensures TallyRows([7, 8], map[7 := Aye, 8 := Aye], 7, ExampleLinks()[1], m1, EmptyScore)
            == Success((Bump(m1, true, SameBucket), Bump(EmptyScore, true, SameBucket)))
  {
    var l2 := ExampleLinks()[1];
    var lookup := map[7 := Aye, 8 := Aye];
    assert Classify(Aye, Agree) == SameBucket;
    assert TallyRows([7, 8], lookup, 7, l2, m1, EmptyScore)
           == TallyRows([8], lookup, 7, l2, Bump(m1, true, SameBucket), EmptyScore);
    assert TallyRows([8], lookup, 7, l2, Bump(m1, true, SameBucket), EmptyScore)
           == TallyRows([], lookup, 7, l2, Bump(m1, true, SameBucket), Bump(EmptyScore, true, SameBucket));
  }

  /** Once aliased, the colleague's reduced vote on the second example division lands
      in the member's own score. */
  lemma ExampleSecondStep(st: LoopState, l2: DivisionLink, ctx: Context)
    requires l2 == ExampleLinks()[1] && ctx == ExampleContext()
    requires st.aliased && st.member.strongVotesSame == 1.0
    ensures var r := DivisionStepAsWritten(st, l2, ctx);
            r.Success? && r.value.member.strongVotesSame == 3.0
  {
    var member := Bump(st.member, true, SameBucket);
    var thisVote := Bump(EmptyScore, true, SameBucket);
    ExampleSecondReady(st, l2, ctx);
    AliasedStepAdds(st, l2, ctx, member, thisVote);
  }

  /** The second example division meets what an aliased step needs, with one strong
      "same" vote each for the member and the colleague. */
  lemma ExampleSecondReady(st: LoopState, l2: DivisionLink, ctx: Context)
    requires l2 == ExampleLinks()[1] && ctx == ExampleContext()
    requires st.member.strongVotesSame == 1.0
    ensures DivisionCounted(l2, ctx) && |l2.votes| > 0
    ensures TallyRows(ctx.rowsOn(l2.date), VoteLookup(l2.votes), ctx.person, l2, st.member, EmptyScore)
            == Success((Bump(st.member, true, SameBucket), Bump(EmptyScore, true, SameBucket)))
    ensures TotalVotes(Bump(EmptyScore, true, SameBucket)) > 0.0
    ensures Bump(st.member, true, SameBucket).strongVotesSame
            + Reduce(Bump(EmptyScore, true, SameBucket)).value.strongVotesSame == 3.0
  {
    ExampleRows();
    ExampleLookups();
    ExampleSecondTally(st.member);
    BumpSame(st.member);
    BumpSame(EmptyScore);
    ReduceOne();
  }

  /** The target's own row on an example day counts their aye once. */
  lemma ExampleOwnRows(s: Score, l: DivisionLink)
    requires l.alignment == Agree && l.strength == Strong
    ensures OwnRows([7], map[7 := Aye], 7, l, s) == Bump(s, true, SameBucket)
    ensures OwnRows([7, 8], map[7 := Aye, 8 := Aye], 7, l, s) == Bump(s, true, SameBucket)
  {
    var b := Bump(s, true, SameBucket);
    assert Classify(Aye, Agree) == SameBucket;
    assert OwnRows([8], map[7 := Aye, 8 := Aye], 7, l, b) == OwnRows([], map[7 := Aye, 8 := Aye], 7, l, b);
  }

  /** The target's own votes over two counted division links, one after the other. */
  lemma OwnVotesOfTwo(links: seq<DivisionLink>, ctx: Context, s0: Score, s1: Score, s2: Score)
    requires |links| == 2 && DivisionCounted(links[0], ctx) && DivisionCounted(links[1], ctx)
    requires OwnRows(ctx.rowsOn(links[0].date), VoteLookup(links[0].votes), ctx.person, links[0], s0) == s1
    requires OwnRows(ctx.rowsOn(links[1].date), VoteLookup(links[1].votes), ctx.person, links[1], s1) == s2
    ensures OwnVotes(links, ctx, s0) == s2
  {
    assert links[1..][1..] == [];
    assert OwnVotes(links[1..], ctx, s1) == OwnVotes([], ctx, s2);
  }

  /** Counted on their own, the target's two aye votes are two strong "same" votes. */
  lemma ExampleOwnVotes(links: seq<DivisionLink>, ctx: Context)
    requires links == ExampleLinks() && ctx == ExampleContext()
    ensures OwnVotes(links, ctx, EmptyScore).strongVotesSame == 2.0
  {
    var one := Bump(EmptyScore, true, SameBucket);
    var two := Bump(one, true, SameBucket);
    ExampleRows();
    ExampleLookups();
    ExampleOwnRows(EmptyScore, links[0]);
    ExampleOwnRows(one, links[1]);
    OwnVotesOfTwo(links, ctx, EmptyScore, one, two);
    BumpSame(EmptyScore);
    BumpSame(one);
  }

  /** A run over two division links is the two steps in turn. */
  lemma RunOfTwo(links: seq<DivisionLink>, ctx: Context, st1: LoopState, st2: LoopState)
    requires |links| == 2
    requires DivisionStepAsWritten(LoopState(EmptyScore, EmptyScore, false), links[0], ctx) == Success(st1)
    requires DivisionStepAsWritten(st1, links[1], ctx) == Success(st2)
    ensures ScoresSlowAsWritten([], links, ctx) == Success(Comparison(st2.member, OtherView(st2)))
  {
    assert links[1..][1..] == [];
    assert DivisionsAsWritten(st1, links[1..], ctx) == Success(st2);
    assert TallyAgreements([], ctx, EmptyScore) == EmptyScore;
  }

  /** As written, the comparator is bound to the member's score after the first
      example division, so the colleague's reduced vote on day 2 is added to the
      target's own tally: the target is credited with 3 strong "same" votes for 2
      divisions, where its own votes give 2. */
  lemma AliasLeaksIntoTarget(links: seq<DivisionLink>, ctx: Context)
    requires links == ExampleLinks() && ctx == ExampleContext()
    ensures ScoresSlowAsWritten([], links, ctx).Success?
    ensures ScoresSlowAsWritten([], links, ctx).value.target.strongVotesSame == 3.0
    ensures OwnVotes(links, ctx, EmptyScore).strongVotesSame == 2.0
  {
    var st0 := LoopState(EmptyScore, EmptyScore, false);
    ExampleFirstStep(links[0], ctx);
    var st1 := DivisionStepAsWritten(st0, links[0], ctx).value;
    ExampleSecondStep(st1, links[1], ctx);
    var st2 := DivisionStepAsWritten(st1, links[1], ctx).value;
    RunOfTwo(links, ctx, st1, st2);
    ExampleOwnVotes(links, ctx);
  }
}

=== FILE: wrappers.dfy ===
/** Failure-compatible wrappers used across the model: an optional value and a
    result that either carries a value or names the error the Python code raises. */
module Wrappers {

  /** Python's `None` or a present value. */
  datatype Option<+T> = None | Some(value: T) {
    predicate IsFailure() { None? }

    function PropagateFailure<U>(): Option<U>
      requires None?
    {
      None
    }

    function Extract(): T
      requires Some?
    {
      value
    }

    /** The value, or `default` when absent (Python's `x or default` on an optional). */
    function GetOr(default: T): T {
      match this
      case Some(v) => v
      case None => default
    }
  }

  /** Either a value or the exception the source raises instead. */
  datatype Result<+T, +E> = Success(value: T) | Failure(error: E) {
    predicate IsFailure() { Failure? }

    function PropagateFailure<U>(): Result<U, E>
      requires Failure?
    {
      Failure(error)
    }

    function Extract(): T
      requires Success?
    {
      value
    }
  }

  /** The Python exception classes that the modelled code raises. */
  datatype Error =
    | ValueError(msg: string)
    | KeyError(msg: string)
    | IndexError(msg: string)
    | TypeError(msg: string)
    | ZeroDivisionError
    | FileNotFound(msg: string)
    | ValidationError(messages: seq<string>)
}
